=== FILE: README.md ===
# photonfinder core, modelled in Dafny

photonfinder (formerly astrofilemanager) catalogues astronomical image files. It walks
the directory trees of library roots. It reads the FITS header of every image it finds
and normalises that header into an image record: frame type, filter, exposure, gain,
binning, set-point temperature, date and sky position. The records go into an SQLite
catalogue. On top of the catalogue sit these features:

- search tabs, with calibration-frame searches derived from a reference frame;
- saved sessions;
- projects;
- a metadata report;
- comparison with a Telescopius observing list;
- plate solving;
- export of the selected files under names built from a `string.Template` pattern.

The earlier `astrofilemanager` package is a second, older variant of the same
program, with its own scanner, handlers, search, tree and export.

This project states that behaviour as Dafny datatypes and pure functions, and proves
properties of them. It has one module per part of the program:

| module | what it models |
|---|---|
| `Wrappers`, `Seqs`, `Text`, `Numbers`, `PurePaths`, `Glob`, `Template` | Python `None`, exceptions as `Failure`, `list`/`str` methods, `int()`/`float()`/`str()` on decimals, POSIX paths (`posixpath.join` and `PurePosixPath` semantics, standing in for the platform's `os.path` and `Path`, see "## Left out"), `fnmatch`, `string.Template.safe_substitute` |
| `Catalogue`, `Changes` | catalogue rows and path conventions; the change list a scan produces and how it is applied |
| `FileNames`, `FitsReader`, `Scanner` | entry classification by name, the 2880-byte FITS header block reader, the depth-first library walk of both variants |
| `Headers`, `Handlers`, `LegacyHandlers` | header values, the `_upper`/`_int`/`_float`/`_type`/`_datetime` coercions, handler selection and field reading in both variants |
| `Criteria`, `Search`, `Distinct` | search criteria, calibration searches, `apply_search_criteria` as a predicate over joined rows, the distinct values offered in a filter combo |
| `Wcs` | the plate-solver header helpers: WCS detection, card extraction, the ASTAP hint |
| `Export`, `LegacyExport` | export naming, copy actions and dialog settings in both variants |
| `Settings`, `Sessions`, `Projects`, `LibraryRoots`, `MainWindow`, `SearchPanel`, `MetadataReport`, `Telescopius`, `LegacyTree` | the state logic of the settings store and of the windows and dialogs |

Each operation has a partner, and a lemma ties the two together over all inputs. The
partner is one of these:

- an inverse: JSON sessions, `|`-joined keywords, root-and-path text, `int`/`float`
  round trips;
- an invariant the operation keeps: catalogue consistency after a change list, the
  unique project-file index, the never-empty tab list;
- an independent reference definition: the walk against reachability, the tree against
  the prefix set, search against its legacy form.

Some things lie outside the program's own logic: the file system, the database's row
lookups, ISO date parsing, sky coordinates, the clock and the solver processes. They
appear as parameters or as records of functions passed in.

Verify with `dafny verify --resource-limit 2000000 --verification-time-limit 0 --warn-contradictory-assumptions *.dfy`.

## Model

| member | source | states |
|---|---|---|
| Catalogue.SameRootIgnoresRowid | photonfinder/models.py:235-236 | two library roots are equal exactly when they agree on everything but the row id |
| Catalogue.RootAndPathText | photonfinder/models.py:26-27 | the label comes first, followed by `/` when a non-empty path follows |
| Catalogue.RootAndPathTextParses | photonfinder/models.py:26-27 | for a label without `/`, the text up to the first `/` is the label and the rest is the (non-empty) path; without `/` the path was missing or empty |
| Catalogue.NormDbPathSep | photonfinder/models.py:203-204 | the result has the same length, holds no backslash and keeps every other character in place |
| Catalogue.NormDbPath | photonfinder/models.py:193-200 | `None` stays `None`; `""` and `"."` become `""`; any other path is free of backslashes and ends in exactly one added `/` at most |
| Catalogue.NormDbPathIdempotent | photonfinder/models.py:193-204 | normalising an already normalised directory path changes nothing |
| Catalogue.NormDbPathIsDbDir | photonfinder/models.py:193-204 | a relative path normalises to a stored directory path: empty, or ending in `/` |
| Catalogue.PathJoinShape | photonfinder/models.py:254-255 | the joined path ends with the last part, and begins with the first unless the last part is absolute |
| Catalogue.FullFilenameOfStored | photonfinder/models.py:254-255 | for a stored directory and a plain name the full file name is the root path, one `/`, the directory and the name |
| Catalogue.LinkEqConsistent | photonfinder/models.py:560-570 | link equality is an equivalence, equal links hash alike, and unsaved links are equal exactly when they join the same project and file |
| Catalogue.RemoveAlreadyMapped | photonfinder/models.py:268-280 | no kept file is already linked to the project, and nothing is added |
| Catalogue.RemoveAlreadyMappedMembers | photonfinder/models.py:268-280 | a file is kept exactly when it was selected and is not yet linked to the project |
| Catalogue.RemoveAlreadyMappedConcat | photonfinder/models.py:268-280 | the filter distributes over concatenation, so the selection order is kept |
| Catalogue.RemoveAlreadyMappedIdempotent | photonfinder/models.py:268-280 | filtering a second time removes nothing more |
| Catalogue.AutoStr | photonfinder/models.py:175-190 | the rendering starts with the class name and `(`, ends with `)`, and is `Class()` for a record without fields |
| Catalogue.AutoStrLibraryRoot | tests/test_core.py:37-39 | a root named `dummy` with path `C:\TEMP` renders as `LibraryRoot(name=dummy, path=C:\TEMP)` |
| Changes.Merge | photonfinder/filesystem.py:230-234 | each list of the merged change list starts with the receiver's list and is as long as both lists together |
| Changes.MergeMonoid | photonfinder/filesystem.py:230-234 | merging is associative and the empty change list is neutral on both sides, so merge order of per-directory results does not matter for grouping |
| Changes.NextRowid | photonfinder/models.py:240-241 | the row id SQLite gives the next insert lies above every row id in use and is one past the largest, or 1 for an empty table |
| Changes.NextRowidAfterInsert | photonfinder/models.py:240-241 | after an insert under the next row id, the next row id has grown by exactly one |
| Changes.NextRowidKeptBelowLargest | photonfinder/models.py:240-241 | deleting a row below the largest row id does not change the next row id |
| Changes.NextRowidReusesLargest | astrofilemanager/models.py:87-88 | deleting the row with the largest id lets the next insert reuse that id or a smaller one |
| Changes.Insert | photonfinder/filesystem.py:239-240 | an insert fails exactly when another row already holds the (root, path, name) key; otherwise the row is stored under one past the largest row id, which was free, and nothing else changes |
| Changes.InsertValid | photonfinder/models.py:249-252 | an insert that succeeds keeps row ids consistent and keys unique |
| Changes.InsertAll | photonfinder/filesystem.py:239-240 | inserting new files raises the next row id by their number and leaves every other table as it was |
| Changes.InsertAllNewRows | photonfinder/filesystem.py:239-240 | every row present after a successful run of inserts was there before or lies between the old and the new next row id |
| Changes.InsertAllAppend | photonfinder/filesystem.py:239-240 | inserting two lists in turn is inserting their concatenation |
| Changes.InsertAllPlaces | photonfinder/filesystem.py:239-240 | the k-th new file is stored under the old next row id plus k |
| Changes.PlacedAt | photonfinder/filesystem.py:239-240 | in a successful insert run the k-th new file is stored, with its row id filled in, under the old next row id plus k |
| Changes.InsertAllKeeps | photonfinder/filesystem.py:239-240 | a successful insert run keeps the row under any id already present, unchanged |
| Changes.InsertAllKeepsAll | photonfinder/filesystem.py:239-240 | a successful insert run keeps every row already present, unchanged |
| Changes.InsertAllValid | photonfinder/models.py:249-252 | a successful run of inserts keeps the catalogue consistent |
| Changes.Delete | photonfinder/filesystem.py:241-242 | deleting a row removes it and, by cascade, its image, header, WCS record and project links, and nothing else |
| Changes.DeleteAll | photonfinder/filesystem.py:241-242 | deleting a list of rows removes exactly those rows and their dependent records |
| Changes.DeleteAllValid | photonfinder/filesystem.py:241-242 | deleting rows keeps the catalogue consistent |
| Changes.Save | photonfinder/filesystem.py:243-248 | saving a changed row fails exactly when another row holds its key; otherwise the row holds the new contents, its image, header and WCS are dropped and its links stay |
| Changes.SaveValid | photonfinder/filesystem.py:243-248 | a successful save keeps the catalogue consistent |
| Changes.SaveAll | photonfinder/filesystem.py:243-248 | saving changed rows keeps the set of row ids, changes only those rows and drops only their derived records |
| Changes.SaveAllValid | photonfinder/filesystem.py:243-248 | a successful run of saves keeps the catalogue consistent |
| Changes.SaveAllStores | photonfinder/filesystem.py:243-244 | with distinct row ids every changed row present in the catalogue ends up with its new contents |
| Changes.RemovedIds | photonfinder/filesystem.py:241-242 | the listed ids are exactly the row ids of the removed files |
| Changes.ApplyAll | photonfinder/filesystem.py:236-248 | after applying, no removed row remains, links to removed rows are gone, derived records of removed and changed rows are gone, and every untouched row is as it was |
| Changes.ApplyAllValid | photonfinder/filesystem.py:236-248 | applying a change list in one transaction keeps the catalogue consistent |
| Changes.ApplyAllInserts | photonfinder/filesystem.py:236-248 | when the removed and changed rows come from the catalogue, every new file is present afterwards under a fresh row id |
| Changes.ApplyAllSaves | photonfinder/filesystem.py:236-248 | a changed row that was not also removed holds its new contents afterwards |
| Changes.BulkCreateBatches | astrofilemanager/filesystem.py:36-37 | `bulk_create` in batches of 100 succeeds exactly when inserting the whole list succeeds and then gives the same catalogue; a failure leaves the catalogue with some whole number of batches inserted |
| Changes.BulkCreateKeeps | astrofilemanager/filesystem.py:36-37 | a row present before a batched insert is still there afterwards, whether or not it failed |
| Changes.LaterBatchClashKeepsFirst | astrofilemanager/filesystem.py:36-37 | when the first batch inserts but a later one clashes, the insert fails and the first 100 files stay stored under their new row ids |
| Changes.LegacyApplyAllOutcome | astrofilemanager/filesystem.py:36-42 | the legacy apply succeeds exactly when both batched inserts would; a success ends with the changed files inserted after the deletions, a failure with some batches of the new or of the changed files inserted |
| Changes.LegacyApplyAllRows | astrofilemanager/filesystem.py:36-42 | after a successful legacy apply the changed ids have no image or header record, and every row is an untouched old row or a row inserted under a fresh row id |
| Changes.LegacyDeletedIds | astrofilemanager/filesystem.py:38-41 | the deleted ids cover every removed file and every changed id |
| Changes.LegacyChangedGetsNewRow | astrofilemanager/filesystem.py:40-42 | after the legacy apply the k-th changed file is stored under the next row id after the deletions plus k, and its old id keeps no image or header record; if that old id is present again, it was reused by the reinsert |
| Changes.LegacyChangedMayKeepId | astrofilemanager/filesystem.py:40-42 | in a catalogue whose only row is the changed one, the legacy apply succeeds and the changed file gets its old row id 1 back, without its image record |
| Criteria.Default | photonfinder/models.py:32-55 | a fresh criteria has no paths, prefix matching, an empty type, descending sort and a radius of half a degree |
| Criteria.TextIfNumber | photonfinder/models.py:80-81 | a truthy number is copied as its `str()`, a falsy one leaves the field's default |
| Criteria.TextIfInt | photonfinder/models.py:86-89 | a truthy whole number is copied as its `str()`, a falsy one leaves the field's default |
| Criteria.TextIfText | photonfinder/models.py:82-83 | a truthy text is copied, a falsy one leaves the field's default |
| Criteria.FindDark | photonfinder/models.py:77-101 | a dark search looks for `DARKFLAT` frames when the reference is a flat and `DARK` frames otherwise, and records the reference |
| Criteria.FindDarkSetsOnlyItsFields | photonfinder/models.py:77-101 | apart from exposure, camera, set point, gain, binning, offset, type and reference, a dark search is the default criteria |
| Criteria.FindDarkCopies | photonfinder/models.py:79-90 | each copied field is set exactly when the reference's value is truthy, and then holds that value |
| Criteria.FindFlat | photonfinder/models.py:103-120 | a flat search looks for `FLAT` frames and records the reference |
| Criteria.FindFlatSetsOnlyItsFields | photonfinder/models.py:103-120 | apart from camera, filter, binning, the time window, type and reference, a flat search is the default criteria |
| Criteria.FindFlatWindow | photonfinder/models.py:112-114 | the window exists exactly when the reference has an observation time; it is two days wide and centred on that time |
| Criteria.CalibrationSearchNotEmpty | photonfinder/models.py:57-58 | neither calibration search is the empty search |
| Distinct.LessIsStrictTotalOrder | photonfinder/models.py:451-453 | the `ORDER BY` order on a nullable text column (`NULL` first, then by code point) is a strict total order |
| Distinct.SortedIsDistinct | photonfinder/models.py:451-453 | a strictly sorted list holds no value twice, as `DISTINCT` requires |
| Distinct.Insert | photonfinder/models.py:451-453 | adding a value to a strictly sorted list keeps it strictly sorted and adds exactly that value |
| Distinct.DistinctValues | photonfinder/models.py:451-455 | the distinct values come out strictly sorted |
| Distinct.CollectContents | photonfinder/models.py:451-455 | the folded list holds exactly the values already collected and those available on the selected rows |
| Distinct.DistinctValuesSpec | photonfinder/models.py:451-455 | the list holds exactly the values of the column on the rows the search selects with that column's filter lifted, each once |
| Distinct.DistinctQuery | photonfinder/models.py:419-455 | the combo's query fails exactly when the search with the column's own filter lifted fails, and otherwise gives the distinct values |
| Distinct.DistinctQueryValues | photonfinder/models.py:450-455 | a successful query offers a value exactly when some row the lifted search returns carries it |
| Distinct.OwnFilterIgnored | photonfinder/models.py:343-353 | the column's own criterion has no effect on the values offered for that column |
| Distinct.ClearTwice | photonfinder/models.py:309-311 | lifting a column's filter a second time changes nothing |
| Search.PrefixEntriesSpec | photonfinder/models.py:316-324 | prefix mode keeps every directory entry, unless one of them is the all-libraries entry, which lifts the path constraint entirely |
| Search.ExactEntriesSpec | photonfinder/models.py:326-335 | exact mode keeps exactly the entries that are not the all-libraries entry |
| Search.ParseHeaderText | photonfinder/models.py:421-435 | a criterion without `=`, `<` or `>` is a substring search for the whole text, and every fallback searches for the whole text |
| Search.SplitCompare | photonfinder/models.py:423-431 | a comparison is produced only when the separator splits the text into exactly two parts |
| Search.DefaultSelectsAll | photonfinder/models.py:309-445 | the empty search selects every row |
| Search.Clear | photonfinder/models.py:309-311 | lifting a column's filter leaves the header and project criteria alone |
| Search.ClearedPasses | photonfinder/models.py:309-411 | a lifted filter passes every row |
| Search.ClearKeepsOthers | photonfinder/models.py:309-411 | lifting one column's filter leaves every other column's filter as it was |
| Search.FilterFollowsFields | photonfinder/models.py:342-411 | a column's filter reads only that column's criteria fields |
| Search.ClearKeepsFields | photonfinder/models.py:309-411 | lifting one filter touches none of the fields another filter reads |
| Search.ExcludeIsClear | photonfinder/models.py:309-411 | excluding a column gives the same selection as searching with that column's filter lifted |
| Search.ClearWidens | photonfinder/models.py:309-445 | lifting a filter can only let more rows through |
| Search.AllLibrariesLiftsPaths | photonfinder/models.py:318-320 | in prefix mode an all-libraries entry selects every file, whatever the other entries |
| Search.ExactEntryWithinPrefix | photonfinder/models.py:321-335 | a file matching an entry exactly also matches it as a prefix |
| Search.ExactWithinPrefix | photonfinder/models.py:313-339 | exact mode selects a subset of what prefix mode selects |
| Search.UnparsableIgnored | photonfinder/models.py:359-397 | a numeric criterion that does not parse constrains nothing, as if it were lifted |
| Search.DateRangeInclusive | photonfinder/models.py:399-403 | both ends of the date range are included, and an image without a date is outside every bounded range |
| Search.TextCriterionMeaning | photonfinder/models.py:342-352 | a type, filter or camera criterion of `None` selects images lacking the value, `""` selects all, and any other text selects exactly the images with that value |
| Search.HeaderTextCompares | photonfinder/models.py:423-425 | `keyword=number` compares the stored value of the stripped keyword with the number |
| Search.HeaderTextTwoSeparators | photonfinder/models.py:423-435 | a criterion with two `=` does not unpack into two parts, so it becomes a plain text search |
| Search.HeaderCompareTrichotomy | photonfinder/models.py:421-431 | for a stored number exactly one of `=`, `<`, `>` holds; a stored text only satisfies `>`; a missing keyword satisfies none |
| Search.ProjectFiltersDisjoint | photonfinder/models.py:437-443 | a file linked to a project is never among the files of "no project" |
| Search.SamePathsAsLegacy | astrofilemanager/models.py:130-156 | with directory entries already in catalogue form, both applications read the paths alike |
| Search.SameSelectionAsLegacy | astrofilemanager/models.py:126-215 | with the current application's extra criteria unset and directory entries in catalogue form, both applications select the same rows |
| Export.MinusTwelveHours | photonfinder/ui/ExportDialog.py:62-65 | twelve hours before a time is the previous day exactly when the time of day is before noon |
| Export.Suffix | photonfinder/ui/ExportDialog.py:46 | a suffix is empty or a dot followed by at least one character, and it ends the name |
| Export.WithFitSuffix | photonfinder/ui/ExportDialog.py:46 | the renamed file always ends in `.fit` |
| Export.ExportNameNonEmpty | photonfinder/ui/ExportDialog.py:39-46 | a file with a name keeps a name when exported |
| Export.XisfNotCompressed | photonfinder/ui/ExportDialog.py:42-46 | an XISF name is never compressed, and its suffix is its last five characters |
| Export.DecompressDropsExtension | photonfinder/ui/ExportDialog.py:41-43 | with decompression a compressed name loses exactly its last extension; without it, and without conversion, the name is kept |
| Export.XisfExportedAsFit | photonfinder/ui/ExportDialog.py:45-46 | with conversion `m31.xisf` becomes `m31.fit`; without it the name is kept |
| Export.Mapping | photonfinder/ui/ExportDialog.py:38-72 | the mapping fails exactly for an image row without an observation date; otherwise the stem, a dot and the extension rebuild the file name, a row without an image renders every image field as `None`, and the dates are the day of the observation and of twelve hours before |
| Export.Substituted | photonfinder/ui/ExportDialog.py:48-75 | substitution fails exactly when the mapping does |
| Export.TemplateFilename | photonfinder/ui/ExportDialog.py:36-80 | a file with a name always gets a non-empty name; only a LIGHT frame changes the stored last light path, and it stores the parent of its own rendering |
| Export.RenderingFallback | photonfinder/ui/ExportDialog.py:75-77 | an empty template renders as the export name, and a template without `$` is used as written |
| Export.SinglePlaceholder | photonfinder/ui/ExportDialog.py:48-77 | a one-placeholder pattern renders as that placeholder's value, as the export name when the value is empty, and verbatim when the mapping lacks the name |
| Export.PlaceholderValues | photonfinder/ui/ExportDialog.py:49-73 | `$filename` is the export name and `$last_light_path` the stored one; `$root` is not defined |
| Export.DateMinus12Value | photonfinder/ui/ExportDialog.py:62-64 | `$date_minus12` is the day of the observation, or the day before when observed before noon |
| Export.Place | photonfinder/ui/ExportDialog.py:31-33 | the result lies in the reference's directory and carries the rendered file's base name |
| Export.TemplateFilenameWithRef | photonfinder/ui/ExportDialog.py:24-33 | without a reference the plain rendering; with one, the file's base name placed in the directory of the reference's rendering, the reference rendered after the file |
| Export.SavePatterns | photonfinder/ui/ExportDialog.py:369-379 | the saved list starts with the current pattern, holds at most ten, and holds nothing that was not the pattern or saved before |
| Export.SavePatternsSpec | photonfinder/ui/ExportDialog.py:369-379 | a duplicate-free list stays duplicate-free, and when nothing is cut off it holds exactly the previous patterns and the current one |
| Export.SavePatternsIdempotent | photonfinder/ui/ExportDialog.py:369-379 | saving the same pattern twice leaves the list as the first save did |
| Export.SaveSettings | photonfinder/ui/ExportDialog.py:345-381 | every other setting is kept, and the stored pattern list is the saved list |
| Export.SaveLoadRoundTrip | photonfinder/ui/ExportDialog.py:312-381 | the dialog reopens with the options and the current pattern it saved |
| Export.Get | photonfinder/ui/ExportDialog.py:405 | a dictionary lookup finds nothing exactly when no entry has the key |
| Export.Put | photonfinder/ui/ExportDialog.py:405 | a set key reads back its value, other keys are unchanged, and the size grows only for a new key |
| Export.KeyFound | photonfinder/ui/ExportDialog.py:405 | every key of a dictionary is found in it |
| Export.PutUnique | photonfinder/ui/ExportDialog.py:405 | setting a key never duplicates one |
| Export.HeaderLine | photonfinder/ui/ExportDialog.py:403-405 | a line yields a header exactly when it contains `=` |
| Export.Entries | photonfinder/ui/ExportDialog.py:402-405 | every line is parsed on its own, in order |
| Export.Collect | photonfinder/ui/ExportDialog.py:400-405 | the collected dictionary has unique keys |
| Export.CollectGet | photonfinder/ui/ExportDialog.py:400-405 | the dictionary holds, for every key, the value of the last line naming it |
| Export.LastValueAbsent | photonfinder/ui/ExportDialog.py:400-405 | a key has no value exactly when no line names it |
| Export.LastValueFromLastLine | photonfinder/ui/ExportDialog.py:400-405 | a key's value comes from a line naming it after which no line names it |
| Export.HeaderLineFirstEquals | photonfinder/ui/ExportDialog.py:404-405 | a line splits at its first `=`, so the value may itself contain `=` |
| Export.CustomHeaderValue | photonfinder/ui/ExportDialog.py:399-405 | a custom header takes the value of the last line naming it, and a key no line names is absent |
| Export.CustomHeadersPresent | photonfinder/ui/ExportDialog.py:399-405 | the text yields custom headers exactly when it contains an `=` |
| Export.StripKeepsNonSpace | photonfinder/ui/ExportDialog.py:401-402 | stripping the text keeps every non-space character |
| Export.JoinContains | photonfinder/ui/ExportDialog.py:402 | a character other than the separator is in a joined text exactly when it is in one of the parts |
| Export.CopyActionCases | photonfinder/ui/ExportDialog.py:179-195 | nothing is written for a name that is neither FITS nor XISF; XISF is converted exactly when asked; a FITS header is rewritten exactly when customising; the decompressed stream is written only for a compressed file with decompression on |
| Export.FitsNotXisf | photonfinder/filesystem.py:280-290 | a name with a FITS extension does not end in `.xisf` |
| Export.CompressedNotXisf | photonfinder/filesystem.py:280-290 | a name with a compressed extension does not end in `.xisf` |
| Export.ExportNameOfFits | photonfinder/ui/ExportDialog.py:41-46 | a FITS file's export name loses its compressed extension exactly when it is compressed and decompression is on |
| Export.NameTestsOfJoin | photonfinder/ui/ExportDialog.py:152-189 | the name tests on the full path agree with those on the file name |
| Export.CopyWcsLookup | photonfinder/ui/ExportDialog.py:217-225 | after copying the solution, a keyword it carries other than `NAXIS*` has its value, and every other keyword is untouched |
| Export.ApplyCustomLookup | photonfinder/ui/ExportDialog.py:206-208 | after the custom headers, a key among them has its text, and every other keyword is untouched |
| Export.RewriteHeaderLookup | photonfinder/ui/ExportDialog.py:197-212 | in the rewritten header a custom header wins, then a solution keyword other than `NAXIS*`, and every other keyword keeps its value |
| Export.ProcessFile | photonfinder/ui/ExportDialog.py:149-169 | a target is skipped exactly when it is present; a copy uses the action chosen for the file, and converts only an XISF file that has an image with FITS keywords |
| Export.WrittenPaths | photonfinder/ui/ExportDialog.py:165-169 | every step that wrote a file has its target among the written paths |
| Export.ProcessNext | photonfinder/ui/ExportDialog.py:149-169 | as `ProcessFile`, for the next file of a run |
| Export.RunStep | photonfinder/ui/ExportDialog.py:123-169 | one more processed file keeps every property of the run so far |
| Export.ExportAll | photonfinder/ui/ExportDialog.py:123-147 | each step is for the file at the same position, a target is skipped exactly when it existed before or an earlier step wrote it, and the run is complete exactly when no error occurred |
| Export.WritesDistinct | photonfinder/ui/ExportDialog.py:123-169 | no two steps of a run write the same target, and none writes over a file that was there |
| Export.StartExport | photonfinder/ui/ExportDialog.py:383-419 | the settings are saved, the reference is kept only when its box is ticked, and the pattern and output directory are the dialog's |
| Export.StartExportCustomizes | photonfinder/ui/ExportDialog.py:399-405 | headers are rewritten exactly when overriding is on or the custom text has an `=` |
| Export.NameFollowsContent | photonfinder/ui/ExportDialog.py:189-191 | for a FITS file whose header is not rewritten, the exported name loses its compressed extension exactly when the decompressed stream is written |
| FileNames.SplitExt | photonfinder/filesystem.py:46 | the two parts rebuild the path; the extension is empty or one dot followed by a dot-free, slash-free tail |
| FileNames.ExtAt | photonfinder/filesystem.py:46 | the extension of a slash-free name starts at its last dot when a non-dot character comes before it |
| FileNames.NoExt | photonfinder/filesystem.py:46 | a name whose last dot has only dots before it, such as `.gitignore`, has no extension |
| FileNames.Fopen | photonfinder/filesystem.py:30-42 | a file is opened through a decompressor exactly when it is compressed, the decompressor chosen by the extension |
| FileNames.StripCompressed | photonfinder/filesystem.py:254 | a compressed name loses exactly its extension, and any other name is kept |
| FileNames.Variants | photonfinder/filesystem.py:251-258 | the variants hold the name, its base and the base with every compressed extension, and nothing else |
| FileNames.VariantsShared | photonfinder/filesystem.py:251-258 | every compressed copy of a plain name yields the same four variants as the plain name |
| FileNames.FitsXisfExclusive | photonfinder/filesystem.py:280-290 | no name is both a FITS name and an XISF name |
| FileNames.CompressedFitsIsFits | photonfinder/filesystem.py:280-285 | compressing a FITS file keeps it a FITS file by name |
| FileNames.UpperCaseExtensionNotDecompressed | photonfinder/filesystem.py:30-47 | `M31.FITS.XZ` is a FITS name to the scanner, yet is opened without decompression |
| FileNames.FitsExamples | tests/test_filesystem.py:67-86 | `image.fits` and `image.fit` are FITS names and `image.jpg` is not |
| FileNames.CompressedExamples | tests/test_filesystem.py:88-103 | `file.xz` and `file.gz` are compressed and `file.txt` is not |
| FileNames.NotCompressedNoCase | photonfinder/filesystem.py:283 | a name ending in neither `z` nor `2`, in any case, has no compressed extension |
| FileNames.DefaultPatternIsBadPrefix | photonfinder/filesystem.py:264-278 | with the default `bad*` patterns a file or directory is marked bad exactly when its name starts with `bad` in any case |
| FileNames.SplitExtUnderDir | photonfinder/filesystem.py:46 | the extension of `dir/name` is the extension of `name` |
| FileNames.NameTestsUnderDir | photonfinder/filesystem.py:280-290 | compressed, FITS and XISF are decided by the last path component alone |
| FitsReader.FirstEndBlockFrom | photonfinder/filesystem.py:73-98 | the result is the first block from the start point that holds an `END` card, or none when no later block does |
| FitsReader.HeaderOf | photonfinder/filesystem.py:50-102 | a header is found exactly when the first card is a `SIMPLE` card and some block holds an `END` card; it is every block up to and including the first such block, and starts with the `SIMPLE` key |
| FitsReader.ReadFitsHeader | photonfinder/filesystem.py:50-102 | the block-by-block reader returns what `HeaderOf` describes |
| FitsReader.ScanBlock | photonfinder/filesystem.py:87-98 | scanning the cards of a block finds an `END` card exactly when the block holds one |
| FitsReader.HeaderGrows | photonfinder/filesystem.py:85 | the bytes read so far followed by the next block are the bytes up to that block's end |
| FitsReader.ReplaceTabs | photonfinder/filesystem.py:185-189 | every tab becomes a blank and every other byte is kept in place |
| FitsReader.ReplaceTabsKeepsCards | photonfinder/filesystem.py:185-189 | replacing tabs keeps the length, leaves no tab, is idempotent, and changes nothing in a tab-free header |
| FitsReader.LJust | tests/utils.py:5 | padding keeps the line as a prefix, fills with blanks, and never truncates |
| FitsReader.FixedLength | tests/utils.py:2-12 | the built header is the cards padded to a whole number of 2880-byte blocks |
| FitsReader.CardOfLine | tests/utils.py:2-12 | card `g` of the built header is an `END` card exactly when line `g` starts with `END` |
| FitsReader.FixedHeaderIsRead | photonfinder/filesystem.py:50-102 | reading a header built from well-formed lines, whatever follows it, gives back exactly that header |
| Glob.CloseBracket | photonfinder/filesystem.py:274-276 | the `]` that closes a set is found after the `[`, or the pattern has none |
| Glob.Tokenize | photonfinder/filesystem.py:274-276 | a pattern without wildcards tokenizes into its own characters, one literal each |
| Glob.LiteralPattern | photonfinder/filesystem.py:274-276 | a pattern without wildcards matches exactly the one name it spells |
| Glob.StarMatchesAll | photonfinder/filesystem.py:264-276 | `*` matches every name |
| Glob.PrefixStarPattern | photonfinder/filesystem.py:264-276 | a name matches `p*`, with `p` free of wildcards, exactly when it starts with `p` |
| Handlers.Rank | photonfinder/fits_handlers.py:303-308 | each handler has one position in the list, and the list holds it there |
| Handlers.SoftwareMentions | photonfinder/fits_handlers.py:222-249 | a software test raises exactly for a present non-text value, and accepts exactly when the text contains the marker |
| Handlers.SelectFrom | photonfinder/fits_handlers.py:310-323 | the loop chooses the first handler that accepts after all earlier ones declined, runs out only when every one declines, and raises only from a `can_handle` reached after earlier ones declined |
| Handlers.SelectIsFirstAccepting | photonfinder/fits_handlers.py:303-313 | a handler is chosen exactly when it accepts and every handler before it declines |
| Handlers.SelectNeverFallsThrough | photonfinder/fits_handlers.py:252-257 | the generic handler accepts everything, so the loop never runs out of handlers |
| Handlers.SelectRaisesIff | photonfinder/fits_handlers.py:222-249 | choosing raises exactly when `SWCREATE` is present and not text, or `CREATOR` is present and not text and `SWCREATE` does not name SharpCap |
| Handlers.NoSoftwareIsGeneric | photonfinder/fits_handlers.py:222-257 | a header without software keywords goes to the generic handler |
| Handlers.SharpCapWins | photonfinder/fits_handlers.py:222-225 | a `SWCREATE` naming SharpCap wins whatever else the header says |
| Handlers.StoredText | photonfinder/fits_handlers.py:132-154 | a missing value stays missing and a text value is stored as it is |
| Handlers.Degrees | photonfinder/fits_handlers.py:191-197 | a numeric value converts to degrees as `float` does |
| Handlers.Coordinates | photonfinder/fits_handlers.py:162-216 | a position is all or nothing, and (0, 0) is never recorded |
| Handlers.CoordinatesFrom | photonfinder/fits_handlers.py:185-216 | a position is all or nothing, and (0, 0) is never recorded |
| Handlers.Process | photonfinder/fits_handlers.py:70-114 | a processed image belongs to the file processed |
| Handlers.NormalizeFitsHeader | photonfinder/fits_handlers.py:284-323 | a normalised image belongs to the file it was read for |
| Handlers.NestedGetTwo | photonfinder/fits_handlers.py:260-263 | the nested `get` with a default is a first-present lookup over two keywords |
| Handlers.NestedGetThree | photonfinder/fits_handlers.py:265-266 | the nested `get` with a default is a first-present lookup over three keywords |
| Handlers.GenericFallbacks | photonfinder/fits_handlers.py:259-281 | the generic handler reads type, filter, exposure and set point from the first of their keywords the header holds |
| Handlers.GenericBinningProduct | photonfinder/fits_handlers.py:271-278 | `BINNING = '2*2'` without `XBINNING` is read as 2 |
| Handlers.BinningDefault | photonfinder/fits_handlers.py:271-278 | without `XBINNING` or `BINNING` the named handlers record 1 and the generic one records nothing |
| Handlers.XBinningFirst | photonfinder/fits_handlers.py:271-274 | a present `XBINNING` is what every handler records |
| Handlers.CoordinatesPreferRaDec | photonfinder/fits_handlers.py:176-183 | with `RA` and `DEC` present, `OBJCTRA` and `OBJCTDEC` do not matter |
| Handlers.CoordinatesNeedBoth | photonfinder/fits_handlers.py:185-187 | without a right ascension or without a declination there is no position |
| Handlers.NumericCoordinates | photonfinder/fits_handlers.py:194-213 | numeric `RA` and `DEC` are recorded as degrees with their sky cell, unless both are zero or the cell cannot be computed |
| Handlers.NormalizeReadsOnlyKnownKeywords | photonfinder/fits_handlers.py:70-323 | headers that agree on the keywords the handlers read normalise to the same result |
| Handlers.SelectAgrees | photonfinder/fits_handlers.py:310-323 | headers every handler judges alike select the same handler |
| Handlers.ProcessAgrees | photonfinder/fits_handlers.py:70-114 | headers that agree on the read keywords process to the same image |
| Handlers.NormalizeOutcome | photonfinder/fits_handlers.py:310-323 | normalisation raises only from choosing the handler, and returns no image exactly when the chosen handler raises while reading |
| Handlers.FrameSuffix | photonfinder/fits_handlers.py:27-32 | `Light Frame` is `LIGHT FRAME` for SharpCap and `LIGHT` for every other handler |
| Handlers.SgpSampleNormalized | tests/test_fits_handlers.py:21-96 | the asserted keywords of the SGP sample header select the SGP handler, which records LIGHT, HaOIII, 30 s, gain 120, binning 1 and set point -18 |
| Handlers.ProcessFields | photonfinder/fits_handlers.py:70-114 | when every reader succeeds the image holds exactly what the readers read |
| Headers.Get | photonfinder/fits_handlers.py:129-160 | a lookup finds a value exactly when the keyword is present, and it is the stored value |
| Headers.GetOr | photonfinder/fits_handlers.py:260-281 | the default is used exactly when the keyword is missing |
| Headers.FirstPresent | photonfinder/fits_handlers.py:260-281 | the result is the value of the first listed keyword the header holds, and none only when it holds none of them |
| Headers.ToFloat | photonfinder/fits_handlers.py:24-25 | only a text can fail to convert; an integer converts to itself and a real stays as it is |
| Headers.ToInt | photonfinder/fits_handlers.py:20-21 | only a text can fail to convert; an integer stays, and a non-negative real is truncated to the whole number below it |
| Headers.UpperOf | photonfinder/fits_handlers.py:16-17 | a missing value stays missing, a text is upper-cased, and any other value raises |
| Headers.IntOf | photonfinder/fits_handlers.py:20-21 | a missing value stays missing, and anything else raises exactly when `int` does |
| Headers.FloatOf | photonfinder/fits_handlers.py:24-25 | a missing value stays missing, and anything else raises exactly when `float` does |
| Headers.TypeOf | photonfinder/fits_handlers.py:27-32 | a missing value stays missing, any non-text raises, the result has no lower-case letter, and a text without ` FRAME` is just upper-cased |
| Headers.TypeOfLightFrame | photonfinder/fits_handlers.py:27-32 | `Light Frame` is read as `LIGHT` |
| Headers.CoercionRoundTrip | photonfinder/fits_handlers.py:20-25 | `int(str(i))` is `i` and `float(str(x))` has the value of `x` |
| Headers.DateTimeOf | photonfinder/fits_handlers.py:34-49 | a non-text raises; a missing, empty or `N/A` value gives none; otherwise no time exactly when none of the three parsers accepts, the ISO parser seeing `Z` as `+00:00` |
| LegacyExport.LegacyTemplateFilename | astrofilemanager/ui/ExportDialog.py:33-73 | naming fails exactly for an image row without an observation date, a named file keeps a name, and only a LIGHT frame changes the stored last light path |
| LegacyExport.LegacyTemplateFilenameAsWritten | astrofilemanager/ui/ExportDialog.py:33-73 | as written the naming always fails: on a missing observation date as corrected, and for every file the corrected naming names, at the legacy settings' missing `last_light_path` getter |
| LegacyExport.LegacyNamingRaisesAsWritten | astrofilemanager/ui/ExportDialog.py:63-70 | as written even a file without an image row and the empty pattern, which the corrected naming names by its export name, is not named |
| LegacyExport.LegacyAgreesWithoutXisf | astrofilemanager/ui/ExportDialog.py:33-73 | for a name that is not XISF before or after decompression, both applications name a file alike |
| LegacyExport.LegacyCopyAction | astrofilemanager/ui/ExportDialog.py:157-164 | every file is copied, either as stored or as its decompressed stream |
| LegacyExport.LegacyProcess | astrofilemanager/ui/ExportDialog.py:132-152 | the target is the rendered name under the output directory; it is skipped exactly when present, and otherwise copied with the legacy action |
| LegacyExport.EmptyTemplateNamesByFile | astrofilemanager/ui/ExportDialog.py:68-70 | a file without an image row and the empty pattern is named by its export name alone |
| LegacyExport.PlainExportName | astrofilemanager/ui/ExportDialog.py:37-39 | without XISF renaming the export name only drops a compressed extension, and only with decompression |
| LegacyFileNames.MarkedBadIsDefaultPattern | astrofilemanager/filesystem.py:52-56 | the earlier fixed `bad` prefix rule decides exactly what the current wildcard rule decides with its default `bad*` setting |
| LegacyFileNames.MarkedBadExamples | tests/test_filesystem.py:54-65 | `bad_file.fits` is marked bad and `normal_file.fits` is not |
| LegacyFileNames.IsFitsExamples | tests/test_filesystem.py:67-86 | `image.fits`, `image.fit` and `image.fits.xz` are FITS files and `image.jpg` is not |
| LegacyFileNames.FitsStem | astrofilemanager/filesystem.py:58-69 | a lower-case FITS name is FITS, plain or with an `.xz` extension |
| LegacyFileNames.UpperCaseCompressedNotFits | astrofilemanager/filesystem.py:58-69 | the earlier test does not see `M31.FITS.XZ` as FITS, while the current one does |
| LegacyFileNames.DropLeadingDots | tests/test_models.py:59-84 | only leading dots are dropped, and the rest of the name is kept |
| LegacyFileNames.Fopen | astrofilemanager/filesystem.py:17-26 | a name without extensions is opened plainly, and each decompressor is chosen by the last extension |
| LegacyFileNames.ExtsAgreeWithSplitExt | astrofilemanager/filesystem.py:17-26 | for a name without a directory the last listed extension is what `os.path.splitext` gives |
| LegacyFileNames.FopenAgrees | astrofilemanager/filesystem.py:17-26 | both applications open every plain file name the same way |
| LegacyFileNames.FopenAsWritten | astrofilemanager/filesystem.py:17-18 | as written the legacy opener fails for every name, since its argument has no `get_file_exts` |
| LegacyFileNames.CompressedOpenRaisesAsWritten | astrofilemanager/filesystem.py:17-26 | as written a compressed file cannot be opened, where the corrected opener picks a decompressor for it |
| LegacyFileNames.FileExtsExamples | tests/test_models.py:78-84 | `README` and `.gitignore` have no extensions |
| LegacyHandlers.LookupIsFirstPresent | astrofilemanager/fits_handlers.py:152-180 | a nested lookup with a default gives the value of the first keyword present, else the default |
| LegacyHandlers.LegacyProcess | astrofilemanager/fits_handlers.py:51-194 | a handler produces fields exactly when exposure, gain, binning and set point all convert to numbers |
| LegacyHandlers.Record | astrofilemanager/fits_handlers.py:62-70 | the corrected record stores the set point in its column and the other fields as read |
| LegacyHandlers.LegacyNormalize | astrofilemanager/fits_handlers.py:197-230 | a normalised image belongs to the file it was read for |
| LegacyHandlers.LegacyDefaults | astrofilemanager/fits_handlers.py:142-194 | a header with none of the keywords gets every default through the generic handler |
| LegacyHandlers.LegacySgpSample | tests/test_fits_handlers.py:21-96 | the SGP sample reads as LIGHT, HaOIII, 30 s, gain 120, binning 1 and set point -18 |
| LegacyHandlers.ProcessFromLookups | astrofilemanager/fits_handlers.py:84-103 | fields read as text and whole numbers are stored as they were read |
| LegacyHandlers.LookupMissing | astrofilemanager/fits_handlers.py:152-180 | a two-keyword lookup of keywords the header lacks gives the default |
| LegacyTree.Child | astrofilemanager/ui/LibraryTreeModel.py:23-27 | a child is found exactly for a row inside the list, and it is one of the children |
| LegacyTree.Row | astrofilemanager/ui/LibraryTreeModel.py:29-33 | a node without a parent is at row 0; otherwise the row exists exactly when the node is among its siblings, and it is the node's first position |
| LegacyTree.ChildRowRoundTrip | astrofilemanager/ui/LibraryTreeModel.py:23-33 | among distinct siblings the row of the child at a row is that row |
| LegacyTree.RowChildRoundTrip | astrofilemanager/ui/LibraryTreeModel.py:23-33 | the child at a node's row is the node |
| LegacyTree.AddOne | astrofilemanager/ui/LibraryTreeModel.py:178-179 | appending a path unless listed keeps the list as a prefix, adds exactly that path, and adds no repeat |
| LegacyTree.AddNew | astrofilemanager/ui/LibraryTreeModel.py:171-179 | appending each new path keeps the list as a prefix, adds exactly those paths, and adds no repeat |
| LegacyTree.AccumulateAddsPrefixes | astrofilemanager/ui/LibraryTreeModel.py:167-179 | the inner loop appends exactly the prefix paths of the non-empty segments, skipping known ones |
| LegacyTree.ParentOfExtend | astrofilemanager/ui/LibraryTreeModel.py:173-176 | the parent of a path extended by one segment is the path |
| LegacyTree.ExpandFromSpec | astrofilemanager/ui/LibraryTreeModel.py:163-179 | the outer loop adds exactly the directory prefixes of the stored paths, with no repeat and every parent before its child |
| LegacyTree.ExpandPathsSpec | astrofilemanager/ui/LibraryTreeModel.py:154-182 | the loaded list names every directory prefix of every stored path exactly once, each after its parent |
| LegacyTree.FilePrefixIsJoin | astrofilemanager/ui/LibraryTreeModel.py:167-176 | the k-th prefix of a stored path is its first k+1 non-empty segments joined by slashes |
| LegacyTree.InsertWellFormed | astrofilemanager/ui/LibraryTreeModel.py:269-291 | the inner loop of the tree building keeps every entry one segment below its listed parent, and each entry's children exactly the entries below it |
| LegacyTree.InsertOrder | astrofilemanager/ui/LibraryTreeModel.py:274-287 | the inner loop adds the path's prefixes to the key order, each new one once, in order |
| LegacyTree.BuildFromWellFormed | astrofilemanager/ui/LibraryTreeModel.py:267-291 | the outer loop keeps the tree well formed and adds exactly the prefixes of the paths |
| LegacyTree.BuildSpec | astrofilemanager/ui/LibraryTreeModel.py:266-291 | the built tree has one entry per directory prefix, each entry's parent is its path minus the last segment, and its children are exactly the entries below it, once each |
| LegacyTree.Grow | astrofilemanager/ui/LibraryTreeModel.py:309-320 | the node grown for an entry has that entry's path and segment and one child node per listed child, in order |
| LegacyTree.GrowNestsChildren | astrofilemanager/ui/LibraryTreeModel.py:309-320 | a grown node's children are, once each, exactly the entries whose parent it is |
| LegacyTree.TopPaths | astrofilemanager/ui/LibraryTreeModel.py:294-295 | the top paths are exactly the keys without a parent |
| LegacyTree.TopsSpec | astrofilemanager/ui/LibraryTreeModel.py:293-300 | the top-level nodes are the slash-free entries, each once |
| LegacyTree.PathNodesSpec | astrofilemanager/ui/LibraryTreeModel.py:245-300 | the nodes added below a library root are exactly the slash-free prefixes of the loaded paths, each once |
| LegacyTree.Reloaded | astrofilemanager/ui/LibraryTreeModel.py:222-243 | after a reload the loaded set is empty and there is one unloaded, childless node per root, in order |
| LegacyTree.ReloadForgetsState | astrofilemanager/ui/LibraryTreeModel.py:222-243 | nothing of the model before a reload survives it |
| LegacyTree.RowCount | astrofilemanager/ui/LibraryTreeModel.py:358-375 | the count is the node's number of children; the root's paths are requested exactly for a library node that is not loaded and not in the loaded set, which is then marked loaded; otherwise nothing changes |
| LegacyTree.RowCountAsWritten | astrofilemanager/ui/LibraryTreeModel.py:358-375 | as written the count fails exactly for a library node not yet loaded, and otherwise agrees with the corrected count and requests nothing |
| LegacyTree.HasChildren | astrofilemanager/ui/LibraryTreeModel.py:338-343 | an unloaded library node claims children; any other node has them exactly when it counts some |
| LegacyTree.FindLibrary | astrofilemanager/ui/LibraryTreeModel.py:251-255 | the search finds the first library node with the root id, or none when no node has it |
| LegacyTree.PathsLoaded | astrofilemanager/ui/LibraryTreeModel.py:245-307 | nothing changes when no node has the root; otherwise the path nodes are appended below the first node with it, which becomes loaded, the id joins the loaded set, and every other node is kept |
| LegacyTree.PathsLoadedAsWritten | astrofilemanager/ui/LibraryTreeModel.py:245-256 | as written loading a root's paths fails exactly when there is a library node, and otherwise changes nothing |
| LegacyTree.RequestedAtMostOnce | astrofilemanager/ui/LibraryTreeModel.py:245-307 | between reloads a root's paths are requested at most once, and only for a node that was not loaded when the events began |
| LegacyTree.ReloadThenCountRequests | astrofilemanager/ui/LibraryTreeModel.py:222-243 | after a reload, the first count asked of a root's node requests that root's paths |
| LegacyTree.ReloadThenCountRaisesAsWritten | astrofilemanager/ui/LibraryTreeModel.py:222-256 | as written, after a reload, counting any library node's children fails and so does loading its paths |
| LegacyTree.NearestRootPath | astrofilemanager/ui/LibraryTreeModel.py:428-436 | the walk up finds nothing exactly when no library root is on the way |
| LegacyTree.RootPathIsLibraryPath | astrofilemanager/ui/LibraryTreeModel.py:415-436 | a library root node and every path node below it give the root's path; "All libraries" and an invalid index give nothing |
| LibraryRoots.FirstClash | photonfinder/ui/LibraryRootEditDialog.py:73-100 | a clashing root is found exactly when some root other than the one edited shares the name or the path, and it is such a root |
| LibraryRoots.Accept | photonfinder/ui/LibraryRootEditDialog.py:50-109 | a warning is given exactly for an empty name or path, a path that is not a directory, or a clash with another root; otherwise the stripped name and path are created, or saved to the edited row |
| LibraryRoots.Apply | photonfinder/ui/LibraryRootEditDialog.py:88-105 | a warning leaves the table as it was, a creation appends one row, and an update keeps the number of rows |
| LibraryRoots.AcceptKeepsUnique | photonfinder/ui/LibraryRootEditDialog.py:72-105 | whatever the dialog writes keeps names, paths and row ids unique |
| LibraryRoots.UnchangedEditSaves | photonfinder/ui/LibraryRootEditDialog.py:91-105 | saving a root unchanged is allowed, since it clashes only with itself |
| LibraryRoots.AcceptAsWritten | photonfinder/ui/LibraryRootEditDialog.py:73-109 | as written an edit fails exactly when the name and path are valid and the clash query finds any root, the edited one included; otherwise the outcome is the corrected one |
| LibraryRoots.UnchangedEditFailsAsWritten | photonfinder/ui/LibraryRootEditDialog.py:88-100 | as written saving a valid root unchanged fails, since the query finds the root itself |
| LibraryRoots.DuplicateCreateRefused | photonfinder/ui/LibraryRootEditDialog.py:78-86 | creating a root whose name or path exists is refused |
| LibraryRoots.Browse | photonfinder/ui/LibraryRootEditDialog.py:33-48 | a chosen directory fills the path, and fills an empty name with its last component; a cancelled choice changes nothing |
| LibraryRoots.BrowsedNameIsComponent | photonfinder/ui/LibraryRootEditDialog.py:47-48 | a name filled in by browsing is one non-empty path component |
| MainWindow.UpdateStatus | photonfinder/ui/MainWindow.py:654-663 | a bulk message within a second of the last emitted one is dropped and changes nothing; any other is emitted, stamps the time, and is logged unless bulk |
| MainWindow.LogIsNonBulk | photonfinder/ui/MainWindow.py:654-667 | the log gains exactly the non-bulk messages, in the order reported |
| MainWindow.ReportThrottles | photonfinder/ui/MainWindow.py:654-659 | emitted bulk messages are at least a second apart, and every non-bulk message is emitted |
| MainWindow.ScanRoots | photonfinder/ui/MainWindow.py:253-262 | every root is scanned exactly when "All libraries" is selected; otherwise exactly the selected library roots |
| MainWindow.Step | photonfinder/ui/MainWindow.py:134-279 | a scan or drop while a worker is running is refused, otherwise it starts one; the finish signal clears it |
| MainWindow.StepAsWritten | photonfinder/ui/MainWindow.py:670-694 | as written a library scan worker, once set, stays set whatever happens; with no worker or a drop worker each event is handled as corrected |
| MainWindow.ScanNeverClearedAsWritten | photonfinder/ui/MainWindow.py:250-277 | as written a started library scan is never cleared, by any run of events, while corrected its finish signal clears it |
| MainWindow.OneWorkerAtATime | photonfinder/ui/MainWindow.py:134-279 | workers never overlap: those started are those cleared plus the one still running |
| MainWindow.EnableActions | photonfinder/ui/MainWindow.py:535-554 | the file actions follow whether an image is selected; with one, darks are offered for LIGHT and FLAT, flats for LIGHT, and plate solving for a possible light frame without a solution; otherwise these keep their state |
| MainWindow.ActionsForImage | photonfinder/ui/MainWindow.py:547-554 | flats are offered only where darks are, an unsolved light frame offers everything, and a solved image is never offered plate solving |
| MainWindow.CloseTab | photonfinder/ui/MainWindow.py:190-198 | a missing tab fails the widget check; otherwise the tab is removed, and closing the last one opens a new one |
| MainWindow.NeverWithoutTabs | photonfinder/ui/MainWindow.py:190-198 | any run of closes leaves at least one tab |
| MetadataReport.GetAttr | photonfinder/ui/MetadataReportDialog.py:102-112 | an attribute the record lacks reads as nothing |
| MetadataReport.PhotonFinderField | photonfinder/ui/MetadataReportDialog.py:95-116 | `File.` names read the file's attribute after the prefix, and `File.full_filename` the full file name as a path; `Image.` names read the image's and give nothing without an image; bare names try the file first, then the image |
| MetadataReport.StoredField | photonfinder/ui/MetadataReportDialog.py:118-162 | a stored header or solution gives a value exactly when it is there, parsed, and holds the normalised keyword, and then it is the value stored under that keyword |
| MetadataReport.NormalizeKeyword | photonfinder/ui/MetadataReportDialog.py:118-139 | the keyword a field name is looked up under has no lower-case letter and no whitespace at either end |
| MetadataReport.FileField | photonfinder/ui/MetadataReportDialog.py:98-102 | the `full_filename` attribute gives the normal rendering of the file's full name: text that parses as the same path and that rendering leaves unchanged; any other attribute reads the file as stored, nothing when absent |
| MetadataReport.NormalizeUpper | photonfinder/ui/MetadataReportDialog.py:135 | an upper-cased field name is looked up under the same keyword as the name itself |
| MetadataReport.KeywordPartUpper | photonfinder/ui/MetadataReportDialog.py:135 | the `HIERARCH ` prefix is recognised in any case, so upper-casing a name upper-cases the keyword part it leaves |
| MetadataReport.KeywordCaseIgnored | photonfinder/ui/MetadataReportDialog.py:118-158 | a field name typed in any case reads the same stored value as its upper-case form |
| MetadataReport.Row | photonfinder/ui/MetadataReportDialog.py:58-76 | a row has one cell per field |
| MetadataReport.RowCells | photonfinder/ui/MetadataReportDialog.py:78-162 | an unknown source, a missing or unparsable header or solution, and an `Image.` name on a file without an image all give an empty cell |
| MetadataReport.RowConcat | photonfinder/ui/MetadataReportDialog.py:70-74 | rows are built field by field: the row of two field lists side by side is the two rows |
| MetadataReport.Report | photonfinder/ui/MetadataReportDialog.py:47-56 | the report is the header row of field names then one row per file, every row as wide as the field list |
| MetadataReport.Tables | photonfinder/ui/MetadataReportDialog.py:31-37 | the base tables come first; the header table is joined exactly when a field reads the FITS header, the solution table exactly when one reads the plate solution |
| MetadataReport.JoinsSuffice | photonfinder/ui/MetadataReportDialog.py:31-76 | joining only the tables the fields need gives the same rows as joining both |
| MetadataReport.AddItem | photonfinder/ui/MetadataReportDialog.py:269-307 | a non-empty name not yet chosen from that source is appended; otherwise the list is unchanged |
| MetadataReport.AddKeepsDistinct | photonfinder/ui/MetadataReportDialog.py:269-318 | no (source, field) pair is ever chosen twice |
| MetadataReport.SelectedFields | photonfinder/ui/MetadataReportDialog.py:412-425 | the fields are the chosen (name, source) pairs in list order |
| MetadataReport.RemoveRows | photonfinder/ui/MetadataReportDialog.py:327-347 | the rows left are as many as the unselected rows, each unselected row lands after exactly the unselected rows above it, and nothing else is kept |
| MetadataReport.MoveUp | photonfinder/ui/MetadataReportDialog.py:361-379 | moving up permutes the list, and does nothing without a selection or with the top row selected |
| MetadataReport.MoveUpSpec | photonfinder/ui/MetadataReportDialog.py:361-379 | each selected entry goes one row up and each unselected one goes below the run of selected rows beneath it |
| MetadataReport.SelectedMoveUp | photonfinder/ui/MetadataReportDialog.py:375-378 | each selected entry lands one row higher |
| MetadataReport.UnselectedKeepOrder | photonfinder/ui/MetadataReportDialog.py:361-379 | unselected entries keep their relative order when moving up |
| MetadataReport.MoveDown | photonfinder/ui/MetadataReportDialog.py:381-399 | moving down permutes the list, and does nothing without a selection or with the bottom row selected |
| MetadataReport.MoveDownSpec | photonfinder/ui/MetadataReportDialog.py:381-399 | each selected entry goes one row down and each unselected one above the run of selected rows over it |
| MetadataReport.SelectedMoveDown | photonfinder/ui/MetadataReportDialog.py:395-398 | each selected entry lands one row lower |
| MetadataReport.ExportFormat | photonfinder/ui/MetadataReportDialog.py:427-437 | the format is `csv` or `tsv` |
| MetadataReport.FormatSeparator | photonfinder/ui/MetadataReportDialog.py:427-437 | the report is comma-separated exactly when the first format entry is chosen, tab-separated otherwise |
| Numbers.NatToString | photonfinder/fits_handlers.py:20-21 | the decimal digits of a natural number read back as that number |
| Numbers.IntToString | photonfinder/ui/MetadataReportDialog.py:75 | `str` of an integer is digits, after a minus sign for a negative one |
| Numbers.ParseInt | photonfinder/fits_handlers.py:20-21 | `int` of a string succeeds only on text holding a digit |
| Numbers.ParseIntToString | photonfinder/fits_handlers.py:20-21 | `int(str(i)) == i` for every integer |
| Numbers.Truncate | photonfinder/fits_handlers.py:20-21 | `int` of a float truncates toward zero: the whole number of units in its magnitude, with its sign |
| Numbers.TruncateWhole | photonfinder/fits_handlers.py:20-21 | truncating a whole number gives it back |
| Numbers.Normalize | photonfinder/fits_handlers.py:24-25 | the shortest decimal with the same value: no trailing fractional zero |
| Numbers.DecimalToString | photonfinder/ui/MetadataReportDialog.py:75 | `str` of a float always holds a point |
| Numbers.ParseDecimalWhole | photonfinder/fits_handlers.py:24-25 | `float` of a plain run of digits is that whole number |
| Numbers.ParseDecimalToString | photonfinder/fits_handlers.py:24-25 | `float(str(x))` succeeds and has the value of `x` |
| Numbers.SignedExact | photonfinder/fits_handlers.py:24-25 | reading back a rendered decimal gives exactly the decimal, with one zero place added to a whole number |
| Projects.KeyIsEquality | photonfinder/models.py:560-570 | two unsaved links are equal exactly when they hash alike, so a set of links is a map from their (project, file) keys |
| Projects.Kept | photonfinder/ui/ProjectEditDialog.py:40 | the first part of the table is exactly the stored links not marked for deletion |
| Projects.Add | photonfinder/ui/ProjectEditDialog.py:130-131 | adding to a set of links adds the link's key and nothing else |
| Projects.AddAll | photonfinder/ui/ProjectEditDialog.py:95-96 | updating a set of links adds exactly their keys |
| Projects.DeleteSelected | photonfinder/ui/ProjectEditDialog.py:93-97 | the selection leaves the add queue and joins the deletion marks; the stored links and the name are untouched |
| Projects.AddFile | photonfinder/ui/ProjectEditDialog.py:129-133 | a link is queued unless it is stored, and its deletion mark is cleared |
| Projects.DeleteHides | photonfinder/ui/ProjectEditDialog.py:37-97 | deleting hides every selected link and shows the rest as before |
| Projects.AddShows | photonfinder/ui/ProjectEditDialog.py:129-133 | adding a link shows it and shows the rest as before |
| Projects.Reload | photonfinder/ui/ProjectEditDialog.py:66-88 | after a reset nothing is pending and the table shows exactly the stored links |
| Projects.DeleteThenAddRestores | photonfinder/ui/ProjectEditDialog.py:85-133 | deleting a stored link and adding it back leaves a clean dialog clean |
| Projects.Save | photonfinder/ui/ProjectEditDialog.py:53-64 | a transaction is written exactly when the dialog is dirty, with the edited name, the time, the queued additions and the deletion marks |
| Projects.AddFiles | photonfinder/ui/ProjectEditDialog.py:99-117 | the mismatches are exactly the chosen paths the catalogue does not know, and every known one is shown |
| Projects.Selected | photonfinder/ui/ProjectsWindow.py:100 | the selected projects are exactly those of the table whose row id is chosen |
| Projects.LeaderIsSmallest | photonfinder/ui/ProjectsWindow.py:100-101 | the leader of a merge has the smallest row id of the selection |
| Projects.Repoint | photonfinder/ui/ProjectsWindow.py:107 | every link of a merged project points at the leader, and the others are untouched |
| Projects.MergedProjects | photonfinder/ui/ProjectsWindow.py:104-108 | after a merge only the renamed leader is left of the selected projects, and every unselected project stays |
| Projects.MergeAsWritten | photonfinder/ui/ProjectsWindow.py:98-110 | a merge that succeeds keeps every link and satisfies the unique index on (project, file) |
| Projects.SharedFileBlocksMerge | photonfinder/ui/ProjectsWindow.py:98-110 | as written, merging two projects that share a file fails on the unique index |
| Projects.Dedup | photonfinder/models.py:555-558 | dropping repeated (project, file) pairs satisfies the unique index, keeps only original links and keeps every pair held |
| Projects.Merge | photonfinder/ui/ProjectsWindow.py:98-110 | the corrected merge satisfies the unique index, and fails exactly for an empty selection or a merged name another project has |
| Projects.MergeAgreesWhenNoFileShared | photonfinder/ui/ProjectsWindow.py:98-110 | where the merge as written succeeds the corrected one does exactly the same |
| Projects.RepointedHolds | photonfinder/ui/ProjectsWindow.py:107 | after re-pointing the leader holds exactly the files some merged project held, and the other projects what they held |
| Projects.MergeUnitesFiles | photonfinder/ui/ProjectsWindow.py:98-110 | after the corrected merge the leader holds exactly the files some selected project held, an unselected project what it held, and the other selected ones nothing |
| Projects.ProjectActions | photonfinder/ui/ProjectsWindow.py:112-117 | merging needs two selected projects, editing exactly one, deleting at least one; the later delete setting wins |
| Projects.ActionsNest | photonfinder/ui/ProjectsWindow.py:112-117 | a mergeable selection can be deleted, never edited, and an editable one can be deleted |
| Projects.DeleteProjects | photonfinder/ui/ProjectsWindow.py:59-82 | an empty selection raises; without a Yes nothing changes; with one exactly the unselected projects and their links remain |
| Scanner.MakeConfig | photonfinder/filesystem.py:264-268 | the bad-file and bad-directory settings split on `\|` into at least one pattern each |
| Scanner.FirstCandidate | photonfinder/filesystem.py:383-391 | the first catalogue row from a position on that matches the name's compressed variants (exactly the name when asked), and no earlier row does |
| Scanner.FindMatch | photonfinder/filesystem.py:380-391 | no row is found exactly when no row of the root in the directory carries a compressed variant of the name; otherwise the first row with exactly the name, and failing that the first variant row |
| Scanner.ImportFile | photonfinder/filesystem.py:373-404 | an unmatched file is queued as new under its own name; a matched row whose size or time differs is queued as changed with the file's name, size and time; an unchanged match queues nothing; a match reports the row's stored name |
| Scanner.ImportFileKeepsRow | photonfinder/filesystem.py:397-403 | a changed file keeps the row id, root and directory of a catalogue row that matched it |
| Scanner.FindExact | astrofilemanager/filesystem.py:136-137 | the legacy lookup finds a row exactly when one has this root, directory and name |
| Scanner.LegacyImportFile | astrofilemanager/filesystem.py:132-146 | the legacy import reports the listed name; an unknown file is new, a changed one queues the old row id with a fresh record, an unchanged one queues nothing |
| Scanner.Evict | photonfinder/filesystem.py:355-359 | the evicted rows are exactly the rows of the root in the directory whose names no imported file reported |
| Scanner.Outcomes | photonfinder/filesystem.py:334-353 | `_import_file` runs on exactly the listed entries the file filter accepts, in listing order |
| Scanner.MergeOutcomesPick | photonfinder/filesystem.py:230-234 | merging the change lists of the imports holds a record in a list exactly when some import queued it there |
| Scanner.ImportAllFilesPick | photonfinder/filesystem.py:345-349 | a directory's imports queue a record exactly when the import of some accepted file does |
| Scanner.DirResult | photonfinder/filesystem.py:333-359 | one directory's scan removes exactly the unclaimed rows of that directory, and keeps changed row ids paired with changed files |
| Scanner.ClaimedNamesIff | photonfinder/filesystem.py:345-349 | the claimed names are exactly the names the accepted files' imports report |
| Scanner.ImportEntryKeepsName | photonfinder/filesystem.py:386-391 | a file whose exact name has a row in its directory reports that name, in either importer |
| Scanner.ListedRowKept | photonfinder/filesystem.py:345-359 | a row whose file is still listed and accepted under its exact name is not evicted |
| Scanner.UnclaimedRowEvicted | photonfinder/filesystem.py:345-359 | a row no accepted file of the listing can claim is evicted, a row whose file is now marked bad included |
| Scanner.LegacyEvictIff | astrofilemanager/filesystem.py:109-119 | in the legacy importer a row is evicted exactly when no accepted file carries its name |
| Scanner.DirResultImports | photonfinder/filesystem.py:345-349 | a directory's scan queues new and changed files exactly as its accepted files' imports do |
| Scanner.WalkDirs | photonfinder/filesystem.py:329-343 | the walk records the catalogue path of every directory reachable from the stack |
| Scanner.WalkLists | photonfinder/filesystem.py:331-359 | the walk queues exactly what the scans of the directories reachable from the stack queue |
| Scanner.WalkAligned | photonfinder/filesystem.py:397-403 | changed row ids stay paired with the changed files throughout the walk |
| Scanner.Stale | photonfinder/filesystem.py:361-369 | the stale rows are exactly the rows of the root in a directory the walk did not record |
| Scanner.ImportFilesFromDirs | photonfinder/filesystem.py:329-343 | the directories recorded are exactly those reachable from the start directory |
| Scanner.ImportFilesFromLists | photonfinder/filesystem.py:328-371 | a scan queues exactly what the reachable directories' scans queue, plus, for a whole-library scan, the rows in unvisited directories |
| Scanner.ImportFilesFromRemoves | photonfinder/filesystem.py:328-371 | a row is removed exactly when it belongs to the root and sits in a visited directory where no accepted file reported its name, or, for a whole-library scan, in a directory the walk never visited |
| Scanner.ImportFilesFromImports | photonfinder/filesystem.py:328-359 | new and changed files are exactly those queued by the accepted files of the reachable directories |
| Scanner.ImportFilesFromAligned | photonfinder/filesystem.py:328-371 | in the current importer's change list every changed row id belongs to the changed file at the same position |
| Scanner.LegacyEmptyRootRemovesAll | astrofilemanager/filesystem.py:93-130 | with an empty listing the legacy importer removes every row of the root |
| Scanner.ScanRoot | photonfinder/filesystem.py:314-325 | a root yields at most one change list, and none exactly when it cannot be listed or, in the current importer, is empty; it ends the run with its error exactly when the legacy importer cannot open it |
| Scanner.ImportAll | photonfinder/filesystem.py:311-326 | the current importer is never ended early; a run that is not ended early reports `done.` last, and one that is does not |
| Scanner.Reached | astrofilemanager/filesystem.py:82-91 | the roots a run gets through are a prefix of the roots, none of which ends it; when some are left, the next one ends it; the current importer gets through all |
| Scanner.ImportAllRaisesIff | astrofilemanager/filesystem.py:79-91 | the run is ended by an error exactly when the legacy importer meets a root it cannot open |
| Scanner.LegacyFailedRootEndsRun | astrofilemanager/filesystem.py:79-91 | with the legacy importer, the first root that cannot be opened ends the run with its error: only the roots before it yield change lists, and `done.` is not reported |
| Scanner.ReachedUpTo | astrofilemanager/filesystem.py:82-91 | the run gets through exactly the roots before the first one that ends it |
| Scanner.LegacyScannedAll | astrofilemanager/filesystem.py:84-87 | the legacy importer scans every root it can open, empty ones included |
| Scanner.ScannedRootsMembers | photonfinder/filesystem.py:314-323 | the roots scanned are exactly the roots that can be listed and, now, are not empty |
| Scanner.ImportAllYields | photonfinder/filesystem.py:311-326 | one change list per scanned root, in root order, up to the root that ends the run; the run ends early exactly when some root is not reached, and then with that root's error |
| Scanner.ScanRootChanges | photonfinder/filesystem.py:314-325 | a root's change list is the one its listing gives when it is scanned, and none otherwise |
| Scanner.ImportAllReportsFailure | photonfinder/filesystem.py:324-325 | the current importer reports a root that cannot be listed with its name and the error; for the legacy importer such a root ends the run with an error |
| Scanner.CurrentReportsFailure | photonfinder/filesystem.py:314-325 | every root the current importer cannot list is reported, wherever it stands among the roots |
| Scanner.CompressedCopyClaimsSameRow | photonfinder/filesystem.py:251-258 | with `x.fits` catalogued and `x.fits.xz` beside it, both files report the one row: the original leaves it unchanged and the compressed copy renames it to itself |
| PurePaths.Parse | photonfinder/ui/LibraryRootEditDialog.py:48 | a parsed path has only components that are non-empty, not `.` and free of `/` |
| PurePaths.Parent | photonfinder/ui/ExportDialog.py:31 | the parent drops the last component and keeps the anchor; a path without components is its own parent |
| PurePaths.Name | photonfinder/ui/LibraryRootEditDialog.py:48 | the name is the last component, empty for a path without one |
| PurePaths.ParseRender | photonfinder/ui/ExportDialog.py:31-33 | printing a normal path and parsing it again gives the path back |
| PurePaths.JoinBelow | photonfinder/ui/ExportDialog.py:31-33 | joining a directory with a component gives the path one level below: its parent is the directory and its name the component |
| SearchPanel.OnSortRequested | photonfinder/ui/SearchPanel.py:260-277 | a negative column resets, a new column sorts ascending, and the same column goes from ascending to descending and then back to unsorted |
| SearchPanel.ThreeClicks | photonfinder/ui/SearchPanel.py:260-277 | three clicks on one column from an unsorted tab pass through ascending and descending and end unsorted |
| SearchPanel.SortCycle | photonfinder/ui/SearchPanel.py:260-277 | every state a click produces comes back after three more clicks on the same column |
| SearchPanel.ApplySort | photonfinder/ui/SearchPanel.py:260-277 | a header click changes only the two sort fields of the criteria |
| SearchPanel.ClickedIsNeverEmpty | photonfinder/ui/SearchPanel.py:260-277 | once a header click is handled the criteria is never equal to a fresh one, a reset included, since a reset stores ascending and a fresh criteria is descending |
| SearchPanel.ComboValue | photonfinder/ui/SearchPanel.py:1189-1195 | `<empty>` reads as NULL, `<any>` and an empty combo as no constraint, other text as itself |
| SearchPanel.NotEmptyIsConstraint | photonfinder/ui/SearchPanel.py:34-35 | a combo shows a concrete value exactly when it reads back as a non-empty constraint |
| SearchPanel.FindText | photonfinder/ui/SearchPanel.py:991 | the first entry with exactly the text, or none when no entry has it |
| SearchPanel.SetCurrentText | photonfinder/ui/SearchPanel.py:985-988 | selecting text on a read-only combo selects an existing entry and otherwise changes nothing |
| SearchPanel.SetComboValue | photonfinder/ui/SearchPanel.py:983-997 | a concrete value missing from the entries is appended; otherwise the entries stay |
| SearchPanel.ComboRoundTrip | photonfinder/ui/SearchPanel.py:983-997 | setting a value and reading it back gives the value, when the combo holds the label the value needs |
| SearchPanel.ComboReadSetBack | photonfinder/ui/SearchPanel.py:983-997 | reading the current value and setting it again leaves the combo showing the same text |
| SearchPanel.Label | photonfinder/ui/SearchPanel.py:221-225 | NULL and the empty string show as `<empty>`, any other value as itself |
| SearchPanel.Rebuild | photonfinder/ui/SearchPanel.py:215-246 | the rebuilt combo is `<any>` then one entry per value, plus the previous concrete text when the values lost it; the previous text is selected when it is an entry, `<any>` otherwise |
| SearchPanel.RebuildKeepsConstraint | photonfinder/ui/SearchPanel.py:215-246 | a concrete value or `<any>` reads back as before a rebuild; `<empty>` does too while some value is NULL or empty, and falls back to `<any>` otherwise |
| SearchPanel.AddFilterButton | photonfinder/ui/SearchPanel.py:156-162 | a button of a kind already shown replaces and returns that one; the new button is registered under its kind and shown first |
| SearchPanel.RemoveFilterButton | photonfinder/ui/SearchPanel.py:169-171 | removing a kind that is not registered raises; otherwise exactly that button leaves the registry and the row |
| SearchPanel.OneButtonPerKind | photonfinder/ui/SearchPanel.py:156-171 | a consistent row never shows two buttons of one kind |
| SearchPanel.AddKeepsConsistent | photonfinder/ui/SearchPanel.py:156-162 | adding a button keeps the row consistent with the registry, and a replaced button leaves the row |
| SearchPanel.RemoveKeepsConsistent | photonfinder/ui/SearchPanel.py:169-171 | removing a shown button succeeds and keeps the row consistent |
| SearchPanel.FindChild | photonfinder/ui/SearchPanel.py:666-674 | the first child path node with the segment, or none when no child has it |
| SearchPanel.WalkDeepest | photonfinder/ui/SearchPanel.py:656-679 | the walk follows the non-empty segments of the path and stops where no child matches the next one |
| SearchPanel.FindLibrary | photonfinder/ui/SearchPanel.py:640-645 | the first library node with the row id, or none when no library has it |
| SearchPanel.FindAndSelect | photonfinder/ui/SearchPanel.py:627-688 | a selection waits exactly for a known root with a path whose paths are not loaded; "All libraries" is selected exactly without a root or for an unknown one; otherwise the root's node is selected for an empty path, and for a path the node the segment walk reaches below it |
| SearchPanel.SelectsDeepest | photonfinder/ui/SearchPanel.py:656-684 | for a loaded root with a path, the selected node follows the path's non-empty segments and no child of it matches the next segment: it is the deepest matched node |
| SearchPanel.Apply | photonfinder/ui/SearchPanel.py:627-688 | with the root's paths loaded, the selection is made at once |
| SearchPanel.OnPathsLoaded | photonfinder/ui/SearchPanel.py:121-134 | nothing happens while a pending root is unloaded; otherwise every pending selection is made, in order, and the list is emptied |
| SearchPanel.DeferredThenApplied | photonfinder/ui/SearchPanel.py:121-134 | a deferred selection is made once its root's paths arrive, at the node the walk reaches |
| Sessions.RootAndPathJson | photonfinder/models.py:122-131 | a stored path is written as an object with exactly its three fields |
| Sessions.PathsJson | photonfinder/models.py:122-131 | a list of paths is written element by element |
| Sessions.CriteriaJson | photonfinder/models.py:122-131 | a criteria is written as an object with exactly its fields |
| Sessions.SessionJson | photonfinder/ui/session.py:16-18 | a session is written as an object with exactly its three fields |
| Sessions.SessionsToJson | photonfinder/ui/session.py:42-43 | the sessions are written as a list with one object per session, in order |
| Sessions.TimeArg | photonfinder/models.py:168-171 | non-empty datetime text is parsed as ISO text and an unparsable one raises; an absent one stays unset |
| Sessions.ReferenceArg | photonfinder/models.py:158-159 | a non-zero reference row id is fetched, and inflating fails exactly when that row is gone |
| Sessions.ProjectArg | photonfinder/models.py:160-165 | a positive project id is fetched and fails when the project is gone, a negative one becomes "no project", and zero stays |
| Sessions.InflateRootAndPath | photonfinder/models.py:166-167 | a stored path is rebuilt only from an object with exactly its three keywords |
| Sessions.InflatePaths | photonfinder/models.py:166-167 | a list of paths is rebuilt element by element, and fails exactly when some element does |
| Sessions.InflateCriteria | photonfinder/models.py:156-172 | a keyword that is not a field raises, and an empty object gives the default criteria |
| Sessions.InflateSession | photonfinder/ui/session.py:29-33 | the keywords must be exactly the session's; truthy criteria are inflated and falsy ones kept as they were |
| Sessions.Inflate | photonfinder/ui/session.py:20-27 | a list is inflated element by element and an object as a session; any other value raises |
| Sessions.JsonToSessions | photonfinder/ui/session.py:36-39 | a decoded value that is not a list raises `AssertionError`; a list gives one entry per element |
| Sessions.LoadSessions | photonfinder/ui/session.py:51-56 | no file configured, or none at the path, gives no sessions; otherwise the file's decoded contents are inflated |
| Sessions.RootAndPathRoundTrip | photonfinder/models.py:122-131 | inflating a written path gives it back |
| Sessions.PathsRoundTrip | photonfinder/models.py:166-167 | inflating a written list of paths gives it back |
| Sessions.InflateFromArgs | photonfinder/models.py:156-172 | keywords that each restore their field inflate to the whole criteria |
| Sessions.RebuiltArgsRestore | photonfinder/models.py:156-171 | the datetimes, reference file and project read back from a written criteria are its own, when its rows still exist |
| Sessions.CriteriaRoundTrip | photonfinder/models.py:122-172 | inflating a written criteria gives the criteria back |
| Sessions.CriteriaTruthy | photonfinder/ui/session.py:31-32 | a written criteria is never falsy, so it is always inflated again |
| Sessions.SessionRoundTrip | photonfinder/ui/session.py:16-33 | inflating a written session gives the session back |
| Sessions.SessionsRoundTrip | photonfinder/ui/session.py:36-43 | reading back the written sessions gives every session, in order |
| Settings.Read | photonfinder/core.py:124-212 | a getter returns the stored value, or its own default when the key was never written |
| Settings.Write | photonfinder/core.py:128-217 | a setter adds its key to the store |
| Settings.ReadAfterWrite | photonfinder/core.py:124-217 | what a setter stores its getter returns, and no other setting changes |
| Settings.FreshDefaults | photonfinder/core.py:132-210 | a store never written reports `bad*` patterns, a 2 degree fallback field and decompressed exports |
| Settings.InitializeDefaults | photonfinder/core.py:113-118 | the ASTAP path and the API key are written only when absent, and every other setting is kept |
| Settings.InitializeIdempotent | photonfinder/core.py:113-118 | starting twice writes nothing new the second time |
| Settings.AddKnown | photonfinder/core.py:222-223 | the known keywords gain exactly the given ones |
| Settings.AddKnownIdempotent | photonfinder/core.py:222-223 | adding keywords is idempotent and order-insensitive |
| Settings.StoredKeywords | photonfinder/core.py:110-111 | the stored keyword text is split on `\|`, so no keyword read back holds one |
| Settings.Open | photonfinder/core.py:106-111 | opening writes the defaults and reads the keywords back |
| Settings.Sync | photonfinder/core.py:225-228 | syncing stores the keywords and changes no other setting or the known set |
| Settings.SyncOpenRoundTrip | photonfinder/core.py:106-111 | saving and reopening gives back the same set of non-empty keywords without `\|` |
| Settings.EmptyKeywordLost | photonfinder/core.py:110-111 | an empty keyword alone does not survive the round trip, since empty text reads as no keywords |
| Settings.SortedKeywords | photonfinder/core.py:219-220 | the known keywords listed in strictly ascending order, each once |
| Settings.SortedKeywordsDistinct | photonfinder/core.py:219-220 | the sorted list holds every keyword exactly once |
| Settings.DatabasePath | photonfinder/core.py:37-41 | the last database used when one is recorded; otherwise a path that parses as the application data directory with `astroFileManager.db` one level below |
| Settings.InAppData | photonfinder/core.py:41 | `Path(app_data) / "astroFileManager.db"` parses as the directory with the file name appended as its last component |
| Settings.EmptyAppDataIsRelative | photonfinder/core.py:41 | with an empty application data directory the database is the bare relative name `astroFileManager.db` |
| Telescopius.FloatOf | photonfinder/ui/TelescopiusCompareDialog.py:47 | `float()` of a number is the number, of text succeeds exactly when the text is a decimal, and of anything else raises |
| Telescopius.TargetOf | photonfinder/ui/TelescopiusCompareDialog.py:43-47 | a parsed target has the entry's name, or `''`, and both coordinates present and readable as numbers |
| Telescopius.TargetsOf | photonfinder/ui/TelescopiusCompareDialog.py:42-47 | one target per entry, in order, or a failure caused by some unreadable entry |
| Telescopius.HasTargets | photonfinder/ui/TelescopiusCompareDialog.py:42 | for an object, the membership test on `targets` |
| Telescopius.Entries | photonfinder/ui/TelescopiusCompareDialog.py:43 | iterating a list gives its entries |
| Telescopius.ParseTargets | photonfinder/ui/TelescopiusCompareDialog.py:30-49 | no targets when `data` or `targets` is missing, otherwise the parse of every listed entry |
| Telescopius.MissingCoordinateRaises | photonfinder/ui/TelescopiusCompareDialog.py:45-47 | an entry lacking `ra_hr` or `dec` makes parsing fail, since `float('')` raises |
| Telescopius.ApiUrl | photonfinder/ui/TelescopiusCompareDialog.py:64-67 | a list page address gets `/api` before every `/observing-lists/`; any other address is kept |
| Telescopius.PageToApi | photonfinder/ui/TelescopiusCompareDialog.py:64-65 | the page address of a list becomes the API address of the same list |
| Telescopius.ApiOfPage | photonfinder/ui/TelescopiusCompareDialog.py:64-65 | any address naming a list page is rewritten by the replacement |
| Telescopius.PageAddressIsPage | photonfinder/ui/TelescopiusCompareDialog.py:64 | every address built from the site and a list id passes the page test |
| Telescopius.Locations | photonfinder/ui/TelescopiusCompareDialog.py:83-93 | the `root:path` of exactly the files within the tolerance, each once |
| Telescopius.LocationsFrom | photonfinder/ui/TelescopiusCompareDialog.py:90-93 | extending a set of seen locations keeps it free of repeats and adds exactly the close files |
| Telescopius.Enrich | photonfinder/ui/TelescopiusCompareDialog.py:76-106 | at most one row per target and every row names a target; when every search succeeds, one row per target in order with its rendered coordinates and locations |
| Telescopius.ExportRecords | photonfinder/ui/TelescopiusCompareDialog.py:225-244 | the header then one record per table row, each cell's line breaks turned into `\|` and a missing cell written empty |
| Telescopius.RecordsAreOneLine | photonfinder/ui/TelescopiusCompareDialog.py:240-244 | no written cell holds a line break, and a one-line cell is written unchanged |
| Telescopius.LocationsRecoverable | photonfinder/ui/TelescopiusCompareDialog.py:99-102 | a row's locations come back from its saved cell by splitting on `\|` when none holds `\|` or a line break |
| Telescopius.ExportFormat | photonfinder/ui/TelescopiusCompareDialog.py:214-218 | TSV exactly when the filter names tab separation or the path ends in `.tsv` in any case, otherwise CSV |
| Telescopius.ToleranceDegrees | photonfinder/ui/TelescopiusCompareDialog.py:167-169 | a tolerance exists exactly when the field is a decimal, and it is that many arcminutes in degrees |
| Wcs.Lookup | photonfinder/platesolver.py:172 | a header lookup finds a value exactly when the keyword is present, and the value belongs to a card of the header |
| Wcs.SetCard | photonfinder/platesolver.py:57 | assigning a keyword makes it read back the new value, leaves every other keyword alone, and appends a card only when the keyword was absent |
| Wcs.RemoveCard | photonfinder/platesolver.py:70 | removing a keyword, ignoring a missing one, drops at most one card and leaves every other keyword alone |
| Wcs.RemoveAll | photonfinder/platesolver.py:80-81 | removing every card of a keyword leaves none of it and every other keyword alone |
| Wcs.KeepOnly | photonfinder/platesolver.py:55 | exactly the cards whose keyword is kept, in their original order |
| Wcs.KeepOnlyLookup | photonfinder/platesolver.py:55 | a kept keyword reads back the same value after filtering |
| Wcs.ExtractWcsCards | photonfinder/platesolver.py:53-58 | the kept cards in their original order followed by `NAXIS = 2` |
| Wcs.ExtractKeepsValues | photonfinder/platesolver.py:53-58 | every kept keyword has the same value before and after extraction |
| Wcs.NaxisNotKept | photonfinder/platesolver.py:30-33 | `NAXIS` itself is not among the kept keywords, so the appended card is new |
| Wcs.ExtractKeepsPair | photonfinder/platesolver.py:53-58 | a pair of kept keywords is present and valued after extraction exactly as before |
| Wcs.ExtractKeepsSolved | photonfinder/platesolver.py:249-271 | extraction keeps a header plate-solved exactly when it was |
| Wcs.ExtractKeepsMinimal | photonfinder/platesolver.py:253-255 | extraction keeps the minimal WCS keywords exactly when they were there |
| Wcs.ExtractKeepsPreSolved | photonfinder/platesolver.py:132-134 | extraction keeps a header pre-solved exactly when it was |
| Wcs.PreSolvedIsPlateSolved | photonfinder/platesolver.py:132-134 | a pre-solved header counts as plate-solved |
| Wcs.CdDecidesBoth | photonfinder/platesolver.py:258-271 | with both CD diagonal cards present, scale and rotation are valid together or not at all |
| Wcs.AstapResult | photonfinder/platesolver.py:126-131 | ASTAP's output is accepted exactly when `PLTSOLVD` is truthy, and then every kept keyword has its solved value |
| Wcs.AstrometryResult | photonfinder/platesolver.py:211-223 | fails exactly when the image lacks `NAXIS1` or `NAXIS2`; otherwise the image sizes, `NAXIS = 2` and every other kept keyword of the answer |
| Wcs.TempHeader | photonfinder/platesolver.py:60-92 | the temporary header has `NAXIS = 2`, drops `NAXIS3`, also drops `COMMENT` and `HISTORY` for XISF, and keeps every other keyword |
| Wcs.CreateHint | photonfinder/platesolver.py:147-157 | position options appear together exactly when both coordinates are truthy, with RA in hours and the south pole distance; `-fov` exactly when the field is non-zero; failure exactly when a truthy coordinate is not a number |
| Wcs.ScaleOf | photonfinder/platesolver.py:166-171 | a truthy `SCALE` is used as given; a scale is computed only when neither `SCALE` nor `PIXSCALE` gives one |
| Wcs.FovOf | photonfinder/platesolver.py:166-178 | without an image height the non-zero fallback field is used |
| Wcs.ExtractHint | photonfinder/platesolver.py:159-180 | a failing field of view makes the hint fail |
| Wcs.ImageCoordsWin | photonfinder/platesolver.py:160-163 | a catalogued position makes the header's own coordinates irrelevant |
| Wcs.FovFromScale | photonfinder/platesolver.py:172-174 | with `SCALE` a number and the height known, the field is height times scale in degrees |
| Wcs.SelectFirstChannel | photonfinder/platesolver.py:274-298 | fails exactly for arrays that are neither 2- nor 3-dimensional; otherwise gives a 2-dimensional array: the input unchanged, or the first channel along the smaller outer axis |
| Wcs.SelectFirstChannelIdempotent | photonfinder/platesolver.py:274-287 | selecting the first channel twice gives the same as once |
| Text.Contains | photonfinder/models.py:434 | the substring test holds exactly when the text occurs somewhere in the string |
| Text.Lower | photonfinder/ui/TelescopiusCompareDialog.py:214 | lower-casing keeps the length and maps each ASCII capital to its small letter |
| Text.Strip | photonfinder/models.py:424 | neither end of the result is whitespace, and it is empty exactly when the input is all whitespace |
| Text.UpperIdempotent | photonfinder/fits_handlers.py:16-17 | upper-casing an upper-cased text changes nothing |
| Text.StripUpper | photonfinder/ui/MetadataReportDialog.py:134 | stripping and upper-casing may be done in either order |
| Text.UpperKeepsEnds | photonfinder/ui/MetadataReportDialog.py:134 | upper-casing keeps a text free of whitespace at both ends |
| Text.SplitJoin | photonfinder/core.py:111 | splitting the `\|`-joined keywords gives back the same list when none contains the separator |
| Text.JoinSplit | photonfinder/core.py:111 | joining the pieces of a split with the separator gives back the text |
| Text.Replace | photonfinder/ui/TelescopiusCompareDialog.py:65 | text without the pattern is unchanged by the replacement |
| Text.ReplaceIsReplaceChar | photonfinder/ui/TelescopiusCompareDialog.py:242 | replacing a one-character string changes exactly the positions holding it |
| Search.Matching | photonfinder/models.py:446-449 | at most the given rows, every one selected by the criteria |
| Search.MatchingMembers | photonfinder/models.py:446-449 | a row is in the result exactly when it is given and selected |
| Search.RunSearch | photonfinder/core.py:29-31 | the query fails exactly when a header criterion is set and some row passing the other filters has no stored header, whose decompression raises inside the database function; otherwise it returns the matching rows |
| Search.MissingKeyIsNoMatch | photonfinder/core.py:29-31 | a stored header without the compared keyword gives `NULL`, so the row is not selected and the search succeeds |
| Search.MissingHeaderRowFails | photonfinder/models.py:419-420 | the left join gives a file without a header row a `NULL` header, and the search then fails |
| Search.NoHeaderTextNeverFails | photonfinder/models.py:419 | without a header criterion the search always returns the matching rows |
| Headers.NumericDateRaises | photonfinder/fits_handlers.py:34-50 | a numeric date value raises `TypeError` out of the fallback parse instead of giving no date |
| Headers.DateTimeOfIntended | photonfinder/fits_handlers.py:34-50 | the intended reading never raises, and a non-text value gives no date |
| Headers.IntendedAgrees | photonfinder/fits_handlers.py:34-50 | the intended reading agrees with the code wherever the code returns, and differs exactly where it raises |
| Template.IdentEnd | photonfinder/ui/ExportDialog.py:75 | a placeholder name is the longest run of identifier characters after the `$` |
| Template.LiteralPrefix | photonfinder/ui/ExportDialog.py:75 | text without `$` is copied and the rest of the template is rendered after it |
| Template.NoPlaceholders | photonfinder/ui/ExportDialog.py:75 | a template without `$` renders as itself under any mapping |
| Template.NamedPlaceholder | photonfinder/ui/ExportDialog.py:75 | `$name` becomes the mapped text, or stays verbatim when the name is unknown |
| Template.BracedPlaceholder | photonfinder/ui/ExportDialog.py:75 | `${name}` becomes the mapped text, or stays verbatim when the name is unknown |
| Template.EscapedDollar | photonfinder/ui/ExportDialog.py:75 | `$$` renders as one `$` |
| Template.TrailingDollar | photonfinder/ui/ExportDialog.py:75 | a `$` starting no placeholder is kept rather than raising |
| Handlers.FirstAcceptingChosen | photonfinder/fits_handlers.py:310-311 | the first handler in order that accepts the header is the one chosen |
| Sessions.TextArg | photonfinder/models.py:172 | an absent text keyword takes its default; a present one is accepted exactly when it is text |
| Sessions.OptTextArg | photonfinder/models.py:172 | an absent optional text keyword takes its default; a present one is accepted exactly when it is text or null |
| Sessions.BoolArg | photonfinder/models.py:172 | an absent flag takes its default; a present one is accepted exactly when it is a boolean |
| Sessions.OptIntArg | photonfinder/models.py:172 | an absent optional integer is none; a present one is accepted exactly when it is an integer or null |
| Sessions.NumberArg | photonfinder/models.py:172 | an absent float takes its default; a present one is accepted exactly when it is a number |
| Sessions.PathsArg | photonfinder/models.py:166-167 | absent paths give the empty list |
| Sessions.InflateAll | photonfinder/ui/session.py:20-22 | one inflated value per element, in order, or a failure caused by some element |
| Sessions.AllRoundTrip | photonfinder/ui/session.py:20-43 | inflating the written list of restorable sessions gives each session back in order |
| Sessions.TextArgsRestore | photonfinder/models.py:122-172 | every text criterion written out is read back unchanged |
| Sessions.PlainArgsRestore | photonfinder/models.py:122-172 | the paths, flags and numbers written out are read back unchanged |
| LegacyExport.LegacyProcessFileAsWritten | astrofilemanager/ui/ExportDialog.py:132-152 | the file is named without the decompress option, so the target ends in the name a plain copy would get |
| LegacyExport.DecompressedCopyKeepsCompressedName | astrofilemanager/ui/ExportDialog.py:132-164 | as written, a compressed file exported decompressed is written as decompressed bytes under its compressed name |
| LegacyExport.LegacyProcessFile | astrofilemanager/ui/ExportDialog.py:132-152 | corrected, the target ends in the name chosen with the decompress option |
| LegacyExport.DecompressedCopyDropsCompressedName | astrofilemanager/ui/ExportDialog.py:33-39 | corrected, the decompressed bytes go under the name without the compressed extension |
| LegacyExport.LegacyNameFollowsContent | astrofilemanager/ui/ExportDialog.py:33-39 | with the option passed on, the name drops the compressed extension exactly when decompressed bytes are written |
| LegacyExport.StripChangesName | astrofilemanager/ui/ExportDialog.py:38-39 | stripping a compressed extension always changes the name |
| LegacyExport.LegacyGetter | astrofilemanager/core.py:67-91 | the legacy settings answer only the header-cache getter; any other getter raises |
| LegacyExport.LegacyLoadSettingsAsWritten | astrofilemanager/ui/ExportDialog.py:220-225 | as written, loading the dialog settings always raises |
| LegacyExport.LegacyDialogCannotLoad | astrofilemanager/ui/ExportDialog.py:220-225 | whatever is stored, the legacy dialog cannot load its settings, and naming a file cannot read the last light path either |
| LegacyExport.LegacySaveSettings | astrofilemanager/ui/ExportDialog.py:241-265 | saving touches only the export path, the decompress flag and the pattern list |
| LegacyExport.LegacySaveLoadRoundTrip | astrofilemanager/ui/ExportDialog.py:220-265 | corrected, the dialog reopens with the saved path and flag and the current pattern first |
| LegacyHandlers.RecordAsWritten | astrofilemanager/fits_handlers.py:62-70 | as written, the set point is passed under a name that is no column, so the record's set point stays empty |
| LegacyHandlers.LegacyNormalizeAsWritten | astrofilemanager/fits_handlers.py:222-230 | as written, an image returned has its file set and no set point |
| LegacyHandlers.AsWrittenRaisesOnConversionError | astrofilemanager/fits_handlers.py:222-230 | as written, a handler returning nothing makes the file assignment raise; corrected, no image |
| LegacyHandlers.NonNumericExposureRaises | astrofilemanager/fits_handlers.py:222-230 | a generic header with `EXPTIME = 'n/a'` raises as written and gives no image corrected |
| LegacyHandlers.NonNumericExposureFails | astrofilemanager/fits_handlers.py:147-194 | the generic handler catches the conversion error of `'n/a'` and returns nothing |
| LegacyHandlers.LegacyNormalizeRaisesIff | astrofilemanager/fits_handlers.py:196-230 | corrected, normalisation raises exactly when choosing a handler raises, and gives no image exactly when the chosen handler fails |
| LegacyHandlers.SetTempStored | astrofilemanager/fits_handlers.py:59-70 | the header's set point is lost as written and stored when corrected |
| LegacyHandlers.GenericDefaults | astrofilemanager/fits_handlers.py:142-194 | a header with none of the keywords gets every default from the generic handler |

## Left out

- Numbers.ParseDecimal: accepts only plain positional decimals with an optional sign and surrounding whitespace. Exponents (`1e3`), `inf`/`nan` and `_` digit separators, which Python's `float()` accepts, are rejected. So `Handlers.NormalizeFitsHeader` gives no image for a text `EXPTIME='1e3'`, where the program would store 1000.0.
- Numbers.ParseInt: accepts only an optional sign and decimal digits with surrounding whitespace. It rejects `_` separators, which Python's `int()` accepts.
- Numbers.DecimalToString: always renders positional notation. Python's `repr` of a float switches to exponent form below 1e-4 and from 1e16 on.
- Numbers: floats are finite decimals. Binary rounding of IEEE doubles is not modelled, so `float(str(x))` is exact here.
- Text.Lower: maps only `A`–`Z`. Python's `str.lower()` also folds non-ASCII letters.
- Text.Upper: maps only `a`–`z`. Python's `str.upper()` also folds non-ASCII letters, so `_upper` of a non-ASCII filter name can differ.
- Text.Strip: removes the characters `str.isspace()` accepts as listed in Python's Unicode tables; no Unicode database is modelled, so a future change to that list is not followed.
- Sessions.SessionsToJson: produces a `Json` value, not the text of `json.dumps(..., sort_keys=True, indent=4)`. Key order and layout are not modelled.
- Sessions.JsonToSessions: takes an already decoded `Json` value. `json.loads` text decoding and its errors are left out.
- Sessions.InflateCriteria: accepts a keyword only when its JSON type matches the field. Python's `SearchCriteria(**d)` does not type-check, so a wrongly typed value would be stored and fail later instead.
- Headers.DateTimeOf: a datetime is an integer count of microseconds on one timeline. Time zones other than UTC offsets, and leap seconds, are not modelled. ISO and `strptime` parsing are passed in as a `DateParsers` record.
- Wcs.CreateHint: the hint holds the numbers ASTAP receives. It does not hold their `str()` renderings, so the text on the command line is not modelled.
- Scanner.ImportAll: the only exception modelled is a failure to list a root. A directory that cannot be listed, or a file that vanishes during the walk, raises in the program but is not modelled.
- Scanner.ImportAll: the scan of one root is a parameter; the program's is `Scanner.SnapshotImporter`, which scans every root against one catalogue snapshot. Each root's scan reads only the rows of its own root, so applying earlier roots' changes first gives the same result. This is stated here, not proved.
- Search.RunSearch: a query with a header criterion fails when a row passes the other filters and has no stored header, because the database function decompresses `NULL`. For a row that some other filter rejects, SQLite's evaluation order decides whether the function runs at all. The model says no failure then.
- Search, Scanner.FindMatch, Scanner.FirstCandidate: `File.rowid` order stands in for the order SQLite returns rows. The database's own joins and `LIKE` escaping are taken as correct.
- Telescopius.Locations: lists locations in first-seen order. The program joins a Python `set`, whose order is arbitrary.
- Telescopius.Enrich: the catalogue search, the angular separation and the sexagesimal rendering of coordinates are passed in as a `Lookup` record, because they come from astropy.
- Handlers: sky positions come from astropy's `SkyCoord` and HEALPix and are passed in as a `Sky` record. A header whose `SWCREATE` or `CREATOR` is present and not text makes `can_handle` raise, which is modelled. The sample header taken from the tests covers only the keywords the handlers read.
- FitsReader: zstd, gzip and xz decompression are not modelled. A compressed file's bytes are taken as already decompressed.
- Export.CopyActionOf: the actual copying, `copystat` and `makedirs` are left out. Only the action chosen for each file is modelled.
- Wcs: running ASTAP or astrometry.net, and writing the temporary FITS or JPEG file, are not modelled. Only the header work before and after the solver is.
- Projects.AddFiles: when the name field is empty, the program fills it with the object name of one added file's image. That query is not modelled. The catalogue lookup of each chosen path is passed in as `find`.
- LegacyTree: the legacy tree reads `library_root.id`, but the legacy `LibraryRoot` has only `rowid`. The corrected tree, reading the row id, is what the members below state; the as-written one is under "## Findings". The `loaded` flag of the all-libraries node is not modelled.
- MainWindow, SearchPanel, LibraryRoots, MetadataReport: Qt widgets, signals, threads and message boxes are left out. Only the state each handler computes is modelled, and message box texts are not.
- The background loader threads of photonfinder/ui/BackgroundLoader.py (not part of this model) are left out. Their results enter as parameters.
- LegacyExport.LegacyTemplateFilename: states the naming the legacy dialog evidently intends. As written every call raises at `settings.get_last_light_path()` (astrofilemanager/ui/ExportDialog.py:63), which `LegacyExport.LegacyTemplateFilenameAsWritten` models; see "## Findings".
- LegacyExport.LegacyAgreesWithoutXisf: compares the corrected legacy naming; as written the legacy naming raises before it can agree with anything.
- LegacyExport.LegacyProcess: processes a file with the corrected legacy naming; as written naming raises first.
- LegacyExport.EmptyTemplateNamesByFile: the empty pattern falls back to the file name only in the corrected naming; as written line 63 raises before the fallback.
- LegacyExport.LegacyProcessFileAsWritten: keeps the missing decompress flag of `_process_file` as written, but names the file with the corrected naming, since as written naming raises first.
- LegacyExport.DecompressedCopyKeepsCompressedName: the kept compressed name is reachable only once the getter at line 63 is fixed, so this finding is latent behind that one.
- LegacyFileNames.Fopen: rebuilds `get_file_exts` from the legacy tests; as written `fopen` raises because the legacy `File` defines no such method, which `LegacyFileNames.FopenAsWritten` models.
- LegacyFileNames.ExtsAgreeWithSplitExt: is about the rebuilt `get_file_exts`, which the legacy `File` does not define.
- LegacyFileNames.FopenAgrees: compares the corrected legacy opener; as written it raises for every name.
- LegacyTree.PathNodesSpec: states the corrected tree; as written the search for the root's node raises on `library_root.id`.
- LegacyTree.FindLibrary: matches library nodes by row id; as written it reads `library_root.id` and raises.
- LegacyTree.PathsLoaded: states the corrected load; as written `LegacyTree.PathsLoadedAsWritten` raises whenever there is a library node.
- LegacyTree.RequestedAtMostOnce: holds for the corrected tree; as written no request is ever made, because `LegacyTree.RowCountAsWritten` raises first.
- LegacyTree.ReloadThenCountRequests: states the corrected expansion; as written expanding a library raises, as `LegacyTree.ReloadThenCountRaisesAsWritten` shows.
- LegacyTree.RowCount: states the corrected count; as written a library root not yet loaded raises on `library_root.id`.
- LibraryRoots.FirstClash: compares row ids; as written the edit check reads `existing.id` (photonfinder/ui/LibraryRootEditDialog.py:94), which `LibraryRoot` does not have, and raises for any row the query finds.
- LibraryRoots.Accept: states the corrected dialog; as written `LibraryRoots.AcceptAsWritten` fails whenever an edit's name or path matches a row.
- LibraryRoots.UnchangedEditSaves: holds for the corrected dialog only; as written saving a root unchanged fails, as `LibraryRoots.UnchangedEditFailsAsWritten` shows.
- MainWindow.Step: states the corrected worker handling. As written a library scan calls `import_roots` (photonfinder/ui/MainWindow.py:694), which the importer does not define, and the class-level `finished` signal shadows the thread's own, so the worker is never cleared; `MainWindow.StepAsWritten` models that.
- MainWindow.ScanRoots: the roots it selects have nowhere to go: `Scanner.ImportAll` scans every listed root and takes no selection.
- MetadataReport.NormalizeKeyword: drops a `HIERARCH ` prefix, strips and upper-cases. astropy's further keyword rules (record-valued keywords, the length limit that decides when `HIERARCH` is implied) are not modelled.
- Changes.NextRowid: the next row id is one past the largest. SQLite's random choice of a row id once the largest 64-bit value is used is not modelled.
- PurePaths.Parse: follows POSIX pure-path rules, where the program's `pathlib.Path` is a Windows path on its target platform (drive letters, `\` as a second separator, `\` in rendered text). The POSIX `//` anchor, kept by pure paths when a path starts with exactly two slashes, is not modelled either.
- Catalogue.PathJoin: is `posixpath.join`. The program calls the platform's `os.path.join` (photonfinder/models.py:255, photonfinder/ui/ExportDialog.py:33 and :159, astrofilemanager/ui/ExportDialog.py:30 and :142), which on Windows also treats `\` and drive letters as separators and anchors, so `os.path.join('C:\\TEMP', 'subdir/', 'a.fits')` gives `C:\TEMP\subdir/a.fits` there.
- FileNames.SplitExt: is `posixpath.splitext`; on Windows `os.path.splitext` also ends the last component at a `\`.
- MetadataReport.FileField: `full_filename` is rendered as a POSIX path with `/`; on Windows `str(Path(...))` renders it with `\`.
- LegacyExport.LegacyCopyAction: astrofilemanager/ui/ExportDialog.py:18 imports `is_compressed` from `filesystem`, which resolves to astrofilemanager/filesystem.py; that module defines `fopen` but no module-level `is_compressed` (only `Importer.is_compressed`), so as written the legacy export dialog's module cannot be imported at all. The model takes the name test `FileNames.IsCompressed` in its place, and so do `LegacyExport.PlainExportName` and the legacy naming; every legacy export finding below is latent behind this import.

## Findings

| source | as written | input that shows it | evidently intended | confidence | as-written member | corrected member |
|---|---|---|---|---|---|---|
| astrofilemanager/fits_handlers.py:222-230 | `image.file = file` runs before `if image:`, so a handler that caught its own conversion error and returned `None` makes normalisation raise `AttributeError` | a header with no software keyword and `EXPTIME = 'n/a'` | the function returns `None` when processing fails, as its docstring says | high, not executed | LegacyHandlers.NonNumericExposureRaises | LegacyHandlers.LegacyNormalizeRaisesIff |
| astrofilemanager/fits_handlers.py:62-70 | every handler passes the set point as `setTemp=`, which is no field of `Image`, so the `set_temp` column stays `NULL` | any header with `SET-TEMP = -18` | the set point is stored in `set_temp` | high, not executed | LegacyHandlers.RecordAsWritten | LegacyHandlers.SetTempStored |
| astrofilemanager/ui/ExportDialog.py:132-152 | `_process_file` names the output without the decompress flag, so a decompressed copy keeps its `.xz`/`.gz` name (latent: reached only once the line-18 import and the line-63 row below are fixed) | `a.fits.xz` exported with decompression on and an empty pattern | the decompressed file is written as `a.fits` | high, not executed | LegacyExport.DecompressedCopyKeepsCompressedName | LegacyExport.DecompressedCopyDropsCompressedName |
| astrofilemanager/ui/ExportDialog.py:220-225 | `load_settings` calls `get_last_export_path` on a `Settings` class that has only the header-cache accessors, so opening the dialog raises `AttributeError` (latent behind the failing import at line 18) | any settings store | the dialog reopens with the saved path, flag and patterns | high, not executed | LegacyExport.LegacyDialogCannotLoad | LegacyExport.LegacySaveLoadRoundTrip |
| photonfinder/ui/ProjectsWindow.py:98-110 | merging re-points every project link to the leader, which breaks the unique index on (project, file) when two merged projects share a file | projects 1 and 2 both holding file 7, merged into 1 | shared files are kept once in the merged project | medium, not executed | Projects.SharedFileBlocksMerge | Projects.MergeUnitesFiles |
| photonfinder/fits_handlers.py:34-50 | `_datetime` of a number fails `replace` with `AttributeError`, which is caught, and then `strptime` raises `TypeError`, which is not caught | `DATE-OBS = 20240101` stored as an integer | a value that cannot be parsed gives no date, as for text | medium, not executed | Headers.NumericDateRaises | Headers.IntendedAgrees |
| astrofilemanager/ui/ExportDialog.py:63 | `template_filename` calls `settings.get_last_light_path()`, which the legacy `Settings` does not define, so every export naming raises `AttributeError` (latent behind the failing import at line 18) | a file without an image and the empty pattern | the file is named by its own name, or by the rendered pattern | high, not executed | LegacyExport.LegacyNamingRaisesAsWritten | LegacyExport.LegacyTemplateFilename |
| photonfinder/ui/LibraryRootEditDialog.py:92-100 | the edit check compares `existing.id`, but `LibraryRoot` has only `rowid`, so an edit whose name or path matches any row raises and nothing is saved | saving an existing root with its name and path unchanged | the root itself is no clash, and the edit is saved | high, not executed | LibraryRoots.UnchangedEditFailsAsWritten | LibraryRoots.UnchangedEditSaves |
| astrofilemanager/ui/LibraryTreeModel.py:368-373 | expanding a library reads `library_root.id`, which the legacy `LibraryRoot` does not have, so it raises and the root's paths are never requested | expanding any library root after a reload | the paths of the root are requested once and shown | high, not executed | LegacyTree.ReloadThenCountRaisesAsWritten | LegacyTree.ReloadThenCountRequests |
| astrofilemanager/filesystem.py:17-18 | `fopen` calls `get_file_exts()`, which neither the legacy `File` nor a path text defines, so opening any file raises (its only caller, astrofilemanager/ui/ExportDialog.py:159, is latent behind the failing import at line 18 of that file) | `a.fits.xz` | the decompressor named by the last extension opens the file | high, not executed | LegacyFileNames.CompressedOpenRaisesAsWritten | LegacyFileNames.FopenAgrees |
| photonfinder/ui/MainWindow.py:685-694 | a library scan calls `import_roots`, which the importer does not define, so `run` raises before its own `finished`, and that class-level signal shadows the thread's, so the worker is never cleared | scanning a library, then scanning again | the finished scan clears the worker and the next scan starts | medium, not executed | MainWindow.ScanNeverClearedAsWritten | MainWindow.Step |

=== FILE: catalogue.dfy ===
/**
 * The catalogue records of photonfinder/models.py: library roots, files, project links,
 * and the path conventions the database uses (relative directory paths with `/`
 * separators and a trailing `/`, the empty string for a root's top directory).
 */
module Catalogue {
  import opened Wrappers
  import opened Text

  datatype LibraryRoot = LibraryRoot(rowid: int, name: string, path: string)

  /** `LibraryRoot.__eq__`: two roots are equal when name and path are. */
  predicate SameRoot(a: LibraryRoot, b: LibraryRoot) {
    a.name == b.name && a.path == b.path
  }

  /** Root equality ignores the row id and nothing else. */
  lemma SameRootIgnoresRowid(a: LibraryRoot, b: LibraryRoot)
    ensures SameRoot(a, b) <==> a.(rowid := 0) == b.(rowid := 0)
  {
  }

  /** A catalogue row: root id, directory path relative to the root, name, size, mtime in ms. */
  datatype FileRecord = FileRecord(rowid: int, root: int, path: string, name: string, size: int, mtime: int)

  /** The unique (root, path, name) key of the file table. */
  function Key(f: FileRecord): (int, string, string) {
    (f.root, f.path, f.name)
  }

  predicate UniqueKeys(files: seq<FileRecord>) {
    forall i, j :: 0 <= i < j < |files| ==> Key(files[i]) != Key(files[j])
  }

  predicate UniqueRowids(files: seq<FileRecord>) {
    forall i, j :: 0 <= i < j < |files| ==> files[i].rowid != files[j].rowid
  }

  /** A search location: a root (or none for all libraries) and a directory under it. */
  datatype RootAndPath = RootAndPath(rootId: Option<int>, rootLabel: string, path: Option<string>)

  /** `RootAndPath.__str__`: `label/path` for a non-empty path, the label alone otherwise. */
  function RootAndPathText(rp: RootAndPath): (r: string)
    ensures rp.rootLabel <= r
    ensures |r| == |rp.rootLabel| || r[|rp.rootLabel|] == '/'
  {
    if rp.path.Some? && rp.path.value != "" then rp.rootLabel + "/" + rp.path.value
    else rp.rootLabel
  }

  /**
   * For a label without `/` the rendering can be read back: the text up to the first
   * `/` is the label and the rest is the path; without a `/` the path was empty.
   */
  lemma RootAndPathTextParses(rp: RootAndPath)
    requires '/' !in rp.rootLabel
    ensures var r := RootAndPathText(rp);
            match IndexOf(r, '/')
            case None => r == rp.rootLabel && (rp.path.None? || rp.path == Some(""))
            case Some(i) => r[..i] == rp.rootLabel && rp.path == Some(r[i + 1..]) && r[i + 1..] != ""
  {
    var r := RootAndPathText(rp);
    if rp.path.Some? && rp.path.value != "" {
      IndexOfAfter(rp.rootLabel, '/', rp.path.value);
      assert r == rp.rootLabel + ['/'] + rp.path.value;
      assert r[|rp.rootLabel| + 1..] == rp.path.value;
    }
  }

  /** `norm_db_path_sep`: backslashes become slashes. */
  function NormDbPathSep(p: string): (r: string)
    ensures |r| == |p| && '\\' !in r
    ensures forall i :: 0 <= i < |p| && p[i] != '\\' ==> r[i] == p[i]
  {
    ReplaceChar(p, '\\', '/')
  }

  /**
   * `norm_db_path`: None stays None, `""` and `"."` become `""`, anything else gets
   * `/` separators and exactly one added trailing `/` when it lacks one.
   */
  function NormDbPath(p: Option<string>): (r: Option<string>)
    ensures r.None? <==> p.None?
    ensures p == Some("") || p == Some(".") ==> r == Some("")
    ensures r.Some? ==> '\\' !in r.value
    ensures r.Some? && r.value != "" ==> r.value[|r.value| - 1] == '/'
    ensures p.Some? && p.value != "" && p.value != "." ==>
              NormDbPathSep(p.value) <= r.value && |r.value| <= |p.value| + 1
  {
    match p
    case None => None
    case Some(s) =>
      if s == "" || s == "." then Some("")
      else
        var t := NormDbPathSep(s);
        Some(if t[|t| - 1] != '/' then t + "/" else t)
  }

  lemma NormDbPathSepNoop(p: string)
    requires '\\' !in p
    ensures NormDbPathSep(p) == p
  {
  }

  /** Normalising a normalised path changes nothing. */
  lemma NormDbPathIdempotent(p: Option<string>)
    ensures NormDbPath(NormDbPath(p)) == NormDbPath(p)
  {
    var r := NormDbPath(p);
    if r.Some? && r.value != "" {
      NormDbPathSepNoop(r.value);
      assert r.value != "." by {
        assert r.value[|r.value| - 1] == '/';
      }
    }
  }

  /** `posixpath.join(a, b)`: an absolute `b` replaces `a`; otherwise one `/` separates them. */
  function PathJoin(a: string, b: string): string {
    if |b| > 0 && b[0] == '/' then b
    else if a == "" || a[|a| - 1] == '/' then a + b
    else a + "/" + b
  }

  /** The joined path ends with `b`, and starts with `a` unless `b` is absolute. */
  lemma PathJoinShape(a: string, b: string)
    ensures EndsWith(PathJoin(a, b), b)
    ensures b == [] || b[0] != '/' ==> a <= PathJoin(a, b)
  {
  }

  /** `File.full_filename`: the root's path, the directory and the name joined. */
  function FullFilename(rootPath: string, f: FileRecord): string {
    PathJoin(PathJoin(rootPath, f.path), f.name)
  }

  /** A directory path as the catalogue stores it: empty, or relative and ending in `/`. */
  predicate IsDbDir(p: string) {
    p == "" || (p[0] != '/' && p[|p| - 1] == '/')
  }

  /**
   * For a stored directory and a plain name, the full name is the root path, one `/`,
   * then directory and name with no further separator.
   */
  lemma FullFilenameOfStored(rootPath: string, f: FileRecord)
    requires rootPath != "" && rootPath[|rootPath| - 1] != '/'
    requires IsDbDir(f.path)
    requires f.name != "" && f.name[0] != '/'
    ensures FullFilename(rootPath, f) == rootPath + "/" + f.path + f.name
  {
    var d := PathJoin(rootPath, f.path);
    assert d == rootPath + "/" + f.path;
    assert d[|d| - 1] == '/';
  }

  lemma NormDbPathIsDbDir(p: string)
    requires p == "" || (p[0] != '/' && p[0] != '\\')
    ensures IsDbDir(NormDbPath(Some(p)).value)
  {
  }

  // ---------------------------------------------------------------------------
  // Project links.

  /** A project link; `rowid` is None until it is saved. */
  datatype ProjectFile = ProjectFile(rowid: Option<int>, project: int, file: int)

  /** `ProjectFile.__eq__`: saved links compare by row id, unsaved ones by (project, file). */
  predicate LinkEq(a: ProjectFile, b: ProjectFile) {
    if a.rowid.Some? || b.rowid.Some? then a.rowid.Some? && a.rowid == b.rowid
    else a.project == b.project && a.file == b.file
  }

  datatype LinkHash = ById(id: int) | ByPair(project: int, file: int)

  /** `ProjectFile.__hash__`. */
  function LinkHashOf(a: ProjectFile): LinkHash {
    if a.rowid.Some? then ById(a.rowid.value) else ByPair(a.project, a.file)
  }

  /**
   * Equality and hash agree, equality is an equivalence, and two unsaved links are
   * equal exactly when they link the same file to the same project.
   */
  lemma LinkEqConsistent(a: ProjectFile, b: ProjectFile, c: ProjectFile)
    ensures LinkEq(a, b) ==> LinkHashOf(a) == LinkHashOf(b)
    ensures LinkEq(a, a)
    ensures LinkEq(a, b) ==> LinkEq(b, a)
    ensures LinkEq(a, b) && LinkEq(b, c) ==> LinkEq(a, c)
    ensures a.rowid.None? && b.rowid.None? ==> (LinkEq(a, b) <==> (a.project, a.file) == (b.project, b.file))
  {
  }

  /**
   * `File.remove_already_mapped`: the selected files that are not yet linked to the
   * project, in their original order.
   */
  function RemoveAlreadyMapped(project: int, selected: seq<FileRecord>, links: set<(int, int)>): (r: seq<FileRecord>)
    ensures forall i :: 0 <= i < |r| ==> (project, r[i].rowid) !in links
    ensures |r| <= |selected|
  {
    if |selected| == 0 then []
    else
      var rest := RemoveAlreadyMapped(project, selected[..|selected| - 1], links);
      var f := selected[|selected| - 1];
      if (project, f.rowid) in links then rest else rest + [f]
  }

  /** The kept files are exactly the selected files not yet linked to the project. */
  lemma {:induction false} RemoveAlreadyMappedMembers(project: int, selected: seq<FileRecord>, links: set<(int, int)>)
    ensures forall f :: f in RemoveAlreadyMapped(project, selected, links) <==> f in selected && (project, f.rowid) !in links
    decreases |selected|
  {
    if |selected| > 0 {
      var init := selected[..|selected| - 1];
      RemoveAlreadyMappedMembers(project, init, links);
      assert selected == init + [selected[|selected| - 1]];
    }
  }

  lemma RemoveAlreadyMappedLast(project: int, s: seq<FileRecord>, links: set<(int, int)>)
    requires |s| > 0
    ensures RemoveAlreadyMapped(project, s, links)
            == RemoveAlreadyMapped(project, s[..|s| - 1], links)
               + (if (project, s[|s| - 1].rowid) in links then [] else [s[|s| - 1]])
  {
  }

  /** Filtering distributes over concatenation, so the relative order is kept. */
  lemma {:induction false} RemoveAlreadyMappedConcat(project: int, a: seq<FileRecord>, b: seq<FileRecord>, links: set<(int, int)>)
    ensures RemoveAlreadyMapped(project, a + b, links)
            == RemoveAlreadyMapped(project, a, links) + RemoveAlreadyMapped(project, b, links)
    decreases |b|
  {
    if |b| == 0 {
      assert a + b == a;
    } else {
      var b' := b[..|b| - 1];
      RemoveAlreadyMappedConcat(project, a, b', links);
      RemoveAlreadyMappedLast(project, a + b, links);
      RemoveAlreadyMappedLast(project, b, links);
      assert (a + b)[..|a + b| - 1] == a + b';
      assert (a + b)[|a + b| - 1] == b[|b| - 1];
    }
  }

  /** Removing the already linked files a second time removes nothing more. */
  lemma {:induction false} RemoveAlreadyMappedIdempotent(project: int, s: seq<FileRecord>, links: set<(int, int)>)
    ensures RemoveAlreadyMapped(project, RemoveAlreadyMapped(project, s, links), links)
            == RemoveAlreadyMapped(project, s, links)
    decreases |s|
  {
    if |s| > 0 {
      var init := s[..|s| - 1];
      var f := s[|s| - 1];
      var rest := RemoveAlreadyMapped(project, init, links);
      RemoveAlreadyMappedIdempotent(project, init, links);
      if (project, f.rowid) !in links {
        RemoveAlreadyMappedConcat(project, rest, [f], links);
        assert RemoveAlreadyMapped(project, [f], links) == [f] by {
          assert [f][..0] == [];
        }
      }
    }
  }

  // ---------------------------------------------------------------------------
  // `auto_str` of the legacy models.

  /** The `k=v` texts of the fields, in order. */
  function FieldTexts(fields: seq<(string, string)>): (r: seq<string>)
    ensures |r| == |fields|
    ensures forall i :: 0 <= i < |fields| ==> r[i] == fields[i].0 + "=" + fields[i].1
  {
    if |fields| == 0 then [] else [fields[0].0 + "=" + fields[0].1] + FieldTexts(fields[1..])
  }

  /** `Class(k=v, ...)` over the record's fields in order. */
  function AutoStr(className: string, fields: seq<(string, string)>): (r: string)
    ensures className + "(" <= r && r[|r| - 1] == ')'
    ensures fields == [] ==> r == className + "()"
  {
    className + "(" + Join(FieldTexts(fields), ", ") + ")"
  }

  /** The rendering of a root with name and path set (tests/test_core.py). */
  lemma AutoStrLibraryRoot()
    ensures AutoStr("LibraryRoot", [("name", "dummy"), ("path", "C:\\TEMP")])
            == "LibraryRoot(name=dummy, path=C:\\TEMP)"
  {
    AutoStrTwo("LibraryRoot", "name", "dummy", "path", "C:\\TEMP");
    assert "LibraryRoot" + "(" + "name" + "=" + "dummy" == "LibraryRoot(name=dummy";
    assert "LibraryRoot(name=dummy" + ", " + "path" + "=" + "C:\\TEMP" + ")" == "LibraryRoot(name=dummy, path=C:\\TEMP)";
  }

  /** A record with two fields renders as `Class(k1=v1, k2=v2)`. */
  lemma AutoStrTwo(className: string, k1: string, v1: string, k2: string, v2: string)
    ensures AutoStr(className, [(k1, v1), (k2, v2)]) == className + "(" + k1 + "=" + v1 + ", " + k2 + "=" + v2 + ")"
  {
    var items := FieldTexts([(k1, v1), (k2, v2)]);
    assert items == [k1 + "=" + v1] + [k2 + "=" + v2];
    JoinCons(k1 + "=" + v1, [k2 + "=" + v2], ", ");
  }
}

=== FILE: changes.dfy ===
/**
 * The change lists a library scan produces and how they are written to the catalogue
 * (`ChangeList` in photonfinder/filesystem.py and astrofilemanager/filesystem.py).
 * The catalogue is a map from row id to file row, plus the row ids that have an
 * image record, a cached header and a stored WCS, and the project links.
 */
module Changes {
  import opened Wrappers
  import opened Catalogue

  datatype ChangeList = ChangeList(
    newFiles: seq<FileRecord>,
    removedFiles: seq<FileRecord>,
    changedIds: seq<int>,
    changedFiles: seq<FileRecord>)

  const NoChanges := ChangeList([], [], [], [])

  /** `ChangeList.merge`: each list of `b` appended to the same list of `a`. */
  function Merge(a: ChangeList, b: ChangeList): (r: ChangeList)
    ensures |r.newFiles| == |a.newFiles| + |b.newFiles| && a.newFiles <= r.newFiles
    ensures |r.removedFiles| == |a.removedFiles| + |b.removedFiles| && a.removedFiles <= r.removedFiles
    ensures |r.changedIds| == |a.changedIds| + |b.changedIds| && a.changedIds <= r.changedIds
    ensures |r.changedFiles| == |a.changedFiles| + |b.changedFiles| && a.changedFiles <= r.changedFiles
  {
    ChangeList(a.newFiles + b.newFiles, a.removedFiles + b.removedFiles,
               a.changedIds + b.changedIds, a.changedFiles + b.changedFiles)
  }

  /** Merging is associative and the empty change list is neutral on both sides. */
  lemma MergeMonoid(a: ChangeList, b: ChangeList, c: ChangeList)
    ensures Merge(Merge(a, b), c) == Merge(a, Merge(b, c))
    ensures Merge(NoChanges, a) == a && Merge(a, NoChanges) == a
  {
    assert a.newFiles + [] == a.newFiles && a.removedFiles + [] == a.removedFiles;
    assert a.changedIds + [] == a.changedIds && a.changedFiles + [] == a.changedFiles;
    assert Merge(Merge(a, b), c).newFiles == Merge(a, Merge(b, c)).newFiles;
    assert Merge(Merge(a, b), c).removedFiles == Merge(a, Merge(b, c)).removedFiles;
    assert Merge(Merge(a, b), c).changedIds == Merge(a, Merge(b, c)).changedIds;
    assert Merge(Merge(a, b), c).changedFiles == Merge(a, Merge(b, c)).changedFiles;
  }

  /** The catalogue tables touched by applying a change list. */
  datatype Db = Db(
    files: map<int, FileRecord>,
    images: set<int>,
    headers: set<int>,
    wcs: set<int>,
    links: set<(int, int)>)

  /** Row ids agree with the map and keys are unique. */
  predicate Valid(db: Db) {
    && (forall id :: id in db.files ==> db.files[id].rowid == id)
    && (forall a, b :: a in db.files && b in db.files && a != b ==> Key(db.files[a]) != Key(db.files[b]))
  }

  predicate IsLargest(s: set<int>, m: int) {
    m in s && forall x :: x in s ==> x <= m
  }

  /** The largest member of a non-empty set. */
  function Largest(s: set<int>): (m: int)
    requires s != {}
    ensures IsLargest(s, m)
  {
    assert IsLargest(s, SomeLargest(s));
    var m :| IsLargest(s, m);
    m
  }

  /** A largest member, found by taking one member out at a time. */
  ghost function SomeLargest(s: set<int>): (m: int)
    requires s != {}
    ensures IsLargest(s, m)
  {
    HasMember(s);
    var x :| x in s;
    if s == {x} then x
    else
      var n := SomeLargest(s - {x});
      assert forall y :: y in s ==> y == x || y in s - {x};
      if n < x then x else n
  }

  lemma HasMember(s: set<int>)
    requires s != {}
    ensures exists x :: x in s
  {
    NoMemberIsEmpty(s);
  }

  lemma NoMemberIsEmpty(s: set<int>)
    ensures (forall x :: x !in s) ==> s == {}
  {
    if forall x :: x !in s {
      assert forall x :: x in s <==> x in {};
    }
  }

  /**
   * The row id SQLite gives an insert into a table without AUTOINCREMENT: one past the
   * largest row id present, or 1 in an empty table. A deleted largest row id is handed
   * out again.
   */
  function NextRowid(ids: set<int>): (r: int)
    ensures forall id :: id in ids ==> id < r
    ensures r - 1 in ids || (ids == {} && r == 1)
  {
    if ids == {} then 1 else Largest(ids) + 1
  }

  /** Adding the id handed out moves the next one on by one. */
  lemma NextRowidAfterInsert(ids: set<int>)
    ensures NextRowid(ids + {NextRowid(ids)}) == NextRowid(ids) + 1
  {
  }

  /** Deleting a row below the largest leaves the next row id as it was. */
  lemma NextRowidKeptBelowLargest(ids: set<int>, id: int)
    requires id + 1 < NextRowid(ids)
    ensures NextRowid(ids - {id}) == NextRowid(ids)
  {
    if ids == {} {
      assert ids - {id} == {};
    } else {
      assert NextRowid(ids) - 1 in ids - {id};
    }
  }

  /**
   * With positive row ids, deleting the row that holds the largest one makes the next
   * row id handed out no larger than the deleted one: it may be handed out again.
   */
  lemma NextRowidReusesLargest(ids: set<int>)
    requires ids != {} && forall id :: id in ids ==> 0 < id
    ensures NextRowid(ids - {NextRowid(ids) - 1}) <= NextRowid(ids) - 1
  {
    var top := NextRowid(ids) - 1;
    if ids - {top} != {} {
      assert NextRowid(ids - {top}) - 1 in ids;
    }
  }

  predicate KeyUsed(files: map<int, FileRecord>, k: (int, string, string)) {
    exists id :: id in files && Key(files[id]) == k
  }

  predicate KeyTaken(files: map<int, FileRecord>, k: (int, string, string), except: int) {
    exists id :: id in files && id != except && Key(files[id]) == k
  }

  /** An insert: the unique key rejects a second row with the same (root, path, name). */
  function Insert(db: Db, f: FileRecord): (r: Result<Db, string>)
    ensures r.Failure? <==> KeyUsed(db.files, Key(f))
    ensures r.Success? ==> var id := NextRowid(db.files.Keys);
                           id !in db.files && r.value.files == db.files[id := f.(rowid := id)]
    ensures r.Success? ==> NextRowid(r.value.files.Keys) == NextRowid(db.files.Keys) + 1
    ensures r.Success? ==> r.value.(files := db.files) == db
  {
    if KeyUsed(db.files, Key(f)) then Failure("UNIQUE constraint failed")
    else
      var id := NextRowid(db.files.Keys);
      assert db.files[id := f.(rowid := id)].Keys == db.files.Keys + {id};
      NextRowidAfterInsert(db.files.Keys);
      Success(db.(files := db.files[id := f.(rowid := id)]))
  }

  lemma InsertValid(db: Db, f: FileRecord)
    requires Valid(db)
    ensures Insert(db, f).Success? ==> Valid(Insert(db, f).value)
  {
  }

  /** New files inserted one after the other; the first clash aborts. */
  function InsertAll(db: Db, fs: seq<FileRecord>): (r: Result<Db, string>)
    ensures r.Success? ==> NextRowid(r.value.files.Keys) == NextRowid(db.files.Keys) + |fs|
    ensures r.Success? ==> r.value.(files := db.files) == db
    decreases |fs|
  {
    if |fs| == 0 then Success(db)
    else match Insert(db, fs[0])
      case Failure(e) => Failure(e)
      case Success(d) =>
        var r := InsertAll(d, fs[1..]);
        r
  }

  /** Every row an insert run adds lies between the old and the new next row id. */
  lemma {:induction false} InsertAllNewRows(db: Db, fs: seq<FileRecord>)
    ensures InsertAll(db, fs).Success? ==>
              forall id :: id in InsertAll(db, fs).value.files ==>
                id in db.files || NextRowid(db.files.Keys) <= id < NextRowid(InsertAll(db, fs).value.files.Keys)
    decreases |fs|
  {
    if |fs| > 0 && Insert(db, fs[0]).Success? {
      InsertAllNewRows(Insert(db, fs[0]).value, fs[1..]);
    }
  }

  /** Inserting `a + b` is inserting `a`, then `b` into the result. */
  lemma {:induction false} InsertAllAppend(db: Db, a: seq<FileRecord>, b: seq<FileRecord>)
    ensures InsertAll(db, a + b) == (match InsertAll(db, a)
                                     case Failure(e) => Failure(e)
                                     case Success(d) => InsertAll(d, b))
    decreases |a|
  {
    if |a| > 0 {
      assert (a + b)[0] == a[0] && (a + b)[1..] == a[1..] + b;
      match Insert(db, a[0])
      case Failure(_) =>
      case Success(d) => InsertAllAppend(d, a[1..], b);
    } else {
      assert a + b == b;
    }
  }

  /** The `k`-th new file is stored under the next row id plus `k`. */
  lemma InsertAllPlaces(db: Db, fs: seq<FileRecord>, k: nat)
    requires k < |fs|
    ensures InsertAll(db, fs).Success? ==>
              var id := NextRowid(db.files.Keys) + k;
              id in InsertAll(db, fs).value.files && InsertAll(db, fs).value.files[id] == fs[k].(rowid := id)
  {
    if InsertAll(db, fs).Success? {
      PlacedAt(db, fs, k);
    }
  }

  /** The catalogue holds file `f` under row id `id`, with the row id filled in. */
  predicate Placed(d: Db, id: int, f: FileRecord) {
    id in d.files && d.files[id] == f.(rowid := id)
  }

  lemma {:induction false} PlacedAt(db: Db, fs: seq<FileRecord>, k: nat)
    requires k < |fs| && InsertAll(db, fs).Success?
    ensures Placed(InsertAll(db, fs).value, NextRowid(db.files.Keys) + k, fs[k])
    decreases k
  {
    if k == 0 {
      FirstPlaced(db, fs, InsertAll(db, fs).value);
    } else {
      InsertAllUncons(db, fs);
      var d1 := Insert(db, fs[0]).value;
      PlacedAt(d1, fs[1..], k - 1);
      PlacedShift(db, d1, InsertAll(db, fs).value, fs, k);
    }
  }

  /** Placement after the first insert, shifted back by that insert's one row id. */
  lemma PlacedShift(db: Db, d1: Db, res: Db, fs: seq<FileRecord>, k: nat)
    requires 0 < k < |fs|
    requires NextRowid(d1.files.Keys) == NextRowid(db.files.Keys) + 1
    requires Placed(res, NextRowid(d1.files.Keys) + (k - 1), fs[1..][k - 1])
    ensures Placed(res, NextRowid(db.files.Keys) + k, fs[k])
  {
  }

  /** The first file of a successful run of inserts is stored under the next row id. */
  lemma FirstPlaced(d: Db, fs: seq<FileRecord>, res: Db)
    requires |fs| > 0 && InsertAll(d, fs) == Success(res)
    ensures Placed(res, NextRowid(d.files.Keys), fs[0])
  {
    InsertAllUncons(d, fs);
    var d1 := Insert(d, fs[0]).value;
    InsertAllKeeps(d1, fs[1..], res, NextRowid(d.files.Keys));
  }

  /** A successful run of inserts starts with a successful insert of the first file. */
  lemma InsertAllUncons(db: Db, fs: seq<FileRecord>)
    requires |fs| > 0 && InsertAll(db, fs).Success?
    ensures Insert(db, fs[0]).Success? && InsertAll(Insert(db, fs[0]).value, fs[1..]) == InsertAll(db, fs)
  {
  }

  lemma {:induction false} InsertAllValid(db: Db, fs: seq<FileRecord>)
    requires Valid(db)
    ensures InsertAll(db, fs).Success? ==> Valid(InsertAll(db, fs).value)
    decreases |fs|
  {
    if |fs| > 0 {
      InsertValid(db, fs[0]);
      var d := Insert(db, fs[0]);
      if d.Success? {
        InsertAllValid(d.value, fs[1..]);
      }
    }
  }

  /** `delete_instance` / `delete_by_id`: the row and, by cascade, its image, header, WCS and links. */
  function Delete(db: Db, id: int): (r: Db)
    ensures r.files.Keys == db.files.Keys - {id}
    ensures forall k :: k in r.files ==> r.files[k] == db.files[k]
    ensures r.images == db.images - {id} && r.headers == db.headers - {id} && r.wcs == db.wcs - {id}
    ensures r.links == set l | l in db.links && l.1 != id
  {
    db.(files := db.files - {id}, images := db.images - {id}, headers := db.headers - {id},
        wcs := db.wcs - {id}, links := set l | l in db.links && l.1 != id)
  }

  function Rowids(fs: seq<FileRecord>): (r: set<int>)
    ensures forall id :: id in r <==> exists k :: 0 <= k < |fs| && fs[k].rowid == id
  {
    set k | 0 <= k < |fs| :: fs[k].rowid
  }

  /** The removed rows deleted one after the other. */
  function DeleteAll(db: Db, ids: seq<int>): (r: Db)
    ensures r.files.Keys == db.files.Keys - set k | k in ids
    ensures forall k :: k in r.files ==> r.files[k] == db.files[k]
    ensures r.images == db.images - (set k | k in ids)
    ensures r.headers == db.headers - (set k | k in ids)
    ensures r.wcs == db.wcs - (set k | k in ids)
    ensures r.links == set l | l in db.links && l.1 !in ids
    decreases |ids|
  {
    if |ids| == 0 then db
    else
      var r := DeleteAll(Delete(db, ids[0]), ids[1..]);
      assert forall k :: k in ids <==> k == ids[0] || k in ids[1..];
      r
  }

  lemma DeleteAllValid(db: Db, ids: seq<int>)
    requires Valid(db)
    ensures Valid(DeleteAll(db, ids))
  {
  }

  /**
   * `file.save()` of a changed row, then dropping its image, header and WCS records so
   * they are rebuilt; its project links stay. Saving under a key another row holds fails.
   */
  function Save(db: Db, c: FileRecord): (r: Result<Db, string>)
    ensures r.Failure? <==> c.rowid in db.files && KeyTaken(db.files, Key(c), c.rowid)
    ensures r.Success? ==> r.value.files.Keys == db.files.Keys
    ensures r.Success? ==> forall k :: k in db.files && k != c.rowid ==> r.value.files[k] == db.files[k]
    ensures r.Success? && c.rowid in db.files ==> r.value.files[c.rowid] == c
    ensures r.Success? ==> r.value.images == db.images - {c.rowid}
    ensures r.Success? ==> r.value.headers == db.headers - {c.rowid} && r.value.wcs == db.wcs - {c.rowid}
    ensures r.Success? ==> r.value.links == db.links
  {
    if c.rowid in db.files && KeyTaken(db.files, Key(c), c.rowid) then
      Failure("UNIQUE constraint failed")
    else
      var files := if c.rowid in db.files then db.files[c.rowid := c] else db.files;
      Success(db.(files := files, images := db.images - {c.rowid}, headers := db.headers - {c.rowid},
                  wcs := db.wcs - {c.rowid}))
  }

  lemma SaveValid(db: Db, c: FileRecord)
    requires Valid(db)
    ensures Save(db, c).Success? ==> Valid(Save(db, c).value)
  {
  }

  /** The changed rows saved one after the other; the first clash aborts. */
  function SaveAll(db: Db, cs: seq<FileRecord>): (r: Result<Db, string>)
    ensures r.Success? ==> r.value.files.Keys == db.files.Keys
    ensures r.Success? ==> forall k :: k in db.files && k !in Rowids(cs) ==> r.value.files[k] == db.files[k]
    ensures r.Success? ==> r.value.images == db.images - Rowids(cs)
    ensures r.Success? ==> r.value.headers == db.headers - Rowids(cs) && r.value.wcs == db.wcs - Rowids(cs)
    ensures r.Success? ==> r.value.links == db.links
    decreases |cs|
  {
    if |cs| == 0 then Success(db)
    else match Save(db, cs[0])
      case Failure(e) => Failure(e)
      case Success(d) =>
        var r := SaveAll(d, cs[1..]);
        assert Rowids(cs) == {cs[0].rowid} + Rowids(cs[1..]) by {
          assert forall k :: 1 <= k < |cs| ==> cs[k] == cs[1..][k - 1];
        }
        r
  }

  lemma {:induction false} SaveAllValid(db: Db, cs: seq<FileRecord>)
    requires Valid(db)
    ensures SaveAll(db, cs).Success? ==> Valid(SaveAll(db, cs).value)
    decreases |cs|
  {
    if |cs| > 0 {
      SaveValid(db, cs[0]);
      var d := Save(db, cs[0]);
      if d.Success? {
        SaveAllValid(d.value, cs[1..]);
      }
    }
  }

  predicate DistinctRowids(cs: seq<FileRecord>) {
    forall i, j :: 0 <= i < j < |cs| ==> cs[i].rowid != cs[j].rowid
  }

  /** With distinct row ids every changed row present in the catalogue ends up as saved. */
  lemma {:induction false} SaveAllStores(db: Db, cs: seq<FileRecord>)
    requires DistinctRowids(cs)
    ensures SaveAll(db, cs).Success? ==>
              forall k :: 0 <= k < |cs| && cs[k].rowid in db.files ==> SaveAll(db, cs).value.files[cs[k].rowid] == cs[k]
    decreases |cs|
  {
    if |cs| > 0 {
      var d := Save(db, cs[0]);
      if d.Success? {
        var rest := cs[1..];
        assert DistinctRowids(rest) by {
          forall i, j | 0 <= i < j < |rest| ensures rest[i].rowid != rest[j].rowid {
            assert rest[i] == cs[i + 1] && rest[j] == cs[j + 1];
          }
        }
        SaveAllStores(d.value, rest);
        assert cs[0].rowid !in Rowids(rest) by {
          forall k | 0 <= k < |rest| ensures rest[k].rowid != cs[0].rowid {
            assert rest[k] == cs[k + 1];
          }
        }
        forall k | 0 <= k < |cs| && cs[k].rowid in db.files && SaveAll(db, cs).Success?
          ensures SaveAll(db, cs).value.files[cs[k].rowid] == cs[k]
        {
          if k > 0 {
            assert cs[k] == rest[k - 1];
          }
        }
      }
    }
  }

  /** The row ids of the removed files, in order. */
  function RemovedIds(cl: ChangeList): (r: seq<int>)
    ensures (set k | k in r) == Rowids(cl.removedFiles)
    ensures forall id :: id in r <==> id in Rowids(cl.removedFiles)
  {
    var r := seq(|cl.removedFiles|, k requires 0 <= k < |cl.removedFiles| => cl.removedFiles[k].rowid);
    assert forall id :: id in r <==> id in Rowids(cl.removedFiles) by {
      forall id ensures id in r <==> id in Rowids(cl.removedFiles) {
        if id in Rowids(cl.removedFiles) {
          var k :| 0 <= k < |cl.removedFiles| && cl.removedFiles[k].rowid == id;
          assert r[k] == id;
        }
      }
    }
    r
  }

  /**
   * `ChangeList.apply_all`, one transaction: insert the new files, delete the removed
   * ones, save the changed ones. Any failure rolls everything back, so the caller keeps
   * the catalogue it had.
   */
  function ApplyAll(db: Db, cl: ChangeList): (r: Result<Db, string>)
    ensures r.Success? ==> r.value.files.Keys !! Rowids(cl.removedFiles)
    ensures r.Success? ==> r.value.links == set l | l in db.links && l.1 !in Rowids(cl.removedFiles)
    ensures r.Success? ==> r.value.images == db.images - Rowids(cl.removedFiles) - Rowids(cl.changedFiles)
    ensures r.Success? ==> r.value.headers == db.headers - Rowids(cl.removedFiles) - Rowids(cl.changedFiles)
    ensures r.Success? ==> r.value.wcs == db.wcs - Rowids(cl.removedFiles) - Rowids(cl.changedFiles)
    ensures r.Success? ==> forall id :: (id in db.files && id !in Rowids(cl.removedFiles)
                                         && id !in Rowids(cl.changedFiles)) ==> id in r.value.files && r.value.files[id] == db.files[id]
  {
    var removed := RemovedIds(cl);
    match InsertAll(db, cl.newFiles)
    case Failure(e) => Failure(e)
    case Success(d1) =>
      InsertAllKeepsAll(db, cl.newFiles, d1);
      var d2 := DeleteAll(d1, removed);
      SaveAll(d2, cl.changedFiles)
  }

  lemma ApplyAllValid(db: Db, cl: ChangeList)
    requires Valid(db)
    ensures ApplyAll(db, cl).Success? ==> Valid(ApplyAll(db, cl).value)
  {
    var removed := RemovedIds(cl);
    InsertAllValid(db, cl.newFiles);
    var d1 := InsertAll(db, cl.newFiles);
    if d1.Success? {
      DeleteAllValid(d1.value, removed);
      SaveAllValid(DeleteAll(d1.value, removed), cl.changedFiles);
    }
  }

  /**
   * When the removed and changed rows are rows of the catalogue (as a scan reports
   * them), every new file is present after applying, under a fresh row id.
   */
  lemma ApplyAllInserts(db: Db, cl: ChangeList, k: nat)
    requires Valid(db)
    requires forall f :: f in cl.removedFiles ==> f.rowid in db.files
    requires forall f :: f in cl.changedFiles ==> f.rowid in db.files
    requires k < |cl.newFiles|
    ensures ApplyAll(db, cl).Success? ==>
              var id := NextRowid(db.files.Keys) + k;
              id !in db.files && id in ApplyAll(db, cl).value.files
              && ApplyAll(db, cl).value.files[id] == cl.newFiles[k].(rowid := id)
  {
    var d1 := InsertAll(db, cl.newFiles);
    var id := NextRowid(db.files.Keys) + k;
    if d1.Success? {
      InsertAllPlaces(db, cl.newFiles, k);
      var row := d1.value.files[id];
      RowidsOutside(db, cl.removedFiles, id);
      assert id !in RemovedIds(cl);
      DeleteKeeps(d1.value, RemovedIds(cl), id);
      var d2 := DeleteAll(d1.value, RemovedIds(cl));
      RowidsOutside(db, cl.changedFiles, id);
      assert ApplyAll(db, cl) == SaveAll(d2, cl.changedFiles);
    }
  }

  /** Deleting other rows leaves a row as it was. */
  lemma DeleteKeeps(db: Db, ids: seq<int>, id: int)
    requires id in db.files && id !in ids
    ensures id in DeleteAll(db, ids).files && DeleteAll(db, ids).files[id] == db.files[id]
  {
  }

  /** A row id past the catalogue's counter is the row id of none of its rows. */
  lemma RowidsOutside(db: Db, fs: seq<FileRecord>, id: int)
    requires Valid(db) && id >= NextRowid(db.files.Keys)
    requires forall f :: f in fs ==> f.rowid in db.files
    ensures id !in Rowids(fs)
  {
    forall j | 0 <= j < |fs| ensures fs[j].rowid != id {
      assert fs[j] in fs;
    }
  }

  /**
   * With distinct row ids among the changed files, every changed row that was not also
   * removed holds its new contents after applying.
   */
  lemma ApplyAllSaves(db: Db, cl: ChangeList, f: FileRecord)
    requires Valid(db)
    requires DistinctRowids(cl.changedFiles)
    requires f in cl.changedFiles && f.rowid in db.files && f.rowid !in Rowids(cl.removedFiles)
    ensures ApplyAll(db, cl).Success? ==>
              f.rowid in ApplyAll(db, cl).value.files && ApplyAll(db, cl).value.files[f.rowid] == f
  {
    var d1 := InsertAll(db, cl.newFiles);
    if d1.Success? {
      InsertAllKeeps(db, cl.newFiles, d1.value, f.rowid);
      var d2 := DeleteAll(d1.value, RemovedIds(cl));
      assert f.rowid in d2.files;
      SaveAllStores(d2, cl.changedFiles);
      var k :| 0 <= k < |cl.changedFiles| && cl.changedFiles[k] == f;
    }
  }

  // ---------------------------------------------------------------------------
  // The older apply_all of astrofilemanager: no enclosing transaction, and changed
  // files are deleted and inserted again under the next free row ids.

  datatype Applied = Applied(db: Db, ok: bool)

  /** The `batch_size` the older apply passes to `bulk_create`. */
  const BatchSize := 100

  /** `d` is what a bulk insert of `fs` leaves when a batch after the first `j` fails. */
  ghost predicate PartialBulk(db: Db, fs: seq<FileRecord>, d: Db) {
    exists j: nat :: j * BatchSize < |fs| && InsertAll(db, fs[..j * BatchSize]) == Success(d)
  }

  /**
   * `bulk_create(files, batch_size=100)` outside a transaction: one multi-row insert per
   * batch of 100, each all or nothing; a clash stops the call and the earlier batches stay.
   */
  function BulkCreate(db: Db, fs: seq<FileRecord>): Applied
    decreases |fs|
  {
    if |fs| <= BatchSize then
      match InsertAll(db, fs)
      case Failure(_) => Applied(db, false)
      case Success(d) => Applied(d, true)
    else
      match InsertAll(db, fs[..BatchSize])
      case Failure(_) => Applied(db, false)
      case Success(d) => BulkCreate(d, fs[BatchSize..])
  }

  /**
   * A bulk insert succeeds exactly when inserting the files one by one does, with the
   * same result; a failed one leaves exactly the batches before the failing one inserted.
   */
  lemma {:induction false} BulkCreateBatches(db: Db, fs: seq<FileRecord>)
    ensures BulkCreate(db, fs).ok <==> InsertAll(db, fs).Success?
    ensures BulkCreate(db, fs).ok ==> InsertAll(db, fs) == Success(BulkCreate(db, fs).db)
    ensures !BulkCreate(db, fs).ok ==> PartialBulk(db, fs, BulkCreate(db, fs).db)
    decreases |fs|
  {
    if |fs| <= BatchSize {
      if |fs| > 0 {
        NothingInserted(db, fs);
      }
    } else if InsertAll(db, fs[..BatchSize]).Failure? {
      FirstBatch(db, fs);
      NothingInserted(db, fs);
    } else {
      FirstBatch(db, fs);
      var d := InsertAll(db, fs[..BatchSize]).value;
      BulkCreateBatches(d, fs[BatchSize..]);
      if !BulkCreate(d, fs[BatchSize..]).ok {
        LaterBatches(db, fs, BulkCreate(d, fs[BatchSize..]).db);
      }
    }
  }

  /** Stopping before the first batch is a partial bulk insert that inserted nothing. */
  lemma NothingInserted(db: Db, fs: seq<FileRecord>)
    requires |fs| > 0
    ensures PartialBulk(db, fs, db)
  {
    assert fs[..0 * BatchSize] == [];
    assert InsertAll(db, fs[..0 * BatchSize]) == Success(db);
  }

  /** Past the first batch, bulk and row-by-row insertion both go on from the first batch's result. */
  lemma FirstBatch(db: Db, fs: seq<FileRecord>)
    requires |fs| > BatchSize
    ensures InsertAll(db, fs[..BatchSize]).Failure? ==> InsertAll(db, fs).Failure? && BulkCreate(db, fs) == Applied(db, false)
    ensures InsertAll(db, fs[..BatchSize]).Success? ==>
              var d := InsertAll(db, fs[..BatchSize]).value;
              InsertAll(db, fs) == InsertAll(d, fs[BatchSize..]) && BulkCreate(db, fs) == BulkCreate(d, fs[BatchSize..])
  {
    assert fs == fs[..BatchSize] + fs[BatchSize..];
    InsertAllAppend(db, fs[..BatchSize], fs[BatchSize..]);
  }

  /** A partial bulk insert of the batches after the first is one of all the batches. */
  lemma LaterBatches(db: Db, fs: seq<FileRecord>, res: Db)
    requires |fs| > BatchSize && InsertAll(db, fs[..BatchSize]).Success?
    requires PartialBulk(InsertAll(db, fs[..BatchSize]).value, fs[BatchSize..], res)
    ensures PartialBulk(db, fs, res)
  {
    var d := InsertAll(db, fs[..BatchSize]).value;
    var rest := fs[BatchSize..];
    var j: nat :| j * BatchSize < |rest| && InsertAll(d, rest[..j * BatchSize]) == Success(res);
    assert fs[..(j + 1) * BatchSize] == fs[..BatchSize] + rest[..j * BatchSize];
    InsertAllAppend(db, fs[..BatchSize], rest[..j * BatchSize]);
    assert InsertAll(db, fs[..(j + 1) * BatchSize]) == Success(res);
  }

  /** Inserting rows keeps every row already present. */
  lemma InsertAllKeepsAll(d: Db, fs: seq<FileRecord>, res: Db)
    requires InsertAll(d, fs) == Success(res)
    ensures forall id :: id in d.files ==> id in res.files && res.files[id] == d.files[id]
  {
    forall id | id in d.files
      ensures id in res.files && res.files[id] == d.files[id]
    {
      InsertAllKeeps(d, fs, res, id);
    }
  }

  /** Inserting rows keeps the row under `id`. */
  lemma {:induction false} InsertAllKeeps(d: Db, fs: seq<FileRecord>, res: Db, id: int)
    requires InsertAll(d, fs) == Success(res) && id in d.files
    ensures id in res.files && res.files[id] == d.files[id]
    decreases |fs|
  {
    if |fs| > 0 {
      InsertAllKeeps(Insert(d, fs[0]).value, fs[1..], res, id);
    }
  }

  /** A bulk insert, whether it fails or not, keeps every row already present. */
  lemma {:induction false} BulkCreateKeeps(d: Db, fs: seq<FileRecord>, id: int)
    requires id in d.files
    ensures id in BulkCreate(d, fs).db.files && BulkCreate(d, fs).db.files[id] == d.files[id]
    decreases |fs|
  {
    if |fs| <= BatchSize {
      if InsertAll(d, fs).Success? {
        InsertAllKeeps(d, fs, InsertAll(d, fs).value, id);
      }
    } else if InsertAll(d, fs[..BatchSize]).Success? {
      var d1 := InsertAll(d, fs[..BatchSize]).value;
      InsertAllKeeps(d, fs[..BatchSize], d1, id);
      BulkCreateKeeps(d1, fs[BatchSize..], id);
    }
  }

  /** A bulk insert whose later batch clashes keeps the rows of the first batch. */
  lemma LaterBatchClashKeepsFirst(db: Db, fs: seq<FileRecord>, res: Db)
    requires |fs| > BatchSize && InsertAll(db, fs[..BatchSize]).Success?
    requires InsertAll(InsertAll(db, fs[..BatchSize]).value, fs[BatchSize..]).Failure?
    requires BulkCreate(db, fs).db == res
    ensures !BulkCreate(db, fs).ok
    ensures forall k :: 0 <= k < BatchSize ==> Placed(res, NextRowid(db.files.Keys) + k, fs[k])
  {
    FirstBatch(db, fs);
    BulkCreateBatches(InsertAll(db, fs[..BatchSize]).value, fs[BatchSize..]);
    forall k | 0 <= k < BatchSize
      ensures Placed(res, NextRowid(db.files.Keys) + k, fs[k])
    {
      FirstBatchKept(db, fs, k);
    }
  }

  lemma FirstBatchKept(db: Db, fs: seq<FileRecord>, k: nat)
    requires |fs| > BatchSize && InsertAll(db, fs[..BatchSize]).Success? && k < BatchSize
    ensures Placed(BulkCreate(db, fs).db, NextRowid(db.files.Keys) + k, fs[k])
  {
    var d := InsertAll(db, fs[..BatchSize]).value;
    assert BulkCreate(db, fs) == BulkCreate(d, fs[BatchSize..]);
    InsertAllPlaces(db, fs[..BatchSize], k);
    assert fs[..BatchSize][k] == fs[k];
    BulkCreateKeeps(d, fs[BatchSize..], NextRowid(db.files.Keys) + k);
  }

  /**
   * Bulk insert of the new files, deletion of the removed rows and of the changed row ids,
   * bulk insert of the changed files. Without a transaction a clash leaves whatever the
   * statements before it did.
   */
  function LegacyApplyAll(db: Db, cl: ChangeList): Applied
  {
    var first := BulkCreate(db, cl.newFiles);
    if !first.ok then first
    else BulkCreate(DeleteAll(first.db, LegacyDeletedIds(cl)), cl.changedFiles)
  }

  /** The catalogue after the new files went in and the removed and changed rows were deleted. */
  function LegacyDeleted(db: Db, cl: ChangeList): (r: Db)
    requires InsertAll(db, cl.newFiles).Success?
    ensures forall id :: id in LegacyDeletedIds(cl) ==> id !in r.files && id !in r.images && id !in r.headers
    ensures forall id :: id in db.files && id !in LegacyDeletedIds(cl) ==> id in r.files && r.files[id] == db.files[id]
  {
    InsertAllKeepsAll(db, cl.newFiles, InsertAll(db, cl.newFiles).value);
    DeleteAll(InsertAll(db, cl.newFiles).value, LegacyDeletedIds(cl))
  }

  /**
   * The older apply succeeds exactly when both bulk inserts would succeed row by row,
   * and then the catalogue is the deleted one with the changed files inserted. A failed
   * apply leaves some batches of the new files inserted, or all of them with the
   * deletions done and some batches of the changed files inserted.
   */
  lemma LegacyApplyAllOutcome(db: Db, cl: ChangeList)
    ensures var r := LegacyApplyAll(db, cl);
            r.ok <==> InsertAll(db, cl.newFiles).Success?
                      && InsertAll(LegacyDeleted(db, cl), cl.changedFiles).Success?
    ensures var r := LegacyApplyAll(db, cl);
            r.ok ==> InsertAll(LegacyDeleted(db, cl), cl.changedFiles) == Success(r.db)
    ensures var r := LegacyApplyAll(db, cl);
            !r.ok ==> PartialBulk(db, cl.newFiles, r.db)
                      || (InsertAll(db, cl.newFiles).Success?
                          && PartialBulk(LegacyDeleted(db, cl), cl.changedFiles, r.db))
  {
    BulkCreateBatches(db, cl.newFiles);
    if InsertAll(db, cl.newFiles).Success? {
      BulkCreateBatches(LegacyDeleted(db, cl), cl.changedFiles);
    }
  }

  /**
   * After a successful older apply, the changed row ids have no image or header left, and
   * every row is an old one the apply did not delete, unchanged, or the row of a new file
   * past the old row ids, or the row of a changed file past the row ids left by the
   * deletions.
   */
  lemma LegacyApplyAllRows(db: Db, cl: ChangeList, res: Db)
    requires InsertAll(db, cl.newFiles).Success?
    requires LegacyApplyAll(db, cl) == Applied(res, true)
    ensures forall id :: id in cl.changedIds ==> id !in res.images && id !in res.headers
    ensures forall id :: id in res.files ==>
              (id in db.files && id !in LegacyDeletedIds(cl) && res.files[id] == db.files[id])
              || (id !in db.files && NextRowid(db.files.Keys) <= id)
              || NextRowid(LegacyDeleted(db, cl).files.Keys) <= id
  {
    LegacyApplyAllOutcome(db, cl);
    var d1 := InsertAll(db, cl.newFiles).value;
    var d2 := LegacyDeleted(db, cl);
    InsertAllNewRows(db, cl.newFiles);
    InsertAllNewRows(d2, cl.changedFiles);
    forall id | id in res.files
      ensures (id in db.files && id !in LegacyDeletedIds(cl) && res.files[id] == db.files[id])
              || (id !in db.files && NextRowid(db.files.Keys) <= id)
              || NextRowid(d2.files.Keys) <= id
    {
      if id in d2.files {
        InsertAllKeeps(d2, cl.changedFiles, res, id);
        assert id in d1.files && res.files[id] == d1.files[id];
      }
    }
  }

  function LegacyDeletedIds(cl: ChangeList): (r: seq<int>)
    ensures forall k :: k in cl.changedIds ==> k in r
    ensures forall f :: f in cl.removedFiles ==> f.rowid in r
  {
    var r := RemovedIds(cl) + cl.changedIds;
    assert forall f :: f in cl.removedFiles ==> f.rowid in Rowids(cl.removedFiles) by {
      forall f | f in cl.removedFiles ensures f.rowid in Rowids(cl.removedFiles) {
        var k :| 0 <= k < |cl.removedFiles| && cl.removedFiles[k] == f;
      }
    }
    r
  }

  /**
   * After the older apply, a changed file lives on in a re-inserted row: the old row and
   * its image, header and WCS are gone, and the row under the next free row id carries
   * the changed contents. That row id is the old one again when the deletions removed
   * the largest row id (see `LegacyChangedMayKeepId`).
   */
  lemma LegacyChangedGetsNewRow(db: Db, cl: ChangeList, k: nat, deleted: Db, res: Db)
    requires k < |cl.changedFiles| && k < |cl.changedIds|
    requires InsertAll(db, cl.newFiles).Success? && deleted == LegacyDeleted(db, cl)
    requires LegacyApplyAll(db, cl) == Applied(res, true)
    ensures var id := NextRowid(deleted.files.Keys) + k;
            Placed(res, id, cl.changedFiles[k])
            && cl.changedIds[k] !in res.images && cl.changedIds[k] !in res.headers
            && (cl.changedIds[k] in res.files ==> id - k <= cl.changedIds[k])
  {
    LegacySecondInsert(db, cl, res);
    assert cl.changedIds[k] in LegacyDeletedIds(cl);
    ReinsertedRow(deleted, cl.changedFiles, k, cl.changedIds[k], res);
  }

  /** A successful older apply ends with the changed files inserted into the deleted catalogue. */
  lemma LegacySecondInsert(db: Db, cl: ChangeList, res: Db)
    requires InsertAll(db, cl.newFiles).Success?
    requires LegacyApplyAll(db, cl) == Applied(res, true)
    ensures InsertAll(LegacyDeleted(db, cl), cl.changedFiles) == Success(res)
  {
    BulkCreateBatches(db, cl.newFiles);
    BulkCreateBatches(LegacyDeleted(db, cl), cl.changedFiles);
  }

  /** The `k`-th re-inserted row, and a deleted row id that comes back only as a fresh row. */
  lemma ReinsertedRow(d: Db, fs: seq<FileRecord>, k: nat, gone: int, res: Db)
    requires k < |fs| && InsertAll(d, fs) == Success(res)
    requires gone !in d.files && gone !in d.images && gone !in d.headers
    ensures var id := NextRowid(d.files.Keys) + k;
            Placed(res, id, fs[k])
            && gone !in res.images && gone !in res.headers
            && (gone in res.files ==> id - k <= gone)
  {
    InsertAllPlaces(d, fs, k);
    InsertAllNewRows(d, fs);
  }

  /**
   * The row of a changed file that held the largest row id comes back under that same
   * row id when no new file is inserted first.
   */
  lemma LegacyChangedMayKeepId(f: FileRecord, g: FileRecord)
    requires Key(g) == Key(f)
    ensures var db := Db(map[1 := f.(rowid := 1)], {1}, {1}, {}, {});
            var cl := ChangeList([], [], [1], [g]);
            var r := LegacyApplyAll(db, cl);
            r.ok && 1 in r.db.files && r.db.files[1] == g.(rowid := 1) && 1 !in r.db.images
  {
    var db := Db(map[1 := f.(rowid := 1)], {1}, {1}, {}, {});
    var cl := ChangeList([], [], [1], [g]);
    assert LegacyDeletedIds(cl) == [1];
    assert BulkCreate(db, []) == Applied(db, true);
    var d2 := DeleteAll(db, [1]);
    assert d2.files == map[] && d2.images == {};
    assert NextRowid(d2.files.Keys) == 1;
    assert !KeyUsed(d2.files, Key(g));
    var d3 := d2.(files := map[1 := g.(rowid := 1)]);
    assert Insert(d2, g) == Success(d3);
    assert InsertAll(d2, [g]) == Success(d3) by {
      assert [g][1..] == [];
    }
    assert LegacyApplyAll(db, cl) == Applied(d3, true);
  }
}

=== FILE: criteria.dfy ===
/**
 * The search criteria of a search tab (`SearchCriteria` in photonfinder/models.py) and the
 * two constructors that turn a reference frame into a search for its calibration frames.
 */
module Criteria {
  import opened Wrappers
  import opened Numbers
  import opened Headers
  import Catalogue
  import Handlers

  /** A reference frame: its file, and the image attached to it when there is one. */
  datatype Reference = Reference(file: Catalogue.FileRecord, image: Option<Handlers.Image>)

  /**
   * The criteria. Text fields typed `str | None` are `Option<string>`; the plain `str` ones
   * are `string`. A project is its rowid, the "no project" choice being rowid -1.
   */
  datatype SearchCriteria = SearchCriteria(
    paths: seq<Catalogue.RootAndPath>,
    pathsAsPrefix: bool,
    filter: Option<string>,
    imageType: Option<string>,
    camera: Option<string>,
    fileName: Option<string>,
    objectName: Option<string>,
    exposure: string,
    telescope: string,
    binning: string,
    offset: Option<int>,
    gain: string,
    temperature: string,
    coordRa: string,
    coordDec: string,
    coordRadius: Decimal,
    startDatetime: Option<DateTime>,
    endDatetime: Option<DateTime>,
    referenceFile: Option<Reference>,
    headerText: string,
    project: Option<int>,
    sortingIndex: Option<int>,
    sortingDesc: bool)

  /** The rowid of the "no project" choice. */
  const NoProject: int := -1

  /** `SearchCriteria()`: every field at its declared default; the radius is half a degree. */
  function Default(): (c: SearchCriteria)
    ensures c.paths == [] && c.pathsAsPrefix && c.imageType == Some("") && c.sortingDesc
    ensures Value(c.coordRadius) == 0.5
  {
    SearchCriteria([], true, Some(""), Some(""), Some(""), None, None, "", "", "", None, "", "", "", "",
                   Decimal(5, 1), None, None, None, "", None, None, true)
  }

  /** `is_empty`: equal to a freshly constructed criteria. */
  predicate IsEmpty(c: SearchCriteria) {
    c == Default()
  }

  /** Python truthiness of optional values. */
  predicate SomeText(v: Option<string>) {
    v.Some? && v.value != ""
  }

  predicate SomeNumber(v: Option<Decimal>) {
    v.Some? && v.value.m != 0
  }

  predicate SomeInt(v: Option<int>) {
    v.Some? && v.value != 0
  }

  /** `str()` of a value the criteria copies, or the field's default when the value is falsy. */
  function TextIfNumber(v: Option<Decimal>, otherwise: string): (r: string)
    ensures SomeNumber(v) ==> r == DecimalToString(v.value)
    ensures !SomeNumber(v) ==> r == otherwise
  {
    if SomeNumber(v) then DecimalToString(v.value) else otherwise
  }

  function TextIfInt(v: Option<int>, otherwise: string): (r: string)
    ensures SomeInt(v) ==> r == IntToString(v.value)
    ensures !SomeInt(v) ==> r == otherwise
  {
    if SomeInt(v) then IntToString(v.value) else otherwise
  }

  function TextIfText(v: Option<string>, otherwise: Option<string>): (r: Option<string>)
    ensures SomeText(v) ==> r == v
    ensures !SomeText(v) ==> r == otherwise
  {
    if SomeText(v) then v else otherwise
  }

  /**
   * `find_dark`: exposure, camera, set point, gain, binning and offset of the reference
   * when truthy; type `DARKFLAT` for a flat and `DARK` otherwise; the reference recorded.
   */
  function FindDark(ref: Handlers.Image): (c: SearchCriteria)
    ensures c.imageType == (if ref.imageType == Some("FLAT") then Some("DARKFLAT") else Some("DARK"))
    ensures c.referenceFile == Some(Reference(ref.file, Some(ref)))
  {
    var d := Default();
    d.(exposure := TextIfNumber(ref.exposure, d.exposure),
       camera := TextIfText(ref.camera, d.camera),
       temperature := TextIfNumber(ref.setTemp, d.temperature),
       gain := TextIfInt(ref.gain, d.gain),
       binning := TextIfInt(ref.binning, d.binning),
       offset := if SomeInt(ref.offset) then ref.offset else d.offset,
       imageType := if ref.imageType == Some("FLAT") then Some("DARKFLAT") else Some("DARK"),
       referenceFile := Some(Reference(ref.file, Some(ref))))
  }

  /** One day in microseconds. */
  const Day: int := 86_400_000_000

  /**
   * `find_flat`: camera, filter and binning of the reference when truthy; type `FLAT`; and
   * when the reference has an observation time, the window of a day either side of it.
   */
  function FindFlat(ref: Handlers.Image): (c: SearchCriteria)
    ensures c.imageType == Some("FLAT")
    ensures c.referenceFile == Some(Reference(ref.file, Some(ref)))
  {
    var d := Default();
    d.(camera := TextIfText(ref.camera, d.camera),
       filter := TextIfText(ref.filter, d.filter),
       binning := TextIfInt(ref.binning, d.binning),
       startDatetime := if ref.dateObs.Some? then Some(ref.dateObs.value - Day) else d.startDatetime,
       endDatetime := if ref.dateObs.Some? then Some(ref.dateObs.value + Day) else d.endDatetime,
       imageType := Some("FLAT"),
       referenceFile := Some(Reference(ref.file, Some(ref))))
  }

  /** Stripping from a `find_dark` result what it copied leaves a default criteria: nothing else is set. */
  lemma FindDarkSetsOnlyItsFields(ref: Handlers.Image)
    ensures FindDark(ref).(exposure := "", camera := Some(""), temperature := "", gain := "", binning := "",
                           offset := None, imageType := Some(""), referenceFile := None) == Default()
  {
  }

  /** What `find_dark` copies is the reference's value exactly when that value is truthy. */
  lemma FindDarkCopies(ref: Handlers.Image)
    ensures var c := FindDark(ref);
            (c.exposure != "" <==> SomeNumber(ref.exposure))
            && (c.camera != Some("") <==> SomeText(ref.camera))
            && (SomeText(ref.camera) ==> c.camera == ref.camera)
            && (c.temperature != "" <==> SomeNumber(ref.setTemp))
            && (c.gain != "" <==> SomeInt(ref.gain))
            && (c.binning != "" <==> SomeInt(ref.binning))
            && (c.offset == (if SomeInt(ref.offset) then ref.offset else None))
  {
    NonEmptyTexts(ref.exposure);
    NonEmptyTexts(ref.setTemp);
    NonEmptyInt(ref.gain);
    NonEmptyInt(ref.binning);
  }

  lemma NonEmptyTexts(v: Option<Decimal>)
    ensures SomeNumber(v) ==> DecimalToString(v.value) != ""
  {
  }

  lemma NonEmptyInt(v: Option<int>)
    ensures SomeInt(v) ==> IntToString(v.value) != ""
  {
  }

  /** Stripping from a `find_flat` result what it copied leaves a default criteria. */
  lemma FindFlatSetsOnlyItsFields(ref: Handlers.Image)
    ensures FindFlat(ref).(camera := Some(""), filter := Some(""), binning := "", startDatetime := None,
                           endDatetime := None, imageType := Some(""), referenceFile := None) == Default()
  {
  }

  /** The flat window is two days wide and centred on the reference's observation time. */
  lemma FindFlatWindow(ref: Handlers.Image)
    ensures var c := FindFlat(ref);
            (c.startDatetime.Some? <==> ref.dateObs.Some?) && (c.endDatetime.Some? <==> ref.dateObs.Some?)
            && (ref.dateObs.Some? ==>
                  c.startDatetime.value < ref.dateObs.value < c.endDatetime.value
                  && c.endDatetime.value - c.startDatetime.value == 2 * Day
                  && ref.dateObs.value - c.startDatetime.value == Day)
  {
  }

  /** A calibration search is never the empty search: it always names a frame type. */
  lemma CalibrationSearchNotEmpty(ref: Handlers.Image)
    ensures !IsEmpty(FindDark(ref)) && !IsEmpty(FindFlat(ref))
  {
  }
}

=== FILE: distinct.dfy ===
/**
 * `Image.get_distinct_values_available`: the values one column takes over the images a
 * search selects with that column's own filter lifted, without repeats and in the order
 * SQLite sorts them (`NULL` first, then text by code point) (photonfinder/models.py,
 * astrofilemanager/models.py).
 */
module Distinct {
  import opened Wrappers
  import opened Text
  import Handlers
  import opened Criteria
  import opened Search

  /** The columns whose values fill the search panel's drop-down lists. */
  datatype Field = FilterField | TypeField | CameraField

  function ColumnOf(f: Field): Column {
    match f
    case FilterField => FilterCol
    case TypeField => TypeCol
    case CameraField => CameraCol
  }

  function ValueOf(im: Handlers.Image, f: Field): Option<string> {
    match f
    case FilterField => im.filter
    case TypeField => im.imageType
    case CameraField => im.camera
  }

  // ---------------------------------------------------------------------------
  // SQLite's ordering of an optional text column; text is compared under the BINARY
  // collation, which orders by code point like Python's `<` on `str`.

  /** `ORDER BY` on a nullable column: `NULL` before every text. */
  predicate Less(a: Option<string>, b: Option<string>) {
    (a.None? && b.Some?) || (a.Some? && b.Some? && LessStr(a.value, b.value))
  }

  /** The order is strict and total, so sorting without repeats has one outcome. */
  lemma LessIsStrictTotalOrder(a: Option<string>, b: Option<string>, c: Option<string>)
    ensures !Less(a, a)
    ensures Less(a, b) && Less(b, c) ==> Less(a, c)
    ensures a != b ==> Less(a, b) || Less(b, a)
  {
    if a.Some? {
      LessStrIrreflexive(a.value);
    }
    if Less(a, b) && Less(b, c) && a.Some? {
      LessStrTransitive(a.value, b.value, c.value);
    }
    if a != b && a.Some? && b.Some? {
      LessStrTotal(a.value, b.value);
    }
  }

  predicate StrictlySorted(s: seq<Option<string>>) {
    forall i, j :: 0 <= i < j < |s| ==> Less(s[i], s[j])
  }

  /** A strictly sorted list holds no value twice. */
  lemma SortedIsDistinct(s: seq<Option<string>>)
    requires StrictlySorted(s)
    ensures forall i, j :: 0 <= i < j < |s| ==> s[i] != s[j]
  {
    forall i, j | 0 <= i < j < |s|
      ensures s[i] != s[j]
    {
      LessIsStrictTotalOrder(s[i], s[j], s[j]);
    }
  }

  /** Adds `x` to a strictly sorted list unless it is there already. */
  function Insert(s: seq<Option<string>>, x: Option<string>): (r: seq<Option<string>>)
    requires StrictlySorted(s)
    ensures StrictlySorted(r)
    ensures forall v :: v in r <==> v in s || v == x
  {
    if |s| == 0 then [x]
    else if s[0] == x then s
    else if Less(x, s[0]) then
      forall j | 0 <= j < |s|
        ensures Less(x, s[j])
      {
        LessIsStrictTotalOrder(x, s[0], s[j]);
      }
      [x] + s
    else
      var rest := Insert(s[1..], x);
      LessIsStrictTotalOrder(s[0], x, x);
      assert forall v :: v in s <==> v == s[0] || v in s[1..];
      forall k | 0 <= k < |rest|
        ensures Less(s[0], rest[k])
      {
        if rest[k] != x {
          assert rest[k] in rest;
          assert rest[k] in s[1..];
          var j :| 0 <= j < |s[1..]| && s[1..][j] == rest[k];
          assert s[j + 1] == rest[k];
        }
      }
      [s[0]] + rest
  }

  /** The values of `f` on the rows selected with `f`'s own filter lifted, folded over the rows in order. */
  function Collect(fl: Flavour, c: SearchCriteria, rows: seq<Search.Row>, f: Field, acc: seq<Option<string>>): (r: seq<Option<string>>)
    requires StrictlySorted(acc)
    ensures StrictlySorted(r)
    decreases |rows|
  {
    if |rows| == 0 then acc
    else if Selects(fl, c, rows[0], Some(ColumnOf(f))) then Collect(fl, c, rows[1..], f, Insert(acc, ValueOf(rows[0].image, f)))
    else Collect(fl, c, rows[1..], f, acc)
  }

  /** `get_distinct_values_available`. */
  function DistinctValues(fl: Flavour, c: SearchCriteria, rows: seq<Search.Row>, f: Field): (r: seq<Option<string>>)
    ensures StrictlySorted(r)
  {
    Collect(fl, c, rows, f, [])
  }

  /**
   * The combo's query as it runs: the search with the column's own filter lifted, so it
   * fails exactly when that search does (a header criterion meeting a file without a
   * stored header), and otherwise lists the distinct values.
   */
  function DistinctQuery(fl: Flavour, c: SearchCriteria, rows: seq<Search.Row>, f: Field): (r: Result<seq<Option<string>>, string>)
    ensures r.Failure? <==> RunSearch(fl, c, rows, Some(ColumnOf(f))).Failure?
    ensures r.Success? ==> r.value == DistinctValues(fl, c, rows, f)
  {
    var run := RunSearch(fl, c, rows, Some(ColumnOf(f)));
    if run.Failure? then Failure(run.error) else Success(DistinctValues(fl, c, rows, f))
  }

  /** When the query succeeds, it offers exactly the values of the rows the lifted search returns. */
  lemma DistinctQueryValues(fl: Flavour, c: SearchCriteria, rows: seq<Search.Row>, f: Field, v: Option<string>)
    requires DistinctQuery(fl, c, rows, f).Success?
    ensures v in DistinctQuery(fl, c, rows, f).value
            <==> exists x :: x in RunSearch(fl, c, rows, Some(ColumnOf(f))).value && ValueOf(x.image, f) == v
  {
    DistinctValuesSpec(fl, c, rows, f);
    MatchingMembers(fl, c, rows, Some(ColumnOf(f)));
    if v in DistinctQuery(fl, c, rows, f).value {
      var i :| 0 <= i < |rows| && Selects(fl, c, rows[i], Some(ColumnOf(f))) && ValueOf(rows[i].image, f) == v;
      assert rows[i] in Matching(fl, c, rows, Some(ColumnOf(f)));
    }
    if exists x :: x in RunSearch(fl, c, rows, Some(ColumnOf(f))).value && ValueOf(x.image, f) == v {
      var x :| x in Matching(fl, c, rows, Some(ColumnOf(f))) && ValueOf(x.image, f) == v;
      var i :| 0 <= i < |rows| && rows[i] == x;
      assert Available(fl, c, rows, f, v);
    }
  }

  /** The value `v` occurs on some row the search selects with `f`'s filter lifted. */
  ghost predicate Available(fl: Flavour, c: SearchCriteria, rows: seq<Search.Row>, f: Field, v: Option<string>) {
    exists i :: 0 <= i < |rows| && Selects(fl, c, rows[i], Some(ColumnOf(f))) && ValueOf(rows[i].image, f) == v
  }

  lemma {:induction false} CollectContents(fl: Flavour, c: SearchCriteria, rows: seq<Search.Row>, f: Field, acc: seq<Option<string>>, v: Option<string>)
    requires StrictlySorted(acc)
    ensures v in Collect(fl, c, rows, f, acc) <==> v in acc || Available(fl, c, rows, f, v)
    decreases |rows|
  {
    if |rows| > 0 {
      var next := if Selects(fl, c, rows[0], Some(ColumnOf(f))) then Insert(acc, ValueOf(rows[0].image, f)) else acc;
      CollectContents(fl, c, rows[1..], f, next, v);
      AvailableCons(fl, c, rows, f, v);
    }
  }

  /** A value is available in rows when the first row offers it or the rest do. */
  lemma AvailableCons(fl: Flavour, c: SearchCriteria, rows: seq<Search.Row>, f: Field, v: Option<string>)
    requires |rows| > 0
    ensures Available(fl, c, rows, f, v)
            <==> (Selects(fl, c, rows[0], Some(ColumnOf(f))) && ValueOf(rows[0].image, f) == v)
                 || Available(fl, c, rows[1..], f, v)
  {
    if Available(fl, c, rows[1..], f, v) {
      var i :| 0 <= i < |rows[1..]| && Selects(fl, c, rows[1..][i], Some(ColumnOf(f))) && ValueOf(rows[1..][i].image, f) == v;
      assert rows[i + 1] == rows[1..][i];
    }
    if Available(fl, c, rows, f, v) {
      var i :| 0 <= i < |rows| && Selects(fl, c, rows[i], Some(ColumnOf(f))) && ValueOf(rows[i].image, f) == v;
      if i > 0 {
        assert rows[1..][i - 1] == rows[i];
      }
    }
  }

  /** The list holds exactly the values available under the search, each once, in SQLite's order. */
  lemma DistinctValuesSpec(fl: Flavour, c: SearchCriteria, rows: seq<Search.Row>, f: Field)
    ensures forall v :: v in DistinctValues(fl, c, rows, f) <==> Available(fl, c, rows, f, v)
    ensures forall i, j :: 0 <= i < j < |DistinctValues(fl, c, rows, f)| ==>
              DistinctValues(fl, c, rows, f)[i] != DistinctValues(fl, c, rows, f)[j]
  {
    forall v
      ensures v in DistinctValues(fl, c, rows, f) <==> Available(fl, c, rows, f, v)
    {
      CollectContents(fl, c, rows, f, [], v);
    }
    SortedIsDistinct(DistinctValues(fl, c, rows, f));
  }

  /** Choosing a value in a list does not narrow that same list: its own filter is always lifted. */
  lemma OwnFilterIgnored(fl: Flavour, c: SearchCriteria, rows: seq<Search.Row>, f: Field, v: Option<string>)
    ensures Available(fl, c, rows, f, v) <==> Available(fl, Clear(c, ColumnOf(f)), rows, f, v)
  {
    forall r: Search.Row
      ensures Selects(fl, c, r, Some(ColumnOf(f))) <==> Selects(fl, Clear(c, ColumnOf(f)), r, Some(ColumnOf(f)))
    {
      ExcludeIsClear(fl, c, r, ColumnOf(f));
      ExcludeIsClear(fl, Clear(c, ColumnOf(f)), r, ColumnOf(f));
      ClearTwice(c, ColumnOf(f));
    }
  }

  lemma ClearTwice(c: SearchCriteria, col: Column)
    ensures Clear(Clear(c, col), col) == Clear(c, col)
  {
  }
}

=== FILE: export.dfy ===
/**
 * The export of catalogued files (photonfinder/ui/ExportDialog.py): the output name each
 * file gets from the user's `string.Template` pattern, the settings the dialog keeps, the
 * custom header lines, and the way each file is copied: as is, decompressed, with its
 * header rewritten, or converted from XISF to FITS.
 */
module Export {
  import opened Wrappers
  import opened Text
  import Numbers
  import Headers
  import FileNames
  import Catalogue
  import Handlers
  import Settings
  import Template
  import PurePaths
  import Wcs
  import Seqs

  /** A catalogued file, the path of its library root, and the image row joined to it, if any. */
  datatype Entry = Entry(rootPath: string, file: Catalogue.FileRecord, image: Option<Handlers.Image>)

  /**
   * `isoformat()` of a date-time and of a date. The text depends on how the stored value
   * was parsed (with or without a time zone), which the catalogue does not record.
   */
  datatype Calendar = Calendar(dateTimeText: Headers.DateTime -> string, dateText: int -> string)

  const HourMicros: int := 3_600_000_000
  const DayMicros: int := 24 * HourMicros

  /** `.date()`: the day a time falls on, counted in whole days on the same timeline. */
  function DayOf(t: Headers.DateTime): int {
    t / DayMicros
  }

  /** Twelve hours earlier is the previous day exactly when the time of day is before noon. */
  lemma MinusTwelveHours(t: Headers.DateTime)
    ensures DayOf(t - 12 * HourMicros) == if t % DayMicros < 12 * HourMicros then DayOf(t) - 1 else DayOf(t)
  {
    var d := DayOf(t);
    var s := t % DayMicros;
    assert t == d * DayMicros + s;
    if s < 12 * HourMicros {
      assert t - 12 * HourMicros == (d - 1) * DayMicros + (s + 12 * HourMicros);
    } else {
      assert t - 12 * HourMicros == d * DayMicros + (s - 12 * HourMicros);
    }
  }

  // ---------------------------------------------------------------------------
  // The name the file is exported under, before the template is applied.

  /** pathlib's `.suffix` of a one-component name: from the last dot, unless that dot leads or ends it. */
  function Suffix(name: string): (r: string)
    ensures r == [] || (r[0] == '.' && |r| >= 2 && EndsWith(name, r))
  {
    var i := FileNames.LastIndex(name, '.');
    if 0 < i < |name| - 1 then name[i..] else ""
  }

  /** `str(Path(name).with_suffix(".fit"))`. */
  function WithFitSuffix(name: string): (r: string)
    ensures EndsWith(r, ".fit")
  {
    name[..|name| - |Suffix(name)|] + ".fit"
  }

  /** The file name the mapping sees: decompression drops a compressed extension, XISF becomes `.fit`. */
  function ExportName(name: string, decompress: bool, xisfAsFits: bool): string {
    var plain := if FileNames.IsCompressed(name) && decompress then FileNames.SplitExt(name).0 else name;
    if FileNames.IsXisfByName(plain) && xisfAsFits then WithFitSuffix(plain) else plain
  }

  /** A file with a name keeps a name when exported. */
  lemma ExportNameNonEmpty(name: string, decompress: bool, xisfAsFits: bool)
    ensures name != "" ==> ExportName(name, decompress, xisfAsFits) != ""
  {
    if name != "" && FileNames.IsCompressed(name) {
      assert FileNames.Ext(name) != name;
    }
  }

  /** An XISF name has `.xisf` (in some case) as its last extension, so it is never compressed. */
  lemma XisfNotCompressed(name: string)
    requires FileNames.IsXisfByName(name)
    ensures !FileNames.IsCompressed(name)
    ensures |name| > 5 ==> Suffix(name) == name[|name| - 5..]
    ensures |name| == 5 ==> Suffix(name) == ""
  {
    var n := |name|;
    var l := Lower(name);
    FileNames.EndsWithChars(l, ".xisf");
    assert name[n - 5] == '.' by {
      assert LowerChar(name[n - 5]) == '.';
    }
    forall k | n - 5 < k < n
      ensures name[k] != '.'
    {
      assert LowerChar(name[k]) == ".xisf"[k - n + 5];
    }
    FileNames.LastIndexAt(name, '.', n - 5);
    var e := FileNames.Ext(name);
    assert e == [] || e == name[n - 5..];
  }

  /**
   * With `decompress`, a compressed name loses its last extension and keeps the rest;
   * without it, and without XISF conversion, the name is kept.
   */
  lemma DecompressDropsExtension(name: string)
    ensures !FileNames.IsXisfByName(FileNames.StripCompressed(name)) ==>
              ExportName(name, true, true) == FileNames.StripCompressed(name)
    ensures FileNames.IsCompressed(name) ==> ExportName(name, true, false) + FileNames.Ext(name) == name
    ensures !FileNames.IsCompressed(name) ==> ExportName(name, true, false) == name
    ensures ExportName(name, false, false) == name
  {
  }

  /** With XISF conversion, `m31.xisf` becomes `m31.fit`; a bare `.xisf` only gains `.fit`. */
  lemma XisfExportedAsFit(name: string, decompress: bool)
    requires FileNames.IsXisfByName(name)
    ensures |name| > 5 ==> ExportName(name, decompress, true) == name[..|name| - 5] + ".fit"
    ensures |name| == 5 ==> ExportName(name, decompress, true) == name + ".fit"
    ensures ExportName(name, decompress, false) == name
  {
    XisfNotCompressed(name);
  }

  // ---------------------------------------------------------------------------
  // The template mapping.

  /** The values of the mapping, one field per placeholder. */
  datatype Values = Values(
    fileName: string, libPath: string, imageType: string, camera: string, filter: string,
    exposure: string, gain: string, binning: string, setTemp: string, telescope: string,
    objectName: string, dateObs: string, dateMinus12: string, date: string,
    lastLightPath: string, fileNameNoExt: string, ext: string)

  /** The mapping as `safe_substitute` sees it: the placeholder names it defines. */
  function Lookup(v: Values, name: string): Option<string> {
    if name == "filename" then Some(v.fileName)
    else if name == "lib_path" then Some(v.libPath)
    else if name == "image_type" then Some(v.imageType)
    else if name == "camera" then Some(v.camera)
    else if name == "filter" then Some(v.filter)
    else if name == "exposure" then Some(v.exposure)
    else if name == "gain" then Some(v.gain)
    else if name == "binning" then Some(v.binning)
    else if name == "set_temp" then Some(v.setTemp)
    else if name == "telescope" then Some(v.telescope)
    else if name == "object_name" then Some(v.objectName)
    else if name == "date_obs" then Some(v.dateObs)
    else if name == "date_minus12" then Some(v.dateMinus12)
    else if name == "date" then Some(v.date)
    else if name == "last_light_path" then Some(v.lastLightPath)
    else if name == "filename_no_ext" then Some(v.fileNameNoExt)
    else if name == "ext" then Some(v.ext)
    else None
  }

  /** The mapping as a function of placeholder names. */
  function AsMapping(v: Values): Template.Mapping {
    name => Lookup(v, name)
  }

  /** `str()` of an optional column: `None` renders as `None`. */
  function TextOf(v: Option<string>): string {
    if v.Some? then v.value else "None"
  }

  function RealText(v: Option<Numbers.Decimal>): string {
    if v.Some? then Numbers.DecimalToString(v.value) else "None"
  }

  function IntText(v: Option<int>): string {
    if v.Some? then Numbers.IntToString(v.value) else "None"
  }

  /**
   * The mapping handed to `safe_substitute`. An image row without an observation date
   * raises `AttributeError` when its `date_obs` is rendered.
   */
  function Mapping(e: Entry, fileName: string, lastLight: string, cal: Calendar): (r: Result<Values, string>)
    ensures r.Failure? <==> e.image.Some? && e.image.value.dateObs.None?
    ensures r.Failure? ==> r.error == "AttributeError"
    ensures r.Success? ==> r.value.fileName == fileName && r.value.libPath == e.file.path
                           && r.value.lastLightPath == lastLight
    ensures r.Success? ==> '.' !in r.value.ext
    ensures r.Success? ==> r.value.fileNameNoExt + (if FileNames.Ext(fileName) == [] then "" else ".")
                           + r.value.ext == fileName
    ensures r.Success? && e.image.None? ==>
              var v := r.value;
              v.imageType == v.camera == v.filter == v.exposure == v.gain == v.binning == v.setTemp
              == v.telescope == v.objectName == v.dateObs == v.dateMinus12 == v.date == "None"
    ensures r.Success? && e.image.Some? ==>
              var t := e.image.value.dateObs.value;
              r.value.date == cal.dateText(DayOf(t))
              && r.value.dateMinus12 == cal.dateText(DayOf(t - 12 * HourMicros))
              && r.value.imageType == TextOf(e.image.value.imageType)
  {
    var (base, dotExt) := FileNames.SplitExt(fileName);
    var ext := if dotExt == [] then [] else dotExt[1..];
    match e.image
    case None =>
      Success(Values(fileName, e.file.path, "None", "None", "None", "None", "None", "None", "None", "None",
                     "None", "None", "None", "None", lastLight, base, ext))
    case Some(im) =>
      if im.dateObs.None? then Failure("AttributeError")
      else
        var t := im.dateObs.value;
        Success(Values(fileName, e.file.path, TextOf(im.imageType), TextOf(im.camera), TextOf(im.filter),
                       RealText(im.exposure), IntText(im.gain), IntText(im.binning), RealText(im.setTemp),
                       TextOf(im.telescope), TextOf(im.objectName), cal.dateTimeText(t),
                       cal.dateText(DayOf(t - 12 * HourMicros)), cal.dateText(DayOf(t)),
                       lastLight, base, ext))
  }

  // ---------------------------------------------------------------------------
  // `template_filename` and `template_filename_with_ref`.

  const LastLightKey := "last_light_path"

  /** `get_last_light_path`: the stored text, or empty. */
  function LastLightPath(store: Settings.Store): string {
    match Settings.Read(store, LastLightKey)
    case SStr(s) => s
    case _ => ""
  }

  /** A rendered name and the settings after rendering it. */
  datatype Rendered = Rendered(name: string, store: Settings.Store)

  predicate IsLight(e: Entry) {
    e.image.Some? && e.image.value.imageType == Some("LIGHT")
  }

  /** The name the template gives `e`, before the empty-result fallback. */
  function Substituted(e: Entry, template: string, store: Settings.Store, decompress: bool, xisfAsFits: bool,
                       cal: Calendar): (r: Result<string, string>)
    ensures r.Failure? <==> e.image.Some? && e.image.value.dateObs.None?
  {
    var name := ExportName(e.file.name, decompress, xisfAsFits);
    var m :- Mapping(e, name, LastLightPath(store), cal);
    Success(Template.SafeSubstitute(template, AsMapping(m)))
  }

  /**
   * `template_filename`: the substituted template, or the export name when that is empty.
   * A LIGHT frame records the directory of its rendering as the last light path.
   */
  function TemplateFilename(e: Entry, template: string, store: Settings.Store, decompress: bool, xisfAsFits: bool,
                            cal: Calendar): (r: Result<Rendered, string>)
    ensures r.Failure? <==> e.image.Some? && e.image.value.dateObs.None?
    ensures r.Success? && e.file.name != "" ==> r.value.name != ""
    ensures r.Success? && !IsLight(e) ==> r.value.store == store
    ensures r.Success? && IsLight(e) ==>
              r.value.store == store[LastLightKey := Settings.SStr(PurePaths.Render(PurePaths.Parent(PurePaths.Parse(r.value.name))))]
  {
    var name := ExportName(e.file.name, decompress, xisfAsFits);
    ExportNameNonEmpty(e.file.name, decompress, xisfAsFits);
    var s :- Substituted(e, template, store, decompress, xisfAsFits, cal);
    var result := if s == "" then name else s;
    var store' := if IsLight(e) then
                    store[LastLightKey := Settings.SStr(PurePaths.Render(PurePaths.Parent(PurePaths.Parse(result))))]
                  else store;
    Success(Rendered(result, store'))
  }

  /** An empty rendering falls back to the export name, and a template without `$` is used as written. */
  lemma RenderingFallback(e: Entry, template: string, store: Settings.Store, decompress: bool, xisfAsFits: bool,
                          cal: Calendar)
    requires e.image.None? || e.image.value.dateObs.Some?
    ensures var r := TemplateFilename(e, template, store, decompress, xisfAsFits, cal);
            r.Success?
            && (template == "" ==> r.value.name == ExportName(e.file.name, decompress, xisfAsFits))
            && (template != "" && '$' !in template ==> r.value.name == template)
  {
    var name := ExportName(e.file.name, decompress, xisfAsFits);
    var v := Mapping(e, name, LastLightPath(store), cal).value;
    var m := AsMapping(v);
    if '$' !in template {
      Template.NoPlaceholders(template, m);
    }
  }

  /**
   * A pattern that is one placeholder renders as that placeholder's value, as the export
   * name when the value is empty, and verbatim when the mapping does not define it.
   */
  lemma SinglePlaceholder(e: Entry, name: string, store: Settings.Store, decompress: bool, xisfAsFits: bool,
                          cal: Calendar)
    requires e.image.None? || e.image.value.dateObs.Some?
    requires Template.IsIdentifier(name)
    ensures var exportName := ExportName(e.file.name, decompress, xisfAsFits);
            var v := Mapping(e, exportName, LastLightPath(store), cal).value;
            var r := TemplateFilename(e, "$" + name, store, decompress, xisfAsFits, cal);
            r.Success?
            && r.value.name == match Lookup(v, name)
                               case None => "$" + name
                               case Some(x) => if x == "" then exportName else x
  {
    var exportName := ExportName(e.file.name, decompress, xisfAsFits);
    var v := Mapping(e, exportName, LastLightPath(store), cal).value;
    Template.NamedPlaceholder(name, "", AsMapping(v));
    assert "$" + name + "" == "$" + name;
  }

  /** `$filename` is the export name and `$last_light_path` the stored one; `$root` is not defined. */
  lemma PlaceholderValues(e: Entry, store: Settings.Store, decompress: bool, xisfAsFits: bool, cal: Calendar)
    requires e.image.None? || e.image.value.dateObs.Some?
    ensures var exportName := ExportName(e.file.name, decompress, xisfAsFits);
            var v := Mapping(e, exportName, LastLightPath(store), cal).value;
            Lookup(v, "filename") == Some(exportName)
            && Lookup(v, "last_light_path") == Some(LastLightPath(store))
            && Lookup(v, "root") == None
  {
    var exportName := ExportName(e.file.name, decompress, xisfAsFits);
    var v := Mapping(e, exportName, LastLightPath(store), cal).value;
    LookupNames(v);
  }

  /** `$date_minus12` is the day twelve hours before the observation: the previous day before noon. */
  lemma DateMinus12Value(e: Entry, fileName: string, lastLight: string, cal: Calendar)
    requires e.image.Some? && e.image.value.dateObs.Some?
    ensures var t := e.image.value.dateObs.value;
            Lookup(Mapping(e, fileName, lastLight, cal).value, "date_minus12")
            == Some(cal.dateText(if t % DayMicros < 12 * HourMicros then DayOf(t) - 1 else DayOf(t)))
  {
    MappingDateMinus12(e, fileName, lastLight, cal);
    LookupNames(Mapping(e, fileName, lastLight, cal).value);
    MinusTwelveHours(e.image.value.dateObs.value);
  }

  lemma MappingDateMinus12(e: Entry, fileName: string, lastLight: string, cal: Calendar)
    requires e.image.Some? && e.image.value.dateObs.Some?
    ensures Mapping(e, fileName, lastLight, cal).Success?
    ensures Mapping(e, fileName, lastLight, cal).value.dateMinus12
            == cal.dateText(DayOf(e.image.value.dateObs.value - 12 * HourMicros))
  {
  }

  lemma LookupNames(v: Values)
    ensures Lookup(v, "filename") == Some(v.fileName)
    ensures Lookup(v, "last_light_path") == Some(v.lastLightPath)
    ensures Lookup(v, "date_minus12") == Some(v.dateMinus12)
    ensures Lookup(v, "root") == None
  {
  }

  /**
   * `os.path.join(Path(refName).parent, Path(name).name)`: the result sits in the
   * directory of `refName` and carries the base name of `name`.
   */
  function Place(refName: string, name: string): (r: string)
    ensures var base := PurePaths.Name(PurePaths.Parse(name));
            base != "" ==>
              PurePaths.Parent(PurePaths.Parse(r)) == PurePaths.Parent(PurePaths.Parse(refName))
              && PurePaths.Name(PurePaths.Parse(r)) == base
  {
    var dir := PurePaths.Parent(PurePaths.Parse(refName));
    var base := PurePaths.Name(PurePaths.Parse(name));
    if base != "" then
      PurePaths.JoinBelow(dir, base);
      Catalogue.PathJoin(PurePaths.Render(dir), base)
    else Catalogue.PathJoin(PurePaths.Render(dir), base)
  }

  /**
   * `template_filename_with_ref`: without a reference file the plain rendering; with one,
   * the file's rendering placed in the directory of the reference's. The file is rendered
   * first, so a LIGHT file's new last light path is what the reference sees.
   */
  function TemplateFilenameWithRef(e: Entry, ref: Option<Entry>, template: string, store: Settings.Store,
                                   decompress: bool, xisfAsFits: bool, cal: Calendar): (r: Result<Rendered, string>)
    ensures ref.None? ==> r == TemplateFilename(e, template, store, decompress, xisfAsFits, cal)
    ensures ref.Some? ==>
              var regular := TemplateFilename(e, template, store, decompress, xisfAsFits, cal);
              regular.Success? ==>
                var refRendered := TemplateFilename(ref.value, template, regular.value.store, decompress, xisfAsFits, cal);
                refRendered.Success? ==>
                  r == Success(Rendered(Place(refRendered.value.name, regular.value.name), refRendered.value.store))
  {
    var regular :- TemplateFilename(e, template, store, decompress, xisfAsFits, cal);
    match ref
    case None => Success(regular)
    case Some(rf) =>
      var refRendered :- TemplateFilename(rf, template, regular.store, decompress, xisfAsFits, cal);
      Success(Rendered(Place(refRendered.name, regular.name), refRendered.store))
  }

  // ---------------------------------------------------------------------------
  // The settings the dialog keeps between exports.

  const PatternsKey := "last_export_patterns"
  const MaxPatterns := 10

  /** `get_last_export_patterns() or []`. */
  function StoredPatterns(store: Settings.Store): seq<string> {
    match Settings.Read(store, PatternsKey)
    case SList(items) => items
    case _ => []
  }

  /** The saved pattern list: the current pattern moved or added to the front, at most ten kept. */
  function SavePatterns(prev: seq<string>, pattern: string): (r: seq<string>)
    ensures 1 <= |r| <= MaxPatterns && r[0] == pattern
    ensures forall x :: x in r ==> x == pattern || x in prev
  {
    Seqs.Take([pattern] + Seqs.RemoveFirst(prev, pattern), MaxPatterns)
  }

  /**
   * A duplicate-free list stays duplicate-free, and when nothing is cut off the list holds
   * exactly the previous patterns and the current one.
   */
  lemma SavePatternsSpec(prev: seq<string>, pattern: string)
    requires Seqs.NoDuplicates(prev)
    ensures Seqs.NoDuplicates(SavePatterns(prev, pattern))
    ensures |Seqs.RemoveFirst(prev, pattern)| < MaxPatterns ==>
              forall x :: x in SavePatterns(prev, pattern) <==> x == pattern || x in prev
  {
    var rest := Seqs.RemoveFirst(prev, pattern);
    Seqs.RemoveFirstNoDuplicates(prev, pattern);
    var full := [pattern] + rest;
    assert Seqs.NoDuplicates(full) by {
      forall i, j | 0 <= i < j < |full|
        ensures full[i] != full[j]
      {
        assert full[j] == rest[j - 1];
        if i > 0 {
          assert full[i] == rest[i - 1];
        } else {
          assert rest[j - 1] in rest;
        }
      }
    }
    var r := SavePatterns(prev, pattern);
    assert forall i :: 0 <= i < |r| ==> r[i] == full[i];
    if |rest| < MaxPatterns {
      assert r == full;
    }
  }

  /** Saving the same pattern twice leaves the list as the first save did. */
  lemma SavePatternsIdempotent(prev: seq<string>, pattern: string)
    ensures SavePatterns(SavePatterns(prev, pattern), pattern) == SavePatterns(prev, pattern)
  {
    var r := SavePatterns(prev, pattern);
    assert r == [pattern] + r[1..];
    assert Seqs.RemoveFirst(r, pattern) == r[1..];
  }

  /** What `save_settings` stores. */
  datatype DialogState = DialogState(
    outputPath: string, decompress: bool, xisfAsFits: bool, overridePlatesolve: bool,
    customHeaders: string, pattern: string)

  function TextSetting(store: Settings.Store, key: string): string
    requires key in Settings.Defaults
  {
    match Settings.Read(store, key)
    case SStr(s) => s
    case _ => ""
  }

  function BoolSetting(store: Settings.Store, key: string): bool
    requires key in Settings.Defaults
  {
    match Settings.Read(store, key)
    case SBool(b) => b
    case _ => Settings.Defaults[key].SBool? && Settings.Defaults[key].b
  }

  /** `save_settings`: every option of the dialog, and the pattern list with the current pattern first. */
  function SaveSettings(store: Settings.Store, d: DialogState): (r: Settings.Store)
    ensures forall k :: k in store ==> k in r
    ensures forall k :: k in store && k !in SavedKeys ==> r[k] == store[k]
    ensures StoredPatterns(r) == SavePatterns(StoredPatterns(store), d.pattern)
  {
    store["last_export_path" := Settings.SStr(d.outputPath)]
         ["last_export_decompress" := Settings.SBool(d.decompress)]
         ["last_export_xisf_as_fits" := Settings.SBool(d.xisfAsFits)]
         ["last_export_override_platesolve" := Settings.SBool(d.overridePlatesolve)]
         ["last_export_custom_headers" := Settings.SStr(d.customHeaders)]
         [PatternsKey := Settings.SList(SavePatterns(StoredPatterns(store), d.pattern))]
  }

  const SavedKeys: set<string> := {
    "last_export_path", "last_export_decompress", "last_export_xisf_as_fits",
    "last_export_override_platesolve", "last_export_custom_headers", PatternsKey}

  /**
   * `load_settings`: the options as saved, the pattern list, and the first pattern as the
   * current one (none when the list is empty).
   */
  function LoadSettings(store: Settings.Store): (r: (DialogState, seq<string>))
  {
    var patterns := StoredPatterns(store);
    (DialogState(TextSetting(store, "last_export_path"), BoolSetting(store, "last_export_decompress"),
                 BoolSetting(store, "last_export_xisf_as_fits"), BoolSetting(store, "last_export_override_platesolve"),
                 TextSetting(store, "last_export_custom_headers"), if |patterns| > 0 then patterns[0] else ""),
     patterns)
  }

  /** The dialog reopens with what it saved: the same options and the same current pattern. */
  lemma SaveLoadRoundTrip(store: Settings.Store, d: DialogState)
    ensures LoadSettings(SaveSettings(store, d)).0 == d
    ensures LoadSettings(SaveSettings(store, d)).1 == SavePatterns(StoredPatterns(store), d.pattern)
  {
  }

  // ---------------------------------------------------------------------------
  // Custom header lines.

  /** A `dict` of strings in insertion order. */
  type Dict = seq<(string, string)>

  function Get(d: Dict, k: string): (r: Option<string>)
    ensures r.None? <==> forall i :: 0 <= i < |d| ==> d[i].0 != k
  {
    if |d| == 0 then None
    else if d[0].0 == k then Some(d[0].1)
    else Get(d[1..], k)
  }

  predicate UniqueKeys(d: Dict) {
    forall i, j :: 0 <= i < j < |d| ==> d[i].0 != d[j].0
  }

  /** `d[k] = v`: an existing key keeps its place and takes the value, a new key goes last. */
  function Put(d: Dict, k: string, v: string): (r: Dict)
    ensures Get(r, k) == Some(v)
    ensures forall other :: other != k ==> Get(r, other) == Get(d, other)
    ensures |r| == |d| + (if Get(d, k).None? then 1 else 0)
  {
    if |d| == 0 then [(k, v)]
    else if d[0].0 == k then [(k, v)] + d[1..]
    else [d[0]] + Put(d[1..], k, v)
  }

  /** Every key of a dictionary is found in it. */
  lemma KeyFound(d: Dict, i: nat)
    requires i < |d|
    ensures Get(d, d[i].0).Some?
  {
  }

  /** Setting a key never duplicates one. */
  lemma {:induction false} PutUnique(d: Dict, k: string, v: string)
    requires UniqueKeys(d)
    ensures UniqueKeys(Put(d, k, v))
  {
    if |d| > 0 && d[0].0 != k {
      var tail := d[1..];
      assert UniqueKeys(tail) by {
        forall i, j | 0 <= i < j < |tail|
          ensures tail[i].0 != tail[j].0
        {
          assert tail[i] == d[i + 1] && tail[j] == d[j + 1];
        }
      }
      PutUnique(tail, k, v);
      var rest := Put(tail, k, v);
      assert Get(tail, d[0].0).None? by {
        forall i | 0 <= i < |tail|
          ensures tail[i].0 != d[0].0
        {
          assert tail[i] == d[i + 1];
        }
      }
      forall i | 0 <= i < |rest|
        ensures rest[i].0 != d[0].0
      {
        KeyFound(rest, i);
      }
    } else if |d| > 0 {
      var r := Put(d, k, v);
      forall i, j | 0 <= i < j < |r|
        ensures r[i].0 != r[j].0
      {
        assert r[j].0 == d[j].0;
        if i > 0 {
          assert r[i].0 == d[i].0;
        }
      }
    }
  }

  /** One line of the custom header text: `key = value`, split at the first `=` and stripped. */
  function HeaderLine(line: string): (r: Option<(string, string)>)
    ensures r.None? <==> '=' !in line
  {
    match IndexOf(line, '=')
    case None => None
    case Some(i) => Some((Strip(line[..i]), Strip(line[i + 1..])))
  }

  /** A parsed line: a key and its value, or nothing for a line without `=`. */
  type HeaderEntry = Option<(string, string)>

  /** Each line parsed on its own. */
  function Entries(lines: seq<string>): (r: seq<HeaderEntry>)
    ensures |r| == |lines| && forall i :: 0 <= i < |lines| ==> r[i] == HeaderLine(lines[i])
  {
    seq(|lines|, i requires 0 <= i < |lines| => HeaderLine(lines[i]))
  }

  /** The entries in order, each later one overriding an earlier one with the same key. */
  function Collect(es: seq<HeaderEntry>): (r: Dict)
    ensures UniqueKeys(r)
  {
    if |es| == 0 then []
    else
      var d := Collect(es[..|es| - 1]);
      match es[|es| - 1]
      case None => d
      case Some(kv) =>
        PutUnique(d, kv.0, kv.1);
        Put(d, kv.0, kv.1)
  }

  /** The custom headers the export dialog parses from its text box. */
  function ParseCustomHeaders(text: string): Dict {
    var t := Strip(text);
    if t == "" then [] else Collect(Entries(Split(t, '\n')))
  }

  /** Entry `i` names key `k`. */
  predicate Names(es: seq<HeaderEntry>, i: int, k: string)
    requires 0 <= i < |es|
  {
    es[i].Some? && es[i].value.0 == k
  }

  /** The value the last entry naming `k` gives it, read from the back. */
  function LastValue(es: seq<HeaderEntry>, k: string): Option<string> {
    if |es| == 0 then None
    else if Names(es, |es| - 1, k) then Some(es[|es| - 1].value.1)
    else LastValue(es[..|es| - 1], k)
  }

  /** The collected dictionary holds, for every key, the value of the last entry naming it. */
  lemma {:induction false} CollectGet(es: seq<HeaderEntry>, k: string)
    ensures Get(Collect(es), k) == LastValue(es, k)
    decreases |es|
  {
    if |es| > 0 {
      CollectGet(es[..|es| - 1], k);
    }
  }

  /** No value exactly when no entry names the key. */
  lemma {:induction false} LastValueAbsent(es: seq<HeaderEntry>, k: string)
    ensures LastValue(es, k).None? <==> forall i :: 0 <= i < |es| ==> !Names(es, i, k)
    decreases |es|
  {
    if |es| > 0 {
      var n := |es| - 1;
      var init := es[..n];
      LastValueAbsent(init, k);
      forall i | 0 <= i < n
        ensures Names(init, i, k) == Names(es, i, k)
      {
        assert init[i] == es[i];
      }
      if !Names(es, n, k) {
        assert LastValue(es, k) == LastValue(init, k);
      }
    }
  }

  /** A value comes from an entry naming the key, after which no entry names it. */
  lemma {:induction false} LastValueFromLastLine(es: seq<HeaderEntry>, k: string)
    requires LastValue(es, k).Some?
    ensures exists i :: 0 <= i < |es| && es[i] == Some((k, LastValue(es, k).value))
                        && forall j :: i < j < |es| ==> !Names(es, j, k)
    decreases |es|
  {
    var n := |es| - 1;
    if !Names(es, n, k) {
      var init := es[..n];
      LastValueFromLastLine(init, k);
      var v := LastValue(init, k).value;
      assert LastValue(es, k) == Some(v);
      var i :| 0 <= i < n && init[i] == Some((k, v)) && forall j :: i < j < n ==> !Names(init, j, k);
      forall j | i < j < |es|
        ensures !Names(es, j, k)
      {
        if j < n {
          assert init[j] == es[j];
          assert !Names(init, j, k);
        }
      }
      assert es[i] == init[i];
    }
  }

  /** A line is split at its first `=`: the value may itself contain `=`. */
  lemma HeaderLineFirstEquals(key: string, value: string)
    requires '=' !in key
    ensures HeaderLine(key + "=" + value) == Some((Strip(key), Strip(value)))
  {
    IndexOfAfter(key, '=', value);
    var line := key + "=" + value;
    assert line[..|key|] == key;
    assert line[|key| + 1..] == value;
  }

  /** `customize_fits_headers`: a plate solution is to be copied in, or there are custom headers. */
  predicate Customize(overridePlatesolve: bool, custom: Dict) {
    overridePlatesolve || |custom| > 0
  }

  /** The lines of the custom header text, as the dialog splits them. */
  function HeaderLines(text: string): seq<string> {
    var t := Strip(text);
    if t == "" then [] else Split(t, '\n')
  }

  /**
   * A key of the custom headers takes the value of the last line naming it, and a key no
   * line names is absent.
   */
  lemma CustomHeaderValue(text: string, k: string)
    ensures var es := Entries(HeaderLines(text));
            Get(ParseCustomHeaders(text), k) == LastValue(es, k)
            && (Get(ParseCustomHeaders(text), k).None? <==> forall i :: 0 <= i < |es| ==> !Names(es, i, k))
  {
    var es := Entries(HeaderLines(text));
    if Strip(text) != "" {
      CollectGet(es, k);
    }
    LastValueAbsent(es, k);
  }

  /** The text yields custom headers exactly when it contains an `=`. */
  lemma CustomHeadersPresent(text: string)
    ensures |ParseCustomHeaders(text)| > 0 <==> '=' in text
  {
    var t := Strip(text);
    assert '=' in t <==> '=' in text by {
      StripKeepsNonSpace(text, '=');
    }
    if t != "" {
      var lines := Split(t, '\n');
      var es := Entries(lines);
      var d := Collect(es);
      JoinSplit(t, '\n');
      JoinContains(lines, '\n', '=');
      if '=' in t {
        var i :| 0 <= i < |lines| && '=' in lines[i];
        var k := HeaderLine(lines[i]).value.0;
        CollectGet(es, k);
        LastValueAbsent(es, k);
        assert Names(es, i, k);
      } else if |d| > 0 {
        var k := d[0].0;
        KeyFound(d, 0);
        CollectGet(es, k);
        LastValueAbsent(es, k);
      }
    }
  }

  /** `strip` removes only whitespace, so a non-space character is found before and after alike. */
  lemma StripKeepsNonSpace(s: string, c: char)
    requires !IsSpace(c)
    ensures c in Strip(s) <==> c in s
  {
    LStripKeepsNonSpace(s, c);
    RStripKeepsNonSpace(LStrip(s), c);
  }

  lemma LStripKeepsNonSpace(s: string, c: char)
    requires !IsSpace(c)
    ensures c in LStrip(s) <==> c in s
  {
    var l := LStrip(s);
    assert c in s ==> c in l by {
      if c in s {
        var i :| 0 <= i < |s| && s[i] == c;
        assert i >= |s| - |l|;
        assert l[i - (|s| - |l|)] == c;
      }
    }
    assert c in l ==> c in s by {
      if c in l {
        var i :| 0 <= i < |l| && l[i] == c;
        assert s[i + |s| - |l|] == c;
      }
    }
  }

  lemma RStripKeepsNonSpace(s: string, c: char)
    requires !IsSpace(c)
    ensures c in RStrip(s) <==> c in s
  {
    var r := RStrip(s);
    assert c in s ==> c in r by {
      if c in s {
        var i :| 0 <= i < |s| && s[i] == c;
        assert i < |r|;
        assert r[i] == c;
      }
    }
    assert c in r ==> c in s by {
      if c in r {
        var i :| 0 <= i < |r| && r[i] == c;
        assert s[i] == c;
      }
    }
  }

  /** A character other than the separator is in a join exactly when it is in one of the parts. */
  lemma {:induction false} JoinContains(parts: seq<string>, sep: char, c: char)
    requires c != sep
    ensures c in Join(parts, [sep]) <==> exists i :: 0 <= i < |parts| && c in parts[i]
  {
    if |parts| > 1 {
      JoinContains(parts[1..], sep, c);
      var rest := Join(parts[1..], [sep]);
      assert Join(parts, [sep]) == parts[0] + [sep] + rest;
      if exists i :: 0 <= i < |parts| - 1 && c in parts[1..][i] {
        var i :| 0 <= i < |parts| - 1 && c in parts[1..][i];
        assert parts[1..][i] == parts[i + 1];
      }
      if exists i :: 0 <= i < |parts| && c in parts[i] {
        var i :| 0 <= i < |parts| && c in parts[i];
        if i > 0 {
          assert parts[1..][i - 1] == parts[i];
        }
      }
    }
  }

  // ---------------------------------------------------------------------------
  // How one file is copied.

  /** The header changes a rewrite applies: the plate solution to copy in, if any, then the custom cards. */
  datatype HeaderEdit = HeaderEdit(wcs: Option<Wcs.Cards>, custom: Dict)

  /** What `copy_file` does with a source. */
  datatype CopyAction =
    | CopyBytes                     // `shutil.copy2`: the stored bytes, compressed or not
    | DecompressBytes               // the stream `fopen` decompresses, written out as is
    | RewriteFits(edit: HeaderEdit) // the primary HDU written again with the edited header
    | ConvertXisf(edit: HeaderEdit) // the first XISF image with FITS keywords written as FITS
    | NotCopied                     // neither FITS nor XISF by name: nothing is written

  /** `copy_file` and `copy_fits_data`: the choice made from the source's name and the options. */
  function CopyActionOf(source: string, xisfAsFits: bool, decompress: bool, customize: bool, edit: HeaderEdit): CopyAction {
    if FileNames.IsXisfByName(source) then
      if xisfAsFits then ConvertXisf(edit) else CopyBytes
    else if FileNames.IsFitsByName(source) then
      if customize then RewriteFits(edit)
      else if FileNames.IsCompressed(source) && decompress then DecompressBytes
      else CopyBytes
    else NotCopied
  }

  /**
   * The choice by cases: nothing is written for a name that is neither FITS nor XISF; XISF
   * is converted exactly when asked; a FITS header is rewritten exactly when customising;
   * the decompressed stream is written only for a compressed source with decompression on.
   */
  lemma CopyActionCases(source: string, xisfAsFits: bool, decompress: bool, customize: bool, edit: HeaderEdit)
    ensures var r := CopyActionOf(source, xisfAsFits, decompress, customize, edit);
            (r.NotCopied? <==> !FileNames.IsXisfByName(source) && !FileNames.IsFitsByName(source))
            && (r.ConvertXisf? <==> FileNames.IsXisfByName(source) && xisfAsFits)
            && (r.RewriteFits? <==> !FileNames.IsXisfByName(source) && FileNames.IsFitsByName(source) && customize)
            && (r.DecompressBytes? <==> !FileNames.IsXisfByName(source) && FileNames.IsFitsByName(source) && !customize
                                         && FileNames.IsCompressed(source) && decompress)
            && (r.RewriteFits? || r.ConvertXisf? ==> r.edit == edit)
  {
  }

  /** Two `EndsWith` facts fix the same last character. */
  lemma LastCharOf(s: string, suffix: string)
    requires |suffix| > 0 && EndsWith(s, suffix)
    ensures s[|s| - 1] == suffix[|suffix| - 1]
  {
    FileNames.EndsWithChars(s, suffix);
  }

  /** A name ending in a FITS extension, any case, does not end in `.xisf`. */
  lemma FitsNotXisf(name: string)
    requires FileNames.EndsFitsNoCase(name)
    ensures !FileNames.IsXisfByName(name)
  {
    var l := Lower(name);
    if EndsWith(l, ".fit") {
      LastCharOf(l, ".fit");
    } else {
      LastCharOf(l, ".fits");
    }
    if EndsWith(l, ".xisf") {
      LastCharOf(l, ".xisf");
    }
  }

  /** A name ending in a compressed extension, any case, does not end in `.xisf`. */
  lemma CompressedNotXisf(name: string)
    requires FileNames.EndsCompressedNoCase(name)
    ensures !FileNames.IsXisfByName(name)
  {
    var l := Lower(name);
    if EndsWith(l, ".xz") {
      LastCharOf(l, ".xz");
    } else if EndsWith(l, ".gz") {
      LastCharOf(l, ".gz");
    } else {
      LastCharOf(l, ".bz2");
    }
    if EndsWith(l, ".xisf") {
      LastCharOf(l, ".xisf");
    }
  }

  /** Lower-casing keeps a suffix that is already lower case. */
  lemma LowerKeepsSuffix(s: string, suffix: string)
    requires EndsWith(s, suffix)
    requires forall k :: 0 <= k < |suffix| ==> LowerChar(suffix[k]) == suffix[k]
    ensures EndsWith(Lower(s), suffix)
  {
    FileNames.EndsWithChars(s, suffix);
    FileNames.LowerEndsWith(s, suffix);
  }

  /** A compressed extension, exact case, is also one in any case. */
  lemma CompressedEndsCompressed(name: string)
    requires FileNames.IsCompressed(name)
    ensures FileNames.EndsCompressedNoCase(name)
  {
    var parts := FileNames.SplitExt(name);
    var e := parts.1;
    assert name == parts.0 + e;
    assert EndsWith(name, e);
    if e == ".xz" {
      LowerKeepsSuffix(name, ".xz");
    } else if e == ".gz" {
      LowerKeepsSuffix(name, ".gz");
    } else {
      LowerKeepsSuffix(name, ".bz2");
    }
  }

  /**
   * The export name of a FITS file: the compressed extension goes exactly when the file is
   * compressed and decompression is on; XISF conversion never applies to it.
   */
  lemma ExportNameOfFits(name: string, decompress: bool, xisfAsFits: bool)
    requires FileNames.IsFitsByName(name)
    ensures ExportName(name, decompress, xisfAsFits)
            == if FileNames.IsCompressed(name) && decompress then FileNames.SplitExt(name).0 else name
    ensures ExportName(name, decompress, xisfAsFits) != name <==> FileNames.IsCompressed(name) && decompress
  {
    if FileNames.EndsCompressedNoCase(name) {
      CompressedNotXisf(name);
      FitsNotXisf(FileNames.SplitExt(name).0);
    } else {
      FitsNotXisf(name);
      if FileNames.IsCompressed(name) {
        CompressedEndsCompressed(name);
      }
    }
    if FileNames.IsCompressed(name) {
      assert |FileNames.Ext(name)| > 0;
    }
  }

  /** The name tests see only the last component of `os.path.join(a, name)`. */
  lemma NameTestsOfJoin(a: string, name: string)
    requires '/' !in name
    ensures var p := Catalogue.PathJoin(a, name);
            (FileNames.IsCompressed(p) <==> FileNames.IsCompressed(name))
            && (FileNames.IsFitsByName(p) <==> FileNames.IsFitsByName(name))
            && (FileNames.IsXisfByName(p) <==> FileNames.IsXisfByName(name))
  {
    assert |name| == 0 || name[0] != '/' by {
      if |name| > 0 {
        assert name[0] in name;
      }
    }
    if a == "" {
      assert Catalogue.PathJoin(a, name) == name;
    } else if a[|a| - 1] == '/' {
      var dir := a[..|a| - 1];
      assert Catalogue.PathJoin(a, name) == a + name;
      assert a + name == dir + "/" + name;
      FileNames.NameTestsUnderDir(dir, name);
    } else {
      assert Catalogue.PathJoin(a, name) == a + "/" + name;
      FileNames.NameTestsUnderDir(a, name);
    }
  }

  // ---------------------------------------------------------------------------
  // The header a rewrite produces.

  /** `_copy_wcs`: every card of the solution except the `NAXIS*` ones set by keyword, in order. */
  function CopyWcs(h: Wcs.Cards, solution: Wcs.Cards, cs: Wcs.Cards): Wcs.Cards
    requires forall i :: 0 <= i < |cs| ==> Wcs.Has(solution, cs[i].keyword)
    decreases |cs|
  {
    if |cs| == 0 then h
    else
      var k := cs[0].keyword;
      var h' := if StartsWith(k, "NAXIS") then h else Wcs.SetCard(h, k, Wcs.Lookup(solution, k).value);
      CopyWcs(h', solution, cs[1..])
  }

  /** `header[key] = value` for each custom header, in order. */
  function ApplyCustom(h: Wcs.Cards, d: Dict): Wcs.Cards
    decreases |d|
  {
    if |d| == 0 then h else ApplyCustom(Wcs.SetCard(h, d[0].0, Headers.HStr(d[0].1)), d[1..])
  }

  /** The header written by a rewrite: the plate solution copied in, then the custom headers. */
  function RewriteHeader(h: Wcs.Cards, edit: HeaderEdit): Wcs.Cards {
    var solved := match edit.wcs
      case None => h
      case Some(w) =>
        assert forall i :: 0 <= i < |w| ==> Wcs.Has(w, w[i].keyword) by {
          forall i | 0 <= i < |w|
            ensures Wcs.Has(w, w[i].keyword)
          {
            assert w[i] in w;
          }
        }
        CopyWcs(h, w, w);
    ApplyCustom(solved, edit.custom)
  }

  /** After copying the solution, a keyword it carries (other than `NAXIS*`) has its value; others are untouched. */
  lemma {:induction false} CopyWcsLookup(h: Wcs.Cards, solution: Wcs.Cards, cs: Wcs.Cards, k: string)
    requires forall i :: 0 <= i < |cs| ==> Wcs.Has(solution, cs[i].keyword)
    ensures Wcs.Lookup(CopyWcs(h, solution, cs), k)
            == if (exists i :: 0 <= i < |cs| && cs[i].keyword == k) && !StartsWith(k, "NAXIS")
               then Wcs.Lookup(solution, k) else Wcs.Lookup(h, k)
    decreases |cs|
  {
    if |cs| > 0 {
      var c := cs[0].keyword;
      var h' := if StartsWith(c, "NAXIS") then h else Wcs.SetCard(h, c, Wcs.Lookup(solution, c).value);
      CopyWcsLookup(h', solution, cs[1..], k);
      assert (exists i :: 0 <= i < |cs| && cs[i].keyword == k)
             <==> c == k || exists i :: 0 <= i < |cs| - 1 && cs[1..][i].keyword == k by {
        if exists i :: 0 <= i < |cs| && cs[i].keyword == k {
          var i :| 0 <= i < |cs| && cs[i].keyword == k;
          if i > 0 {
            assert cs[1..][i - 1] == cs[i];
          }
        }
      }
    }
  }

  /** After the custom headers, a key among them has its text; others are untouched. */
  lemma {:induction false} ApplyCustomLookup(h: Wcs.Cards, d: Dict, k: string)
    requires UniqueKeys(d)
    ensures Wcs.Lookup(ApplyCustom(h, d), k)
            == if Get(d, k).Some? then Some(Headers.HStr(Get(d, k).value)) else Wcs.Lookup(h, k)
    decreases |d|
  {
    if |d| > 0 {
      var tail := d[1..];
      assert UniqueKeys(tail) by {
        forall i, j | 0 <= i < j < |tail|
          ensures tail[i].0 != tail[j].0
        {
          assert tail[i] == d[i + 1] && tail[j] == d[j + 1];
        }
      }
      ApplyCustomLookup(Wcs.SetCard(h, d[0].0, Headers.HStr(d[0].1)), tail, k);
      if d[0].0 == k {
        assert Get(tail, k).None? by {
          forall i | 0 <= i < |tail|
            ensures tail[i].0 != k
          {
            assert tail[i] == d[i + 1];
          }
        }
      }
    }
  }

  /**
   * The rewritten header: a custom header wins, then a keyword of the plate solution
   * (other than `NAXIS*`), and every other keyword keeps its value.
   */
  lemma RewriteHeaderLookup(h: Wcs.Cards, edit: HeaderEdit, k: string)
    requires UniqueKeys(edit.custom)
    ensures Wcs.Lookup(RewriteHeader(h, edit), k)
            == if Get(edit.custom, k).Some? then Some(Headers.HStr(Get(edit.custom, k).value))
               else if edit.wcs.Some? && Wcs.Has(edit.wcs.value, k) && !StartsWith(k, "NAXIS") then Wcs.Lookup(edit.wcs.value, k)
               else Wcs.Lookup(h, k)
  {
    var solved := match edit.wcs case None => h case Some(w) => CopyWcs(h, w, w);
    ApplyCustomLookup(solved, edit.custom, k);
    if edit.wcs.Some? {
      var w := edit.wcs.value;
      assert forall i :: 0 <= i < |w| ==> Wcs.Has(w, w[i].keyword) by {
        forall i | 0 <= i < |w|
          ensures Wcs.Has(w, w[i].keyword)
        {
          assert w[i] in w;
        }
      }
      CopyWcsLookup(h, w, w, k);
      if Wcs.Has(w, k) {
        var c :| c in w && c.keyword == k;
        var i :| 0 <= i < |w| && w[i] == c;
      }
    }
  }

  // ---------------------------------------------------------------------------
  // The export run.

  /** What the worker is started with. */
  datatype Options = Options(
    outputPath: string, decompress: bool, xisfAsFits: bool, overridePlatesolve: bool,
    custom: Dict, template: string, ref: Option<Entry>)

  /** A file to export with the plate solution stored for it, if any. */
  datatype Item = Item(entry: Entry, wcs: Option<Wcs.Cards>)

  /** One processed file: copied with some action, or skipped because its target exists. */
  datatype Step =
    | Copied(source: string, target: string, action: CopyAction)
    | AlreadyThere(source: string, target: string)

  /** A step that leaves a file at its target. */
  predicate Writes(s: Step) {
    s.Copied? && !s.action.NotCopied?
  }

  /** `file.full_filename()`. */
  function Source(item: Item): string {
    Catalogue.FullFilename(item.entry.rootPath, item.entry.file)
  }

  /** `customize_fits_headers`. */
  predicate CustomizeFor(opts: Options) {
    Customize(opts.overridePlatesolve, opts.custom)
  }

  /** The edit for one file: its plate solution only when overriding is on. */
  function EditFor(item: Item, opts: Options): HeaderEdit {
    HeaderEdit(if opts.overridePlatesolve then item.wcs else None, opts.custom)
  }

  /** The action `copy_file` chooses for a file under the options. */
  function PlannedAction(source: string, item: Item, opts: Options): CopyAction {
    CopyActionOf(source, opts.xisfAsFits, opts.decompress, CustomizeFor(opts), EditFor(item, opts))
  }

  /** The target path of a file: the rendered name under the output directory. */
  function TargetOf(rendered: Rendered, opts: Options): string {
    Catalogue.PathJoin(opts.outputPath, rendered.name)
  }

  const NoFitsImage := "No suitable image with FITS keywords found in XISF file"

  /**
   * `_process_file`: render the target name; skip a target that exists (paths compared as
   * `pathlib` parses them); otherwise copy. Converting an XISF file with no image carrying
   * FITS keywords raises. `convertible` tells which XISF files have such an image.
   */
  function ProcessFile(item: Item, opts: Options, store: Settings.Store, cal: Calendar,
                       present: set<PurePaths.PPath>, convertible: string -> bool): (r: Result<(Step, Settings.Store), string>)
    ensures r.Success? ==> r.value.0.source == Source(item)
    ensures r.Success? ==> (r.value.0.AlreadyThere? <==> PurePaths.Parse(r.value.0.target) in present)
    ensures r.Success? && r.value.0.Copied? ==> r.value.0.action == PlannedAction(Source(item), item, opts)
    ensures r.Success? && r.value.0.Copied? && r.value.0.action.ConvertXisf? ==> convertible(Source(item))
  {
    var rendered :- TemplateFilenameWithRef(item.entry, opts.ref, opts.template, store, opts.decompress, opts.xisfAsFits, cal);
    var source := Source(item);
    var target := TargetOf(rendered, opts);
    if PurePaths.Parse(target) in present then Success((AlreadyThere(source, target), rendered.store))
    else
      var action := PlannedAction(Source(item), item, opts);
      if action.ConvertXisf? && !convertible(source) then Failure(NoFitsImage)
      else Success((Copied(source, target, action), rendered.store))
  }

  /** The parsed targets of the steps that wrote a file. */
  function WrittenPaths(steps: seq<Step>): (r: set<PurePaths.PPath>)
    ensures forall i :: 0 <= i < |steps| && Writes(steps[i]) ==> PurePaths.Parse(steps[i].target) in r
  {
    if |steps| == 0 then {}
    else
      var init := steps[..|steps| - 1];
      var last := steps[|steps| - 1];
      assert forall i :: 0 <= i < |init| ==> init[i] == steps[i];
      WrittenPaths(init) + if Writes(last) then {PurePaths.Parse(last.target)} else {}
  }

  /** Each step is for the file at the same position. */
  predicate SourcesMatch(steps: seq<Step>, items: seq<Item>)
    requires |steps| <= |items|
  {
    forall i :: 0 <= i < |steps| ==> steps[i].source == Source(items[i])
  }

  /** A step skips its target exactly when the file existed before or an earlier step wrote it. */
  predicate SkipsExactlyPresent(steps: seq<Step>, existing: set<PurePaths.PPath>) {
    forall i :: 0 <= i < |steps| ==>
      (steps[i].AlreadyThere? <==> PurePaths.Parse(steps[i].target) in existing + WrittenPaths(steps[..i]))
  }

  /** Each copy uses the action `copy_file` chooses for its file. */
  predicate ActionsMatch(steps: seq<Step>, items: seq<Item>, opts: Options)
    requires |steps| <= |items|
  {
    forall i :: 0 <= i < |steps| && steps[i].Copied? ==> steps[i].action == PlannedAction(steps[i].source, items[i], opts)
  }

  lemma SkipsExtend(steps: seq<Step>, step: Step, existing: set<PurePaths.PPath>)
    requires SkipsExactlyPresent(steps, existing)
    requires step.AlreadyThere? <==> PurePaths.Parse(step.target) in existing + WrittenPaths(steps)
    ensures SkipsExactlyPresent(steps + [step], existing)
  {
    var s := steps + [step];
    assert s[..|steps|] == steps;
    forall i | 0 <= i < |steps|
      ensures s[..i] == steps[..i] && s[i] == steps[i]
    {
    }
  }

  lemma SourcesExtend(steps: seq<Step>, step: Step, items: seq<Item>)
    requires |steps| < |items|
    requires SourcesMatch(steps, items)
    requires step.source == Source(items[|steps|])
    ensures SourcesMatch(steps + [step], items)
  {
    var s := steps + [step];
    forall i | 0 <= i < |s|
      ensures s[i].source == Source(items[i])
    {
      if i < |steps| {
        assert s[i] == steps[i];
      } else {
        assert i == |steps| && s[i] == step;
      }
    }
  }

  lemma ActionsExtend(steps: seq<Step>, step: Step, items: seq<Item>, opts: Options)
    requires |steps| < |items|
    requires ActionsMatch(steps, items, opts)
    requires step.Copied? ==> step.action == PlannedAction(step.source, items[|steps|], opts)
    ensures ActionsMatch(steps + [step], items, opts)
  {
    var s := steps + [step];
    forall i | 0 <= i < |s| && s[i].Copied?
      ensures s[i].action == PlannedAction(s[i].source, items[i], opts)
    {
      if i < |steps| {
        assert s[i] == steps[i];
      } else {
        assert i == |steps| && s[i] == step;
      }
    }
  }

  /** Writing one more step adds its target to the written paths. */
  lemma WrittenPathsExtend(steps: seq<Step>, step: Step)
    ensures WrittenPaths(steps + [step]) == WrittenPaths(steps) + if Writes(step) then {PurePaths.Parse(step.target)} else {}
  {
    assert (steps + [step])[..|steps|] == steps;
  }

  /** `_process_file` for the next file of a run, seen by the run only through what it promises. */
  method ProcessNext(item: Item, opts: Options, store: Settings.Store, cal: Calendar,
                     present: set<PurePaths.PPath>, convertible: string -> bool)
    returns (r: Result<(Step, Settings.Store), string>)
    ensures r.Success? ==> r.value.0.source == Source(item)
    ensures r.Success? ==> (r.value.0.AlreadyThere? <==> PurePaths.Parse(r.value.0.target) in present)
    ensures r.Success? && r.value.0.Copied? ==> r.value.0.action == PlannedAction(Source(item), item, opts)
  {
    r := ProcessFile(item, opts, store, cal, present, convertible);
  }

  /** One more processed file keeps every property of the run so far. */
  lemma RunStep(steps: seq<Step>, step: Step, items: seq<Item>, opts: Options, existing: set<PurePaths.PPath>)
    requires |steps| < |items|
    requires SkipsExactlyPresent(steps, existing)
    requires SourcesMatch(steps, items) && ActionsMatch(steps, items, opts)
    requires step.source == Source(items[|steps|])
    requires step.AlreadyThere? <==> PurePaths.Parse(step.target) in existing + WrittenPaths(steps)
    requires step.Copied? ==> step.action == PlannedAction(step.source, items[|steps|], opts)
    ensures SkipsExactlyPresent(steps + [step], existing)
    ensures SourcesMatch(steps + [step], items) && ActionsMatch(steps + [step], items, opts)
    ensures WrittenPaths(steps + [step]) == WrittenPaths(steps) + if Writes(step) then {PurePaths.Parse(step.target)} else {}
  {
    SkipsExtend(steps, step, existing);
    WrittenPathsExtend(steps, step);
    SourcesExtend(steps, step, items);
    ActionsExtend(steps, step, items, opts);
  }

  /** The result of a run: the steps done, the error that ended it early, and the settings afterwards. */
  datatype Outcome = Outcome(steps: seq<Step>, error: Option<string>, store: Settings.Store)

  /**
   * `_export_files_task` over the files in order: each step is for the file at the same
   * position, a target is skipped exactly when it existed before or an earlier step wrote
   * it, and the first error ends the run.
   */
  method ExportAll(items: seq<Item>, opts: Options, store: Settings.Store, cal: Calendar,
                   existing: set<PurePaths.PPath>, convertible: string -> bool) returns (out: Outcome)
    ensures |out.steps| <= |items|
    ensures out.error.None? <==> |out.steps| == |items|
    ensures SourcesMatch(out.steps, items) && ActionsMatch(out.steps, items, opts)
    ensures SkipsExactlyPresent(out.steps, existing)
  {
    var steps: seq<Step> := [];
    var st := store;
    var created := existing;
    var error: Option<string> := None;
    while |steps| < |items| && error.None?
      invariant |steps| <= |items|
      invariant error.Some? ==> |steps| < |items|
      invariant created == existing + WrittenPaths(steps)
      invariant SkipsExactlyPresent(steps, existing)
      invariant SourcesMatch(steps, items) && ActionsMatch(steps, items, opts)
      decreases |items| - |steps|, if error.None? then 1 else 0
    {
      var r := ProcessNext(items[|steps|], opts, st, cal, created, convertible);
      if r.Failure? {
        error := Some(r.error);
      } else {
        var step := r.value.0;
        RunStep(steps, step, items, opts, existing);
        steps := steps + [step];
        st := r.value.1;
        if Writes(step) {
          created := created + {PurePaths.Parse(step.target)};
        }
      }
    }
    out := Outcome(steps, error, st);
  }

  /** No two steps of a run write the same target, and none writes over a file that was there. */
  lemma WritesDistinct(steps: seq<Step>, existing: set<PurePaths.PPath>)
    requires SkipsExactlyPresent(steps, existing)
    ensures forall i :: 0 <= i < |steps| && Writes(steps[i]) ==> PurePaths.Parse(steps[i].target) !in existing
    ensures forall i, j :: 0 <= i < j < |steps| && Writes(steps[i]) && Writes(steps[j]) ==>
              PurePaths.Parse(steps[i].target) != PurePaths.Parse(steps[j].target)
  {
    forall i, j | 0 <= i < j < |steps| && Writes(steps[i]) && Writes(steps[j])
      ensures PurePaths.Parse(steps[i].target) != PurePaths.Parse(steps[j].target)
    {
      assert steps[..j][i] == steps[i];
    }
  }

  // ---------------------------------------------------------------------------
  // Starting an export from the dialog.

  /**
   * `export_files`: the settings saved, the reference file kept only when its box is
   * ticked, and the custom headers parsed from the text box.
   */
  function StartExport(store: Settings.Store, d: DialogState, useRef: bool, ref: Option<Entry>): (r: (Settings.Store, Options))
    ensures r.0 == SaveSettings(store, d)
    ensures r.1.ref.Some? <==> useRef && ref.Some?
    ensures r.1.template == d.pattern && r.1.outputPath == d.outputPath
  {
    (SaveSettings(store, d),
     Options(d.outputPath, d.decompress, d.xisfAsFits, d.overridePlatesolve,
             ParseCustomHeaders(d.customHeaders), d.pattern, if useRef then ref else None))
  }

  /** Headers are rewritten exactly when overriding is on or the custom text has an `=`. */
  lemma StartExportCustomizes(store: Settings.Store, d: DialogState, useRef: bool, ref: Option<Entry>)
    ensures CustomizeFor(StartExport(store, d, useRef, ref).1) <==> d.overridePlatesolve || '=' in d.customHeaders
  {
    CustomHeadersPresent(d.customHeaders);
  }

  /**
   * For a FITS file whose header is not rewritten, the exported name loses its compressed
   * extension exactly when the decompressed stream is what gets written.
   */
  lemma NameFollowsContent(item: Item, opts: Options)
    requires '/' !in item.entry.file.name
    requires FileNames.IsFitsByName(item.entry.file.name)
    requires !CustomizeFor(opts)
    ensures ExportName(item.entry.file.name, opts.decompress, opts.xisfAsFits) != item.entry.file.name
            <==> CopyActionOf(Source(item), opts.xisfAsFits, opts.decompress, CustomizeFor(opts), EditFor(item, opts)).DecompressBytes?
  {
    var e := item.entry;
    NameTestsOfJoin(Catalogue.PathJoin(e.rootPath, e.file.path), e.file.name);
    ExportNameOfFits(e.file.name, opts.decompress, opts.xisfAsFits);
    FitsNotXisfName(e.file.name);
  }

  /** A FITS name is never an XISF name. */
  lemma FitsNotXisfName(name: string)
    requires FileNames.IsFitsByName(name)
    ensures !FileNames.IsXisfByName(name)
  {
    if FileNames.EndsCompressedNoCase(name) {
      CompressedNotXisf(name);
    } else {
      FitsNotXisf(name);
    }
  }
}

=== FILE: filenames.dfy ===
/**
 * Classification of directory entries by name, as done by the library scanner
 * (photonfinder/filesystem.py): compressed or not, FITS or XISF, marked bad by a
 * wildcard pattern, and the set of names a catalogued file may appear under once
 * it has been compressed or decompressed on disk.
 */
module FileNames {
  import opened Wrappers
  import Text
  import Glob

  /** The extensions that select a decompressor, with their leading dot. */
  const CompressedExts: set<string> := {".xz", ".gz", ".bz2"}

  /** Index of the last `c` in `s`, or -1. */
  function LastIndex(s: string, c: char): (r: int)
    ensures -1 <= r < |s|
    ensures r >= 0 ==> s[r] == c
    ensures forall k :: r < k < |s| ==> s[k] != c
  {
    LastIndexBelow(s, c, |s|)
  }

  /** Index of the last `c` among the first `n` characters, or -1. */
  function LastIndexBelow(s: string, c: char, n: nat): (r: int)
    requires n <= |s|
    ensures -1 <= r < n
    ensures r >= 0 ==> s[r] == c
    ensures forall k :: r < k < n ==> s[k] != c
  {
    if n == 0 then -1
    else if s[n - 1] == c then n - 1
    else LastIndexBelow(s, c, n - 1)
  }

  /** Some character of `p` in the range [lo, hi) is not a dot. */
  predicate HasNonDot(p: string, lo: int, hi: int)
    requires 0 <= lo <= hi <= |p|
  {
    exists k :: lo <= k < hi && p[k] != '.'
  }

  /**
   * `os.path.splitext` on a POSIX path: the extension starts at the last dot of the
   * last path component, provided that component has a non-dot character before it
   * (so `.gitignore` has no extension).
   */
  function SplitExt(p: string): (r: (string, string))
    ensures r.0 + r.1 == p
    ensures r.1 == [] || (r.1[0] == '.' && '.' !in r.1[1..] && '/' !in r.1)
  {
    var sep := LastIndex(p, '/');
    var dot := LastIndex(p, '.');
    if dot > sep && HasNonDot(p, sep + 1, dot) then
      assert forall k :: dot < k < |p| ==> p[k] != '.';
      assert p[..dot] + p[dot..] == p;
      (p[..dot], p[dot..])
    else (p, [])
  }

  function Ext(p: string): string {
    SplitExt(p).1
  }

  lemma ExtAt(p: string, dot: int)
    requires 0 <= dot < |p| && LastIndex(p, '/') == -1 && LastIndex(p, '.') == dot
    requires HasNonDot(p, 0, dot)
    ensures Ext(p) == p[dot..]
  {
  }

  lemma NoExt(p: string)
    requires LastIndex(p, '/') == -1
    requires !HasNonDot(p, 0, if LastIndex(p, '.') < 0 then 0 else LastIndex(p, '.'))
    ensures Ext(p) == []
  {
  }

  /** `is_compressed`: the last extension is exactly `.xz`, `.gz` or `.bz2` (case matters). */
  predicate IsCompressed(name: string) {
    Ext(name) in CompressedExts
  }

  /** The opener `fopen` picks. */
  datatype Opener = Lzma | Gzip | Bz2 | Plain

  function Fopen(filename: string): (r: Opener)
    ensures r != Plain <==> IsCompressed(filename)
    ensures r == Lzma <==> Ext(filename) == ".xz"
    ensures r == Gzip <==> Ext(filename) == ".gz"
    ensures r == Bz2 <==> Ext(filename) == ".bz2"
  {
    var e := Ext(filename);
    if e == ".xz" then Lzma
    else if e == ".gz" then Gzip
    else if e == ".bz2" then Bz2
    else Plain
  }

  /** The name without its compressed extension, if it has one. */
  function StripCompressed(name: string): (r: string)
    ensures IsCompressed(name) ==> r + Ext(name) == name
    ensures !IsCompressed(name) ==> r == name
  {
    if IsCompressed(name) then SplitExt(name).0 else name
  }

  /**
   * `possible_compressed_variants`: the name, its base (one compressed extension
   * removed) and the base with each compressed extension appended.
   */
  function Variants(name: string): (r: set<string>)
    ensures name in r && StripCompressed(name) in r
    ensures forall e :: e in CompressedExts ==> StripCompressed(name) + e in r
    ensures forall v :: v in r ==> v == name || v == StripCompressed(name) || exists e :: e in CompressedExts && v == StripCompressed(name) + e
  {
    var base := StripCompressed(name);
    {name, base, base + ".xz", base + ".gz", base + ".bz2"}
  }

  /** A plain file name: no slash, a non-dot character, and no compressed extension. */
  predicate PlainBase(b: string) {
    '/' !in b && (exists k :: 0 <= k < |b| && b[k] != '.') && !IsCompressed(b)
  }

  lemma SplitExtAppend(b: string, e: string)
    requires '/' !in b && exists k :: 0 <= k < |b| && b[k] != '.'
    requires e in CompressedExts
    ensures SplitExt(b + e) == (b, e)
  {
    var p := b + e;
    var dot := LastIndex(p, '.');
    assert p[|b|] == '.';
    assert dot == |b| by {
      assert forall k :: |b| < k < |p| ==> p[k] != '.';
    }
    var sep := LastIndex(p, '/');
    assert sep < |b| by {
      assert forall k :: 0 <= k < |p| ==> (p[k] == '/' ==> k < |b|);
    }
    assert sep == -1;
    var k :| 0 <= k < |b| && b[k] != '.';
    assert p[k] != '.';
    assert HasNonDot(p, sep + 1, dot);
    assert p[..dot] == b;
  }

  /**
   * Every compressed variant of a plain name sees the same variant set, so an
   * uncompressed file and any compressed copy of it are matched against the same
   * catalogue names.
   */
  lemma VariantsShared(b: string, e: string)
    requires PlainBase(b) && e in CompressedExts
    ensures IsCompressed(b + e) && StripCompressed(b + e) == b
    ensures Variants(b + e) == Variants(b)
    ensures Variants(b) == {b, b + ".xz", b + ".gz", b + ".bz2"}
  {
    SplitExtAppend(b, e);
  }

  /** True if the lower-cased name ends with a compressed extension. */
  predicate EndsCompressedNoCase(name: string) {
    var l := Text.Lower(name);
    Text.EndsWith(l, ".xz") || Text.EndsWith(l, ".gz") || Text.EndsWith(l, ".bz2")
  }

  predicate EndsFitsNoCase(name: string) {
    var l := Text.Lower(name);
    Text.EndsWith(l, ".fit") || Text.EndsWith(l, ".fits")
  }

  /** `is_fits_by_name`: after removing one compressed extension (any case), ends in `.fit`/`.fits`. */
  predicate IsFitsByName(name: string) {
    var f := if EndsCompressedNoCase(name) then SplitExt(name).0 else name;
    EndsFitsNoCase(f)
  }

  /** `is_xisf_by_name`: ends in `.xisf`, any case; compressed XISF is not recognised. */
  predicate IsXisfByName(name: string) {
    Text.EndsWith(Text.Lower(name), ".xisf")
  }

  /** The characters an `EndsWith` fixes. */
  lemma EndsWithChars(s: string, suffix: string)
    requires Text.EndsWith(s, suffix)
    ensures forall k :: 0 <= k < |suffix| ==> s[|s| - |suffix| + k] == suffix[k]
  {
    forall k | 0 <= k < |suffix|
      ensures s[|s| - |suffix| + k] == suffix[k]
    {
      assert s[|s| - |suffix|..][k] == suffix[k];
    }
  }

  /** `EndsWith` on a lower-cased string, decided character by character. */
  lemma LowerEndsWith(s: string, suffix: string)
    requires |suffix| <= |s|
    requires forall k :: 0 <= k < |suffix| ==> Text.LowerChar(s[|s| - |suffix| + k]) == suffix[k]
    ensures Text.EndsWith(Text.Lower(s), suffix)
  {
    var l := Text.Lower(s);
    assert l[|l| - |suffix|..] == suffix;
  }

  /** No name is both a FITS name and an XISF name. */
  lemma FitsXisfExclusive(name: string)
    ensures !(IsFitsByName(name) && IsXisfByName(name))
  {
    if IsXisfByName(name) {
      var l := Text.Lower(name);
      EndsWithChars(l, ".xisf");
      var n := |l|;
      assert l[n - 1] == 'f' && l[n - 2] == 's';
      if Text.EndsWith(l, ".xz") { EndsWithChars(l, ".xz"); }
      if Text.EndsWith(l, ".gz") { EndsWithChars(l, ".gz"); }
      if Text.EndsWith(l, ".bz2") { EndsWithChars(l, ".bz2"); }
      assert !EndsCompressedNoCase(name);
      if Text.EndsWith(l, ".fit") { EndsWithChars(l, ".fit"); }
      if Text.EndsWith(l, ".fits") { EndsWithChars(l, ".fits"); }
      assert !EndsFitsNoCase(name);
    }
  }

  /** Splitting off an extension that follows a dot-free, slash-free tail. */
  lemma SplitExtOf(b: string, e: string)
    requires '/' !in b && exists k :: 0 <= k < |b| && b[k] != '.'
    requires |e| >= 1 && e[0] == '.' && '.' !in e[1..] && '/' !in e
    ensures SplitExt(b + e) == (b, e)
  {
    var p := b + e;
    assert p[|b|] == '.';
    assert forall k :: |b| < k < |p| ==> p[k] == e[1..][k - |b| - 1];
    var dot := LastIndex(p, '.');
    assert dot == |b|;
    var sep := LastIndex(p, '/');
    assert forall k :: 0 <= k < |p| ==> (p[k] == '/' ==> k < |b|);
    assert sep == -1;
    var k :| 0 <= k < |b| && b[k] != '.';
    assert p[k] != '.';
    assert HasNonDot(p, sep + 1, dot);
    assert p[..dot] == b;
  }

  /** Compressing a FITS file keeps it a FITS file by name. */
  lemma CompressedFitsIsFits(b: string, e: string)
    requires '/' !in b && exists k :: 0 <= k < |b| && b[k] != '.'
    requires e in CompressedExts
    requires EndsFitsNoCase(b)
    ensures IsFitsByName(b + e)
  {
    SplitExtAppend(b, e);
    CompressedEndsNoCase(b, e);
  }

  lemma CompressedEndsNoCase(b: string, e: string)
    requires e in CompressedExts
    ensures EndsCompressedNoCase(b + e)
  {
    assert forall k :: 0 <= k < |e| ==> !('A' <= e[k] <= 'Z');
    LowerKeepsSuffix(b, e);
  }

  /** A suffix without capitals survives lower-casing. */
  lemma LowerKeepsSuffix(b: string, e: string)
    requires forall k :: 0 <= k < |e| ==> !('A' <= e[k] <= 'Z')
    ensures Text.EndsWith(Text.Lower(b + e), e)
  {
    var l := Text.Lower(b + e);
    assert l[|l| - |e|..] == e by {
      forall k | 0 <= k < |e|
        ensures l[|l| - |e|..][k] == e[k]
      {
        assert (b + e)[|b| + k] == e[k];
      }
    }
  }

  /**
   * The two tests disagree on case: an upper-case `.XZ` name is a FITS name for the
   * scanner, yet `fopen` opens it without decompression.
   */
  lemma UpperCaseExtensionNotDecompressed()
    ensures IsFitsByName("M31.FITS.XZ")
    ensures !IsCompressed("M31.FITS.XZ") && Fopen("M31.FITS.XZ") == Plain
  {
    UpperCaseSplit();
    LowerEndsWith("M31.FITS.XZ", ".xz");
    LowerEndsWith("M31.FITS", ".fits");
  }

  lemma UpperCaseSplit()
    ensures SplitExt("M31.FITS.XZ") == ("M31.FITS", ".XZ")
  {
    assert "M31.FITS" + ".XZ" == "M31.FITS.XZ";
    assert "M31.FITS"[0] != '.';
    SplitExtOf("M31.FITS", ".XZ");
  }

  /** The FITS examples of the earlier scanner's tests (tests/test_filesystem.py), judged by the current rule. */
  lemma FitsExamples()
    ensures IsFitsByName("image.fits") && IsFitsByName("image.fit")
    ensures !IsFitsByName("image.jpg")
  {
    FitsExample("image.fits", ".fits");
    FitsExample("image.fit", ".fit");
    JpgExample();
  }

  lemma FitsExample(name: string, suffix: string)
    requires suffix == ".fits" || suffix == ".fit"
    requires |suffix| <= |name| && name[|name| - |suffix|..] == suffix
    ensures IsFitsByName(name)
  {
    assert name[|name| - 1] == suffix[|suffix| - 1];
    NotCompressedNoCase(name);
    LowerEndsWith(name, suffix);
  }

  lemma JpgExample()
    ensures !IsFitsByName("image.jpg")
  {
    NotCompressedNoCase("image.jpg");
    var l := Text.Lower("image.jpg");
    assert l[|l| - 1] == 'g' && l[|l| - 2] == 'p';
    if Text.EndsWith(l, ".fit") { EndsWithChars(l, ".fit"); }
    if Text.EndsWith(l, ".fits") { EndsWithChars(l, ".fits"); }
  }

  /** The compressed examples of the earlier scanner's tests (tests/test_filesystem.py), judged by the current rule. */
  lemma CompressedExamples()
    ensures IsCompressed("file.xz") && IsCompressed("file.gz") && !IsCompressed("file.txt")
  {
    assert "file"[0] != '.';
    assert "file" + ".xz" == "file.xz";
    assert "file" + ".gz" == "file.gz";
    assert "file" + ".txt" == "file.txt";
    SplitExtAppend("file", ".xz");
    SplitExtAppend("file", ".gz");
    SplitExtOf("file", ".txt");
  }

  /** A name whose lower-cased form ends in neither `z` nor `2` has no compressed extension. */
  lemma NotCompressedNoCase(name: string)
    requires |name| >= 1
    requires Text.LowerChar(name[|name| - 1]) != 'z' && Text.LowerChar(name[|name| - 1]) != '2'
    ensures !EndsCompressedNoCase(name)
  {
    var l := Text.Lower(name);
    if Text.EndsWith(l, ".xz") { EndsWithChars(l, ".xz"); }
    if Text.EndsWith(l, ".gz") { EndsWithChars(l, ".gz"); }
    if Text.EndsWith(l, ".bz2") { EndsWithChars(l, ".bz2"); }
  }

  /** Directory-entry kinds as reported by the filesystem listing. */
  datatype EntryKind = RegularFile | Directory | OtherKind

  /** `str.split('|')` of a pattern setting. */
  function Patterns(setting: string): (r: seq<string>)
    ensures |r| >= 1
  {
    Text.Split(setting, '|')
  }

  const DefaultPatterns: string := "bad*"

  predicate AnyPatternMatches(name: string, patterns: seq<string>) {
    exists i :: 0 <= i < |patterns| && Glob.Fnmatch(name, patterns[i])
  }

  /** `marked_bad`: the lower-cased name against the file or the directory patterns. */
  predicate MarkedBad(kind: EntryKind, name: string, filePatterns: seq<string>, dirPatterns: seq<string>) {
    match kind
    case RegularFile => AnyPatternMatches(Text.Lower(name), filePatterns)
    case Directory => AnyPatternMatches(Text.Lower(name), dirPatterns)
    case OtherKind => false
  }

  /** With the default `bad*` patterns, a file or directory is bad iff its name starts with `bad` in any case. */
  lemma DefaultPatternIsBadPrefix(kind: EntryKind, name: string)
    requires kind != OtherKind
    ensures MarkedBad(kind, name, Patterns(DefaultPatterns), Patterns(DefaultPatterns))
            <==> Text.StartsWith(Text.Lower(name), "bad")
  {
    assert Patterns(DefaultPatterns) == [DefaultPatterns] by {
      assert '|' !in DefaultPatterns;
    }
    assert DefaultPatterns == "bad" + "*";
    assert Glob.NoMeta("bad");
    Glob.PrefixStarPattern("bad", Text.Lower(name));
    var l := Text.Lower(name);
    if Glob.Fnmatch(l, DefaultPatterns) {
      assert [DefaultPatterns][0] == DefaultPatterns;
      assert AnyPatternMatches(l, [DefaultPatterns]);
    }
  }

  /** `_file_filter`: a FITS or XISF name that is not marked bad. */
  predicate FileFilter(name: string, filePatterns: seq<string>, dirPatterns: seq<string>) {
    (IsFitsByName(name) || IsXisfByName(name)) && !MarkedBad(RegularFile, name, filePatterns, dirPatterns)
  }

  /** `_dir_filter`: a directory that is not marked bad. */
  predicate DirFilter(name: string, filePatterns: seq<string>, dirPatterns: seq<string>) {
    !MarkedBad(Directory, name, filePatterns, dirPatterns)
  }

  // ---------------------------------------------------------------------------
  // The name tests on a full path agree with the same tests on its last component.

  lemma LastIndexAt(s: string, c: char, r: int)
    requires -1 <= r < |s| && (r >= 0 ==> s[r] == c)
    requires forall k :: r < k < |s| ==> s[k] != c
    ensures LastIndex(s, c) == r
  {
  }

  /** The last `/` of `dir/name` is the one after `dir`. */
  lemma SepUnderDir(dir: string, name: string)
    requires '/' !in name
    ensures LastIndex(dir + "/" + name, '/') == |dir|
  {
    var p := dir + "/" + name;
    forall k | |dir| < k < |p|
      ensures p[k] != '/'
    {
      assert p[k] == name[k - |dir| - 1];
    }
    LastIndexAt(p, '/', |dir|);
  }

  /** The last `.` of `dir/name`, when `name` has one. */
  lemma DotUnderDir(dir: string, name: string)
    requires LastIndex(name, '.') >= 0
    ensures LastIndex(dir + "/" + name, '.') == |dir| + 1 + LastIndex(name, '.')
  {
    var p := dir + "/" + name;
    var j := LastIndex(name, '.');
    forall k | |dir| + 1 + j < k < |p|
      ensures p[k] != '.'
    {
      assert p[k] == name[k - |dir| - 1];
    }
    assert p[|dir| + 1 + j] == name[j];
    LastIndexAt(p, '.', |dir| + 1 + j);
  }

  /** Without a `.` in `name`, the last `.` of `dir/name` is inside `dir`. */
  lemma NoDotUnderDir(dir: string, name: string)
    requires LastIndex(name, '.') < 0
    ensures LastIndex(dir + "/" + name, '.') < |dir|
  {
  }

  lemma NonDotUnderDir(dir: string, name: string, j: nat)
    requires j <= |name|
    ensures HasNonDot(dir + "/" + name, |dir| + 1, |dir| + 1 + j) <==> HasNonDot(name, 0, j)
  {
    var p := dir + "/" + name;
    var d := |dir| + 1;
    if HasNonDot(name, 0, j) {
      var k :| 0 <= k < j && name[k] != '.';
      assert p[d + k] == name[k];
    }
    if HasNonDot(p, d, d + j) {
      var k :| d <= k < d + j && p[k] != '.';
      assert p[k] == name[k - d];
    }
  }

  /** The extension of `dir/name` is the extension of `name`. */
  lemma SplitExtUnderDir(dir: string, name: string)
    requires '/' !in name
    ensures SplitExt(dir + "/" + name) == (dir + "/" + SplitExt(name).0, SplitExt(name).1)
  {
    var p := dir + "/" + name;
    var d := |dir| + 1;
    SepUnderDir(dir, name);
    var j := LastIndex(name, '.');
    if j >= 0 {
      DotUnderDir(dir, name);
      NonDotUnderDir(dir, name, j);
      assert LastIndex(name, '/') == -1;
      assert p[..d + j] == dir + "/" + name[..j];
      assert p[d + j..] == name[j..];
    } else {
      NoDotUnderDir(dir, name);
    }
  }

  /** A suffix free of `/` ends `a/b` exactly when it ends `b`. */
  lemma EndsWithAfterSlash(a: string, b: string, suffix: string)
    requires '/' !in suffix
    ensures Text.EndsWith(a + "/" + b, suffix) <==> Text.EndsWith(b, suffix)
  {
    var p := a + "/" + b;
    if |suffix| <= |b| {
      assert p[|p| - |suffix|..] == b[|b| - |suffix|..];
    } else if |suffix| <= |p| {
      var i := |suffix| - |b| - 1;
      assert p[|p| - |suffix|..][i] == '/';
      assert suffix[i] != '/' by {
        assert suffix[i] in suffix;
      }
    }
  }

  /** A suffix free of `/` ends `dir/name` exactly when it ends `name`, in any case. */
  lemma EndsWithUnderDir(dir: string, name: string, suffix: string)
    requires '/' !in suffix
    ensures Text.EndsWith(Text.Lower(dir + "/" + name), suffix) <==> Text.EndsWith(Text.Lower(name), suffix)
  {
    Text.LowerConcat(dir + "/", name);
    Text.LowerConcat(dir, "/");
    assert Text.Lower("/") == "/";
    EndsWithAfterSlash(Text.Lower(dir), Text.Lower(name), suffix);
  }

  /** Compressed, FITS and XISF are decided by the last path component alone. */
  lemma NameTestsUnderDir(dir: string, name: string)
    requires '/' !in name
    ensures IsCompressed(dir + "/" + name) <==> IsCompressed(name)
    ensures IsFitsByName(dir + "/" + name) <==> IsFitsByName(name)
    ensures IsXisfByName(dir + "/" + name) <==> IsXisfByName(name)
  {
    var p := dir + "/" + name;
    SplitExtUnderDir(dir, name);
    EndsWithUnderDir(dir, name, ".xz");
    EndsWithUnderDir(dir, name, ".gz");
    EndsWithUnderDir(dir, name, ".bz2");
    EndsWithUnderDir(dir, name, ".xisf");
    var b := SplitExt(name).0;
    assert '/' !in b by {
      assert b == name[..|b|];
      assert forall k :: 0 <= k < |b| ==> b[k] == name[k];
    }
    EndsWithUnderDir(dir, b, ".fit");
    EndsWithUnderDir(dir, b, ".fits");
    EndsWithUnderDir(dir, name, ".fit");
    EndsWithUnderDir(dir, name, ".fits");
  }
}

=== FILE: fitsreader.dfy ===
/**
 * The FITS header reader of the scanner (photonfinder/filesystem.py). A FITS header is
 * a sequence of 2880-byte blocks of 36 cards of 80 bytes (sections 3.1 and 4.1 of the
 * FITS Standard 4.0); the first card starts with `SIMPLE  =` and the header ends with
 * the block holding the `END` card (section 4.4.1). The reader returns the header
 * blocks through the first block with a card that starts with `END`.
 */
module FitsReader {
  import opened Wrappers

  type Byte = b: int | 0 <= b < 256

  const BlockSize: nat := 2880
  const CardSize: nat := 80
  const CardsPerBlock: nat := 36

  /** The bytes of `SIMPLE  =`. */
  const SimpleKey: seq<Byte> := [83, 73, 77, 80, 76, 69, 32, 32, 61]

  const Space: Byte := 32

  function Min(a: int, b: int): int {
    if a <= b then a else b
  }

  predicate IsAscii(s: seq<Byte>) {
    forall i :: 0 <= i < |s| ==> s[i] < 128
  }

  /**
   * The first card decodes as ASCII and starts with `SIMPLE  =`; a non-ASCII byte in it
   * makes the decoding raise, which the reader turns into "no header".
   */
  predicate FirstCardOk(data: seq<Byte>) {
    IsAscii(data[..Min(CardSize, |data|)]) && SimpleKey <= data
  }

  /** The card starting at byte `p` starts with `END`. */
  predicate CardIsEnd(data: seq<Byte>, p: nat) {
    p + 3 <= |data| && data[p] == 69 && data[p + 1] == 78 && data[p + 2] == 68
  }

  /** Card `i` of block `b` starts with `END`. */
  predicate CardIsEndAt(data: seq<Byte>, b: nat, i: nat) {
    CardIsEnd(data, BlockSize * b + CardSize * i)
  }

  /** Block `b` holds a card that starts with `END`. */
  predicate IsEndBlock(data: seq<Byte>, b: nat) {
    exists i :: 0 <= i < CardsPerBlock && CardIsEndAt(data, b, i)
  }

  /** Where block `b` ends: a full block, or the end of the data for a short last one. */
  function BlockLimit(data: seq<Byte>, b: nat): (r: nat)
    ensures r <= |data|
  {
    Min(BlockSize * (b + 1), |data|)
  }

  /** Cards `i` and later of block `b` include one that starts with `END`. */
  function HasEndCardFrom(data: seq<Byte>, b: nat, i: nat): (r: bool)
    requires i <= CardsPerBlock
    ensures r <==> exists j :: i <= j < CardsPerBlock && CardIsEndAt(data, b, j)
    decreases CardsPerBlock - i
  {
    if i == CardsPerBlock then false
    else CardIsEndAt(data, b, i) || HasEndCardFrom(data, b, i + 1)
  }

  lemma EndBlockInData(data: seq<Byte>, b: nat)
    requires IsEndBlock(data, b)
    ensures BlockSize * b < |data|
  {
  }

  /** The first block at or after `b` that holds an `END` card. */
  function FirstEndBlockFrom(data: seq<Byte>, b: nat): (r: Option<nat>)
    ensures r.Some? ==> b <= r.value && IsEndBlock(data, r.value)
    ensures r.Some? ==> forall k :: b <= k < r.value ==> !IsEndBlock(data, k)
    ensures r.None? ==> forall k :: b <= k ==> !IsEndBlock(data, k)
    decreases |data| - BlockSize * b
  {
    if BlockSize * b >= |data| then
      assert forall k :: b <= k ==> !IsEndBlock(data, k) by {
        forall k | b <= k && IsEndBlock(data, k)
          ensures false
        {
          EndBlockInData(data, k);
        }
      }
      None
    else if HasEndCardFrom(data, b, 0) then Some(b)
    else FirstEndBlockFrom(data, b + 1)
  }

  /**
   * What the reader returns, stated without the loop: nothing unless the first card is
   * a `SIMPLE` card and some block holds an `END` card; otherwise every block up to and
   * including the first such block.
   */
  function HeaderOf(data: seq<Byte>): (r: Option<seq<Byte>>)
    ensures r.Some? <==> FirstCardOk(data) && exists b: nat :: IsEndBlock(data, b)
    ensures r.Some? ==> exists b: nat :: IsEndBlock(data, b)
                                    && (forall k :: 0 <= k < b ==> !IsEndBlock(data, k))
                                    && r.value == data[..BlockLimit(data, b)]
    ensures r.Some? ==> SimpleKey <= r.value
  {
    if !FirstCardOk(data) then None
    else match FirstEndBlockFrom(data, 0)
      case None => None
      case Some(b) =>
        assert BlockLimit(data, b) >= |SimpleKey| by { EndBlockInData(data, b); }
        Some(data[..BlockLimit(data, b)])
  }

  /**
   * `read_fits_header` over the (decompressed) content of a file: reads block after
   * block, checks the first card of the first block, and scans each block's cards for
   * `END`.
   */
  method ReadFitsHeader(data: seq<Byte>) returns (r: Option<seq<Byte>>)
    ensures r == HeaderOf(data)
  {
    var header: seq<Byte> := [];
    var b: nat := 0;
    while BlockSize * b < |data|
      invariant BlockSize * b <= |data| + BlockSize
      invariant header == data[..Min(BlockSize * b, |data|)]
      invariant b > 0 ==> FirstCardOk(data)
      invariant forall k :: 0 <= k < b ==> !IsEndBlock(data, k)
      decreases |data| - BlockSize * b
    {
      var limit := BlockLimit(data, b);
      if b == 0 && !FirstCardOk(data) {
        return None;
      }
      HeaderGrows(data, b);
      header := header + data[BlockSize * b..limit];
      var ended := ScanBlock(data, b);
      if ended {
        FirstEndBlockIs(data, b);
        return Some(header);
      }
      b := b + 1;
    }
    assert FirstEndBlockFrom(data, 0).None? by {
      NoEndBlock(data, b);
    }
    return None;
  }

  /** The cards of block `b` read in order until one starts with `END` or the data runs out. */
  method ScanBlock(data: seq<Byte>, b: nat) returns (ended: bool)
    requires BlockSize * b < |data|
    ensures ended <==> IsEndBlock(data, b)
  {
    var limit := BlockLimit(data, b);
    var i: nat := 0;
    while i < CardsPerBlock && BlockSize * b + CardSize * i < limit
      invariant i <= CardsPerBlock
      invariant forall j :: 0 <= j < i ==> !CardIsEndAt(data, b, j)
    {
      if CardIsEndAt(data, b, i) {
        return true;
      }
      i := i + 1;
    }
    forall j | i <= j < CardsPerBlock
      ensures !CardIsEndAt(data, b, j)
    {
    }
    return false;
  }

  /** The bytes read so far, then block `b`, are the bytes up to the end of block `b`. */
  lemma HeaderGrows(data: seq<Byte>, b: nat)
    requires BlockSize * b < |data|
    ensures data[..Min(BlockSize * b, |data|)] + data[BlockSize * b..BlockLimit(data, b)] == data[..BlockLimit(data, b)]
    ensures BlockLimit(data, b) == Min(BlockSize * (b + 1), |data|)
  {
    assert Min(BlockSize * b, |data|) == BlockSize * b;
  }

  lemma {:induction false} FirstEndBlockIs(data: seq<Byte>, b: nat)
    requires IsEndBlock(data, b)
    requires forall k :: 0 <= k < b ==> !IsEndBlock(data, k)
    ensures FirstEndBlockFrom(data, 0) == Some(b)
  {
    var r := FirstEndBlockFrom(data, 0);
  }

  lemma NoEndBlock(data: seq<Byte>, b: nat)
    requires BlockSize * b >= |data|
    requires forall k :: 0 <= k < b ==> !IsEndBlock(data, k)
    ensures FirstEndBlockFrom(data, 0).None?
  {
    forall k | b <= k
      ensures !IsEndBlock(data, k)
    {
      if IsEndBlock(data, k) {
        EndBlockInData(data, k);
      }
    }
    var r := FirstEndBlockFrom(data, 0);
  }

  /** `header_bytes.replace(b'\x09', b' ')` ahead of parsing the header cards. */
  function ReplaceTabs(h: seq<Byte>): (r: seq<Byte>)
    ensures |r| == |h|
    ensures forall i :: 0 <= i < |h| ==> r[i] == (if h[i] == 9 then Space else h[i])
  {
    seq(|h|, i requires 0 <= i < |h| => if h[i] == 9 then Space else h[i])
  }

  /** Replacing tabs keeps every card in its 80-byte column and leaves no tab behind. */
  lemma ReplaceTabsKeepsCards(h: seq<Byte>)
    ensures |ReplaceTabs(h)| == |h|
    ensures forall i :: 0 <= i < |h| ==> ReplaceTabs(h)[i] != 9
    ensures ReplaceTabs(ReplaceTabs(h)) == ReplaceTabs(h)
    ensures (forall i :: 0 <= i < |h| ==> h[i] != 9) ==> ReplaceTabs(h) == h
  {
  }

  // ---------------------------------------------------------------------------
  // Well-formed headers as the test helper builds them (tests/utils.py): each line
  // left-justified to a card of 80 bytes, the whole padded with blanks to full blocks.

  function Spaces(n: nat): (r: seq<Byte>)
    ensures |r| == n && forall i :: 0 <= i < n ==> r[i] == Space
  {
    seq(n, i => Space)
  }

  /** `str.ljust(n)`: pads with blanks up to `n`, never truncates. */
  function LJust(line: seq<Byte>, n: nat): (r: seq<Byte>)
    ensures |line| <= n ==> |r| == n
    ensures |r| >= |line| && r[..|line|] == line
    ensures forall i :: |line| <= i < |r| ==> r[i] == Space
  {
    if |line| >= n then line else line + Spaces(n - |line|)
  }

  /** The lines, each as one card, concatenated. */
  function Cards(lines: seq<seq<Byte>>): seq<Byte>
  {
    if |lines| == 0 then [] else Cards(lines[..|lines| - 1]) + LJust(lines[|lines| - 1], CardSize)
  }

  /** `fix_embedded_header`: the cards padded with blanks to a whole number of blocks. */
  function FixEmbeddedHeader(lines: seq<seq<Byte>>): seq<Byte>
  {
    var c := Cards(lines);
    var blocks := |c| / BlockSize + (if |c| % BlockSize > 0 then 1 else 0);
    LJust(c, blocks * BlockSize)
  }

  predicate StartsEnd(line: seq<Byte>) {
    |line| >= 3 && line[0] == 69 && line[1] == 78 && line[2] == 68
  }

  predicate ShortLines(lines: seq<seq<Byte>>) {
    forall k :: 0 <= k < |lines| ==> |lines[k]| <= CardSize
  }

  /**
   * A header as written by hand: ASCII lines of at most 80 bytes, the first a `SIMPLE`
   * card, the last and only the last an `END` card.
   */
  predicate WellFormedLines(lines: seq<seq<Byte>>) {
    && |lines| >= 1
    && ShortLines(lines)
    && (forall k :: 0 <= k < |lines| ==> IsAscii(lines[k]))
    && SimpleKey <= lines[0]
    && StartsEnd(lines[|lines| - 1])
    && (forall k :: 0 <= k < |lines| - 1 ==> !StartsEnd(lines[k]))
  }

  lemma {:induction false} CardsLayout(lines: seq<seq<Byte>>)
    requires ShortLines(lines)
    ensures |Cards(lines)| == CardSize * |lines|
    ensures forall g, j :: 0 <= g < |lines| && 0 <= j < CardSize ==>
              Cards(lines)[CardSize * g + j] == LJust(lines[g], CardSize)[j]
    decreases |lines|
  {
    if |lines| > 0 {
      var init := lines[..|lines| - 1];
      assert ShortLines(init) by {
        forall k | 0 <= k < |init| ensures |init[k]| <= CardSize {
          assert init[k] == lines[k];
        }
      }
      CardsLayout(init);
      forall g, j | 0 <= g < |lines| && 0 <= j < CardSize
        ensures Cards(lines)[CardSize * g + j] == LJust(lines[g], CardSize)[j]
      {
        if g < |init| {
          assert init[g] == lines[g];
        }
      }
    }
  }

  lemma BlockCount(c: nat, n: nat)
    requires n >= 1 && c == CardSize * n
    ensures c / BlockSize + (if c % BlockSize > 0 then 1 else 0) == (n - 1) / CardsPerBlock + 1
  {
    var q := n / CardsPerBlock;
    var m := n % CardsPerBlock;
    assert n == CardsPerBlock * q + m;
    assert c == BlockSize * q + CardSize * m;
    assert c / BlockSize == q && c % BlockSize == CardSize * m;
    if m == 0 {
      assert n - 1 == CardsPerBlock * (q - 1) + 35;
    } else {
      assert n - 1 == CardsPerBlock * q + (m - 1);
    }
  }

  lemma FixedLength(lines: seq<seq<Byte>>)
    requires |lines| >= 1 && ShortLines(lines)
    ensures |Cards(lines)| == CardSize * |lines|
    ensures |FixEmbeddedHeader(lines)| == BlockSize * ((|lines| - 1) / CardsPerBlock + 1)
    ensures Cards(lines) <= FixEmbeddedHeader(lines)
  {
    CardsLayout(lines);
    BlockCount(|Cards(lines)|, |lines|);
    var b := (|lines| - 1) / CardsPerBlock;
    assert |Cards(lines)| <= BlockSize * (b + 1);
  }

  /** Card `g` of the built header holds line `g`, and blanks come after the last line. */
  lemma CardOfLine(lines: seq<seq<Byte>>, rest: seq<Byte>, g: nat)
    requires |lines| >= 1 && ShortLines(lines)
    requires g < |lines|
    ensures CardIsEnd(FixEmbeddedHeader(lines) + rest, CardSize * g) <==> StartsEnd(lines[g])
  {
    CardsLayout(lines);
    FixedLength(lines);
    var data := FixEmbeddedHeader(lines) + rest;
    var card := LJust(lines[g], CardSize);
    forall j | 0 <= j < CardSize
      ensures data[CardSize * g + j] == card[j]
    {
      assert Cards(lines)[CardSize * g + j] == card[j];
    }
    assert data[CardSize * g] == card[0] && data[CardSize * g + 1] == card[1] && data[CardSize * g + 2] == card[2];
    if |lines[g]| >= 3 {
      assert card[..|lines[g]|] == lines[g];
      assert card[0] == lines[g][0] && card[1] == lines[g][1] && card[2] == lines[g][2];
    } else {
      assert card[2] == Space;
    }
  }

  lemma FirstCardOfFixed(lines: seq<seq<Byte>>, rest: seq<Byte>)
    requires WellFormedLines(lines)
    ensures FirstCardOk(FixEmbeddedHeader(lines) + rest)
  {
    CardsLayout(lines);
    FixedLength(lines);
    var data := FixEmbeddedHeader(lines) + rest;
    var card := LJust(lines[0], CardSize);
    forall j | 0 <= j < CardSize
      ensures data[j] == card[j]
    {
      assert Cards(lines)[CardSize * 0 + j] == card[j];
    }
    assert IsAscii(data[..CardSize]) by {
      forall j | 0 <= j < CardSize ensures data[j] < 128 {
        if j < |lines[0]| {
          assert card[..|lines[0]|] == lines[0];
          assert card[j] == lines[0][j];
        }
      }
    }
    assert SimpleKey <= data by {
      assert card[..|lines[0]|] == lines[0];
      forall j | 0 <= j < |SimpleKey| ensures data[j] == SimpleKey[j] {
        assert card[j] == lines[0][j];
      }
    }
  }

  lemma LastLineEndsBlock(lines: seq<seq<Byte>>, rest: seq<Byte>)
    requires WellFormedLines(lines)
    ensures IsEndBlock(FixEmbeddedHeader(lines) + rest, (|lines| - 1) / CardsPerBlock)
  {
    var b := (|lines| - 1) / CardsPerBlock;
    var i := (|lines| - 1) % CardsPerBlock;
    CardOfLine(lines, rest, |lines| - 1);
    assert BlockSize * b + CardSize * i == CardSize * (|lines| - 1);
    assert CardIsEndAt(FixEmbeddedHeader(lines) + rest, b, i);
  }

  lemma EarlierBlocksOpen(lines: seq<seq<Byte>>, rest: seq<Byte>, k: nat)
    requires WellFormedLines(lines)
    requires k < (|lines| - 1) / CardsPerBlock
    ensures !IsEndBlock(FixEmbeddedHeader(lines) + rest, k)
  {
    var data := FixEmbeddedHeader(lines) + rest;
    forall i | 0 <= i < CardsPerBlock
      ensures !CardIsEndAt(data, k, i)
    {
      var g := CardsPerBlock * k + i;
      assert g < |lines| - 1;
      CardOfLine(lines, rest, g);
      assert BlockSize * k + CardSize * i == CardSize * g;
    }
  }

  /**
   * Reading a header built from well-formed lines, whatever data follows it, gives back
   * exactly that header: the reader stops at the block holding the `END` line.
   */
  lemma FixedHeaderIsRead(lines: seq<seq<Byte>>, rest: seq<Byte>)
    requires WellFormedLines(lines)
    ensures HeaderOf(FixEmbeddedHeader(lines) + rest) == Some(FixEmbeddedHeader(lines))
  {
    var h := FixEmbeddedHeader(lines);
    var data := h + rest;
    var b := (|lines| - 1) / CardsPerBlock;
    FirstCardOfFixed(lines, rest);
    LastLineEndsBlock(lines, rest);
    forall k | 0 <= k < b
      ensures !IsEndBlock(data, k)
    {
      EarlierBlocksOpen(lines, rest, k);
    }
    FirstEndBlockIs(data, b);
    FixedLength(lines);
    assert BlockLimit(data, b) == |h|;
    assert data[..|h|] == h;
  }
}

=== FILE: glob.dfy ===
/**
 * Shell-style wildcard matching as done by Python's `fnmatch.fnmatch` on a POSIX
 * system: `*` matches any run of characters, `?` any single character, `[...]` a set
 * (`[!...]` its complement, `a-z` a range), every other character itself. No
 * case folding happens here; callers lower-case the name themselves.
 */
module Glob {

  datatype Token = Star | AnyChar | Lit(c: char) | Class(negated: bool, items: string)

  /** True if `c` is one of the characters `*`, `?` or `[` that make a pattern special. */
  predicate IsMeta(c: char) {
    c == '*' || c == '?' || c == '['
  }

  predicate NoMeta(p: string) {
    forall i :: 0 <= i < |p| ==> !IsMeta(p[i])
  }

  /** Index of the `]` that closes a set opening at `p[0] == '['`, as `fnmatch.translate` finds it. */
  function CloseBracket(p: string): (j: nat)
    requires |p| >= 1
    ensures 1 <= j <= |p|
    ensures j < |p| ==> p[j] == ']'
  {
    var j0 := if 1 < |p| && p[1] == '!' then 2 else 1;
    var j1 := if j0 < |p| && p[j0] == ']' then j0 + 1 else j0;
    ScanTo(p, j1)
  }

  function ScanTo(p: string, j: nat): (k: nat)
    requires 1 <= j <= |p|
    ensures j <= k <= |p|
    ensures k < |p| ==> p[k] == ']'
    decreases |p| - j
  {
    if j == |p| || p[j] == ']' then j else ScanTo(p, j + 1)
  }

  /** The pattern cut into tokens; an unclosed `[` stands for itself. */
  function Tokenize(p: string): (toks: seq<Token>)
    ensures NoMeta(p) ==> |toks| == |p| && forall i :: 0 <= i < |p| ==> toks[i] == Lit(p[i])
    decreases |p|
  {
    if |p| == 0 then []
    else if p[0] == '*' then [Star] + Tokenize(p[1..])
    else if p[0] == '?' then [AnyChar] + Tokenize(p[1..])
    else if p[0] == '[' then
      var j := CloseBracket(p);
      if j == |p| then [Lit('[')] + Tokenize(p[1..])
      else
        var body := p[1..j];
        var tok := if |body| > 0 && body[0] == '!' then Class(true, body[1..]) else Class(false, body);
        [tok] + Tokenize(p[j + 1..])
    else [Lit(p[0])] + Tokenize(p[1..])
  }

  /** Membership of `c` in a set body: single characters and `a-z` ranges. */
  predicate InClass(items: string, c: char)
    decreases |items|
  {
    if |items| == 0 then false
    else if |items| >= 3 && items[1] == '-' then
      (items[0] <= c <= items[2]) || InClass(items[3..], c)
    else items[0] == c || InClass(items[1..], c)
  }

  predicate MatchTokens(toks: seq<Token>, s: string)
    decreases |toks|, |s|
  {
    if |toks| == 0 then |s| == 0
    else match toks[0]
      case Star => MatchTokens(toks[1..], s) || (|s| > 0 && MatchTokens(toks, s[1..]))
      case AnyChar => |s| > 0 && MatchTokens(toks[1..], s[1..])
      case Lit(c) => |s| > 0 && s[0] == c && MatchTokens(toks[1..], s[1..])
      case Class(neg, items) => |s| > 0 && InClass(items, s[0]) != neg && MatchTokens(toks[1..], s[1..])
  }

  /** `fnmatch.fnmatch(name, pattern)`. */
  predicate Fnmatch(name: string, pattern: string) {
    MatchTokens(Tokenize(pattern), name)
  }

  lemma {:induction false} LiteralTokens(p: string, s: string)
    requires NoMeta(p)
    ensures MatchTokens(Tokenize(p), s) <==> s == p
    decreases |p|
  {
    if |p| > 0 {
      var toks := Tokenize(p);
      assert toks == [Lit(p[0])] + Tokenize(p[1..]);
      assert toks[1..] == Tokenize(p[1..]);
      if |s| > 0 {
        LiteralTokens(p[1..], s[1..]);
        if s[0] == p[0] && s[1..] == p[1..] {
          assert s == [s[0]] + s[1..] && p == [p[0]] + p[1..];
        }
      }
    }
  }

  /** A pattern without wildcards matches exactly the one name it spells. */
  lemma LiteralPattern(p: string, s: string)
    requires NoMeta(p)
    ensures Fnmatch(s, p) <==> s == p
  {
    LiteralTokens(p, s);
  }

  lemma {:induction false} StarMatchesAll(s: string)
    ensures MatchTokens([Star], s)
    decreases |s|
  {
    if |s| > 0 {
      StarMatchesAll(s[1..]);
    } else {
      assert [Star][1..] == [];
    }
  }

  lemma {:induction false} PrefixStarTokens(p: string, s: string)
    requires NoMeta(p)
    ensures Tokenize(p + "*") == Tokenize(p) + [Star]
    ensures MatchTokens(Tokenize(p) + [Star], s) <==> p <= s
    decreases |p|
  {
    if |p| == 0 {
      assert p + "*" == "*";
      assert Tokenize("*") == [Star] + Tokenize("");
      assert Tokenize(p) + [Star] == [Star];
      StarMatchesAll(s);
    } else {
      assert (p + "*")[1..] == p[1..] + "*";
      assert (p + "*")[0] == p[0] && !IsMeta(p[0]);
      assert Tokenize(p + "*") == [Lit(p[0])] + Tokenize(p[1..] + "*");
      PrefixStarTokens(p[1..], if |s| > 0 then s[1..] else s);
      var toks := Tokenize(p) + [Star];
      assert toks[0] == Lit(p[0]);
      assert toks[1..] == Tokenize(p[1..]) + [Star];
      if |s| > 0 && s[0] == p[0] && p[1..] <= s[1..] {
        assert p == [p[0]] + p[1..];
        assert s == [s[0]] + s[1..];
      }
    }
  }

  /** `name` matches `p*` (with `p` free of wildcards) exactly when it starts with `p`. */
  lemma PrefixStarPattern(p: string, s: string)
    requires NoMeta(p)
    ensures Fnmatch(s, p + "*") <==> p <= s
  {
    PrefixStarTokens(p, s);
  }
}

=== FILE: handlers.dfy ===
/**
 * Header normalisation of the current application (photonfinder/fits_handlers.py): the
 * handler chosen for the software that wrote the file reads the image metadata out of the
 * header into an `Image` record.
 */
module Handlers {
  import opened Wrappers
  import Text
  import opened Numbers
  import opened Headers
  import Catalogue

  /** The four header handlers. */
  datatype HandlerKind = SharpCap | Sgp | Nina | Generic

  /** The handlers in the order `normalize_fits_header` tries them; the generic one last. */
  const Handlers: seq<HandlerKind> := [SharpCap, Sgp, Nina, Generic]

  /** Position of a handler in `Handlers`. */
  function Rank(k: HandlerKind): (r: nat)
    ensures r < |Handlers| && Handlers[r] == k
  {
    match k
    case SharpCap => 0
    case Sgp => 1
    case Nina => 2
    case Generic => 3
  }

  /**
   * `software = header.get(key, ''); software is not None and marker in software`. A value
   * that is not a string makes the `in` test raise a `TypeError`.
   */
  function SoftwareMentions(h: Header, key: string, marker: string): (r: Result<bool, string>)
    requires |marker| > 0
    ensures r.Failure? <==> key in h && !h[key].HStr?
    ensures r == Success(true) <==> key in h && h[key].HStr? && Text.Occurs(marker, h[key].s)
  {
    match GetOr(h, key, Some(HStr(""))).value
    case HStr(software) => Success(Text.Contains(software, marker))
    case _ => Failure("TypeError")
  }

  /** `can_handle` of each handler. */
  function CanHandle(k: HandlerKind, h: Header): (r: Result<bool, string>) {
    match k
    case SharpCap => SoftwareMentions(h, "SWCREATE", "SharpCap")
    case Sgp => SoftwareMentions(h, "CREATOR", "Sequence Generator Pro")
    case Nina => SoftwareMentions(h, "SWCREATE", "N.I.N.A.")
    case Generic => Success(true)
  }

  /** Every handler in `Handlers[i..j]` declines the header. */
  predicate Declines(h: Header, i: nat, j: nat)
    requires i <= j <= |Handlers|
  {
    forall l :: i <= l < j ==> CanHandle(Handlers[l], h) == Success(false)
  }

  /**
   * The loop of `normalize_fits_header` over the handlers from position `i` on: the first
   * that accepts is chosen, a `can_handle` that raises ends the loop with the exception,
   * and `None` is the loop running out of handlers.
   */
  function SelectFrom(h: Header, i: nat): (r: Result<Option<HandlerKind>, string>)
    requires i <= |Handlers|
    ensures r == Success(None) <==> Declines(h, i, |Handlers|)
    ensures r.Success? && r.value.Some? ==>
              var j := Rank(r.value.value);
              i <= j && CanHandle(r.value.value, h) == Success(true) && Declines(h, i, j)
    ensures r.Failure? ==>
              exists j :: i <= j < |Handlers| && CanHandle(Handlers[j], h).Failure? && Declines(h, i, j)
    decreases |Handlers| - i
  {
    if i == |Handlers| then Success(None)
    else
      match CanHandle(Handlers[i], h)
      case Failure(e) =>
        assert Declines(h, i, i);
        Failure(e)
      case Success(true) => Success(Some(Handlers[i]))
      case Success(false) =>
        var r := SelectFrom(h, i + 1);
        if r.Failure? then
          var j :| i + 1 <= j < |Handlers| && CanHandle(Handlers[j], h).Failure? && Declines(h, i + 1, j);
          assert Declines(h, i, j);
          r
        else r
  }

  /** The handler `normalize_fits_header` settles on. */
  function Select(h: Header): (r: Result<Option<HandlerKind>, string>) {
    SelectFrom(h, 0)
  }

  /** The handler chosen is exactly the first that accepts, with every earlier one declining. */
  lemma SelectIsFirstAccepting(h: Header, k: HandlerKind)
    ensures Select(h) == Success(Some(k)) <==> CanHandle(k, h) == Success(true) && Declines(h, 0, Rank(k))
  {
    if CanHandle(k, h) == Success(true) && Declines(h, 0, Rank(k)) {
      FirstAcceptingChosen(h, 0, k);
    }
  }

  lemma {:induction false} FirstAcceptingChosen(h: Header, i: nat, k: HandlerKind)
    requires i <= Rank(k)
    requires CanHandle(k, h) == Success(true) && Declines(h, i, Rank(k))
    ensures SelectFrom(h, i) == Success(Some(k))
    decreases |Handlers| - i
  {
    if i < Rank(k) {
      assert CanHandle(Handlers[i], h) == Success(false);
      FirstAcceptingChosen(h, i + 1, k);
    }
  }

  /** The generic handler accepts everything, so the loop never runs out of handlers. */
  lemma SelectNeverFallsThrough(h: Header)
    ensures Select(h) != Success(None)
  {
    assert CanHandle(Handlers[3], h) == Success(true);
  }

  /**
   * Choosing a handler raises exactly when `SWCREATE` is present and not a string, or when
   * `CREATOR` is present and not a string and `SWCREATE` does not name SharpCap.
   */
  lemma SelectRaisesIff(h: Header)
    ensures Select(h).Failure? <==>
              ("SWCREATE" in h && !h["SWCREATE"].HStr?)
              || ("CREATOR" in h && !h["CREATOR"].HStr? && CanHandle(SharpCap, h) == Success(false))
  {
    if Select(h).Failure? {
      var j :| 0 <= j < |Handlers| && CanHandle(Handlers[j], h).Failure? && Declines(h, 0, j);
    }
    if "SWCREATE" in h && !h["SWCREATE"].HStr? {
      assert CanHandle(Handlers[0], h).Failure?;
    } else if "CREATOR" in h && !h["CREATOR"].HStr? && CanHandle(SharpCap, h) == Success(false) {
      assert CanHandle(Handlers[0], h) == Success(false);
      assert CanHandle(Handlers[1], h).Failure?;
    }
  }

  /** A header without software keywords goes to the generic handler. */
  lemma NoSoftwareIsGeneric(h: Header)
    requires "SWCREATE" !in h && "CREATOR" !in h
    ensures Select(h) == Success(Some(Generic))
  {
    assert !Text.Occurs("SharpCap", "");
    assert !Text.Occurs("Sequence Generator Pro", "");
    assert !Text.Occurs("N.I.N.A.", "");
    SelectIsFirstAccepting(h, Generic);
  }

  /** SharpCap is tried first: a `SWCREATE` naming it wins whatever else the header says. */
  lemma SharpCapWins(h: Header)
    requires "SWCREATE" in h && h["SWCREATE"].HStr? && Text.Occurs("SharpCap", h["SWCREATE"].s)
    ensures Select(h) == Success(Some(SharpCap))
  {
    SelectIsFirstAccepting(h, SharpCap);
  }

  /** The text a character column stores for a header value (`str` of it), `None` kept. */
  function StoredText(v: Option<HValue>): (r: Option<string>)
    ensures r.None? <==> v.None?
    ensures v.Some? && v.value.HStr? ==> r == Some(v.value.s)
  {
    match v
    case None => None
    case Some(x) => Some(PyStr(x))
  }

  /** `_get_image_type`: SharpCap only upper-cases, the others also drop ` FRAME`; the generic one falls back to `OBSTYPE`. */
  function ImageType(k: HandlerKind, h: Header): Result<Option<string>, string> {
    match k
    case SharpCap => UpperOf(Get(h, "IMAGETYP"))
    case Generic => TypeOf(GetOr(h, "IMAGETYP", Get(h, "OBSTYPE")))
    case _ => TypeOf(Get(h, "IMAGETYP"))
  }

  /** `_get_filter`: the generic handler falls back to `FILTNAME`. */
  function Filter(k: HandlerKind, h: Header): Option<string> {
    if k == Generic then StoredText(GetOr(h, "FILTER", Get(h, "FILTNAME")))
    else StoredText(Get(h, "FILTER"))
  }

  /** `_get_exposure`: SharpCap reads `EXPTIME`, SGP and N.I.N.A. `EXPOSURE`, the generic handler `EXPTIME`, `EXPOSURE`, `EXP`. */
  function Exposure(k: HandlerKind, h: Header): Result<Option<Decimal>, string> {
    match k
    case SharpCap => FloatOf(Get(h, "EXPTIME"))
    case Generic => FloatOf(GetOr(h, "EXPTIME", GetOr(h, "EXPOSURE", Get(h, "EXP"))))
    case _ => FloatOf(Get(h, "EXPOSURE"))
  }

  /** `_get_binning`: `XBINNING` with a default of 1, except in the generic handler. */
  function Binning(k: HandlerKind, h: Header): Result<Option<int>, string> {
    if k == Generic then GenericBinning(h) else IntOf(GetOr(h, "XBINNING", Some(HInt(1))))
  }

  /**
   * The generic `_get_binning`: `XBINNING` if present; otherwise a `BINNING` such as `2*2`
   * gives the number before the first `*`, and anything else gives `None`.
   */
  function GenericBinning(h: Header): Result<Option<int>, string> {
    match IntOf(Get(h, "XBINNING"))
    case Failure(e) => Failure(e)
    case Success(Some(b)) => Success(Some(b))
    case Success(None) =>
      var combined := GetOr(h, "BINNING", Some(HInt(1))).value;
      if Truthy(combined) && Text.Contains(PyStr(combined), "*") then
        match combined
        case HStr(s) =>
          (match ParseInt(Text.Split(s, '*')[0])
           case None => Failure("ValueError")
           case Some(n) => Success(Some(n)))
        case _ => Failure("AttributeError")
      else Success(None)
  }

  /** `_get_set_temp`: the generic handler falls back to `CCDTEMP`. */
  function SetTemp(k: HandlerKind, h: Header): Result<Option<Decimal>, string> {
    if k == Generic then FloatOf(GetOr(h, "SET-TEMP", Get(h, "CCDTEMP")))
    else FloatOf(Get(h, "SET-TEMP"))
  }

  /**
   * What the coordinate code needs from astropy: reading a pair of values in hour angle and
   * degrees into degrees, and the nested HEALPix index at nside 256 of a position given in
   * degrees. `None` stands for an exception, which the coordinate code catches.
   */
  datatype Sky = Sky(
    parseHourAngle: (HValue, HValue) -> Option<(Decimal, Decimal)>,
    healpix: (Decimal, Decimal) -> Option<int>)

  /** Right ascension and declination in degrees and the HEALPix index, or all three `None`. */
  datatype Coords = Coords(ra: Option<Decimal>, dec: Option<Decimal>, pix: Option<int>)

  const NoCoords := Coords(None, None, None)

  /** `isinstance(v, (int, float))`; a logical is an `int` in Python. */
  predicate Numeric(v: HValue) {
    !v.HStr?
  }

  /** Converts a numeric value to degrees, as `float` does. */
  function Degrees(v: HValue): (r: Decimal)
    requires Numeric(v)
    ensures ToFloat(v) == Some(r)
  {
    ToFloat(v).value
  }

  /**
   * `_get_coordinates`: `RA` (else `OBJCTRA`) and `DEC` (else `OBJCTDEC`); numbers are taken
   * as degrees, anything else is read as hour angle and degrees. A missing value, a
   * position of exactly (0, 0) or an astropy exception give no coordinates at all.
   */
  function Coordinates(h: Header, sky: Sky): (r: Coords)
    ensures r == NoCoords || (r.ra.Some? && r.dec.Some? && r.pix.Some?)
    ensures r.ra.Some? ==> !(Value(r.ra.value) == 0.0 && Value(r.dec.value) == 0.0)
  {
    CoordinatesFrom(Either(h, "RA", "OBJCTRA"), Either(h, "DEC", "OBJCTDEC"), sky)
  }

  /** The value under `primary`, or under `fallback` when `primary` is absent. */
  function Either(h: Header, primary: string, fallback: string): Option<HValue> {
    if Get(h, primary).None? then Get(h, fallback) else Get(h, primary)
  }

  /** The position and sky cell of a right ascension and a declination as the header gives them. */
  function CoordinatesFrom(ra: Option<HValue>, dec: Option<HValue>, sky: Sky): (r: Coords)
    ensures r == NoCoords || (r.ra.Some? && r.dec.Some? && r.pix.Some?)
    ensures r.ra.Some? ==> !(Value(r.ra.value) == 0.0 && Value(r.dec.value) == 0.0)
  {
    if ra.None? || dec.None? then NoCoords
    else
      var degrees: Option<(Decimal, Decimal)> :=
        if Numeric(ra.value) && Numeric(dec.value) then Some((Degrees(ra.value), Degrees(dec.value)))
        else sky.parseHourAngle(ra.value, dec.value);
      match degrees
      case None => NoCoords
      case Some((a, d)) =>
        if Value(a) == 0.0 && Value(d) == 0.0 then NoCoords
        else
          match sky.healpix(a, d)
          case None => NoCoords
          case Some(pix) => Coords(Some(a), Some(d), Some(pix))
  }

  /** The columns of the image table that header normalisation fills. */
  datatype Image = Image(
    file: Catalogue.FileRecord,
    imageType: Option<string>,
    filter: Option<string>,
    exposure: Option<Decimal>,
    gain: Option<int>,
    offset: Option<int>,
    binning: Option<int>,
    setTemp: Option<Decimal>,
    camera: Option<string>,
    telescope: Option<string>,
    objectName: Option<string>,
    dateObs: Option<DateTime>,
    coordRa: Option<Decimal>,
    coordDec: Option<Decimal>,
    coordPix: Option<int>)

  /** `process`: every field read; the first reader that raises ends it with that exception. */
  function Process(k: HandlerKind, file: Catalogue.FileRecord, h: Header, p: DateParsers, sky: Sky): (r: Result<Image, string>)
    ensures r.Success? ==> r.value.file == file
  {
    var imageType :- ImageType(k, h);
    var exposure :- Exposure(k, h);
    var gain :- IntOf(Get(h, "GAIN"));
    var offset :- IntOf(Get(h, "OFFSET"));
    var binning :- Binning(k, h);
    var setTemp :- SetTemp(k, h);
    var dateObs :- DateTimeOf(Get(h, "DATE-OBS"), p);
    var c := Coordinates(h, sky);
    Success(Image(file, imageType, Filter(k, h), exposure, gain, offset, binning, setTemp,
                  StoredText(Get(h, "INSTRUME")), StoredText(Get(h, "TELESCOP")), StoredText(Get(h, "OBJECT")),
                  dateObs, c.ra, c.dec, c.pix))
  }

  /**
   * `normalize_fits_header`: `Failure` is an exception from `can_handle`, which nothing
   * catches; an exception while processing is caught and gives `None`.
   */
  function NormalizeFitsHeader(file: Catalogue.FileRecord, h: Header, p: DateParsers, sky: Sky): (r: Result<Option<Image>, string>)
    ensures r.Success? && r.value.Some? ==> r.value.value.file == file
  {
    match Select(h)
    case Failure(e) => Failure(e)
    case Success(None) => Success(None)
    case Success(Some(k)) =>
      match Process(k, file, h, p, sky)
      case Failure(_) => Success(None)
      case Success(image) => Success(Some(image.(file := file)))
  }

  /** The nested `get(a, get(b))` the generic handler writes is a first-present lookup. */
  lemma NestedGetTwo(h: Header, a: string, b: string)
    ensures GetOr(h, a, Get(h, b)) == FirstPresent(h, [a, b])
  {
    if a !in h {
      assert [a, b][1..] == [b];
    }
  }

  lemma NestedGetThree(h: Header, a: string, b: string, c: string)
    ensures GetOr(h, a, GetOr(h, b, Get(h, c))) == FirstPresent(h, [a, b, c])
  {
    if a !in h {
      assert [a, b, c][1..] == [b, c];
      NestedGetTwo(h, b, c);
    }
  }

  /** The generic handler reads each field from the first of its keywords the header holds. */
  lemma GenericFallbacks(h: Header)
    ensures ImageType(Generic, h) == TypeOf(FirstPresent(h, ["IMAGETYP", "OBSTYPE"]))
    ensures Filter(Generic, h) == StoredText(FirstPresent(h, ["FILTER", "FILTNAME"]))
    ensures Exposure(Generic, h) == FloatOf(FirstPresent(h, ["EXPTIME", "EXPOSURE", "EXP"]))
    ensures SetTemp(Generic, h) == FloatOf(FirstPresent(h, ["SET-TEMP", "CCDTEMP"]))
  {
    NestedGetTwo(h, "IMAGETYP", "OBSTYPE");
    NestedGetTwo(h, "FILTER", "FILTNAME");
    NestedGetThree(h, "EXPTIME", "EXPOSURE", "EXP");
    NestedGetTwo(h, "SET-TEMP", "CCDTEMP");
  }

  /** `BINNING = '2*2'` without `XBINNING` is read as binning 2 by the generic handler. */
  lemma GenericBinningProduct()
    ensures GenericBinning(map["BINNING" := HStr("2*2")]) == Success(Some(2))
  {
    var h := map["BINNING" := HStr("2*2")];
    assert Get(h, "XBINNING") == None;
    assert GetOr(h, "BINNING", Some(HInt(1))) == Some(HStr("2*2"));
    ProductText();
    assert Truthy(HStr("2*2")) && PyStr(HStr("2*2")) == "2*2";
  }

  lemma ProductText()
    ensures Text.Contains("2*2", "*")
    ensures Text.Split("2*2", '*')[0] == "2"
    ensures ParseInt("2") == Some(2)
  {
    assert Text.OccursAt("*", "2*2", 1);
    ProductSplit();
    ParseTwo();
  }

  lemma ProductSplit()
    ensures Text.Split("2*2", '*')[0] == "2"
  {
    var s := "2*2";
    assert s[0] != '*' && s[1] == '*';
    assert Text.IndexOf(s, '*') == Some(1);
    Text.SplitFirst(s, '*', 1);
    assert s[..1] == "2";
  }

  lemma ParseTwo()
    ensures ParseInt("2") == Some(2)
  {
    ParseIntToString(2);
    assert IntToString(2) == "2";
  }

  /**
   * Without `XBINNING` or `BINNING` the named handlers record binning 1 but the generic one
   * records none, since its default `1` holds no `*`.
   */
  lemma BinningDefault(h: Header, k: HandlerKind)
    requires "XBINNING" !in h && "BINNING" !in h
    ensures Binning(k, h) == (if k == Generic then Success(None) else Success(Some(1)))
  {
    if k == Generic {
      assert IntToString(1) == "1";
      assert !Text.Contains("1", "*");
    }
  }

  /** `XBINNING`, when present, is what every handler records. */
  lemma XBinningFirst(h: Header, k: HandlerKind)
    requires "XBINNING" in h
    ensures Binning(k, h) == IntOf(Some(h["XBINNING"]))
  {
  }

  /** `RA` and `DEC` take precedence: `OBJCTRA` and `OBJCTDEC` matter only when those are missing. */
  lemma CoordinatesPreferRaDec(h: Header, sky: Sky)
    requires "RA" in h && "DEC" in h
    ensures Coordinates(h, sky) == Coordinates(h - {"OBJCTRA", "OBJCTDEC"}, sky)
  {
    var h' := h - {"OBJCTRA", "OBJCTDEC"};
    assert Get(h', "RA") == Get(h, "RA");
    assert Get(h', "DEC") == Get(h, "DEC");
  }

  /** Without a right ascension or without a declination there are no coordinates. */
  lemma CoordinatesNeedBoth(h: Header, sky: Sky)
    requires ("RA" !in h && "OBJCTRA" !in h) || ("DEC" !in h && "OBJCTDEC" !in h)
    ensures Coordinates(h, sky) == NoCoords
  {
  }

  /**
   * Numeric `RA` and `DEC` are degrees: they are recorded as they are together with their
   * HEALPix index, unless both are zero or the index cannot be computed.
   */
  lemma NumericCoordinates(h: Header, sky: Sky, a: Decimal, d: Decimal)
    requires Get(h, "RA") == Some(HReal(a)) && Get(h, "DEC") == Some(HReal(d))
    ensures Value(a) == 0.0 && Value(d) == 0.0 ==> Coordinates(h, sky) == NoCoords
    ensures !(Value(a) == 0.0 && Value(d) == 0.0) && sky.healpix(a, d).Some? ==>
              Coordinates(h, sky) == Coords(Some(a), Some(d), sky.healpix(a, d))
    ensures sky.healpix(a, d).None? ==> Coordinates(h, sky) == NoCoords
  {
  }

  /** The header keywords normalisation reads. */
  const ReadKeywords: set<string> := {
    "SWCREATE", "CREATOR", "IMAGETYP", "OBSTYPE", "FILTER", "FILTNAME", "INSTRUME", "EXPTIME",
    "EXPOSURE", "EXP", "GAIN", "OFFSET", "XBINNING", "BINNING", "SET-TEMP", "CCDTEMP",
    "TELESCOP", "OBJECT", "DATE-OBS", "RA", "OBJCTRA", "DEC", "OBJCTDEC"}

  /** Two headers hold the same values (or both lack) every keyword in `keys`. */
  predicate AgreeOn(h1: Header, h2: Header, keys: set<string>) {
    forall key :: key in keys ==> Get(h1, key) == Get(h2, key)
  }

  /** Headers that agree on the keywords normalisation reads normalise to the same result. */
  lemma NormalizeReadsOnlyKnownKeywords(file: Catalogue.FileRecord, h1: Header, h2: Header, p: DateParsers, sky: Sky)
    requires AgreeOn(h1, h2, ReadKeywords)
    ensures NormalizeFitsHeader(file, h1, p, sky) == NormalizeFitsHeader(file, h2, p, sky)
  {
    forall k: HandlerKind ensures CanHandle(k, h1) == CanHandle(k, h2) {
      assert Get(h1, "SWCREATE") == Get(h2, "SWCREATE");
      assert Get(h1, "CREATOR") == Get(h2, "CREATOR");
    }
    SelectAgrees(h1, h2, 0);
    forall k: HandlerKind ensures Process(k, file, h1, p, sky) == Process(k, file, h2, p, sky) {
      ProcessAgrees(k, file, h1, h2, p, sky);
    }
  }

  lemma {:induction false} SelectAgrees(h1: Header, h2: Header, i: nat)
    requires i <= |Handlers|
    requires forall k: HandlerKind :: CanHandle(k, h1) == CanHandle(k, h2)
    ensures SelectFrom(h1, i) == SelectFrom(h2, i)
    decreases |Handlers| - i
  {
    if i < |Handlers| {
      SelectAgrees(h1, h2, i + 1);
    }
  }

  lemma ProcessAgrees(k: HandlerKind, file: Catalogue.FileRecord, h1: Header, h2: Header, p: DateParsers, sky: Sky)
    requires AgreeOn(h1, h2, ReadKeywords)
    ensures Process(k, file, h1, p, sky) == Process(k, file, h2, p, sky)
  {
    TypeAndFilterAgree(k, h1, h2);
    NumbersAgree(k, h1, h2);
    TextAgree(h1, h2, p);
    CoordinatesAgree(h1, h2, sky);
  }

  lemma TypeAndFilterAgree(k: HandlerKind, h1: Header, h2: Header)
    requires AgreeOn(h1, h2, ReadKeywords)
    ensures ImageType(k, h1) == ImageType(k, h2) && Filter(k, h1) == Filter(k, h2)
  {
    assert Get(h1, "IMAGETYP") == Get(h2, "IMAGETYP");
    assert Get(h1, "OBSTYPE") == Get(h2, "OBSTYPE");
    assert Get(h1, "FILTER") == Get(h2, "FILTER");
    assert Get(h1, "FILTNAME") == Get(h2, "FILTNAME");
  }

  lemma NumbersAgree(k: HandlerKind, h1: Header, h2: Header)
    requires AgreeOn(h1, h2, ReadKeywords)
    ensures Exposure(k, h1) == Exposure(k, h2) && Binning(k, h1) == Binning(k, h2) && SetTemp(k, h1) == SetTemp(k, h2)
    ensures Get(h1, "GAIN") == Get(h2, "GAIN") && Get(h1, "OFFSET") == Get(h2, "OFFSET")
  {
    assert Get(h1, "EXPTIME") == Get(h2, "EXPTIME");
    assert Get(h1, "EXPOSURE") == Get(h2, "EXPOSURE");
    assert Get(h1, "EXP") == Get(h2, "EXP");
    assert Get(h1, "XBINNING") == Get(h2, "XBINNING");
    assert Get(h1, "BINNING") == Get(h2, "BINNING");
    assert Get(h1, "SET-TEMP") == Get(h2, "SET-TEMP");
    assert Get(h1, "CCDTEMP") == Get(h2, "CCDTEMP");
    assert Get(h1, "GAIN") == Get(h2, "GAIN");
    assert Get(h1, "OFFSET") == Get(h2, "OFFSET");
    assert GetOr(h1, "XBINNING", Some(HInt(1))) == GetOr(h2, "XBINNING", Some(HInt(1)));
    assert GetOr(h1, "BINNING", Some(HInt(1))) == GetOr(h2, "BINNING", Some(HInt(1)));
  }

  lemma TextAgree(h1: Header, h2: Header, p: DateParsers)
    requires AgreeOn(h1, h2, ReadKeywords)
    ensures Get(h1, "INSTRUME") == Get(h2, "INSTRUME") && Get(h1, "TELESCOP") == Get(h2, "TELESCOP")
    ensures Get(h1, "OBJECT") == Get(h2, "OBJECT") && Get(h1, "DATE-OBS") == Get(h2, "DATE-OBS")
  {
    assert "INSTRUME" in ReadKeywords && "TELESCOP" in ReadKeywords;
    assert "OBJECT" in ReadKeywords && "DATE-OBS" in ReadKeywords;
  }

  lemma CoordinatesAgree(h1: Header, h2: Header, sky: Sky)
    requires AgreeOn(h1, h2, ReadKeywords)
    ensures Coordinates(h1, sky) == Coordinates(h2, sky)
  {
    assert Get(h1, "RA") == Get(h2, "RA");
    assert Get(h1, "OBJCTRA") == Get(h2, "OBJCTRA");
    assert Get(h1, "DEC") == Get(h2, "DEC");
    assert Get(h1, "OBJCTDEC") == Get(h2, "OBJCTDEC");
    assert Either(h1, "RA", "OBJCTRA") == Either(h2, "RA", "OBJCTRA");
    assert Either(h1, "DEC", "OBJCTDEC") == Either(h2, "DEC", "OBJCTDEC");
  }

  /**
   * Normalisation raises only from choosing the handler; a handler that raises while
   * reading the fields makes it return no image instead.
   */
  lemma NormalizeOutcome(file: Catalogue.FileRecord, h: Header, p: DateParsers, sky: Sky)
    ensures NormalizeFitsHeader(file, h, p, sky).Failure? <==> Select(h).Failure?
    ensures forall k :: Select(h) == Success(Some(k)) ==>
              (NormalizeFitsHeader(file, h, p, sky) == Success(None) <==> Process(k, file, h, p, sky).Failure?)
  {
    SelectNeverFallsThrough(h);
  }

  /** SharpCap keeps a ` FRAME` suffix of `IMAGETYP` that every other handler drops. */
  lemma FrameSuffix(h: Header, k: HandlerKind)
    requires Get(h, "IMAGETYP") == Some(HStr("Light Frame"))
    ensures ImageType(k, h) == (if k == SharpCap then Success(Some("LIGHT FRAME")) else Success(Some("LIGHT")))
  {
    var v := Get(h, "IMAGETYP");
    if k == SharpCap {
      UpperLightFrame();
      assert ImageType(k, h) == UpperOf(v);
    } else if k == Generic {
      TypeOfLightFrame();
      assert GetOr(h, "IMAGETYP", Get(h, "OBSTYPE")) == v;
      assert ImageType(k, h) == TypeOf(v);
    } else {
      TypeOfLightFrame();
      assert ImageType(k, h) == TypeOf(v);
    }
  }

  lemma UpperLightFrame()
    ensures Text.Upper("Light Frame") == "LIGHT FRAME"
  {
  }

  /** The keywords of a capture by Sequence Generator Pro that the handlers read. */
  function SgpSample(): Header {
    map["CREATOR" := HStr("Sequence Generator Pro v3.1.0.479"), "IMAGETYP" := HStr("LIGHT"),
        "FILTER" := HStr("HaOIII"), "EXPOSURE" := HInt(30), "GAIN" := HInt(120),
        "XBINNING" := HInt(1), "SET-TEMP" := HInt(-18)]
  }

  /** The sample goes to the SGP handler, which reads type, filter, exposure, gain, binning and set point. */
  lemma SgpSampleNormalized(file: Catalogue.FileRecord, p: DateParsers, sky: Sky)
    ensures Select(SgpSample()) == Success(Some(Sgp))
    ensures Process(Sgp, file, SgpSample(), p, sky)
            == Success(Image(file, Some("LIGHT"), Some("HaOIII"), Some(FromInt(30)), Some(120), None, Some(1),
                             Some(FromInt(-18)), None, None, None, None, None, None, None))
    ensures Value(FromInt(30)) == 30.0 && Value(FromInt(-18)) == -18.0
  {
    SgpSampleSelected();
    SgpSampleNumbers();
    SgpSampleSettings();
    SgpSampleText(p, sky);
    ProcessFields(Sgp, file, SgpSample(), p, sky);
    FromIntValue(30);
    FromIntValue(-18);
  }

  lemma SgpSampleNumbers()
    ensures Exposure(Sgp, SgpSample()) == Success(Some(FromInt(30)))
    ensures IntOf(Get(SgpSample(), "GAIN")) == Success(Some(120))
    ensures IntOf(Get(SgpSample(), "OFFSET")) == Success(None)
  {
    SgpSampleLookups();
  }

  lemma SgpSampleLookups()
    ensures Get(SgpSample(), "EXPOSURE") == Some(HInt(30))
    ensures Get(SgpSample(), "GAIN") == Some(HInt(120))
    ensures Get(SgpSample(), "OFFSET") == None
  {
    var h := SgpSample();
    assert h["EXPOSURE"] == HInt(30);
    assert h["GAIN"] == HInt(120);
    assert "OFFSET" !in h;
  }

  lemma SgpSampleSettings()
    ensures Binning(Sgp, SgpSample()) == Success(Some(1))
    ensures SetTemp(Sgp, SgpSample()) == Success(Some(FromInt(-18)))
  {
  }

  lemma SgpSampleText(p: DateParsers, sky: Sky)
    ensures ImageType(Sgp, SgpSample()) == Success(Some("LIGHT"))
    ensures Filter(Sgp, SgpSample()) == Some("HaOIII")
    ensures DateTimeOf(Get(SgpSample(), "DATE-OBS"), p) == Success(None)
    ensures Coordinates(SgpSample(), sky) == NoCoords
    ensures StoredText(Get(SgpSample(), "INSTRUME")) == None
    ensures StoredText(Get(SgpSample(), "TELESCOP")) == None
    ensures StoredText(Get(SgpSample(), "OBJECT")) == None
  {
    SgpSampleLabels();
    SgpSampleAbsent();
  }

  lemma SgpSampleLabels()
    ensures ImageType(Sgp, SgpSample()) == Success(Some("LIGHT"))
    ensures Filter(Sgp, SgpSample()) == Some("HaOIII")
  {
    var h := SgpSample();
    assert Get(h, "IMAGETYP") == Some(HStr("LIGHT"));
    assert Get(h, "FILTER") == Some(HStr("HaOIII"));
    assert Text.Upper("LIGHT") == "LIGHT";
    assert !Text.Occurs(" FRAME", "LIGHT") by {
      assert !Text.Contains("LIGHT", " FRAME");
    }
  }

  lemma SgpSampleAbsent()
    ensures Get(SgpSample(), "DATE-OBS") == None
    ensures Get(SgpSample(), "INSTRUME") == None
    ensures Get(SgpSample(), "TELESCOP") == None
    ensures Get(SgpSample(), "OBJECT") == None
    ensures Get(SgpSample(), "RA") == None
    ensures Get(SgpSample(), "OBJCTRA") == None
  {
    var h := SgpSample();
    assert "DATE-OBS" !in h && "INSTRUME" !in h && "TELESCOP" !in h && "OBJECT" !in h;
    assert "RA" !in h && "OBJCTRA" !in h;
  }

  /** With every reader succeeding, the record holds what the readers read. */
  lemma ProcessFields(k: HandlerKind, file: Catalogue.FileRecord, h: Header, p: DateParsers, sky: Sky)
    requires ImageType(k, h).Success? && Exposure(k, h).Success? && IntOf(Get(h, "GAIN")).Success?
    requires IntOf(Get(h, "OFFSET")).Success? && Binning(k, h).Success? && SetTemp(k, h).Success?
    requires DateTimeOf(Get(h, "DATE-OBS"), p).Success?
    ensures var c := Coordinates(h, sky);
            Process(k, file, h, p, sky)
            == Success(Image(file, ImageType(k, h).value, Filter(k, h), Exposure(k, h).value,
                             IntOf(Get(h, "GAIN")).value, IntOf(Get(h, "OFFSET")).value, Binning(k, h).value,
                             SetTemp(k, h).value, StoredText(Get(h, "INSTRUME")), StoredText(Get(h, "TELESCOP")),
                             StoredText(Get(h, "OBJECT")), DateTimeOf(Get(h, "DATE-OBS"), p).value, c.ra, c.dec, c.pix))
  {
  }

  lemma SgpSampleSelected()
    ensures Select(SgpSample()) == Success(Some(Sgp))
  {
    var h := SgpSample();
    assert CanHandle(SharpCap, h) == Success(false) by {
      assert !Text.Contains("", "SharpCap");
    }
    assert CanHandle(Sgp, h) == Success(true) by {
      assert Text.OccursAt("Sequence Generator Pro", "Sequence Generator Pro v3.1.0.479", 0);
    }
    SelectIsFirstAccepting(h, Sgp);
  }
}

=== FILE: headers.dfy ===
/**
 * FITS header values as the header parser hands them out, and the small coercions the
 * header handlers apply to them (`_upper`, `_int`, `_float`, `_type`, `_datetime` in
 * photonfinder/fits_handlers.py). A coercion that raises is a `Failure` naming the
 * Python exception.
 */
module Headers {
  import opened Wrappers
  import Text
  import Seqs
  import opened Numbers

  /** A card value: a character string, an integer, a real (a finite decimal) or a logical. */
  datatype HValue = HStr(s: string) | HInt(i: int) | HReal(d: Decimal) | HBool(b: bool)

  /** A parsed header, keyword to value; keywords are upper-case as the parser stores them. */
  type Header = map<string, HValue>

  /** `header.get(key)`. */
  function Get(h: Header, key: string): (r: Option<HValue>)
    ensures r.Some? <==> key in h
    ensures r.Some? ==> r.value == h[key]
  {
    if key in h then Some(h[key]) else None
  }

  /** `header.get(key, default)`: the default only when the keyword is missing. */
  function GetOr(h: Header, key: string, default: Option<HValue>): (r: Option<HValue>)
    ensures key in h ==> r == Some(h[key])
    ensures key !in h ==> r == default
  {
    if key in h then Some(h[key]) else default
  }

  /** The value of the first of `keys` the header holds: the meaning of a `get` fallback chain. */
  function FirstPresent(h: Header, keys: seq<string>): (r: Option<HValue>)
    ensures r.None? <==> forall k :: k in keys ==> k !in h
    ensures r.Some? ==> exists i :: 0 <= i < |keys| && keys[i] in h && r.value == h[keys[i]]
                                     && forall j :: 0 <= j < i ==> keys[j] !in h
  {
    if |keys| == 0 then None
    else if keys[0] in h then Some(h[keys[0]])
    else
      var r := FirstPresent(h, keys[1..]);
      assert forall k :: k in keys ==> k == keys[0] || k in keys[1..];
      if r.Some? then
        var i :| 0 <= i < |keys[1..]| && keys[1..][i] in h && r.value == h[keys[1..][i]]
                 && forall j :: 0 <= j < i ==> keys[1..][j] !in h;
        assert keys[i + 1] in h && r.value == h[keys[i + 1]];
        assert forall j :: 0 <= j < i + 1 ==> keys[j] !in h by {
          forall j | 0 <= j < i + 1 ensures keys[j] !in h {
            if j > 0 {
              assert keys[j] == keys[1..][j - 1];
            }
          }
        }
        r
      else r
  }

  /** Python truthiness of a value. */
  predicate Truthy(v: HValue) {
    match v
    case HStr(s) => |s| > 0
    case HInt(i) => i != 0
    case HReal(d) => d.m != 0
    case HBool(b) => b
  }

  /** `str(v)`: what a text column stores for the value. */
  function PyStr(v: HValue): string {
    match v
    case HStr(s) => s
    case HInt(i) => IntToString(i)
    case HReal(d) => DecimalToString(d)
    case HBool(b) => if b then "True" else "False"
  }

  /** `float(v)`: `None` stands for the `ValueError` of a string that is not a number. */
  function ToFloat(v: HValue): (r: Option<Decimal>)
    ensures !v.HStr? ==> r.Some?
    ensures v.HInt? ==> r == Some(FromInt(v.i))
    ensures v.HReal? ==> r == Some(v.d)
  {
    match v
    case HStr(s) => ParseDecimal(s)
    case HInt(i) => Some(FromInt(i))
    case HReal(d) => Some(d)
    case HBool(b) => Some(FromInt(if b then 1 else 0))
  }

  /** `int(v)`: a real is truncated toward zero; `None` stands for a `ValueError`. */
  function ToInt(v: HValue): (r: Option<int>)
    ensures !v.HStr? ==> r.Some?
    ensures v.HInt? ==> r == Some(v.i)
    ensures v.HReal? && v.d.m >= 0 ==> 0 <= r.value && r.value as real <= Value(v.d) < (r.value + 1) as real
  {
    match v
    case HStr(s) => ParseInt(s)
    case HInt(i) => Some(i)
    case HReal(d) => TruncateBounds(d); Some(Truncate(d))
    case HBool(b) => Some(if b then 1 else 0)
  }

  lemma TruncateBounds(d: Decimal)
    ensures d.m >= 0 ==> 0 <= Truncate(d) && Truncate(d) as real <= Value(d) < (Truncate(d) + 1) as real
  {
    if d.m >= 0 {
      DivBetween(d.m, Truncate(d), Pow10(d.places));
    }
  }

  lemma DivBetween(a: int, q: int, p: int)
    requires p >= 1 && q * p <= a < (q + 1) * p
    ensures q as real <= a as real / p as real < (q + 1) as real
  {
    var v := a as real / p as real;
    assert v * p as real == a as real;
    assert (q * p) as real == q as real * p as real;
    assert ((q + 1) * p) as real == (q + 1) as real * p as real;
  }

  /** `_upper`: `None` stays `None`; a non-string has no `upper` and raises. */
  function UpperOf(v: Option<HValue>): (r: Result<Option<string>, string>)
    ensures v.None? ==> r == Success(None)
    ensures r.Failure? <==> v.Some? && !v.value.HStr?
    ensures v.Some? && v.value.HStr? ==> r == Success(Some(Text.Upper(v.value.s)))
  {
    match v
    case None => Success(None)
    case Some(HStr(s)) => Success(Some(Text.Upper(s)))
    case Some(_) => Failure("AttributeError")
  }

  /** `_int`: `None` stays `None`, anything else goes through `int`. */
  function IntOf(v: Option<HValue>): (r: Result<Option<int>, string>)
    ensures v.None? ==> r == Success(None)
    ensures r.Failure? <==> v.Some? && ToInt(v.value).None?
    ensures r.Success? && v.Some? ==> r.value == ToInt(v.value)
  {
    match v
    case None => Success(None)
    case Some(x) =>
      match ToInt(x)
      case None => Failure("ValueError")
      case Some(i) => Success(Some(i))
  }

  /** `_float`: `None` stays `None`, anything else goes through `float`. */
  function FloatOf(v: Option<HValue>): (r: Result<Option<Decimal>, string>)
    ensures v.None? ==> r == Success(None)
    ensures r.Failure? <==> v.Some? && ToFloat(v.value).None?
    ensures r.Success? && v.Some? ==> r.value == ToFloat(v.value)
  {
    match v
    case None => Success(None)
    case Some(x) =>
      match ToFloat(x)
      case None => Failure("ValueError")
      case Some(d) => Success(Some(d))
  }

  /** `_type`: upper-cased with every ` FRAME` removed; `None` stays `None`. */
  function TypeOf(v: Option<HValue>): (r: Result<Option<string>, string>)
    ensures v.None? ==> r == Success(None)
    ensures r.Failure? <==> v.Some? && !v.value.HStr?
    ensures r.Success? && r.value.Some? ==> NoLower(r.value.value)
    ensures v.Some? && v.value.HStr? && !Text.Occurs(" FRAME", Text.Upper(v.value.s)) ==> r == Success(Some(Text.Upper(v.value.s)))
  {
    match v
    case None => Success(None)
    case Some(HStr(s)) =>
      UpperNoLower(s);
      ReplaceNoLower(Text.Upper(s), " FRAME", "");
      Success(Some(Text.Replace(Text.Upper(s), " FRAME", "")))
    case Some(_) => Failure("AttributeError")
  }

  /** No lower-case ASCII letter occurs. */
  predicate NoLower(s: string) {
    forall i :: 0 <= i < |s| ==> !('a' <= s[i] <= 'z')
  }

  lemma UpperNoLower(s: string)
    ensures NoLower(Text.Upper(s))
  {
  }

  lemma {:induction false} ReplaceNoLower(s: string, pat: string, rep: string)
    requires |pat| > 0 && NoLower(s) && NoLower(rep)
    ensures NoLower(Text.Replace(s, pat, rep))
    decreases |s|
  {
    if pat <= s {
      ReplaceNoLower(s[|pat|..], pat, rep);
    } else if |s| > 0 {
      ReplaceNoLower(s[1..], pat, rep);
    }
  }

  /** `Light Frame` is read as `LIGHT`. */
  lemma TypeOfLightFrame()
    ensures TypeOf(Some(HStr("Light Frame"))) == Success(Some("LIGHT"))
  {
    var u := Text.Upper("Light Frame");
    assert u == "LIGHT FRAME";
    assert " FRAME" <= u[5..];
    assert Text.Replace(u[5..], " FRAME", "") == "" by {
      assert u[5..][6..] == [];
    }
    assert Text.Replace(u, " FRAME", "") == "LIGHT" by {
      ReplaceLiteralPrefix(u, 5, " FRAME", "");
    }
  }

  /** Replacing in a string whose first `n` characters cannot start a match keeps those characters. */
  lemma {:induction false} ReplaceLiteralPrefix(s: string, n: nat, pat: string, rep: string)
    requires |pat| > 0 && n <= |s|
    requires forall i :: 0 <= i < n ==> s[i] != pat[0]
    ensures Text.Replace(s, pat, rep) == s[..n] + Text.Replace(s[n..], pat, rep)
    decreases n
  {
    if n > 0 {
      NoneOfAfterFirst(s, n, pat[0]);
      ReplaceLiteralPrefix(s[1..], n - 1, pat, rep);
      ReplaceLiteralStep(s, n, pat, rep);
    }
  }

  lemma ReplaceLiteralStep(s: string, n: nat, pat: string, rep: string)
    requires |pat| > 0 && 0 < n <= |s| && s[0] != pat[0]
    requires Text.Replace(s[1..], pat, rep) == s[1..][..n - 1] + Text.Replace(s[1..][n - 1..], pat, rep)
    ensures Text.Replace(s, pat, rep) == s[..n] + Text.Replace(s[n..], pat, rep)
  {
    var t := s[1..];
    ReplaceSkip(s, pat, rep);
    PrefixAfterFirst(s, n);
    var rest := Text.Replace(s[n..], pat, rep);
    assert Text.Replace(t[n - 1..], pat, rep) == rest;
    Seqs.ConcatAssoc([s[0]], t[..n - 1], rest);
  }

  lemma NoneOfAfterFirst(s: string, n: nat, c: char)
    requires 0 < n <= |s|
    requires forall i :: 0 <= i < n ==> s[i] != c
    ensures forall i :: 0 <= i < n - 1 ==> s[1..][i] != c
  {
    forall i | 0 <= i < n - 1 ensures s[1..][i] != c {
      assert s[1..][i] == s[i + 1];
    }
  }

  lemma PrefixAfterFirst(s: string, n: nat)
    requires 0 < n <= |s|
    ensures s[1..][n - 1..] == s[n..]
    ensures s[..n] == [s[0]] + s[1..][..n - 1]
  {
  }

  lemma ReplaceSkip(s: string, pat: string, rep: string)
    requires |pat| > 0 && |s| > 0 && s[0] != pat[0]
    ensures Text.Replace(s, pat, rep) == [s[0]] + Text.Replace(s[1..], pat, rep)
  {
    assert !(pat <= s);
  }

  /** `int(str(i)) == i` and `float(str(x)) == x` for the values the handlers read. */
  lemma CoercionRoundTrip(i: int, d: Decimal)
    ensures IntOf(Some(HStr(IntToString(i)))) == Success(Some(i))
    ensures FloatOf(Some(HStr(DecimalToString(d)))).Success?
    ensures Value(FloatOf(Some(HStr(DecimalToString(d)))).value.value) == Value(d)
  {
    ParseIntToString(i);
    ParseDecimalToString(d);
  }

  /** A point in time, in microseconds on a fixed timeline. */
  type DateTime = int

  /**
   * The three date parsers `_datetime` tries: `datetime.fromisoformat` and `strptime` with
   * the two formats. `None` stands for the `ValueError` of a string a parser rejects.
   */
  datatype DateParsers = DateParsers(
    isoFormat: string -> Option<DateTime>,
    withFraction: string -> Option<DateTime>,
    plain: string -> Option<DateTime>)

  /**
   * `_datetime`: `None`, an empty string and `N/A` give `None`; otherwise the first parser
   * that accepts gives the time (the ISO parser sees `Z` as `+00:00`), and none accepting
   * gives `None`. A non-string value gets past the first handler but `strptime` raises a
   * `TypeError` that nothing catches.
   */
  function DateTimeOf(v: Option<HValue>, p: DateParsers): (r: Result<Option<DateTime>, string>)
    ensures r.Failure? <==> v.Some? && !v.value.HStr?
    ensures v.None? || v == Some(HStr("")) || v == Some(HStr("N/A")) ==> r == Success(None)
    ensures v.Some? && v.value.HStr? && v.value.s != "" && v.value.s != "N/A" ==>
              var s := v.value.s;
              (r.Success? && r.value.None? <==>
                 p.isoFormat(Text.Replace(s, "Z", "+00:00")).None? && p.withFraction(s).None? && p.plain(s).None?)
  {
    match v
    case None => Success(None)
    case Some(HStr(s)) =>
      if s == "" || s == "N/A" then Success(None)
      else
        (match p.isoFormat(Text.Replace(s, "Z", "+00:00"))
         case Some(t) => Success(Some(t))
         case None =>
           (match p.withFraction(s)
            case Some(t) => Success(Some(t))
            case None =>
              (match p.plain(s)
               case Some(t) => Success(Some(t))
               case None => Success(None))))
    case Some(_) => Failure("TypeError")
  }
  /** A numeric `DATE-OBS` gets past the first parser's handler and makes `strptime` raise. */
  lemma NumericDateRaises(p: DateParsers)
    ensures DateTimeOf(Some(HInt(20240101)), p) == Failure("TypeError")
    ensures DateTimeOf(Some(HReal(Decimal(20240101, 0))), p) == Failure("TypeError")
  {
  }

  /**
   * `_datetime` as its handlers suggest it was meant: the first one already catches the
   * `AttributeError` of a non-string, so a value no parser reads gives `None` instead of
   * an exception.
   */
  function DateTimeOfIntended(v: Option<HValue>, p: DateParsers): (r: Result<Option<DateTime>, string>)
    ensures r.Success?
    ensures v.Some? && !v.value.HStr? ==> r == Success(None)
  {
    match DateTimeOf(v, p)
    case Success(t) => Success(t)
    case Failure(_) => Success(None)
  }

  /** Wherever the code as written returns, the intended parser returns the same time. */
  lemma IntendedAgrees(v: Option<HValue>, p: DateParsers)
    ensures DateTimeOf(v, p).Success? ==> DateTimeOfIntended(v, p) == DateTimeOf(v, p)
    ensures DateTimeOf(v, p).Failure? <==> DateTimeOfIntended(v, p) != DateTimeOf(v, p)
  {
  }
}

=== FILE: legacy_export.dfy ===
/**
 * The export of the legacy `astrofilemanager` variant (astrofilemanager/ui/ExportDialog.py):
 * the same template naming without XISF conversion, a copy that is either the stored bytes
 * or the decompressed stream, and a dialog that keeps only the output path, the decompress
 * option and the pattern list.
 */
module LegacyExport {
  import opened Wrappers
  import opened Text
  import FileNames
  import Catalogue
  import Settings
  import Export

  /** `template_filename` of the legacy dialog: the current one with XISF conversion off. */
  function LegacyTemplateFilename(e: Export.Entry, template: string, store: Settings.Store, decompress: bool,
                                  cal: Export.Calendar): (r: Result<Export.Rendered, string>)
    ensures r.Failure? <==> e.image.Some? && e.image.value.dateObs.None?
    ensures r.Success? && e.file.name != "" ==> r.value.name != ""
    ensures r.Success? && !Export.IsLight(e) ==> r.value.store == store
  {
    Export.TemplateFilename(e, template, store, decompress, false, cal)
  }

  /**
   * The legacy `template_filename` as written: an image without an observation date fails
   * on `isoformat`, and every other call fails at `settings.get_last_light_path()`, a getter
   * the legacy settings object does not define, before the pattern is rendered.
   */
  function LegacyTemplateFilenameAsWritten(e: Export.Entry, template: string, store: Settings.Store, decompress: bool,
                                           cal: Export.Calendar): (r: Result<Export.Rendered, string>)
    ensures r.Failure?
    ensures LegacyTemplateFilename(e, template, store, decompress, cal).Success? ==>
              r == Failure(LegacyGetter(store, "last_light_path").error)
  {
    if e.image.Some? && e.image.value.dateObs.None? then
      Failure("AttributeError: 'NoneType' object has no attribute 'isoformat'")
    else
      var lastLight := LegacyGetter(store, "last_light_path");
      if lastLight.Failure? then Failure(lastLight.error)
      else LegacyTemplateFilename(e, template, store, decompress, cal)
  }

  /**
   * As written no legacy file gets a name: even a file without an image and the empty
   * pattern, which the corrected naming names by its file name, makes the naming raise.
   */
  lemma LegacyNamingRaisesAsWritten(e: Export.Entry, store: Settings.Store, decompress: bool, cal: Export.Calendar)
    requires e.image.None?
    ensures LegacyTemplateFilenameAsWritten(e, "", store, decompress, cal).Failure?
    ensures LegacyTemplateFilename(e, "", store, decompress, cal)
            == Success(Export.Rendered(Export.ExportName(e.file.name, decompress, false), store))
  {
    EmptyTemplateNamesByFile(e, store, decompress, cal);
  }

  /** For a name that is not XISF before or after decompression, both variants name a file alike. */
  lemma LegacyAgreesWithoutXisf(e: Export.Entry, template: string, store: Settings.Store, decompress: bool,
                                xisfAsFits: bool, cal: Export.Calendar)
    requires !FileNames.IsXisfByName(e.file.name) && !FileNames.IsXisfByName(FileNames.StripCompressed(e.file.name))
    ensures LegacyTemplateFilename(e, template, store, decompress, cal)
            == Export.TemplateFilename(e, template, store, decompress, xisfAsFits, cal)
  {
    assert Export.ExportName(e.file.name, decompress, xisfAsFits) == Export.ExportName(e.file.name, decompress, false);
  }

  /** What the legacy `copy_file` writes: the decompressed stream or the stored bytes; every file is copied. */
  function LegacyCopyAction(source: string, decompress: bool): (r: Export.CopyAction)
    ensures r.DecompressBytes? || r.CopyBytes?
  {
    if FileNames.IsCompressed(source) && decompress then Export.DecompressBytes else Export.CopyBytes
  }

  /** A processed file of the legacy worker. */
  datatype LegacyStep = LegacyCopied(target: string, action: Export.CopyAction) | LegacyAlreadyThere(target: string)

  /** The legacy `_process_file` as written: the name is rendered as if `decompress` were off. */
  function LegacyProcessFileAsWritten(e: Export.Entry, ref: Option<Export.Entry>, template: string, outputPath: string,
                                      decompress: bool, store: Settings.Store, cal: Export.Calendar,
                                      present: string -> bool): (r: Result<(LegacyStep, Settings.Store), string>)
    ensures var named := Export.TemplateFilenameWithRef(e, ref, template, store, false, false, cal);
            named.Success? ==> r.Success? && EndsWith(r.value.0.target, named.value.name)
  {
    LegacyProcess(e, ref, template, outputPath, false, decompress, store, cal, present)
  }

  /** The legacy `_process_file` with the decompress option passed to the naming as well. */
  function LegacyProcessFile(e: Export.Entry, ref: Option<Export.Entry>, template: string, outputPath: string,
                             decompress: bool, store: Settings.Store, cal: Export.Calendar,
                             present: string -> bool): (r: Result<(LegacyStep, Settings.Store), string>)
    ensures var named := Export.TemplateFilenameWithRef(e, ref, template, store, decompress, false, cal);
            named.Success? ==> r.Success? && EndsWith(r.value.0.target, named.value.name)
  {
    LegacyProcess(e, ref, template, outputPath, decompress, decompress, store, cal, present)
  }

  /** Name with `nameDecompress`, copy with `copyDecompress`; skip a target that exists. */
  function LegacyProcess(e: Export.Entry, ref: Option<Export.Entry>, template: string, outputPath: string,
                         nameDecompress: bool, copyDecompress: bool, store: Settings.Store, cal: Export.Calendar,
                         present: string -> bool): (r: Result<(LegacyStep, Settings.Store), string>)
    ensures r.Success? <==> Export.TemplateFilenameWithRef(e, ref, template, store, nameDecompress, false, cal).Success?
    ensures r.Success? ==>
              var rendered := Export.TemplateFilenameWithRef(e, ref, template, store, nameDecompress, false, cal).value;
              r.value.0.target == Catalogue.PathJoin(outputPath, rendered.name) && r.value.1 == rendered.store
              && EndsWith(r.value.0.target, rendered.name)
    ensures r.Success? ==>
              (r.value.0.LegacyAlreadyThere? <==> present(r.value.0.target))
              && (r.value.0.LegacyCopied? ==>
                    r.value.0.action == LegacyCopyAction(Catalogue.FullFilename(e.rootPath, e.file), copyDecompress))
  {
    var rendered :- Export.TemplateFilenameWithRef(e, ref, template, store, nameDecompress, false, cal);
    var target := Catalogue.PathJoin(outputPath, rendered.name);
    Catalogue.PathJoinShape(outputPath, rendered.name);
    if present(target) then Success((LegacyAlreadyThere(target), rendered.store))
    else Success((LegacyCopied(target, LegacyCopyAction(Catalogue.FullFilename(e.rootPath, e.file), copyDecompress)),
                  rendered.store))
  }

  /** A file with no image row and the empty pattern is named by its file name alone. */
  lemma EmptyTemplateNamesByFile(e: Export.Entry, store: Settings.Store, decompress: bool, cal: Export.Calendar)
    requires e.image.None?
    ensures Export.TemplateFilenameWithRef(e, None, "", store, decompress, false, cal)
            == Success(Export.Rendered(Export.ExportName(e.file.name, decompress, false), store))
  {
  }

  /**
   * As written, a compressed file exported with decompression keeps its compressed
   * extension: with the empty pattern the target ends in the stored name, `.xz` and all,
   * while the bytes written are the decompressed stream.
   */
  lemma DecompressedCopyKeepsCompressedName(e: Export.Entry, outputPath: string, store: Settings.Store,
                                            cal: Export.Calendar, present: string -> bool)
    requires e.image.None? && '/' !in e.file.name && FileNames.IsCompressed(e.file.name)
    requires !present(Catalogue.PathJoin(outputPath, e.file.name))
    ensures var r := LegacyProcessFileAsWritten(e, None, "", outputPath, true, store, cal, present);
            r.Success? && r.value.0 == LegacyCopied(Catalogue.PathJoin(outputPath, e.file.name), Export.DecompressBytes)
  {
    EmptyTemplateNamesByFile(e, store, false, cal);
    Export.NameTestsOfJoin(Catalogue.PathJoin(e.rootPath, e.file.path), e.file.name);
  }

  /**
   * With the option passed to the naming, the name a file is exported under loses its
   * compressed extension exactly when the decompressed stream is what gets written.
   */
  lemma LegacyNameFollowsContent(e: Export.Entry, decompress: bool)
    requires '/' !in e.file.name
    ensures Export.ExportName(e.file.name, decompress, false) != e.file.name
            <==> LegacyCopyAction(Catalogue.FullFilename(e.rootPath, e.file), decompress).DecompressBytes?
    ensures Export.ExportName(e.file.name, decompress, false) == FileNames.StripCompressed(e.file.name) || !decompress
  {
    var name := e.file.name;
    Export.NameTestsOfJoin(Catalogue.PathJoin(e.rootPath, e.file.path), name);
    assert FileNames.IsCompressed(Catalogue.FullFilename(e.rootPath, e.file)) <==> FileNames.IsCompressed(name);
    PlainExportName(name, decompress);
    if FileNames.IsCompressed(name) {
      StripChangesName(name);
    }
  }

  /** Without XISF renaming, the export name only ever drops a compressed extension. */
  lemma PlainExportName(name: string, decompress: bool)
    ensures Export.ExportName(name, decompress, false)
            == if FileNames.IsCompressed(name) && decompress then FileNames.StripCompressed(name) else name
  {
  }

  lemma StripChangesName(name: string)
    requires FileNames.IsCompressed(name)
    ensures FileNames.StripCompressed(name) != name
  {
    assert |FileNames.Ext(name)| > 0;
    assert |FileNames.StripCompressed(name)| < |name|;
  }

  /** Corrected, the same file is written decompressed under its name without the compressed extension. */
  lemma DecompressedCopyDropsCompressedName(e: Export.Entry, outputPath: string, store: Settings.Store,
                                            cal: Export.Calendar, present: string -> bool)
    requires e.image.None? && '/' !in e.file.name && FileNames.IsCompressed(e.file.name)
    requires !present(Catalogue.PathJoin(outputPath, FileNames.StripCompressed(e.file.name)))
    ensures var r := LegacyProcessFile(e, None, "", outputPath, true, store, cal, present);
            r.Success? && r.value.0 == LegacyCopied(Catalogue.PathJoin(outputPath, FileNames.StripCompressed(e.file.name)),
                                                    Export.DecompressBytes)
  {
    EmptyTemplateNamesByFile(e, store, true, cal);
    Export.NameTestsOfJoin(Catalogue.PathJoin(e.rootPath, e.file.path), e.file.name);
  }

  // ---------------------------------------------------------------------------
  // The legacy dialog's settings.

  /** The one setting the legacy `Settings` class defines accessors for. */
  const LegacyCacheKey := "cache_compressed_headers"

  /**
   * A getter call on the legacy settings object: only the header-cache flag exists (default
   * true); any other getter raises `AttributeError`.
   */
  function LegacyGetter(store: Settings.Store, key: string): (r: Result<Settings.SValue, string>)
    ensures r.Success? <==> key == LegacyCacheKey
  {
    if key == LegacyCacheKey then Success(if key in store then store[key] else Settings.SBool(true))
    else Failure("AttributeError: 'Settings' object has no attribute 'get_" + key + "'")
  }

  /** The legacy `load_settings` as written: its first call, `get_last_export_path`, on the legacy settings object. */
  function LegacyLoadSettingsAsWritten(store: Settings.Store): (r: Result<Settings.SValue, string>)
    ensures r.Failure?
  {
    LegacyGetter(store, "last_export_path")
  }

  /** As written, opening the legacy export dialog raises whatever is stored. */
  lemma LegacyDialogCannotLoad(store: Settings.Store)
    ensures LegacyLoadSettingsAsWritten(store).Failure?
    ensures LegacyGetter(store, "last_light_path").Failure?
  {
  }

  /** The legacy `save_settings`, against settings that define the export accessors. */
  function LegacySaveSettings(store: Settings.Store, outputPath: string, decompress: bool, pattern: string): (r: Settings.Store)
    ensures forall k :: k in store && k != "last_export_path" && k != "last_export_decompress" && k != Export.PatternsKey
              ==> k in r && r[k] == store[k]
  {
    store["last_export_path" := Settings.SStr(outputPath)]
         ["last_export_decompress" := Settings.SBool(decompress)]
         [Export.PatternsKey := Settings.SList(Export.SavePatterns(Export.StoredPatterns(store), pattern))]
  }

  /** The legacy `load_settings` against those settings: path, decompress and the pattern list. */
  function LegacyLoadSettings(store: Settings.Store): (r: (string, bool, seq<string>)) {
    (Export.TextSetting(store, "last_export_path"), Export.BoolSetting(store, "last_export_decompress"),
     Export.StoredPatterns(store))
  }

  /** Corrected, the legacy dialog reopens with what it saved, the current pattern first. */
  lemma LegacySaveLoadRoundTrip(store: Settings.Store, outputPath: string, decompress: bool, pattern: string)
    ensures var (path, d, patterns) := LegacyLoadSettings(LegacySaveSettings(store, outputPath, decompress, pattern));
            path == outputPath && d == decompress && patterns == Export.SavePatterns(Export.StoredPatterns(store), pattern)
            && patterns[0] == pattern
  {
  }
}

=== FILE: legacy_filenames.dfy ===
/**
 * The earlier scanner's name tests (astrofilemanager/filesystem.py): a fixed `bad`
 * prefix instead of wildcard patterns, FITS only, and an opener chosen from the
 * list of dot-separated extensions.
 */
module LegacyFileNames {
  import opened Wrappers
  import Text
  import FileNames
  import Seqs

  /** Legacy `marked_bad`: the lower-cased name starts with `bad`. */
  predicate MarkedBad(name: string) {
    Text.StartsWith(Text.Lower(name), "bad")
  }

  /** Legacy `is_fits`: a `.fit`/`.fits` name once a case-sensitive compressed extension is removed. */
  predicate IsFits(name: string) {
    FileNames.EndsFitsNoCase(FileNames.StripCompressed(name))
  }

  /** Legacy `_file_filter`. */
  predicate FileFilter(name: string) {
    IsFits(name) && !MarkedBad(name)
  }

  /** Legacy `_dir_filter`. */
  predicate DirFilter(name: string) {
    !MarkedBad(name)
  }

  /**
   * The fixed prefix rule is what the wildcard rule with its default `bad*` setting
   * decides, for files and for directories alike.
   */
  lemma MarkedBadIsDefaultPattern(kind: FileNames.EntryKind, name: string)
    requires kind != FileNames.OtherKind
    ensures MarkedBad(name) <==>
            FileNames.MarkedBad(kind, name, FileNames.Patterns(FileNames.DefaultPatterns),
                                FileNames.Patterns(FileNames.DefaultPatterns))
  {
    FileNames.DefaultPatternIsBadPrefix(kind, name);
  }

  /** The legacy tests' examples: `bad_file.fits` is bad, `normal_file.fits` is not. */
  lemma MarkedBadExamples()
    ensures MarkedBad("bad_file.fits") && !MarkedBad("normal_file.fits")
  {
    var a := Text.Lower("bad_file.fits");
    assert a[..3] == "bad";
    var b := Text.Lower("normal_file.fits");
    assert b[0] == 'n';
  }

  /**
   * The names the earlier scanner's tests classify: `image.fits`, `image.fit` and
   * `image.fits.xz` are FITS files and `image.jpg` is not.
   */
  lemma IsFitsExamples()
    ensures IsFits("image.fits") && IsFits("image.fit") && IsFits("image.fits.xz")
    ensures !IsFits("image.jpg")
  {
    assert "image" + ".fits" == "image.fits";
    assert "image" + ".fit" == "image.fit";
    assert "image" + ".fits" + ".xz" == "image.fits.xz";
    FitsStem("image", ".fits");
    FitsStem("image", ".fit");
    NotFitsJpg();
  }

  /** A stem with a lower-case FITS extension is FITS, plain or compressed with `.xz`. */
  lemma FitsStem(stem: string, e: string)
    requires |stem| > 0 && stem[0] != '.' && '/' !in stem
    requires e == ".fits" || e == ".fit"
    ensures IsFits(stem + e) && IsFits(stem + e + ".xz")
  {
    var n := stem + e;
    FileNames.SplitExtOf(stem, e);
    assert FileNames.StripCompressed(n) == n;
    forall k | 0 <= k < |e| ensures Text.LowerChar(n[|n| - |e| + k]) == e[k] {
      assert n[|n| - |e| + k] == e[k];
    }
    FileNames.LowerEndsWith(n, e);
    assert n[0] != '.';
    FileNames.SplitExtAppend(n, ".xz");
  }

  lemma NotFitsJpg()
    ensures !IsFits("image.jpg")
  {
    assert "image"[0] != '.';
    assert "image" + ".jpg" == "image.jpg";
    FileNames.SplitExtOf("image", ".jpg");
    FileNames.JpgExample();
    FileNames.NotCompressedNoCase("image.jpg");
  }

  /** Legacy `is_fits` is case-sensitive about the compressed extension, unlike the current test. */
  lemma UpperCaseCompressedNotFits()
    ensures !IsFits("M31.FITS.XZ") && FileNames.IsFitsByName("M31.FITS.XZ")
  {
    FileNames.UpperCaseExtensionNotDecompressed();
    var l := Text.Lower("M31.FITS.XZ");
    assert l[|l| - 1] == 'z';
    if Text.EndsWith(l, ".fit") { FileNames.EndsWithChars(l, ".fit"); }
    if Text.EndsWith(l, ".fits") { FileNames.EndsWithChars(l, ".fits"); }
  }

  /** The first index at or after `i` that does not hold a dot, or `|s|`. */
  function SkipDots(s: string, i: nat): (r: nat)
    requires i <= |s|
    ensures i <= r <= |s|
    ensures r < |s| ==> s[r] != '.'
    ensures forall k :: i <= k < r ==> s[k] == '.'
    decreases |s| - i
  {
    if i < |s| && s[i] == '.' then SkipDots(s, i + 1) else i
  }

  function DropLeadingDots(s: string): (r: string)
    ensures |r| <= |s| && r == s[|s| - |r|..]
    ensures |r| > 0 ==> r[0] != '.'
    ensures forall k :: 0 <= k < |s| - |r| ==> s[k] == '.'
  {
    s[SkipDots(s, 0)..]
  }

  /**
   * `File.get_file_exts`, whose definition is not part of this model; reconstructed
   * from its tests: the dot-separated pieces after the first, ignoring leading dots
   * (`image.fits.xz` gives `fits`, `xz`; `README` and `.gitignore` give none).
   */
  function FileExts(name: string): seq<string> {
    Text.Split(DropLeadingDots(name), '.')[1..]
  }

  /** Legacy `fopen`: the last extension decides. */
  function Fopen(name: string): (r: FileNames.Opener)
    ensures |FileExts(name)| == 0 ==> r == FileNames.Plain
    ensures r == FileNames.Lzma ==> FileExts(name)[|FileExts(name)| - 1] == "xz"
    ensures r == FileNames.Gzip ==> FileExts(name)[|FileExts(name)| - 1] == "gz"
    ensures r == FileNames.Bz2 ==> FileExts(name)[|FileExts(name)| - 1] == "bz2"
  {
    var exts := FileExts(name);
    if |exts| > 0 && exts[|exts| - 1] == "xz" then FileNames.Lzma
    else if |exts| > 0 && exts[|exts| - 1] == "gz" then FileNames.Gzip
    else if |exts| > 0 && exts[|exts| - 1] == "bz2" then FileNames.Bz2
    else FileNames.Plain
  }

  /**
   * The legacy `fopen` as written: its first line calls `get_file_exts()` on its argument,
   * which neither the legacy `File` model nor the path text the export passes defines, so
   * it raises whatever the name.
   */
  function FopenAsWritten(name: string): (r: Result<FileNames.Opener, string>)
    ensures r.Failure?
  {
    Failure("AttributeError: object has no attribute 'get_file_exts'")
  }

  /**
   * As written, a compressed file cannot be opened: where the corrected opener picks the
   * decompressor its extension names, the legacy one raises.
   */
  lemma CompressedOpenRaisesAsWritten(name: string)
    requires '/' !in name && FileNames.IsCompressed(name)
    ensures FopenAsWritten(name).Failure?
    ensures Fopen(name) != FileNames.Plain
  {
    FopenAgrees(name);
  }

  lemma LastIndexUnique(s: string, c: char, r: int)
    requires 0 <= r < |s| && s[r] == c
    requires forall k :: r < k < |s| ==> s[k] != c
    ensures FileNames.LastIndex(s, c) == r
  {
  }

  lemma {:induction false} LastSplit(s: string, c: char)
    requires c in s
    ensures |Text.Split(s, c)| >= 2
    ensures Text.Split(s, c)[|Text.Split(s, c)| - 1] == s[FileNames.LastIndex(s, c) + 1..]
    decreases |s|
  {
    var i := Text.IndexOf(s, c).value;
    if c in s[i + 1..] {
      LastSplit(s[i + 1..], c);
      LastSplitLater(s, c, i);
    } else {
      LastSplitOnce(s, c, i);
    }
  }

  lemma LastSplitLater(s: string, c: char, i: nat)
    requires Text.IndexOf(s, c).Some? && Text.IndexOf(s, c).value == i && c in s[i + 1..]
    requires |Text.Split(s[i + 1..], c)| >= 2
    requires Text.Split(s[i + 1..], c)[|Text.Split(s[i + 1..], c)| - 1]
             == s[i + 1..][FileNames.LastIndex(s[i + 1..], c) + 1..]
    ensures |Text.Split(s, c)| >= 2
    ensures Text.Split(s, c)[|Text.Split(s, c)| - 1] == s[FileNames.LastIndex(s, c) + 1..]
  {
    Text.SplitFirst(s, c, i);
    LastIndexInRest(s, c, i);
  }

  lemma LastSplitOnce(s: string, c: char, i: nat)
    requires Text.IndexOf(s, c).Some? && Text.IndexOf(s, c).value == i && c !in s[i + 1..]
    ensures |Text.Split(s, c)| >= 2
    ensures Text.Split(s, c)[|Text.Split(s, c)| - 1] == s[FileNames.LastIndex(s, c) + 1..]
  {
    Text.SplitFirst(s, c, i);
    assert Text.Split(s[i + 1..], c) == [s[i + 1..]];
    LastIndexBeforeRest(s, c, i);
  }

  lemma LastIndexInRest(s: string, c: char, i: nat)
    requires i < |s| && c in s[i + 1..]
    ensures FileNames.LastIndex(s, c) == i + 1 + FileNames.LastIndex(s[i + 1..], c)
    ensures s[FileNames.LastIndex(s, c) + 1..] == s[i + 1..][FileNames.LastIndex(s[i + 1..], c) + 1..]
  {
    var rest := s[i + 1..];
    var j := FileNames.LastIndex(rest, c);
    assert rest[j] == s[i + 1 + j];
    assert forall k :: i + 1 + j < k < |s| ==> s[k] == rest[k - i - 1];
    LastIndexUnique(s, c, i + 1 + j);
  }

  lemma LastIndexBeforeRest(s: string, c: char, i: nat)
    requires i < |s| && s[i] == c && c !in s[i + 1..]
    ensures FileNames.LastIndex(s, c) == i
  {
    var rest := s[i + 1..];
    assert forall k :: i < k < |s| ==> s[k] == rest[k - i - 1];
    LastIndexUnique(s, c, i);
  }

  lemma ShiftLastIndex(name: string, d: nat, c: char)
    requires d <= |name| && c in name[d..]
    ensures FileNames.LastIndex(name, c) == d + FileNames.LastIndex(name[d..], c)
  {
    var t := name[d..];
    var j := FileNames.LastIndex(t, c);
    assert t[j] == name[d + j];
    forall k | d + j < k < |name|
      ensures name[k] != c
    {
      assert name[k] == t[k - d];
    }
    LastIndexUnique(name, c, d + j);
  }

  lemma LeadingDotsBeforeLast(name: string, d: nat)
    requires d <= |name|
    requires forall k :: 0 <= k < d ==> name[k] == '.'
    requires '.' !in name[d..]
    ensures !FileNames.HasNonDot(name, 0, if FileNames.LastIndex(name, '.') < 0 then 0 else FileNames.LastIndex(name, '.'))
  {
  }

  /** For a name without a directory part, the extension list agrees with `os.path.splitext`. */
  lemma ExtsAgreeWithSplitExt(name: string)
    requires '/' !in name
    ensures |FileExts(name)| == 0 ==> FileNames.Ext(name) == []
    ensures |FileExts(name)| > 0 ==> FileNames.Ext(name) == "." + FileExts(name)[|FileExts(name)| - 1]
  {
    if '.' in DropLeadingDots(name) {
      ExtsWithDot(name);
    } else {
      ExtsWithoutDot(name);
    }
  }

  lemma ExtsWithDot(name: string)
    requires '/' !in name && '.' in DropLeadingDots(name)
    ensures |FileExts(name)| > 0
    ensures FileNames.Ext(name) == "." + FileExts(name)[|FileExts(name)| - 1]
  {
    LastExt(name);
    ExtAfterLastDot(name);
  }

  /** The last extension is what follows the last dot once the leading dots are gone. */
  lemma LastExt(name: string)
    requires '.' in DropLeadingDots(name)
    ensures var t := DropLeadingDots(name);
            |FileExts(name)| > 0 && FileExts(name)[|FileExts(name)| - 1] == t[FileNames.LastIndex(t, '.') + 1..]
  {
    var t := DropLeadingDots(name);
    LastSplit(t, '.');
    Seqs.LastOfTail(Text.Split(t, '.'));
  }

  lemma ExtAfterLastDot(name: string)
    requires '/' !in name && '.' in DropLeadingDots(name)
    ensures var t := DropLeadingDots(name);
            FileNames.Ext(name) == "." + t[FileNames.LastIndex(t, '.') + 1..]
  {
    var t := DropLeadingDots(name);
    var d := |name| - |t|;
    assert FileNames.LastIndex(name, '/') == -1;
    ShiftLastIndex(name, d, '.');
    var j := FileNames.LastIndex(t, '.');
    var dot := d + j;
    assert j >= 1;
    assert name[d] == t[0];
    assert FileNames.HasNonDot(name, 0, dot);
    assert name[dot..] == t[j..];
    ConsSlice(t, j);
    FileNames.ExtAt(name, dot);
  }

  lemma ConsSlice(s: string, j: nat)
    requires j < |s|
    ensures s[j..] == [s[j]] + s[j + 1..]
  {
  }

  lemma ExtsWithoutDot(name: string)
    requires '/' !in name && '.' !in DropLeadingDots(name)
    ensures FileExts(name) == [] && FileNames.Ext(name) == []
  {
    var t := DropLeadingDots(name);
    var d := |name| - |t|;
    assert FileNames.LastIndex(name, '/') == -1;
    assert Text.Split(t, '.') == [t];
    LeadingDotsBeforeLast(name, d);
    FileNames.NoExt(name);
  }

  lemma DotInjective(a: string, b: string)
    ensures "." + a == "." + b <==> a == b
  {
    if "." + a == "." + b {
      assert a == ("." + a)[1..];
    }
  }

  lemma DotLiteral(a: string, b: string, dotted: string)
    requires dotted == "." + b
    ensures "." + a == dotted <==> a == b
  {
    DotInjective(a, b);
  }

  /** Both openers make the same choice for any plain file name. */
  lemma FopenAgrees(name: string)
    requires '/' !in name
    ensures Fopen(name) == FileNames.Fopen(name)
  {
    ExtsAgreeWithSplitExt(name);
    if |FileExts(name)| > 0 {
      LastExtAgrees(name);
    }
  }

  lemma LastExtAgrees(name: string)
    requires '/' !in name && |FileExts(name)| > 0
    requires FileNames.Ext(name) == "." + FileExts(name)[|FileExts(name)| - 1]
    ensures Fopen(name) == FileNames.Fopen(name)
  {
    var last := FileExts(name)[|FileExts(name)| - 1];
    DotLiteral(last, "xz", ".xz");
    DotLiteral(last, "gz", ".gz");
    DotLiteral(last, "bz2", ".bz2");
    OpenerByLast(name, last, FileNames.Ext(name));
  }

  lemma OpenerByLast(name: string, last: string, e: string)
    requires |FileExts(name)| > 0 && last == FileExts(name)[|FileExts(name)| - 1]
    requires e == FileNames.Ext(name)
    requires e == ".xz" <==> last == "xz"
    requires e == ".gz" <==> last == "gz"
    requires e == ".bz2" <==> last == "bz2"
    ensures Fopen(name) == FileNames.Fopen(name)
  {
  }

  lemma NoDotSplit(s: string)
    requires forall k :: 0 <= k < |s| ==> s[k] != '.'
    ensures Text.Split(s, '.') == [s]
  {
  }

  /** The extension lists the legacy tests expect: none for `README` or `.gitignore`. */
  lemma FileExtsExamples()
    ensures FileExts("README") == []
    ensures FileExts(".gitignore") == []
  {
    HiddenNoExts();
    ReadmeNoExts();
  }

  lemma ReadmeNoExts()
    ensures FileExts("README") == []
  {
    assert DropLeadingDots("README") == "README";
    NoDotSplit("README");
    assert Text.Split("README", '.')[1..] == [];
  }

  lemma HiddenNoExts()
    ensures FileExts(".gitignore") == []
  {
    assert DropLeadingDots(".gitignore") == "gitignore";
    NoDotSplit("gitignore");
  }
}

=== FILE: legacy_handlers.dfy ===
/**
 * Header normalisation of the earlier application (astrofilemanager/fits_handlers.py): the
 * same four handlers, tried in the same order with the same `can_handle` tests, but each
 * field has a default and each handler catches its own conversion errors.
 */
module LegacyHandlers {
  import opened Wrappers
  import Text
  import opened Numbers
  import opened Headers
  import Catalogue
  import opened Handlers

  /** The keywords each field is read from, in fallback order. */
  datatype FieldKeys = FieldKeys(
    imageType: seq<string>, filter: seq<string>, exposure: seq<string>,
    gain: seq<string>, binning: seq<string>, setTemp: seq<string>)

  /** Where each handler looks: SharpCap reads `EXPTIME`, SGP and N.I.N.A. `EXPOSURE`, the generic handler has a fallback for every field. */
  function KeysOf(k: HandlerKind): FieldKeys {
    match k
    case SharpCap => FieldKeys(["IMAGETYP"], ["FILTER"], ["EXPTIME"], ["GAIN"], ["XBINNING"], ["SET-TEMP"])
    case Sgp => FieldKeys(["IMAGETYP"], ["FILTER"], ["EXPOSURE"], ["GAIN"], ["XBINNING"], ["SET-TEMP"])
    case Nina => FieldKeys(["IMAGETYP"], ["FILTER"], ["EXPOSURE"], ["GAIN"], ["XBINNING"], ["SET-TEMP"])
    case Generic =>
      FieldKeys(["IMAGETYP", "OBSTYPE"], ["FILTER", "FILTNAME"], ["EXPTIME", "EXPOSURE"],
                ["GAIN", "EGAIN"], ["XBINNING", "BINNING"], ["SET-TEMP", "CCDTEMP"])
  }

  /** `header.get(keys[0], header.get(keys[1], ... default))`. */
  function Lookup(h: Header, keys: seq<string>, default: HValue): (r: HValue)
    decreases |keys|
  {
    if |keys| == 0 then default
    else GetOr(h, keys[0], Some(Lookup(h, keys[1..], default))).value
  }

  /** A nested lookup gives the value of the first keyword present, else the default. */
  lemma {:induction false} LookupIsFirstPresent(h: Header, keys: seq<string>, default: HValue)
    ensures Lookup(h, keys, default) == FirstPresent(h, keys).GetOr(default)
    decreases |keys|
  {
    if |keys| > 0 {
      LookupIsFirstPresent(h, keys[1..], default);
    }
  }

  /** The values a legacy handler reads, before they go into an image record. */
  datatype Fields = Fields(imageType: string, filter: string, exposure: Decimal, gain: int, binning: int, setTemp: Decimal)

  /**
   * `process` of a legacy handler: type `LIGHT`, filter empty, exposure 0, gain 0, binning 1
   * and set point 0 by default; gain and binning go through `int(float(...))`. `None` is a
   * conversion error, which the handler catches.
   */
  function LegacyProcess(k: HandlerKind, h: Header): (r: Option<Fields>)
    ensures r.Some? <==>
              var keys := KeysOf(k);
              ToFloat(Lookup(h, keys.exposure, HInt(0))).Some? && ToFloat(Lookup(h, keys.gain, HInt(0))).Some?
              && ToFloat(Lookup(h, keys.binning, HInt(1))).Some? && ToFloat(Lookup(h, keys.setTemp, HInt(0))).Some?
  {
    var keys := KeysOf(k);
    var imageType := Lookup(h, keys.imageType, HStr("LIGHT"));
    var filter := Lookup(h, keys.filter, HStr(""));
    match (ToFloat(Lookup(h, keys.exposure, HInt(0))), ToFloat(Lookup(h, keys.gain, HInt(0))),
           ToFloat(Lookup(h, keys.binning, HInt(1))), ToFloat(Lookup(h, keys.setTemp, HInt(0))))
    case (Some(exposure), Some(gain), Some(binning), Some(setTemp)) =>
      Some(Fields(PyStr(imageType), PyStr(filter), exposure, Truncate(gain), Truncate(binning), setTemp))
    case _ => None
  }

  /** The columns of the legacy image table that header normalisation fills. */
  datatype LegacyImage = LegacyImage(
    file: Catalogue.FileRecord, imageType: string, filter: string, exposure: Decimal,
    gain: int, binning: int, setTemp: Option<Decimal>)

  /**
   * The record as the handlers build it: the set point is passed under the name `setTemp`,
   * which is no column of the table, so the `set_temp` column stays empty.
   */
  function RecordAsWritten(file: Catalogue.FileRecord, f: Fields): (r: LegacyImage)
    ensures r.setTemp.None?
    ensures r.file == file && r.exposure == f.exposure && r.gain == f.gain && r.binning == f.binning
  {
    LegacyImage(file, f.imageType, f.filter, f.exposure, f.gain, f.binning, None)
  }

  /** The record with the set point stored in its column. */
  function Record(file: Catalogue.FileRecord, f: Fields): (r: LegacyImage)
    ensures r.setTemp == Some(f.setTemp)
    ensures r.file == file && r.exposure == f.exposure && r.gain == f.gain && r.binning == f.binning
  {
    LegacyImage(file, f.imageType, f.filter, f.exposure, f.gain, f.binning, Some(f.setTemp))
  }

  /**
   * `normalize_fits_header` as written: the handler's result gets its `file` set before it is
   * checked, so a handler that caught a conversion error and returned `None` makes the
   * assignment raise an `AttributeError`.
   */
  function LegacyNormalizeAsWritten(file: Catalogue.FileRecord, h: Header): (r: Result<Option<LegacyImage>, string>)
    ensures r.Success? && r.value.Some? ==> r.value.value.file == file && r.value.value.setTemp.None?
  {
    match Select(h)
    case Failure(e) => Failure(e)
    case Success(None) => Success(None)
    case Success(Some(k)) =>
      match LegacyProcess(k, h)
      case None => Failure("AttributeError")
      case Some(f) => Success(Some(RecordAsWritten(file, f)))
  }

  /** `normalize_fits_header` as documented: `None` when processing fails, the set point stored. */
  function LegacyNormalize(file: Catalogue.FileRecord, h: Header): (r: Result<Option<LegacyImage>, string>)
    ensures r.Success? && r.value.Some? ==> r.value.value.file == file
  {
    match Select(h)
    case Failure(e) => Failure(e)
    case Success(None) => Success(None)
    case Success(Some(k)) =>
      match LegacyProcess(k, h)
      case None => Success(None)
      case Some(f) => Success(Some(Record(file, f)))
  }

  /** As written, a conversion error in the chosen handler escapes as an `AttributeError`. */
  lemma AsWrittenRaisesOnConversionError(file: Catalogue.FileRecord, h: Header, k: HandlerKind)
    requires Select(h) == Success(Some(k)) && LegacyProcess(k, h).None?
    ensures LegacyNormalizeAsWritten(file, h) == Failure("AttributeError")
    ensures LegacyNormalize(file, h) == Success(None)
  {
  }

  /** A generic header with an exposure that is not a number is one such header. */
  lemma NonNumericExposureRaises(file: Catalogue.FileRecord)
    ensures LegacyNormalizeAsWritten(file, map["EXPTIME" := HStr("n/a")]) == Failure("AttributeError")
    ensures LegacyNormalize(file, map["EXPTIME" := HStr("n/a")]) == Success(None)
  {
    var h := map["EXPTIME" := HStr("n/a")];
    NoSoftwareIsGeneric(h);
    NonNumericExposureFails();
    AsWrittenRaisesOnConversionError(file, h, Generic);
  }

  lemma NonNumericExposureFails()
    ensures LegacyProcess(Generic, map["EXPTIME" := HStr("n/a")]).None?
  {
    var h := map["EXPTIME" := HStr("n/a")];
    var keys := KeysOf(Generic).exposure;
    assert keys[0] == "EXPTIME" && "EXPTIME" in h && h["EXPTIME"] == HStr("n/a");
    LookupHead(h, keys, HInt(0));
    NotANumber();
    assert ToFloat(Lookup(h, keys, HInt(0))).None?;
  }

  /** A lookup whose first keyword is present gives that keyword's value. */
  lemma LookupHead(h: Header, keys: seq<string>, default: HValue)
    requires |keys| > 0 && keys[0] in h
    ensures Lookup(h, keys, default) == h[keys[0]]
  {
  }

  lemma NotANumber()
    ensures ParseDecimal("n/a").None?
  {
    var s := "n/a";
    assert s[0] == 'n' && s[|s| - 1] == 'a';
    ParseDecimalUnsigned(s);
    NotUnsigned();
  }

  lemma NotUnsigned()
    ensures ParseUnsignedDecimal("n/a") == None
  {
    var s := "n/a";
    assert '.' !in s by {
      assert s[0] != '.' && s[1] != '.' && s[2] != '.';
    }
    assert !IsDigit(s[0]);
  }

  /** Corrected, normalisation raises only where choosing a handler raises. */
  lemma LegacyNormalizeRaisesIff(file: Catalogue.FileRecord, h: Header)
    ensures LegacyNormalize(file, h).Failure? <==> Select(h).Failure?
    ensures LegacyNormalize(file, h) == Success(None) <==>
              exists k :: Select(h) == Success(Some(k)) && LegacyProcess(k, h).None?
  {
    SelectNeverFallsThrough(h);
  }

  /** As written, the set point read from the header never reaches the record; corrected, it does. */
  lemma SetTempStored(file: Catalogue.FileRecord, h: Header, k: HandlerKind, f: Fields)
    requires Select(h) == Success(Some(k)) && LegacyProcess(k, h) == Some(f)
    ensures LegacyNormalizeAsWritten(file, h).value.value.setTemp == None
    ensures LegacyNormalize(file, h).value.value.setTemp == Some(f.setTemp)
  {
  }

  /** A header with none of the keywords gets every default, through the generic handler. */
  lemma LegacyDefaults(file: Catalogue.FileRecord, h: Header)
    requires forall key :: key in h ==> key !in DefaultedKeywords
    ensures LegacyNormalize(file, h)
            == Success(Some(LegacyImage(file, "LIGHT", "", FromInt(0), 0, 1, Some(FromInt(0)))))
  {
    assert "SWCREATE" !in h && "CREATOR" !in h;
    NoSoftwareIsGeneric(h);
    GenericDefaults(h);
  }

  lemma GenericDefaults(h: Header)
    requires forall key :: key in h ==> key !in DefaultedKeywords
    ensures LegacyProcess(Generic, h) == Some(Fields("LIGHT", "", FromInt(0), 0, 1, FromInt(0)))
  {
    var keys := KeysOf(Generic);
    LookupMissing(h, keys.imageType, HStr("LIGHT"));
    LookupMissing(h, keys.filter, HStr(""));
    LookupMissing(h, keys.exposure, HInt(0));
    LookupMissing(h, keys.gain, HInt(0));
    LookupMissing(h, keys.binning, HInt(1));
    LookupMissing(h, keys.setTemp, HInt(0));
    TruncateWhole(1);
    TruncateWhole(0);
  }

  /** A lookup of two keywords the header lacks gives the default. */
  lemma LookupMissing(h: Header, keys: seq<string>, default: HValue)
    requires |keys| == 2 && keys[0] !in h && keys[1] !in h
    ensures Lookup(h, keys, default) == default
  {
    var rest := keys[1..];
    assert rest[0] == keys[1] && |rest[1..]| == 0;
    assert Lookup(h, rest[1..], default) == default;
    assert Lookup(h, rest, default) == default;
  }

  /** Every keyword a legacy handler reads or dispatches on. */
  const DefaultedKeywords: set<string> := {
    "SWCREATE", "CREATOR", "IMAGETYP", "OBSTYPE", "FILTER", "FILTNAME", "EXPTIME", "EXPOSURE",
    "GAIN", "EGAIN", "XBINNING", "BINNING", "SET-TEMP", "CCDTEMP"}

  /** The SGP sample: type `LIGHT`, filter `HaOIII`, 30 s, gain 120, binning 1, set point -18. */
  lemma LegacySgpSample()
    ensures LegacyProcess(Sgp, SgpSample())
            == Some(Fields("LIGHT", "HaOIII", FromInt(30), 120, 1, FromInt(-18)))
  {
    var h := SgpSample();
    assert Lookup(h, ["EXPOSURE"], HInt(0)) == HInt(30);
    assert Lookup(h, ["GAIN"], HInt(0)) == HInt(120);
    assert Lookup(h, ["XBINNING"], HInt(1)) == HInt(1);
    assert Lookup(h, ["SET-TEMP"], HInt(0)) == HInt(-18);
    assert Lookup(h, ["IMAGETYP"], HStr("LIGHT")) == HStr("LIGHT");
    assert Lookup(h, ["FILTER"], HStr("")) == HStr("HaOIII");
    ProcessFromLookups(Sgp, h, "LIGHT", "HaOIII", 30, 120, 1, -18);
  }

  /** Fields read as the given text and whole numbers are stored as they were read. */
  lemma ProcessFromLookups(k: HandlerKind, h: Header, imageType: string, filter: string,
                           exposure: int, gain: int, binning: int, setTemp: int)
    requires Lookup(h, KeysOf(k).imageType, HStr("LIGHT")) == HStr(imageType)
    requires Lookup(h, KeysOf(k).filter, HStr("")) == HStr(filter)
    requires Lookup(h, KeysOf(k).exposure, HInt(0)) == HInt(exposure)
    requires Lookup(h, KeysOf(k).gain, HInt(0)) == HInt(gain)
    requires Lookup(h, KeysOf(k).binning, HInt(1)) == HInt(binning)
    requires Lookup(h, KeysOf(k).setTemp, HInt(0)) == HInt(setTemp)
    ensures LegacyProcess(k, h) == Some(Fields(imageType, filter, FromInt(exposure), gain, binning, FromInt(setTemp)))
  {
    TruncateWhole(gain);
    TruncateWhole(binning);
  }
}

=== FILE: legacy_tree.dfy ===
/**
 * The library tree of the legacy file manager (astrofilemanager/ui/LibraryTreeModel.py):
 * the node helpers, the expansion of stored file paths into every directory prefix,
 * the path tree built from that list, the lazily loaded library-root nodes and the
 * lookup of the library root a selected node belongs to.
 */
module LegacyTree {
  import opened Wrappers
  import opened Text
  import Seqs
  import Catalogue

  // ---------------------------------------------------------------------------
  // Tree nodes.

  /** `TreeNode.child(row)`: the child at that row, or nothing outside the list. */
  function Child<T>(children: seq<T>, row: int): (r: Option<T>)
    ensures r.Some? <==> 0 <= row < |children|
    ensures r.Some? ==> r.value in children
  {
    if 0 <= row < |children| then Some(children[row]) else None
  }

  /** The first position of `x` in `s` at or after `from`. */
  function FirstIndex<T(==)>(s: seq<T>, x: T, from: nat): (r: Option<nat>)
    requires from <= |s|
    ensures r.None? <==> forall k :: from <= k < |s| ==> s[k] != x
    ensures r.Some? ==> from <= r.value < |s| && s[r.value] == x
                        && forall k :: from <= k < r.value ==> s[k] != x
    decreases |s| - from
  {
    if from == |s| then None
    else if s[from] == x then Some(from)
    else FirstIndex(s, x, from + 1)
  }

  /**
   * `TreeNode.row()`: 0 without a parent, else the node's first position among the
   * parent's children (`list.index`, a ValueError when it is not there). Nodes compare
   * by identity, so `T` stands for node identities.
   */
  function Row<T(==)>(siblings: Option<seq<T>>, node: T): (r: Result<nat, string>)
    ensures siblings.None? ==> r == Success(0)
    ensures siblings.Some? ==> (r.Success? <==> node in siblings.value)
    ensures siblings.Some? && r.Success? ==>
              r.value < |siblings.value| && siblings.value[r.value] == node && node !in siblings.value[..r.value]
  {
    if siblings.None? then Success(0)
    else match FirstIndex(siblings.value, node, 0)
      case None => Failure("ValueError: node is not in list")
      case Some(k) => Success(k)
  }

  /** Among distinct siblings, the row of the child at a row is that row. */
  lemma ChildRowRoundTrip<T>(children: seq<T>, row: int)
    requires Seqs.NoDuplicates(children) && 0 <= row < |children|
    ensures Row(Some(children), Child(children, row).value) == Success(row)
  {
    var r := Row(Some(children), children[row]);
    assert children[r.value] == children[row];
  }

  /** The child at a node's row is the node. */
  lemma RowChildRoundTrip<T>(siblings: seq<T>, node: T)
    requires Row(Some(siblings), node).Success?
    ensures Child(siblings, Row(Some(siblings), node).value) == Some(node)
  {
  }

  // ---------------------------------------------------------------------------
  // Expanding stored file paths into directory prefixes.

  /** The running path after one more segment: the first segment alone, later ones after a slash. */
  function Extend(current: string, segment: string): string {
    if current != "" then current + "/" + segment else segment
  }

  /**
   * The paths made by appending the segments one by one to `current`: the k-th is
   * `current` followed by the first k+1 segments joined with slashes.
   */
  function PrefixPaths(current: string, segs: seq<string>): (r: seq<string>)
    ensures |r| == |segs|
  {
    seq(|segs|, k requires 0 <= k < |segs| => Extend(current, Join(segs[..k + 1], "/")))
  }

  /** The directory prefixes of one stored path, shortest first. */
  function FilePrefixes(path: string): seq<string> {
    PrefixPaths("", NonEmptySegments(Split(path, '/')))
  }

  /** Appending `x` unless the list has it. */
  function AddOne(paths: seq<string>, x: string): (r: seq<string>)
    ensures x in r && paths <= r
    ensures forall y :: y in r <==> y in paths || y == x
    ensures Seqs.NoDuplicates(paths) ==> Seqs.NoDuplicates(r)
  {
    if x in paths then paths else paths + [x]
  }

  /** Appending each of `xs` that the list does not have yet, in order. */
  function AddNew(paths: seq<string>, xs: seq<string>): (r: seq<string>)
    ensures paths <= r
    ensures forall y :: y in r <==> y in paths || y in xs
    ensures Seqs.NoDuplicates(paths) ==> Seqs.NoDuplicates(r)
    decreases |xs|
  {
    if |xs| == 0 then paths
    else
      var r := AddNew(AddOne(paths, xs[0]), xs[1..]);
      assert forall y :: y in xs <==> y == xs[0] || y in xs[1..];
      r
  }

  /** The inner loop of `_load_paths_for_library_task` over one path's segments. */
  function Accumulate(segs: seq<string>, current: string, paths: seq<string>): seq<string>
  {
    if |segs| == 0 then paths
    else if segs[0] == "" then Accumulate(segs[1..], current, paths)
    else
      var next := Extend(current, segs[0]);
      Accumulate(segs[1..], next, AddOne(paths, next))
  }

  /** The outer loop: every stored path that is not empty is expanded in query order. */
  function ExpandFrom(files: seq<string>, paths: seq<string>): seq<string>
  {
    if |files| == 0 then paths
    else ExpandFrom(files[1..], if files[0] != "" then Accumulate(Split(files[0], '/'), "", paths) else paths)
  }

  /** The paths the legacy loader hands to the tree for the stored file paths of one root. */
  function ExpandPaths(files: seq<string>): seq<string> {
    ExpandFrom(files, [])
  }

  /** The first prefix path is one step from `current`; the rest continue from it. */
  lemma PrefixPathsCons(current: string, segs: seq<string>)
    requires |segs| > 0 && segs[0] != ""
    ensures PrefixPaths(current, segs)[0] == Extend(current, segs[0])
    ensures PrefixPaths(current, segs)[1..] == PrefixPaths(Extend(current, segs[0]), segs[1..])
  {
    var next := Extend(current, segs[0]);
    var a := PrefixPaths(current, segs)[1..];
    var b := PrefixPaths(next, segs[1..]);
    assert segs[..1] == [segs[0]];
    forall k | 0 <= k < |b|
      ensures a[k] == b[k]
    {
      var rest := Join(segs[1..][..k + 1], "/");
      assert segs[..k + 2][1..] == segs[1..][..k + 1];
      assert Join(segs[..k + 2], "/") == segs[0] + "/" + rest;
      if current != "" {
        assert a[k] == current + "/" + (segs[0] + "/" + rest);
        assert b[k] == (current + "/" + segs[0]) + "/" + rest;
      }
    }
  }

  /** The inner loop appends exactly the prefix paths of the non-empty segments, skipping known ones. */
  lemma {:induction false} AccumulateAddsPrefixes(segs: seq<string>, current: string, paths: seq<string>)
    ensures Accumulate(segs, current, paths) == AddNew(paths, PrefixPaths(current, NonEmptySegments(segs)))
  {
    if |segs| > 0 {
      AccumulateAddsPrefixes(segs[1..], Extend(current, segs[0]), AddOne(paths, Extend(current, segs[0])));
      AccumulateAddsPrefixes(segs[1..], current, paths);
      if segs[0] != "" {
        PrefixPathsCons(current, NonEmptySegments(segs));
      }
    }
  }

  /** The position of the last slash in a path. */
  function LastSlash(s: string): (r: Option<nat>)
    ensures r.None? <==> '/' !in s
    ensures r.Some? ==> r.value < |s| && s[r.value] == '/' && '/' !in s[r.value + 1..]
    decreases |s|
  {
    if |s| == 0 then None
    else if s[|s| - 1] == '/' then Some(|s| - 1)
    else
      var r := LastSlash(s[..|s| - 1]);
      assert forall c :: c in s <==> c in s[..|s| - 1] || c == s[|s| - 1];
      assert r.Some? ==> s[r.value + 1..] == s[..|s| - 1][r.value + 1..] + [s[|s| - 1]];
      r
  }

  /** A path minus its last segment; empty for a single segment. */
  function ParentPath(s: string): string {
    match LastSlash(s)
    case None => ""
    case Some(i) => s[..i]
  }

  /** Extending a path by one segment makes a path whose parent is the original. */
  lemma ParentOfExtend(current: string, segment: string)
    requires current != "" && '/' !in segment
    ensures ParentPath(Extend(current, segment)) == current
  {
    var x := current + "/" + segment;
    assert x[|current|] == '/';
    var i := LastSlash(x).value;
    forall j | |current| < j < |x|
      ensures x[j] != '/'
    {
      assert x[j] == segment[j - |current| - 1];
    }
    forall j | 0 <= j <= |current|
      ensures '/' in x[j..]
    {
      assert x[j..][|current| - j] == '/';
    }
    assert x[..|current|] == current;
  }

  /** Every path with a slash has its parent somewhere before it. */
  predicate Closed(paths: seq<string>) {
    forall i :: 0 <= i < |paths| && '/' in paths[i] ==> ParentPath(paths[i]) in paths[..i]
  }

  /** The path before position k of a chain that starts from `current`. */
  function Previous(current: string, xs: seq<string>, k: nat): string
    requires k < |xs|
  {
    if k == 0 then current else xs[k - 1]
  }

  /** Each path of the chain with a slash is one segment below the path before it. */
  predicate Chain(current: string, xs: seq<string>) {
    forall k :: 0 <= k < |xs| && '/' in xs[k] ==>
      Previous(current, xs, k) != "" && ParentPath(xs[k]) == Previous(current, xs, k)
  }

  /** Appending a chain whose start is already listed keeps every parent before its child. */
  lemma {:induction false} AddNewClosed(paths: seq<string>, current: string, xs: seq<string>)
    requires Closed(paths) && (current == "" || current in paths) && Chain(current, xs)
    ensures Closed(AddNew(paths, xs))
    decreases |xs|
  {
    if |xs| > 0 {
      var p := AddOne(paths, xs[0]);
      assert Closed(p) by {
        if xs[0] !in paths {
          assert p[..|paths|] == paths;
          if '/' in xs[0] {
            assert Previous(current, xs, 0) == current;
          }
        }
      }
      assert Chain(xs[0], xs[1..]) by {
        forall k | 0 <= k < |xs| - 1 && '/' in xs[1..][k]
          ensures Previous(xs[0], xs[1..], k) != "" && ParentPath(xs[1..][k]) == Previous(xs[0], xs[1..], k)
        {
          assert xs[1..][k] == xs[k + 1];
          assert Previous(current, xs, k + 1) == xs[k];
        }
      }
      AddNewClosed(p, xs[0], xs[1..]);
    }
  }

  /** The prefix paths of slash-free, non-empty segments form a chain. */
  lemma {:induction false} PrefixPathsChain(current: string, segs: seq<string>)
    requires forall k :: 0 <= k < |segs| ==> segs[k] != "" && '/' !in segs[k]
    ensures Chain(current, PrefixPaths(current, segs))
    decreases |segs|
  {
    var xs := PrefixPaths(current, segs);
    if |segs| > 0 {
      var next := Extend(current, segs[0]);
      PrefixPathsCons(current, segs);
      PrefixPathsChain(next, segs[1..]);
      forall k | 0 <= k < |xs| && '/' in xs[k]
        ensures Previous(current, xs, k) != "" && ParentPath(xs[k]) == Previous(current, xs, k)
      {
        if k == 0 {
          if current != "" {
            ParentOfExtend(current, segs[0]);
          }
        } else {
          assert xs[k] == xs[1..][k - 1];
          assert Previous(next, xs[1..], k - 1) == Previous(current, xs, k);
        }
      }
    }
  }

  /** The prefixes of one stored path form a chain from the empty path. */
  lemma FilePrefixesChain(path: string)
    ensures Chain("", FilePrefixes(path))
  {
    var segs := NonEmptySegments(Split(path, '/'));
    forall k | 0 <= k < |segs|
      ensures segs[k] != "" && '/' !in segs[k]
    {
      var j :| 0 <= j < |Split(path, '/')| && Split(path, '/')[j] == segs[k];
    }
    PrefixPathsChain("", segs);
  }

  /** `x` is a directory prefix of one of the stored paths. */
  predicate Listed(x: string, files: seq<string>) {
    exists i :: 0 <= i < |files| && x in FilePrefixes(files[i])
  }

  /** The empty stored path has no prefixes. */
  lemma EmptyPathHasNoPrefixes()
    ensures FilePrefixes("") == []
  {
    assert Split("", '/') == [""];
    assert NonEmptySegments([""]) == NonEmptySegments([]);
  }

  /** The outer loop keeps the list free of repeats and parents first, and adds exactly the prefixes. */
  lemma {:induction false} ExpandFromSpec(files: seq<string>, paths: seq<string>)
    requires Seqs.NoDuplicates(paths) && Closed(paths)
    ensures Seqs.NoDuplicates(ExpandFrom(files, paths)) && Closed(ExpandFrom(files, paths))
    ensures forall x :: x in ExpandFrom(files, paths) <==> x in paths || Listed(x, files)
    decreases |files|
  {
    if |files| > 0 {
      var f := files[0];
      var step := if f != "" then Accumulate(Split(f, '/'), "", paths) else paths;
      if f != "" {
        AccumulateAddsPrefixes(Split(f, '/'), "", paths);
        FilePrefixesChain(f);
        AddNewClosed(paths, "", FilePrefixes(f));
      } else {
        EmptyPathHasNoPrefixes();
      }
      assert forall x :: x in step <==> x in paths || x in FilePrefixes(f);
      ExpandFromSpec(files[1..], step);
      forall x
        ensures Listed(x, files) <==> x in FilePrefixes(f) || Listed(x, files[1..])
      {
        if Listed(x, files) {
          var i :| 0 <= i < |files| && x in FilePrefixes(files[i]);
          if i > 0 {
            assert files[1..][i - 1] == files[i];
          }
        }
        if Listed(x, files[1..]) {
          var i :| 0 <= i < |files| - 1 && x in FilePrefixes(files[1..][i]);
          assert files[i + 1] == files[1..][i];
        }
      }
    }
  }

  /**
   * The expanded list names every directory prefix of every stored path exactly once,
   * and every path appears after its parent.
   */
  lemma ExpandPathsSpec(files: seq<string>)
    ensures Seqs.NoDuplicates(ExpandPaths(files)) && Closed(ExpandPaths(files))
    ensures forall x :: x in ExpandPaths(files) <==> Listed(x, files)
  {
    ExpandFromSpec(files, []);
  }

  /** The k-th prefix of a stored path is its first k+1 non-empty segments joined by slashes. */
  lemma FilePrefixIsJoin(path: string, k: nat)
    requires k < |NonEmptySegments(Split(path, '/'))|
    ensures FilePrefixes(path)[k] == Join(NonEmptySegments(Split(path, '/'))[..k + 1], "/")
  {
  }

  // ---------------------------------------------------------------------------
  // The path tree of `_on_paths_loaded`.

  /** One entry of `path_tree`: the last segment, the parent path ("" at the top) and the child paths. */
  datatype Entry = Entry(segment: string, parent: string, children: seq<string>)

  /** `path_tree`, a dict: its keys in insertion order and its entries. */
  datatype PathTree = PathTree(order: seq<string>, entries: map<string, Entry>)

  /** The keys are the entries, each listed once, in insertion order. */
  ghost predicate Keyed(t: PathTree) {
    Seqs.NoDuplicates(t.order) && forall x :: x in t.entries <==> x in t.order
  }

  /** Each entry is its parent path plus one non-empty segment, and the parent is an entry too. */
  predicate Shaped(t: PathTree) {
    forall x :: x in t.entries ==>
      t.entries[x].segment != "" && '/' !in t.entries[x].segment
      && x == Extend(t.entries[x].parent, t.entries[x].segment)
      && t.entries[x].parent == ParentPath(x)
      && (t.entries[x].parent != "" ==> t.entries[x].parent in t.entries)
  }

  /** Each entry lists, once each, exactly the entries whose parent it is. */
  ghost predicate Linked(t: PathTree) {
    forall x :: x in t.entries ==>
      Seqs.NoDuplicates(t.entries[x].children)
      && forall y :: y in t.entries[x].children <==> y in t.entries && t.entries[y].parent == x
  }

  ghost predicate WellFormed(t: PathTree) {
    Keyed(t) && Shaped(t) && Linked(t)
  }

  /** `here` becomes an entry under `up` with no children, unless it is one already. */
  function AddEntry(t: PathTree, here: string, up: string, segment: string): PathTree {
    if here in t.entries then t
    else PathTree(t.order + [here], t.entries[here := Entry(segment, up, [])])
  }

  /** `here` is listed among the children of `up`, unless it is listed already or `up` is empty. */
  function AddChild(t: PathTree, here: string, up: string): PathTree {
    if up != "" && up in t.entries && here !in t.entries[up].children then
      PathTree(t.order, t.entries[up := t.entries[up].(children := t.entries[up].children + [here])])
    else t
  }

  /** One segment of that loop. */
  function Place(t: PathTree, here: string, up: string, segment: string): PathTree {
    AddChild(AddEntry(t, here, up, segment), here, up)
  }

  /** The inner loop of `_on_paths_loaded` over one path's segments. */
  function Insert(t: PathTree, segs: seq<string>, current: string, parent: string): PathTree
    decreases |segs|
  {
    if |segs| == 0 then t
    else if segs[0] == "" then Insert(t, segs[1..], current, parent)
    else
      var up := if current != "" then current else parent;
      var here := Extend(current, segs[0]);
      Insert(Place(t, here, up, segs[0]), segs[1..], here, up)
  }

  /** The outer loop over the loaded paths. */
  function BuildFrom(paths: seq<string>, t: PathTree): PathTree
  {
    if |paths| == 0 then t
    else BuildFrom(paths[1..], Insert(t, Split(paths[0], '/'), "", ""))
  }

  /** The path tree built from the paths handed over by the loader. */
  function Build(paths: seq<string>): PathTree {
    BuildFrom(paths, PathTree([], map[]))
  }

  /** A path one segment below `up` has `up` as its parent path. */
  lemma ParentOfStep(up: string, segment: string)
    requires segment != "" && '/' !in segment
    ensures ParentPath(Extend(up, segment)) == up
  {
    if up != "" {
      ParentOfExtend(up, segment);
    }
  }

  /** A step lists a path exactly when the list did not have it. */
  lemma PlaceKeyed(t: PathTree, here: string, up: string, segment: string)
    requires Keyed(t)
    ensures Keyed(Place(t, here, up, segment))
    ensures Place(t, here, up, segment).order == AddOne(t.order, here)
  {
  }

  /** A new entry one segment below an entry keeps every entry one segment below an entry. */
  lemma AddEntryShaped(t: PathTree, here: string, up: string, segment: string)
    requires Shaped(t) && segment != "" && '/' !in segment && here == Extend(up, segment)
    requires up == "" || up in t.entries
    ensures Shaped(AddEntry(t, here, up, segment))
    ensures here in AddEntry(t, here, up, segment).entries
  {
    ParentOfStep(up, segment);
    var r := AddEntry(t, here, up, segment);
    forall x | x in r.entries
      ensures r.entries[x].segment != "" && '/' !in r.entries[x].segment
      ensures x == Extend(r.entries[x].parent, r.entries[x].segment)
      ensures r.entries[x].parent == ParentPath(x)
      ensures r.entries[x].parent != "" ==> r.entries[x].parent in r.entries
    {
      if x != here || here in t.entries {
        assert r.entries[x] == t.entries[x];
      }
    }
  }

  /** Listing a child changes no entry's segment or parent. */
  lemma AddChildShaped(t: PathTree, here: string, up: string)
    requires Shaped(t)
    ensures Shaped(AddChild(t, here, up))
    ensures AddChild(t, here, up).entries.Keys == t.entries.Keys
    ensures AddChild(t, here, up).order == t.order
  {
    var r := AddChild(t, here, up);
    forall x | x in r.entries
      ensures r.entries[x].segment == t.entries[x].segment && r.entries[x].parent == t.entries[x].parent
    {
    }
  }

  /** A step keeps every entry one segment below an entry. */
  lemma PlaceShaped(t: PathTree, here: string, up: string, segment: string)
    requires Shaped(t) && segment != "" && '/' !in segment && here == Extend(up, segment)
    requires up == "" || up in t.entries
    ensures Shaped(Place(t, here, up, segment))
    ensures here in Place(t, here, up, segment).entries
  {
    AddEntryShaped(t, here, up, segment);
    AddChildShaped(AddEntry(t, here, up, segment), here, up);
  }

  /** The entries of a shaped tree are non-empty paths. */
  lemma ShapedKeysNonEmpty(t: PathTree)
    requires Shaped(t)
    ensures "" !in t.entries
  {
    forall x | x in t.entries
      ensures x != ""
    {
      assert |Extend(t.entries[x].parent, t.entries[x].segment)| > 0;
    }
  }

  /** Each entry's children are, once each, exactly the entries whose parent it is. */
  ghost predicate LinkedAt(t: PathTree, x: string)
    requires x in t.entries
  {
    Seqs.NoDuplicates(t.entries[x].children)
    && forall y :: y in t.entries[x].children <==> y in t.entries && t.entries[y].parent == x
  }

  /** A new entry has no entries below it yet. */
  lemma NewEntryLinked(t: PathTree, here: string, up: string, segment: string)
    requires Shaped(t) && here !in t.entries && here != up && here != ""
    ensures LinkedAt(Place(t, here, up, segment), here)
  {
    var r := Place(t, here, up, segment);
    assert r.entries[here].children == [];
    forall y | y in r.entries
      ensures r.entries[y].parent != here
    {
      if y != here {
        assert r.entries[y].parent == t.entries[y].parent;
        assert t.entries[y].parent != "" ==> t.entries[y].parent in t.entries;
      }
    }
  }

  /** The parent of a new entry gains it as its last child. */
  lemma ParentOfNewEntryLinked(t: PathTree, here: string, up: string, segment: string)
    requires Linked(t) && here !in t.entries && here != up && up in t.entries && up != ""
    ensures LinkedAt(Place(t, here, up, segment), up)
  {
    var r := Place(t, here, up, segment);
    assert here !in t.entries[up].children;
    assert r.entries[up].children == t.entries[up].children + [here];
    assert forall y :: y in r.entries[up].children <==> y in t.entries[up].children || y == here;
    forall y | y in r.entries && y != here
      ensures r.entries[y] == t.entries[y] || y == up
    {
    }
  }

  /** Any other entry keeps its children, and the new entry is not below it. */
  lemma OtherEntryLinked(t: PathTree, here: string, up: string, segment: string, x: string)
    requires Linked(t) && here !in t.entries && x in t.entries && x != up
    ensures LinkedAt(Place(t, here, up, segment), x)
  {
    var r := Place(t, here, up, segment);
    assert r.entries[x] == t.entries[x];
    forall y | y in r.entries && y != here
      ensures r.entries[y].parent == t.entries[y].parent
    {
    }
  }

  /** A step keeps each entry's children exactly the entries below it. */
  lemma PlaceLinked(t: PathTree, here: string, up: string, segment: string)
    requires Shaped(t) && Linked(t) && segment != "" && '/' !in segment && here == Extend(up, segment)
    requires up == "" || up in t.entries
    ensures Linked(Place(t, here, up, segment))
  {
    ParentOfStep(up, segment);
    ShapedKeysNonEmpty(t);
    var r := Place(t, here, up, segment);
    if here !in t.entries {
      assert here != up by {
        assert |here| > |up|;
      }
      forall x | x in r.entries
        ensures LinkedAt(r, x)
      {
        if x == here {
          NewEntryLinked(t, here, up, segment);
        } else if x == up {
          ParentOfNewEntryLinked(t, here, up, segment);
        } else {
          OtherEntryLinked(t, here, up, segment, x);
        }
      }
    } else {
      assert t.entries[here].parent == up;
      assert up != "" ==> here in t.entries[up].children;
      assert r == t;
    }
  }

  /** The inner loop keeps the tree well formed and lists the prefix paths it walks. */
  lemma {:induction false} InsertWellFormed(t: PathTree, segs: seq<string>, current: string, parent: string)
    requires WellFormed(t)
    requires forall k :: 0 <= k < |segs| ==> '/' !in segs[k]
    requires current == "" ==> parent == ""
    requires current != "" ==> current in t.entries
    ensures WellFormed(Insert(t, segs, current, parent))
    decreases |segs|
  {
    if |segs| > 0 {
      if segs[0] == "" {
        InsertWellFormed(t, segs[1..], current, parent);
      } else {
        var up := if current != "" then current else parent;
        var here := Extend(current, segs[0]);
        assert here == Extend(up, segs[0]);
        var t2 := Place(t, here, up, segs[0]);
        PlaceKeyed(t, here, up, segs[0]);
        PlaceShaped(t, here, up, segs[0]);
        PlaceLinked(t, here, up, segs[0]);
        assert here != "";
        InsertWellFormed(t2, segs[1..], here, up);
      }
    }
  }

  /** The inner loop adds the path's prefixes to the key order, each new one once, in order. */
  lemma {:induction false} InsertOrder(t: PathTree, segs: seq<string>, current: string, parent: string)
    requires Keyed(t)
    ensures Insert(t, segs, current, parent).order == AddNew(t.order, PrefixPaths(current, NonEmptySegments(segs)))
    decreases |segs|
  {
    if |segs| > 0 {
      if segs[0] == "" {
        InsertOrder(t, segs[1..], current, parent);
      } else {
        var up := if current != "" then current else parent;
        var here := Extend(current, segs[0]);
        var t2 := Place(t, here, up, segs[0]);
        PlaceKeyed(t, here, up, segs[0]);
        InsertOrder(t2, segs[1..], here, up);
        PrefixPathsCons(current, NonEmptySegments(segs));
      }
    }
  }

  /** The outer loop keeps the tree well formed and adds exactly the prefixes of the paths. */
  lemma {:induction false} BuildFromWellFormed(paths: seq<string>, t: PathTree)
    requires WellFormed(t)
    ensures WellFormed(BuildFrom(paths, t))
    ensures forall x :: x in BuildFrom(paths, t).entries <==> x in t.entries || Listed(x, paths)
    decreases |paths|
  {
    if |paths| > 0 {
      var p := paths[0];
      var t1 := Insert(t, Split(p, '/'), "", "");
      InsertWellFormed(t, Split(p, '/'), "", "");
      InsertOrder(t, Split(p, '/'), "", "");
      assert forall x :: x in t1.entries <==> x in t.entries || x in FilePrefixes(p);
      BuildFromWellFormed(paths[1..], t1);
      forall x
        ensures Listed(x, paths) <==> x in FilePrefixes(p) || Listed(x, paths[1..])
      {
        if Listed(x, paths) {
          var i :| 0 <= i < |paths| && x in FilePrefixes(paths[i]);
          if i > 0 {
            assert paths[1..][i - 1] == paths[i];
          }
        }
        if Listed(x, paths[1..]) {
          var i :| 0 <= i < |paths| - 1 && x in FilePrefixes(paths[1..][i]);
          assert paths[i + 1] == paths[1..][i];
        }
      }
    }
  }

  /**
   * The built tree has one entry per directory prefix of the loaded paths; each entry's
   * parent is its path minus the last segment, and each entry's children are, once each,
   * exactly the entries whose parent it is.
   */
  lemma BuildSpec(paths: seq<string>)
    ensures WellFormed(Build(paths))
    ensures forall x :: x in Build(paths).entries <==> Listed(x, paths)
  {
    BuildFromWellFormed(paths, PathTree([], map[]));
  }

  // ---------------------------------------------------------------------------
  // Path nodes made from the path tree.

  /** A `PathNode`: its segment, its full path and its child nodes. */
  datatype PathNode = PathNode(segment: string, fullPath: string, children: seq<PathNode>)

  /** The entries strictly longer than `x`: what the recursion below `x` can still reach. */
  ghost function Longer(t: PathTree, x: string): set<string> {
    set y | y in t.entries && |y| > |x|
  }

  /** An entry's children are longer than it. */
  lemma ChildrenLonger(t: PathTree, x: string, y: string)
    requires Shaped(t) && Linked(t) && x in t.entries && y in t.entries[x].children
    ensures y in t.entries && |y| > |x| && Longer(t, y) < Longer(t, x)
  {
    assert t.entries[y].parent == x;
    assert y == x + "/" + t.entries[y].segment;
    assert y in Longer(t, x) && y !in Longer(t, y);
  }

  /** `PathNode` plus `_add_child_paths`: the node of an entry with the nodes of its children below it. */
  function Grow(t: PathTree, x: string): (n: PathNode)
    requires Shaped(t) && Linked(t) && x in t.entries
    ensures n.fullPath == x && n.segment == t.entries[x].segment
    ensures |n.children| == |t.entries[x].children|
    ensures forall k :: 0 <= k < |n.children| ==> n.children[k].fullPath == t.entries[x].children[k]
    decreases Longer(t, x), 1, 0
  {
    PathNode(t.entries[x].segment, x, GrowEach(t, x, t.entries[x].children))
  }

  /** The nodes of some children of `x`, in order. */
  function GrowEach(t: PathTree, x: string, ys: seq<string>): (r: seq<PathNode>)
    requires Shaped(t) && Linked(t) && x in t.entries
    requires forall k :: 0 <= k < |ys| ==> ys[k] in t.entries[x].children
    ensures |r| == |ys| && forall k :: 0 <= k < |r| ==> r[k].fullPath == ys[k]
    decreases Longer(t, x), 0, |ys|
  {
    if |ys| == 0 then []
    else
      ChildrenLonger(t, x, ys[0]);
      TailInChildren(ys, t.entries[x].children);
      var rest := GrowEach(t, x, ys[1..]);
      var first := Grow(t, ys[0]);
      ConsFullPaths(first, rest, ys);
      [first] + rest
  }

  lemma TailInChildren(ys: seq<string>, children: seq<string>)
    requires |ys| > 0 && forall k :: 0 <= k < |ys| ==> ys[k] in children
    ensures forall k :: 0 <= k < |ys[1..]| ==> ys[1..][k] in children
  {
    forall k | 0 <= k < |ys[1..]|
      ensures ys[1..][k] in children
    {
      assert ys[1..][k] == ys[k + 1];
    }
  }

  lemma ConsFullPaths(first: PathNode, rest: seq<PathNode>, ys: seq<string>)
    requires |ys| > 0 && first.fullPath == ys[0]
    requires |rest| == |ys| - 1 && forall k :: 0 <= k < |rest| ==> rest[k].fullPath == ys[1..][k]
    ensures |[first] + rest| == |ys| && forall k :: 0 <= k < |ys| ==> ([first] + rest)[k].fullPath == ys[k]
  {
    forall k | 0 <= k < |ys|
      ensures ([first] + rest)[k].fullPath == ys[k]
    {
      if k > 0 {
        assert ([first] + rest)[k] == rest[k - 1];
        assert ys[1..][k - 1] == ys[k];
      }
    }
  }

  /** The keys, in order, whose entries have no parent. */
  function TopPaths(t: PathTree, keys: seq<string>): (r: seq<string>)
    requires forall k :: 0 <= k < |keys| ==> keys[k] in t.entries
    ensures forall x :: x in r <==> x in keys && t.entries[x].parent == ""
    ensures forall k :: 0 <= k < |r| ==> r[k] in t.entries
  {
    if |keys| == 0 then []
    else
      var rest := TopPaths(t, keys[1..]);
      assert forall x :: x in keys <==> x == keys[0] || x in keys[1..];
      if t.entries[keys[0]].parent == "" then [keys[0]] + rest else rest
  }

  /** The nodes for the top-level paths, each with everything below it. */
  function GrowTops(t: PathTree, xs: seq<string>): (r: seq<PathNode>)
    requires Shaped(t) && Linked(t) && forall k :: 0 <= k < |xs| ==> xs[k] in t.entries
  {
    seq(|xs|, k requires 0 <= k < |xs| => Grow(t, xs[k]))
  }

  /** The nodes `_on_paths_loaded` appends below a library-root node for the loaded paths. */
  function PathNodes(paths: seq<string>): (r: seq<PathNode>)
  {
    var t := Build(paths);
    BuildSpec(paths);
    GrowTops(t, TopPaths(t, t.order))
  }

  /** The top-level nodes of a well-formed tree are its slash-free entries, once each. */
  lemma TopsSpec(t: PathTree, r: seq<PathNode>)
    requires WellFormed(t) && r == GrowTops(t, TopPaths(t, t.order))
    ensures forall k :: 0 <= k < |r| ==> r[k].fullPath in t.entries && '/' !in r[k].fullPath
    ensures forall x :: x in t.entries && '/' !in x ==> exists k :: 0 <= k < |r| && r[k].fullPath == x
    ensures forall i, j :: 0 <= i < j < |r| ==> r[i].fullPath != r[j].fullPath
  {
    TopsInEntries(t);
    TopsDistinct(t);
    var tops := TopPaths(t, t.order);
    forall x | x in t.entries && '/' !in x
      ensures exists k :: 0 <= k < |r| && r[k].fullPath == x
    {
      TopCovered(t, x);
      var k :| 0 <= k < |tops| && tops[k] == x;
      assert r[k].fullPath == x;
    }
  }

  lemma TopCovered(t: PathTree, x: string)
    requires WellFormed(t) && x in t.entries && '/' !in x
    ensures x in TopPaths(t, t.order)
  {
    assert LastSlash(x).None?;
    assert t.entries[x].parent == "";
    assert x in t.order;
  }

  lemma TopsInEntries(t: PathTree)
    requires WellFormed(t)
    ensures var r := GrowTops(t, TopPaths(t, t.order));
            forall k :: 0 <= k < |r| ==> r[k].fullPath in t.entries && '/' !in r[k].fullPath
  {
    var tops := TopPaths(t, t.order);
    var r := GrowTops(t, tops);
    forall k | 0 <= k < |r|
      ensures r[k].fullPath in t.entries && '/' !in r[k].fullPath
    {
      assert r[k].fullPath == tops[k];
      assert tops[k] in tops;
      assert tops[k] == Extend(t.entries[tops[k]].parent, t.entries[tops[k]].segment);
    }
  }

  lemma TopsDistinct(t: PathTree)
    requires WellFormed(t)
    ensures var r := GrowTops(t, TopPaths(t, t.order));
            forall i, j :: 0 <= i < j < |r| ==> r[i].fullPath != r[j].fullPath
  {
    var tops := TopPaths(t, t.order);
    var r := GrowTops(t, tops);
    TopPathsNoDuplicates(t, t.order);
    forall i, j | 0 <= i < j < |r|
      ensures r[i].fullPath != r[j].fullPath
    {
      assert r[i].fullPath == tops[i] && r[j].fullPath == tops[j];
    }
  }


  /**
   * The top-level nodes for the loaded paths are exactly their slash-free prefixes, the
   * entries without a parent, once each.
   */
  lemma PathNodesSpec(paths: seq<string>)
    ensures forall k :: 0 <= k < |PathNodes(paths)| ==>
              Listed(PathNodes(paths)[k].fullPath, paths) && '/' !in PathNodes(paths)[k].fullPath
    ensures forall x :: Listed(x, paths) && '/' !in x ==>
              exists k :: 0 <= k < |PathNodes(paths)| && PathNodes(paths)[k].fullPath == x
    ensures forall i, j :: 0 <= i < j < |PathNodes(paths)| ==> PathNodes(paths)[i].fullPath != PathNodes(paths)[j].fullPath
  {
    var t := Build(paths);
    BuildSpec(paths);
    assert PathNodes(paths) == GrowTops(t, TopPaths(t, t.order));
    TopsSpec(t, PathNodes(paths));
  }

  /** Filtering a list without repeats leaves none. */
  lemma {:induction false} TopPathsNoDuplicates(t: PathTree, keys: seq<string>)
    requires forall k :: 0 <= k < |keys| ==> keys[k] in t.entries
    requires Seqs.NoDuplicates(keys)
    ensures Seqs.NoDuplicates(TopPaths(t, keys))
  {
    if |keys| > 0 {
      assert Seqs.NoDuplicates(keys[1..]) by {
        forall i, j | 0 <= i < j < |keys| - 1
          ensures keys[1..][i] != keys[1..][j]
        {
          assert keys[1..][i] == keys[i + 1] && keys[1..][j] == keys[j + 1];
        }
      }
      TopPathsNoDuplicates(t, keys[1..]);
      var rest := TopPaths(t, keys[1..]);
      assert keys[0] !in keys[1..] by {
        forall k | 0 <= k < |keys| - 1
          ensures keys[1..][k] != keys[0]
        {
          assert keys[1..][k] == keys[k + 1];
        }
      }
      assert keys[0] !in rest;
      if t.entries[keys[0]].parent == "" {
        var r := [keys[0]] + rest;
        forall i, j | 0 <= i < j < |r|
          ensures r[i] != r[j]
        {
          if i == 0 {
            assert r[j] == rest[j - 1];
            assert rest[j - 1] in rest;
          } else {
            assert r[i] == rest[i - 1] && r[j] == rest[j - 1];
          }
        }
      }
    }
  }

  /** The node grown for an entry has, once each, exactly the entries below it as children. */
  lemma GrowNestsChildren(t: PathTree, x: string)
    requires WellFormed(t) && x in t.entries
    ensures var n := Grow(t, x);
            (forall k :: 0 <= k < |n.children| ==> t.entries[n.children[k].fullPath].parent == x)
            && (forall y :: y in t.entries && t.entries[y].parent == x ==>
                  exists k :: 0 <= k < |n.children| && n.children[k].fullPath == y)
            && (forall i, j :: 0 <= i < j < |n.children| ==> n.children[i].fullPath != n.children[j].fullPath)
  {
    var n := Grow(t, x);
    var cs := t.entries[x].children;
    forall k | 0 <= k < |n.children|
      ensures n.children[k].fullPath in t.entries && t.entries[n.children[k].fullPath].parent == x
    {
      assert n.children[k].fullPath == cs[k];
      assert cs[k] in cs;
    }
    forall y | y in t.entries && t.entries[y].parent == x
      ensures exists k :: 0 <= k < |n.children| && n.children[k].fullPath == y
    {
      assert y in cs;
      var k :| 0 <= k < |cs| && cs[k] == y;
      assert n.children[k].fullPath == y;
    }
    forall i, j | 0 <= i < j < |n.children|
      ensures n.children[i].fullPath != n.children[j].fullPath
    {
      assert n.children[i].fullPath == cs[i] && n.children[j].fullPath == cs[j];
    }
  }

  // ---------------------------------------------------------------------------
  // The model: library-root nodes loaded lazily.

  /** A `LibraryRootNode`: its root, whether its paths were requested or loaded, its path nodes. */
  datatype LibraryNode = LibraryNode(root: Catalogue.LibraryRoot, loaded: bool, children: seq<PathNode>)

  /** The model: the children of "All libraries" and the ids in `loaded_library_roots`. */
  datatype TreeModel = TreeModel(libraries: seq<LibraryNode>, loadedRoots: set<int>)

  /** A node of the model: "All libraries", a library root, or a path node reached by child rows. */
  datatype Position = AllLibraries | Library(lib: nat) | InPaths(lib: nat, steps: seq<nat>)

  /** Child rows that lead from a list of path nodes to a node. */
  predicate Leads(nodes: seq<PathNode>, steps: seq<nat>)
    decreases |steps|
  {
    |steps| > 0 && steps[0] < |nodes|
    && (|steps| > 1 ==> Leads(nodes[steps[0]].children, steps[1..]))
  }

  /** The path node the child rows lead to. */
  function NodeAt(nodes: seq<PathNode>, steps: seq<nat>): PathNode
    requires Leads(nodes, steps)
    decreases |steps|
  {
    if |steps| == 1 then nodes[steps[0]] else NodeAt(nodes[steps[0]].children, steps[1..])
  }

  /** The position names a node of the model. */
  predicate Valid(m: TreeModel, p: Position) {
    match p
    case AllLibraries => true
    case Library(i) => i < |m.libraries|
    case InPaths(i, steps) => i < |m.libraries| && Leads(m.libraries[i].children, steps)
  }

  /** `_on_library_roots_reloaded`: the old nodes and the loaded set go; one unloaded node per root. */
  function Reloaded(m: TreeModel, roots: seq<Catalogue.LibraryRoot>): (r: TreeModel)
    ensures r.loadedRoots == {} && |r.libraries| == |roots|
    ensures forall i :: 0 <= i < |roots| ==> r.libraries[i].root == roots[i]
    ensures forall i :: 0 <= i < |roots| ==> !r.libraries[i].loaded && r.libraries[i].children == []
  {
    TreeModel(seq(|roots|, i requires 0 <= i < |roots| => LibraryNode(roots[i], false, [])), {})
  }

  /** Nothing of the model before a reload survives it. */
  lemma ReloadForgetsState(m1: TreeModel, m2: TreeModel, roots: seq<Catalogue.LibraryRoot>)
    ensures Reloaded(m1, roots) == Reloaded(m2, roots)
  {
  }

  /** The number of children of a node (the hidden root when the index is invalid). */
  function ChildCount(m: TreeModel, index: Option<Position>): nat
    requires index.Some? ==> Valid(m, index.value)
  {
    match index
    case None => 1
    case Some(AllLibraries) => |m.libraries|
    case Some(Library(i)) => |m.libraries[i].children|
    case Some(InPaths(i, steps)) => |NodeAt(m.libraries[i].children, steps).children|
  }

  /**
   * `rowCount`: the first time it is asked about a library root that is not loaded and
   * not in the loaded set, it marks the node loaded and requests the root's paths.
   * Returns the model after, the count, and the root whose paths are requested.
   */
  function RowCount(m: TreeModel, index: Option<Position>): (r: (TreeModel, nat, Option<Catalogue.LibraryRoot>))
    requires index.Some? ==> Valid(m, index.value)
    ensures r.1 == ChildCount(m, index)
    ensures r.2.Some? <==> index.Some? && index.value.Library?
                           && !m.libraries[index.value.lib].loaded
                           && m.libraries[index.value.lib].root.rowid !in m.loadedRoots
    ensures r.2.Some? ==> r.2.value == m.libraries[index.value.lib].root
                          && r.0 == m.(libraries := m.libraries[index.value.lib := m.libraries[index.value.lib].(loaded := true)])
    ensures r.2.None? ==> r.0 == m
  {
    if index.Some? && index.value.Library? then
      var n := m.libraries[index.value.lib];
      if !n.loaded && n.root.rowid !in m.loadedRoots then
        (m.(libraries := m.libraries[index.value.lib := n.(loaded := true)]), |n.children|, Some(n.root))
      else (m, |n.children|, None)
    else (m, ChildCount(m, index), None)
  }

  /**
   * `rowCount` as written: for a library node not yet loaded it reads `library_root.id`,
   * which a legacy library root does not have (its key is `rowid`), and raises before the
   * node is marked loaded or its paths are requested; every other count is as corrected.
   */
  function RowCountAsWritten(m: TreeModel, index: Option<Position>): (r: Result<(TreeModel, nat, Option<Catalogue.LibraryRoot>), string>)
    requires index.Some? ==> Valid(m, index.value)
    ensures r.Failure? <==> index.Some? && index.value.Library? && !m.libraries[index.value.lib].loaded
    ensures r.Success? ==> r.value == RowCount(m, index) && r.value.2.None?
  {
    if index.Some? && index.value.Library? && !m.libraries[index.value.lib].loaded then
      Failure("AttributeError: 'LibraryRoot' object has no attribute 'id'")
    else Success(RowCount(m, index))
  }

  /**
   * `_on_paths_loaded` as written: the search for the root's node reads `library_root.id`
   * of the first library node, so it raises whenever there is one.
   */
  function PathsLoadedAsWritten(m: TreeModel, rootId: int, paths: seq<string>): (r: Result<TreeModel, string>)
    ensures r.Failure? <==> |m.libraries| > 0
    ensures r.Success? ==> r.value == m
  {
    if |m.libraries| > 0 then Failure("AttributeError: 'LibraryRoot' object has no attribute 'id'")
    else Success(PathsLoaded(m, rootId, paths))
  }

  /**
   * As written, expanding a library root after a reload raises instead of requesting its
   * paths, so no library ever shows its directories.
   */
  lemma ReloadThenCountRaisesAsWritten(m: TreeModel, roots: seq<Catalogue.LibraryRoot>, i: nat)
    requires i < |roots|
    ensures RowCountAsWritten(Reloaded(m, roots), Some(Library(i))).Failure?
    ensures PathsLoadedAsWritten(Reloaded(m, roots), roots[i].rowid, []).Failure?
  {
  }

  /** `hasChildren`: a library root not yet loaded claims children; any other node has them when it counts some. */
  function HasChildren(m: TreeModel, index: Option<Position>): (r: bool)
    requires index.Some? ==> Valid(m, index.value)
    ensures index.Some? && index.value.Library? && !m.libraries[index.value.lib].loaded ==> r
    ensures !(index.Some? && index.value.Library? && !m.libraries[index.value.lib].loaded) ==> (r <==> ChildCount(m, index) > 0)
  {
    if index.Some? && index.value.Library? && !m.libraries[index.value.lib].loaded then true
    else RowCount(m, index).1 > 0
  }

  /** The first library node with this root id. */
  function FindLibrary(libraries: seq<LibraryNode>, id: int, from: nat): (r: Option<nat>)
    requires from <= |libraries|
    ensures r.None? <==> forall k :: from <= k < |libraries| ==> libraries[k].root.rowid != id
    ensures r.Some? ==> from <= r.value < |libraries| && libraries[r.value].root.rowid == id
                        && forall k :: from <= k < r.value ==> libraries[k].root.rowid != id
    decreases |libraries| - from
  {
    if from == |libraries| then None
    else if libraries[from].root.rowid == id then Some(from)
    else FindLibrary(libraries, id, from + 1)
  }

  /**
   * `_on_paths_loaded`: nothing happens when no node has the root; otherwise the path nodes
   * are appended below the first node with it, which becomes loaded, and the id joins the loaded set.
   */
  function PathsLoaded(m: TreeModel, rootId: int, paths: seq<string>): (r: TreeModel)
    ensures |r.libraries| == |m.libraries|
    ensures FindLibrary(m.libraries, rootId, 0).None? ==> r == m
    ensures FindLibrary(m.libraries, rootId, 0).Some? ==>
              var i := FindLibrary(m.libraries, rootId, 0).value;
              r.loadedRoots == m.loadedRoots + {rootId} && r.libraries[i].loaded
              && r.libraries[i].children == m.libraries[i].children + PathNodes(paths)
              && forall k :: 0 <= k < |m.libraries| && k != i ==> r.libraries[k] == m.libraries[k]
  {
    match FindLibrary(m.libraries, rootId, 0)
    case None => m
    case Some(i) =>
      var n := m.libraries[i];
      TreeModel(m.libraries[i := n.(loaded := true, children := n.children + PathNodes(paths))], m.loadedRoots + {rootId})
  }

  /** What the view asks and what the loader answers, between two reloads. */
  datatype Event = Count(index: Option<Position>) | Loaded(rootId: int, paths: seq<string>)

  /** Library root ids are unique, as row ids are. */
  predicate UniqueIds(m: TreeModel) {
    forall i, j :: 0 <= i < j < |m.libraries| ==> m.libraries[i].root.rowid != m.libraries[j].root.rowid
  }

  /** The model after the events and the ids of the roots whose paths were requested, in order. */
  function Run(m: TreeModel, events: seq<Event>): (r: (TreeModel, seq<int>))
    decreases |events|
  {
    if |events| == 0 then (m, [])
    else match events[0]
      case Count(index) =>
        if index.Some? && !Valid(m, index.value) then Run(m, events[1..])
        else
          var (m1, _, request) := RowCount(m, index);
          var (m2, rest) := Run(m1, events[1..]);
          (m2, (if request.Some? then [request.value.rowid] else []) + rest)
      case Loaded(rootId, paths) => Run(PathsLoaded(m, rootId, paths), events[1..])
  }

  /** The second model has the same roots, and every node loaded in the first is loaded in it. */
  predicate Grows(m: TreeModel, m1: TreeModel) {
    |m1.libraries| == |m.libraries|
    && forall i :: 0 <= i < |m.libraries| ==>
         m1.libraries[i].root == m.libraries[i].root && (m.libraries[i].loaded ==> m1.libraries[i].loaded)
  }

  /** The ids are those of nodes not loaded in the model. */
  ghost predicate Unloaded(m: TreeModel, ids: seq<int>) {
    forall id :: id in ids ==>
      exists i :: 0 <= i < |m.libraries| && m.libraries[i].root.rowid == id && !m.libraries[i].loaded
  }

  /** Ids of nodes unloaded later were unloaded earlier. */
  lemma UnloadedEarlier(m: TreeModel, m1: TreeModel, ids: seq<int>)
    requires Grows(m, m1) && Unloaded(m1, ids)
    ensures Unloaded(m, ids)
  {
    forall id | id in ids
      ensures exists i :: 0 <= i < |m.libraries| && m.libraries[i].root.rowid == id && !m.libraries[i].loaded
    {
      var i :| 0 <= i < |m1.libraries| && m1.libraries[i].root.rowid == id && !m1.libraries[i].loaded;
      assert m.libraries[i].root.rowid == id;
    }
  }

  /** A root just requested is not among the ids of nodes still unloaded. */
  lemma RequestedIsLoaded(m: TreeModel, j: nat, ids: seq<int>)
    requires UniqueIds(m) && j < |m.libraries| && m.libraries[j].loaded && Unloaded(m, ids)
    ensures m.libraries[j].root.rowid !in ids
  {
    forall i | 0 <= i < |m.libraries| && m.libraries[i].root.rowid == m.libraries[j].root.rowid
      ensures m.libraries[i].loaded
    {
      assert i == j;
    }
  }

  /**
   * Between reloads, a root's paths are requested at most once, and only for a node that
   * was not loaded when the events began.
   */
  lemma {:induction false} RequestedAtMostOnce(m: TreeModel, events: seq<Event>)
    requires UniqueIds(m)
    ensures Seqs.NoDuplicates(Run(m, events).1)
    ensures Unloaded(m, Run(m, events).1)
    decreases |events|
  {
    if |events| > 0 {
      match events[0]
      case Count(index) =>
        if index.Some? && !Valid(m, index.value) {
          RequestedAtMostOnce(m, events[1..]);
        } else {
          var (m1, _, request) := RowCount(m, index);
          assert Grows(m, m1) && UniqueIds(m1);
          RequestedAtMostOnce(m1, events[1..]);
          var rest := Run(m1, events[1..]).1;
          UnloadedEarlier(m, m1, rest);
          if request.Some? {
            RequestedIsLoaded(m1, index.value.lib, rest);
            Seqs.ConsNoDuplicates(request.value.rowid, rest);
            assert Run(m, events).1 == [request.value.rowid] + rest;
          }
        }
      case Loaded(rootId, paths) =>
        var m1 := PathsLoaded(m, rootId, paths);
        assert Grows(m, m1) && UniqueIds(m1);
        RequestedAtMostOnce(m1, events[1..]);
        UnloadedEarlier(m, m1, Run(m1, events[1..]).1);
    }
  }

  /** After a reload, the first count asked of a root's node requests that root's paths. */
  lemma ReloadThenCountRequests(m: TreeModel, roots: seq<Catalogue.LibraryRoot>, i: nat)
    requires i < |roots|
    ensures RowCount(Reloaded(m, roots), Some(Library(i))).2 == Some(roots[i])
  {
  }

  // ---------------------------------------------------------------------------
  // The library root of a selected node.

  /** What a node is, as `isinstance` sees it. */
  datatype Kind = HiddenRoot | AllLibrariesKind | LibraryRootKind(root: Catalogue.LibraryRoot)
                | PathKind(segment: string, fullPath: string)

  /** The path nodes the child rows pass through, the deepest first. */
  function PathChain(nodes: seq<PathNode>, steps: seq<nat>): (r: seq<Kind>)
    requires Leads(nodes, steps)
    ensures |r| == |steps| && forall k :: 0 <= k < |r| ==> r[k].PathKind?
    decreases |steps|
  {
    var n := nodes[steps[0]];
    (if |steps| == 1 then [] else PathChain(n.children, steps[1..])) + [PathKind(n.segment, n.fullPath)]
  }

  /** A node and its ancestors following `parent`, up to the hidden root. */
  function Ancestry(m: TreeModel, p: Position): (r: seq<Kind>)
    requires Valid(m, p)
  {
    match p
    case AllLibraries => [AllLibrariesKind, HiddenRoot]
    case Library(i) => [LibraryRootKind(m.libraries[i].root), AllLibrariesKind, HiddenRoot]
    case InPaths(i, steps) =>
      PathChain(m.libraries[i].children, steps) + [LibraryRootKind(m.libraries[i].root), AllLibrariesKind, HiddenRoot]
  }

  /** The walk up the parents to the first library-root node. */
  function NearestRootPath(chain: seq<Kind>): (r: Option<string>)
    ensures r.None? <==> forall k :: 0 <= k < |chain| ==> !chain[k].LibraryRootKind?
  {
    if |chain| == 0 then None
    else if chain[0].LibraryRootKind? then Some(chain[0].root.path)
    else NearestRootPath(chain[1..])
  }

  /** `get_root_path_for_index`: nothing for an invalid index, else the nearest library root's path. */
  function RootPathForIndex(m: TreeModel, index: Option<Position>): Option<string>
    requires index.Some? ==> Valid(m, index.value)
  {
    if index.None? then None else NearestRootPath(Ancestry(m, index.value))
  }

  /** Walking up through path nodes passes them by. */
  lemma {:induction false} NearestSkipsPaths(front: seq<Kind>, back: seq<Kind>)
    requires forall k :: 0 <= k < |front| ==> front[k].PathKind?
    ensures NearestRootPath(front + back) == NearestRootPath(back)
  {
    if |front| > 0 {
      assert (front + back)[0] == front[0];
      assert (front + back)[1..] == front[1..] + back;
      NearestSkipsPaths(front[1..], back);
    } else {
      assert front + back == back;
    }
  }

  /**
   * The root path of a node is its library root's path: the root's own for a library-root
   * node and for every path node below it, and none for "All libraries" or an invalid index.
   */
  lemma RootPathIsLibraryPath(m: TreeModel, index: Option<Position>)
    requires index.Some? ==> Valid(m, index.value)
    ensures index.None? || index.value.AllLibraries? ==> RootPathForIndex(m, index).None?
    ensures index.Some? && !index.value.AllLibraries? ==>
              RootPathForIndex(m, index) == Some(m.libraries[index.value.lib].root.path)
  {
    if index.Some? && index.value.InPaths? {
      var i := index.value.lib;
      NearestSkipsPaths(PathChain(m.libraries[i].children, index.value.steps),
                        [LibraryRootKind(m.libraries[i].root), AllLibrariesKind, HiddenRoot]);
    }
  }
}

=== FILE: libraryroots.dfy ===
/**
 * The dialog that creates or edits a library root (photonfinder/ui/LibraryRootEditDialog.py):
 * the browse button's name default and the validation `accept` runs before it saves.
 */
module LibraryRoots {
  import opened Wrappers
  import opened Text
  import Catalogue
  import PurePaths

  /** What pressing OK does: a warning and the dialog stays open, or a row is written and it closes. */
  datatype Outcome = Warning(message: string) | Created(name: string, path: string) | Updated(rowid: int, name: string, path: string)

  /** Names and paths are each unique in the library root table. */
  predicate UniqueRoots(roots: seq<Catalogue.LibraryRoot>) {
    forall i, j :: 0 <= i < j < |roots| ==>
      roots[i].rowid != roots[j].rowid && roots[i].name != roots[j].name && roots[i].path != roots[j].path
  }

  /** A root other than `except` shares the name or the path. */
  predicate Clashes(roots: seq<Catalogue.LibraryRoot>, name: string, path: string, except: Option<int>) {
    exists i :: 0 <= i < |roots| && (except.None? || roots[i].rowid != except.value)
                && (roots[i].name == name || roots[i].path == path)
  }

  /** The first root other than `except` that shares the name or the path, in table order. */
  function FirstClash(roots: seq<Catalogue.LibraryRoot>, name: string, path: string, except: Option<int>)
    : (r: Option<Catalogue.LibraryRoot>)
    ensures r.Some? <==> Clashes(roots, name, path, except)
    ensures r.Some? ==> r.value in roots && (r.value.name == name || r.value.path == path)
                        && (except.None? || r.value.rowid != except.value)
  {
    if |roots| == 0 then None
    else if (except.None? || roots[0].rowid != except.value) && (roots[0].name == name || roots[0].path == path) then
      Some(roots[0])
    else
      var r := FirstClash(roots[1..], name, path, except);
      assert Clashes(roots, name, path, except) ==> Clashes(roots[1..], name, path, except) by {
        if Clashes(roots, name, path, except) {
          var i :| 0 <= i < |roots| && (except.None? || roots[i].rowid != except.value)
                   && (roots[i].name == name || roots[i].path == path);
          assert i > 0 && roots[1..][i - 1] == roots[i];
        }
      }
      r
  }

  /** The warning for a clash: the name when the clashing root has it, the path otherwise. */
  function ClashMessage(existing: Catalogue.LibraryRoot, name: string, path: string): string {
    if existing.name == name then "A library root with the name '" + name + "' already exists."
    else "A library root with the path '" + path + "' already exists."
  }

  /**
   * `accept`: both fields are stripped; an empty name, an empty path or a path that is not
   * a directory is refused; a new root is refused when any root shares its name or path,
   * an edited one only when a different root does.
   */
  function Accept(nameText: string, pathText: string, editing: Option<Catalogue.LibraryRoot>,
                  roots: seq<Catalogue.LibraryRoot>, isDir: string -> bool): (r: Outcome)
    ensures var name := Strip(nameText); var path := Strip(pathText);
            r.Warning? <==> name == "" || path == "" || !isDir(path)
                            || Clashes(roots, name, path, if editing.Some? then Some(editing.value.rowid) else None)
    ensures r.Created? ==> editing.None? && r.name == Strip(nameText) && r.path == Strip(pathText)
    ensures r.Updated? ==> editing.Some? && r.rowid == editing.value.rowid
                           && r.name == Strip(nameText) && r.path == Strip(pathText)
    ensures !r.Warning? ==> r.name != "" && r.path != "" && isDir(r.path)
  {
    var name := Strip(nameText);
    var path := Strip(pathText);
    if name == "" then Warning("Name cannot be empty.")
    else if path == "" then Warning("Path cannot be empty.")
    else if !isDir(path) then Warning("Path must be a valid directory.")
    else
      var except := if editing.Some? then Some(editing.value.rowid) else None;
      var clash := FirstClash(roots, name, path, except);
      if clash.Some? then Warning(ClashMessage(clash.value, name, path))
      else if editing.None? then Created(name, path)
      else Updated(editing.value.rowid, name, path)
  }

  /**
   * `accept` as written: for an edit, the loop over the rows the query finds reads
   * `existing.id`, which a library root does not have (its key is `rowid`), so an edit
   * for which the query finds any row raises; the error is shown and nothing is saved.
   */
  function AcceptAsWritten(nameText: string, pathText: string, editing: Option<Catalogue.LibraryRoot>,
                           roots: seq<Catalogue.LibraryRoot>, isDir: string -> bool): (r: Result<Outcome, string>)
    ensures var name := Strip(nameText); var path := Strip(pathText);
            r.Failure? <==> editing.Some? && name != "" && path != "" && isDir(path) && Clashes(roots, name, path, None)
    ensures r.Success? ==> r.value == Accept(nameText, pathText, editing, roots, isDir)
  {
    var name := Strip(nameText);
    var path := Strip(pathText);
    if editing.Some? && name != "" && path != "" && isDir(path) && FirstClash(roots, name, path, None).Some? then
      Failure("AttributeError: 'LibraryRoot' object has no attribute 'id'")
    else Success(Accept(nameText, pathText, editing, roots, isDir))
  }

  /** As written, saving a root unchanged raises: the query finds the root itself. */
  lemma UnchangedEditFailsAsWritten(roots: seq<Catalogue.LibraryRoot>, k: int, isDir: string -> bool)
    requires 0 <= k < |roots|
    requires Strip(roots[k].name) == roots[k].name && roots[k].name != "" && Strip(roots[k].path) == roots[k].path && roots[k].path != ""
    requires isDir(roots[k].path)
    ensures AcceptAsWritten(roots[k].name, roots[k].path, Some(roots[k]), roots, isDir).Failure?
  {
  }

  /** The table after the outcome is written; a created row takes a row id no row has. */
  function Apply(roots: seq<Catalogue.LibraryRoot>, o: Outcome, newRowid: int): (r: seq<Catalogue.LibraryRoot>)
    ensures o.Warning? ==> r == roots
    ensures o.Created? ==> r == roots + [Catalogue.LibraryRoot(newRowid, o.name, o.path)]
    ensures o.Updated? ==> |r| == |roots|
  {
    match o
    case Warning(_) => roots
    case Created(name, path) => roots + [Catalogue.LibraryRoot(newRowid, name, path)]
    case Updated(rowid, name, path) =>
      seq(|roots|, i requires 0 <= i < |roots| =>
            if roots[i].rowid == rowid then Catalogue.LibraryRoot(rowid, name, path) else roots[i])
  }

  /** Whatever the dialog writes keeps names, paths and row ids unique. */
  lemma AcceptKeepsUnique(nameText: string, pathText: string, editing: Option<Catalogue.LibraryRoot>,
                          roots: seq<Catalogue.LibraryRoot>, isDir: string -> bool, newRowid: int)
    requires UniqueRoots(roots)
    requires forall i :: 0 <= i < |roots| ==> roots[i].rowid != newRowid
    ensures UniqueRoots(Apply(roots, Accept(nameText, pathText, editing, roots, isDir), newRowid))
  {
    var o := Accept(nameText, pathText, editing, roots, isDir);
    var r := Apply(roots, o, newRowid);
    var except := if editing.Some? then Some(editing.value.rowid) else None;
    if o.Created? {
      forall i, j | 0 <= i < j < |r|
        ensures r[i].rowid != r[j].rowid && r[i].name != r[j].name && r[i].path != r[j].path
      {
        if j == |roots| {
          assert r[i] == roots[i];
          assert !(roots[i].name == o.name || roots[i].path == o.path);
        }
      }
    } else if o.Updated? {
      forall i, j | 0 <= i < j < |r|
        ensures r[i].rowid != r[j].rowid && r[i].name != r[j].name && r[i].path != r[j].path
      {
        if roots[i].rowid == o.rowid {
          assert !(roots[j].name == o.name || roots[j].path == o.path) by {
            assert !(except.None? || roots[j].rowid != except.value) || !(roots[j].name == o.name || roots[j].path == o.path);
          }
        } else if roots[j].rowid == o.rowid {
          assert !(roots[i].name == o.name || roots[i].path == o.path) by {
            assert !(except.None? || roots[i].rowid != except.value) || !(roots[i].name == o.name || roots[i].path == o.path);
          }
        }
      }
    }
  }

  /** Saving a root unchanged is allowed: it clashes only with itself. */
  lemma UnchangedEditSaves(roots: seq<Catalogue.LibraryRoot>, k: int, isDir: string -> bool)
    requires UniqueRoots(roots) && 0 <= k < |roots|
    requires Strip(roots[k].name) == roots[k].name && roots[k].name != "" && Strip(roots[k].path) == roots[k].path && roots[k].path != ""
    requires isDir(roots[k].path)
    ensures Accept(roots[k].name, roots[k].path, Some(roots[k]), roots, isDir)
            == Updated(roots[k].rowid, roots[k].name, roots[k].path)
  {
    var e := roots[k];
    forall i | 0 <= i < |roots| && roots[i].rowid != e.rowid
      ensures roots[i].name != e.name && roots[i].path != e.path
    {
      assert i != k;
    }
  }

  /** Creating a root a second time is refused. */
  lemma DuplicateCreateRefused(roots: seq<Catalogue.LibraryRoot>, k: int, nameText: string, pathText: string,
                               isDir: string -> bool)
    requires 0 <= k < |roots| && (Strip(nameText) == roots[k].name || Strip(pathText) == roots[k].path)
    ensures Accept(nameText, pathText, None, roots, isDir).Warning?
  {
    assert Strip(nameText) == "" || Strip(pathText) == "" || !isDir(Strip(pathText))
           || Clashes(roots, Strip(nameText), Strip(pathText), None);
  }

  /**
   * `browse_directory`: a chosen directory fills the path, and the name too, with the
   * directory's last component, when the name is empty; a cancelled dialog changes nothing.
   */
  function Browse(nameText: string, pathText: string, directory: string): (r: (string, string))
    ensures directory == "" ==> r == (nameText, pathText)
    ensures directory != "" ==> r.1 == directory
    ensures nameText != "" ==> r.0 == nameText
    ensures nameText == "" && directory != "" ==> r.0 == PurePaths.Name(PurePaths.Parse(directory))
  {
    if directory == "" then (nameText, pathText)
    else (if nameText == "" then PurePaths.Name(PurePaths.Parse(directory)) else nameText, directory)
  }

  /** A name filled in by browsing is one path component: never empty for a directory below the root. */
  lemma BrowsedNameIsComponent(directory: string)
    requires |PurePaths.Parse(directory).parts| > 0
    ensures var name := Browse("", "", directory).0; name != "" && '/' !in name && name != "."
  {
  }
}

=== FILE: mainwindow.dfy ===
/**
 * The state logic of the main window (photonfinder/ui/MainWindow.py): the status reporter
 * that throttles bulk messages, the roots a scan covers, the single scan worker, which
 * actions a selected image enables, and the tab list that is never left empty.
 */
module MainWindow {
  import opened Wrappers
  import opened Text
  import Catalogue

  // ---------------------------------------------------------------------------
  // The status reporter.

  /** Time in microseconds; one second is the throttle interval. */
  const Second: int := 1_000_000

  /** `UIStatusReporter`: when the last message went out, and the log of non-bulk messages. */
  datatype Reporter = Reporter(lastUpdate: int, log: seq<string>)

  /** A status message at a time. */
  datatype Message = Message(time: int, text: string, bulk: bool)

  /**
   * `update_status`: a bulk message less than a second after the last emitted one is
   * dropped and changes nothing; every other message is emitted and stamps the time, and
   * a non-bulk one is also appended to the log.
   */
  function UpdateStatus(r: Reporter, m: Message): (out: (Reporter, Option<Message>))
    ensures out.1.None? <==> m.bulk && m.time - r.lastUpdate < Second
    ensures out.1.None? ==> out.0 == r
    ensures out.1.Some? ==> out.1.value == m && out.0.lastUpdate == m.time
                            && out.0.log == r.log + (if m.bulk then [] else [m.text])
  {
    if m.bulk && m.time - r.lastUpdate < Second then (r, None)
    else (Reporter(m.time, if m.bulk then r.log else r.log + [m.text]), Some(m))
  }

  /** A stream of messages through the reporter: the final state and the messages emitted, in order. */
  function Report(r: Reporter, ms: seq<Message>): (out: (Reporter, seq<Message>))
    ensures |out.1| <= |ms|
    decreases |ms|
  {
    if |ms| == 0 then (r, [])
    else
      var (next, emitted) := UpdateStatus(r, ms[0]);
      var (last, rest) := Report(next, ms[1..]);
      (last, (if emitted.Some? then [emitted.value] else []) + rest)
  }

  /** The texts of the non-bulk messages, in order. */
  function NonBulk(ms: seq<Message>): (r: seq<string>)
    ensures |r| <= |ms|
  {
    if |ms| == 0 then []
    else (if ms[0].bulk then [] else [ms[0].text]) + NonBulk(ms[1..])
  }

  /** The log gains exactly the non-bulk messages, in the order they were reported. */
  lemma {:induction false} LogIsNonBulk(r: Reporter, ms: seq<Message>)
    ensures Report(r, ms).0.log == r.log + NonBulk(ms)
    decreases |ms|
  {
    if |ms| > 0 {
      var next := UpdateStatus(r, ms[0]).0;
      LogIsNonBulk(next, ms[1..]);
    }
  }

  /** Every emitted bulk message comes at least a second after the message emitted before it. */
  predicate Spaced(last: int, e: seq<Message>) {
    forall k :: 0 <= k < |e| && e[k].bulk ==> e[k].time - (if k == 0 then last else e[k - 1].time) >= Second
  }

  /** Bulk messages go out at most once a second, and every non-bulk message goes out. */
  lemma {:induction false} ReportThrottles(r: Reporter, ms: seq<Message>)
    ensures Spaced(r.lastUpdate, Report(r, ms).1)
    ensures forall m :: m in ms && !m.bulk ==> m in Report(r, ms).1
    decreases |ms|
  {
    if |ms| > 0 {
      var (next, emitted) := UpdateStatus(r, ms[0]);
      ReportThrottles(next, ms[1..]);
      var rest := Report(next, ms[1..]).1;
      var e := Report(r, ms).1;
      if emitted.Some? {
        assert e == [ms[0]] + rest;
        forall k | 0 <= k < |e| && e[k].bulk
          ensures e[k].time - (if k == 0 then r.lastUpdate else e[k - 1].time) >= Second
        {
          if k == 0 {
            assert e[0] == ms[0] && emitted == Some(ms[0]);
          } else {
            assert e[k] == rest[k - 1];
            if k > 1 {
              assert e[k - 1] == rest[k - 2];
            } else {
              assert e[k - 1] == ms[0] && next.lastUpdate == ms[0].time;
            }
          }
        }
      } else {
        assert e == rest;
      }
      forall m | m in ms && !m.bulk
        ensures m in e
      {
        if m != ms[0] {
          assert m in ms[1..];
        }
      }
    }
  }

  // ---------------------------------------------------------------------------
  // Scanning.

  /** The library tree nodes a selection can hold. */
  datatype TreeNode = AllLibrariesNode | LibraryRootNode(root: Catalogue.LibraryRoot) | PathNode(root: Catalogue.LibraryRoot, path: string)

  /**
   * The roots `scan_libraries` covers: `None` (every root) as soon as "All libraries" is
   * selected, otherwise the selected library roots in selection order.
   */
  function ScanRoots(selected: seq<TreeNode>): (r: Option<seq<Catalogue.LibraryRoot>>)
    ensures r.None? <==> AllLibrariesNode in selected
    ensures r.Some? ==> |r.value| <= |selected|
                        && forall x :: x in r.value <==> LibraryRootNode(x) in selected
  {
    if |selected| == 0 then Some([])
    else if selected[0] == AllLibrariesNode then None
    else
      var rest := ScanRoots(selected[1..]);
      assert forall x :: x in selected <==> x == selected[0] || x in selected[1..];
      if rest.None? then None
      else if selected[0].LibraryRootNode? then Some([selected[0].root] + rest.value)
      else rest
  }

  /** What a scan worker was started on: roots (`None` for all) or dropped file paths. */
  datatype Job = ScanLibraries(roots: Option<seq<Catalogue.LibraryRoot>>) | ScanDropped(paths: seq<string>)

  /** The events that touch the scan worker. */
  datatype Event = ScanRequest(selected: seq<TreeNode>) | DropRequest(paths: seq<string>) | Finished

  /**
   * One event: a scan or a drop while a worker is set is refused; otherwise it starts a
   * worker. The finish signal clears the worker.
   */
  function Step(worker: Option<Job>, e: Event): (r: Option<Job>)
    ensures e.Finished? ==> r.None?
    ensures !e.Finished? && worker.Some? ==> r == worker
    ensures !e.Finished? && worker.None? ==> r.Some?
    ensures e.ScanRequest? && worker.None? ==> r == Some(ScanLibraries(ScanRoots(e.selected)))
  {
    match e
    case ScanRequest(selected) => if worker.Some? then worker else Some(ScanLibraries(ScanRoots(selected)))
    case DropRequest(paths) => if worker.Some? then worker else Some(ScanDropped(paths))
    case Finished => None
  }

  /**
   * One event as written: a library scan worker calls `import_roots` on the importer, which
   * defines no such method, so `run` raises before it emits its own `finished`. That
   * class-level signal shadows the one `QThread` emits when the thread ends, so nothing
   * calls `_scan_finished` and the worker is never cleared. A worker for dropped files
   * emits `finished` and runs as corrected.
   */
  function StepAsWritten(worker: Option<Job>, e: Event): (r: Option<Job>)
    ensures worker.Some? && worker.value.ScanLibraries? ==> r == worker
    ensures !(worker.Some? && worker.value.ScanLibraries?) ==> r == Step(worker, e)
  {
    if worker.Some? && worker.value.ScanLibraries? then worker else Step(worker, e)
  }

  /** The worker after a run of events, as written. */
  function FinalWorkerAsWritten(worker: Option<Job>, es: seq<Event>): Option<Job>
    decreases |es|
  {
    if |es| == 0 then worker else FinalWorkerAsWritten(StepAsWritten(worker, es[0]), es[1..])
  }

  /**
   * As written, once a library scan has started, whatever happens next the same worker
   * stays set, so every later scan or drop is refused; corrected, its finish clears it.
   */
  lemma {:induction false} ScanNeverClearedAsWritten(selected: seq<TreeNode>, es: seq<Event>)
    ensures var job := Some(ScanLibraries(ScanRoots(selected)));
            Step(None, ScanRequest(selected)) == job
            && FinalWorkerAsWritten(job, es) == job
            && Step(job, Finished).None?
    decreases |es|
  {
    if |es| > 0 {
      ScanNeverClearedAsWritten(selected, es[1..]);
    }
  }

  /** Over a run of events: the workers started and the finishes that cleared one. */
  function Run(worker: Option<Job>, es: seq<Event>): (r: (Option<Job>, seq<Job>, nat))
    decreases |es|
  {
    if |es| == 0 then (worker, [], 0)
    else
      var next := Step(worker, es[0]);
      var (last, started, cleared) := Run(next, es[1..]);
      (last, (if worker.None? && next.Some? then [next.value] else []) + started,
       cleared + (if worker.Some? && next.None? then 1 else 0))
  }

  /**
   * Workers never overlap: from an idle window, the workers started are the ones cleared
   * plus the one still running, if any.
   */
  lemma {:induction false} OneWorkerAtATime(worker: Option<Job>, es: seq<Event>)
    ensures var (last, started, cleared) := Run(worker, es);
            |started| + (if worker.Some? then 1 else 0) == cleared + (if last.Some? then 1 else 0)
    decreases |es|
  {
    if |es| > 0 {
      OneWorkerAtATime(Step(worker, es[0]), es[1..]);
    }
  }

  // ---------------------------------------------------------------------------
  // Actions for the selected image.

  /** The selected file's image type and whether it has a stored plate solution. */
  datatype Selected = Selected(imageType: Option<string>, hasWcs: bool)

  /** The enabled state of the selection-dependent actions. */
  datatype Actions = Actions(open: bool, showLocation: bool, selectPath: bool, details: bool,
                             findDarks: bool, findFlats: bool, plateSolve: bool, plateSolveNet: bool)

  /** `not current_type or "LIGHT" in current_type`. */
  predicate MayBeLight(imageType: Option<string>) {
    imageType.None? || imageType.value == "" || Contains(imageType.value, "LIGHT")
  }

  /**
   * `enable_actions_for_current_tab`: the file actions follow whether an image is
   * selected; the calibration and plate-solve actions are set only when one is, and
   * otherwise keep their previous state.
   */
  function EnableActions(prev: Actions, sel: Option<Selected>): (r: Actions)
    ensures r.open == r.showLocation == r.selectPath == r.details == sel.Some?
    ensures sel.None? ==> r.(open := prev.open, showLocation := prev.showLocation,
                                selectPath := prev.selectPath, details := prev.details) == prev
    ensures sel.Some? ==> (r.findDarks <==> sel.value.imageType == Some("LIGHT") || sel.value.imageType == Some("FLAT"))
    ensures sel.Some? ==> (r.findFlats <==> sel.value.imageType == Some("LIGHT"))
    ensures sel.Some? ==> (r.plateSolve <==> MayBeLight(sel.value.imageType) && !sel.value.hasWcs)
    ensures r.plateSolve == r.plateSolveNet || sel.None?
  {
    var has := sel.Some?;
    var files := prev.(open := has, showLocation := has, selectPath := has, details := has);
    if sel.None? then files
    else
      var t := sel.value.imageType;
      var solve := MayBeLight(t) && !sel.value.hasWcs;
      files.(findDarks := t == Some("LIGHT") || t == Some("FLAT"), findFlats := t == Some("LIGHT"),
             plateSolve := solve, plateSolveNet := solve)
  }

  /** With an image selected, flats are offered only where darks are, and an unsolved light frame offers everything. */
  lemma ActionsForImage(prev: Actions, s: Selected)
    ensures var r := EnableActions(prev, Some(s));
            (r.findFlats ==> r.findDarks)
            && (s.imageType == Some("LIGHT") && !s.hasWcs ==> r.findDarks && r.findFlats && r.plateSolve)
            && (s.hasWcs ==> !r.plateSolve)
            && (s.imageType == Some("FLAT") ==> !r.plateSolve && !r.findFlats)
  {
    if s.imageType == Some("LIGHT") {
      assert OccursAt("LIGHT", "LIGHT", 0);
    }
    if s.imageType == Some("FLAT") {
      assert !Occurs("LIGHT", "FLAT");
    }
  }

  // ---------------------------------------------------------------------------
  // Tabs.

  /**
   * `close_search_tab`: the tab at `index` goes; closing the last one opens a new one. An
   * index with no tab fails the widget type assertion.
   */
  function CloseTab<T>(tabs: seq<T>, index: int, newTab: T): (r: Result<seq<T>, string>)
    ensures r.Failure? <==> !(0 <= index < |tabs|)
    ensures r.Success? ==> |r.value| >= 1
    ensures r.Success? && |tabs| > 1 ==> r.value == tabs[..index] + tabs[index + 1..]
    ensures r.Success? && |tabs| == 1 ==> r.value == [newTab]
  {
    if !(0 <= index < |tabs|) then Failure("AssertionError")
    else
      var rest := tabs[..index] + tabs[index + 1..];
      if |rest| == 0 then Success([newTab]) else Success(rest)
  }

  /** The window never runs out of tabs: any run of closes leaves at least one. */
  lemma {:induction false} NeverWithoutTabs<T>(tabs: seq<T>, closes: seq<int>, newTab: T)
    requires |tabs| >= 1
    ensures |CloseAll(tabs, closes, newTab)| >= 1
    decreases |closes|
  {
    if |closes| > 0 {
      var r := CloseTab(tabs, closes[0], newTab);
      if r.Success? {
        NeverWithoutTabs(r.value, closes[1..], newTab);
      } else {
        NeverWithoutTabs(tabs, closes[1..], newTab);
      }
    }
  }

  /** A run of close requests; a failing one leaves the tabs as they were. */
  function CloseAll<T>(tabs: seq<T>, closes: seq<int>, newTab: T): seq<T>
    decreases |closes|
  {
    if |closes| == 0 then tabs
    else match CloseTab(tabs, closes[0], newTab)
      case Success(next) => CloseAll(next, closes[1..], newTab)
      case Failure(_) => CloseAll(tabs, closes[1..], newTab)
  }
}

=== FILE: metadatareport.dfy ===
/**
 * The metadata report (photonfinder/ui/MetadataReportDialog.py): a table with one row per
 * file and one column per chosen field, a field being a name and the source it is read
 * from — the catalogue's own columns, the stored FITS header, or the stored plate solution.
 */
module MetadataReport {
  import opened Wrappers
  import opened Text
  import Headers
  import PurePaths

  // ---------------------------------------------------------------------------
  // Reading one field of one file.

  /** Attributes of a model object; a present name whose value is `None` maps to `None`. */
  type Attrs = map<string, Option<Headers.HValue>>

  /**
   * A file as the report query returns it: its columns, its full file name, its image
   * row if any, and its stored FITS header and plate solution — absent, or what parsing
   * the stored text gives.
   */
  datatype ReportFile = ReportFile(
    attrs: Attrs,
    fullFilename: string,
    image: Option<Attrs>,
    fits: Option<Result<Headers.Header, string>>,
    wcs: Option<Result<Headers.Header, string>>)

  const PhotonFinderSource := "photonfinder"
  const FitsSource := "fits"
  const PlateSolvingSource := "platesolving"

  /** A chosen field: the name shown in the header row, and its source. */
  datatype Field = Field(name: string, source: string)

  /** `getattr(obj, name, None)`. */
  function GetAttr(a: Attrs, name: string): (r: Option<Headers.HValue>)
    ensures name !in a ==> r.None?
  {
    if name in a then a[name] else None
  }

  /**
   * `_extract_photonfinder_field`: `File.` names read the file (the full file name is
   * normalised as a path), `Image.` names read the image or give nothing without one, and
   * bare names try the file first, then the image.
   */
  function PhotonFinderField(f: ReportFile, name: string): (r: Option<Headers.HValue>)
    ensures StartsWith(name, "File.") && name != "File.full_filename" ==> r == GetAttr(f.attrs, name[5..])
    ensures name == "File.full_filename" ==>
              r.Some? && r.value.HStr? && PurePaths.Parse(r.value.s) == PurePaths.Parse(f.fullFilename)
    ensures StartsWith(name, "Image.") ==> r == (if f.image.Some? then GetAttr(f.image.value, name[6..]) else None)
    ensures !StartsWith(name, "File.") && !StartsWith(name, "Image.") ==>
              r == (if name in f.attrs then f.attrs[name]
                    else if f.image.Some? then GetAttr(f.image.value, name) else None)
  {
    if StartsWith(name, "File.") then
      FilePrefix(name);
      FileField(f, name[5..])
    else if StartsWith(name, "Image.") then
      if f.image.Some? then GetAttr(f.image.value, name[6..]) else None
    else if name in f.attrs then f.attrs[name]
    else if f.image.Some? && name in f.image.value then f.image.value[name]
    else None
  }

  /** A `File.` name is no `Image.` name, and names the full file name exactly when it is `File.full_filename`. */
  lemma FilePrefix(name: string)
    requires StartsWith(name, "File.")
    ensures !StartsWith(name, "Image.")
    ensures name[5..] == "full_filename" <==> name == "File.full_filename"
  {
    assert name[0] == "File."[0];
    assert name == name[..5] + name[5..];
  }

  /**
   * A `File.` attribute: the full file name as the normal rendering of the same path,
   * any other attribute as stored.
   */
  function FileField(f: ReportFile, attr: string): (r: Option<Headers.HValue>)
    ensures attr != "full_filename" ==> r == GetAttr(f.attrs, attr)
    ensures attr == "full_filename" ==>
              r.Some? && r.value.HStr? && PurePaths.Parse(r.value.s) == PurePaths.Parse(f.fullFilename)
              && PurePaths.Render(PurePaths.Parse(r.value.s)) == r.value.s
  {
    if attr == "full_filename" then
      PurePaths.ParseRender(PurePaths.Parse(f.fullFilename));
      Some(Headers.HStr(PurePaths.Render(PurePaths.Parse(f.fullFilename))))
    else GetAttr(f.attrs, attr)
  }

  /** The prefix that marks a keyword longer than eight characters. */
  const Hierarch := "HIERARCH "

  /** The name without a leading `HIERARCH ` in any case. */
  function KeywordPart(name: string): string {
    if |name| > 9 && Upper(name[..9]) == Hierarch then name[9..] else name
  }

  /**
   * The keyword astropy's `Header.get` looks a name up under: a leading `HIERARCH ` (in any
   * case) is dropped, and the rest is stripped and upper-cased.
   */
  function NormalizeKeyword(name: string): (r: string)
    ensures forall i :: 0 <= i < |r| ==> !('a' <= r[i] <= 'z')
    ensures |r| > 0 ==> !IsSpace(r[0]) && !IsSpace(r[|r| - 1])
  {
    UpperOfStripped(KeywordPart(name));
    Upper(Strip(KeywordPart(name)))
  }

  lemma UpperOfStripped(s: string)
    ensures var r := Upper(Strip(s));
            (forall i :: 0 <= i < |r| ==> !('a' <= r[i] <= 'z')) && (|r| > 0 ==> !IsSpace(r[0]) && !IsSpace(r[|r| - 1]))
  {
    UpperKeepsEnds(Strip(s));
  }

  /**
   * `header.get(name)` on a stored header: the value under the normalised keyword; nothing
   * when there is no header or it did not parse.
   */
  function StoredField(stored: Option<Result<Headers.Header, string>>, name: string): (r: Option<Headers.HValue>)
    ensures r.Some? <==> stored.Some? && stored.value.Success? && NormalizeKeyword(name) in stored.value.value
    ensures r.Some? ==> r.value == stored.value.value[NormalizeKeyword(name)]
  {
    if stored.Some? && stored.value.Success? then Headers.Get(stored.value.value, NormalizeKeyword(name)) else None
  }

  /** A keyword typed in lower or mixed case reads the same value as in upper case: `exptime` finds `EXPTIME`. */
  lemma KeywordCaseIgnored(stored: Option<Result<Headers.Header, string>>, name: string)
    ensures StoredField(stored, name) == StoredField(stored, Upper(name))
  {
    NormalizeUpper(name);
  }

  /** Normalising an upper-cased name gives the same keyword. */
  lemma NormalizeUpper(name: string)
    ensures NormalizeKeyword(Upper(name)) == NormalizeKeyword(name)
  {
    var part := KeywordPart(name);
    KeywordPartUpper(name);
    StripUpper(part);
    UpperIdempotent(Strip(part));
  }

  /** Upper-casing a name upper-cases its keyword part: the `HIERARCH ` test ignores case. */
  lemma KeywordPartUpper(name: string)
    ensures KeywordPart(Upper(name)) == Upper(KeywordPart(name))
  {
    if |name| > 9 {
      assert Upper(name)[..9] == Upper(name[..9]);
      assert Upper(name)[9..] == Upper(name[9..]);
      UpperIdempotent(name[..9]);
    }
  }

  /** `_extract_field_value`: dispatch on the source; an unknown source reads nothing. */
  function FieldValue(f: ReportFile, field: Field): (r: Option<Headers.HValue>)
  {
    if field.source == PhotonFinderSource then PhotonFinderField(f, field.name)
    else if field.source == FitsSource then StoredField(f.fits, field.name)
    else if field.source == PlateSolvingSource then StoredField(f.wcs, field.name)
    else None
  }

  /** One cell: `str(value)`, or empty for `None`. */
  function Cell(v: Option<Headers.HValue>): string {
    if v.Some? then Headers.PyStr(v.value) else ""
  }

  /** `file_to_list_of_values`: one cell per field, in field order. */
  function Row(f: ReportFile, fields: seq<Field>): (r: seq<string>)
    ensures |r| == |fields|
  {
    seq(|fields|, k requires 0 <= k < |fields| => Cell(FieldValue(f, fields[k])))
  }

  /** A field from an unknown source, or one the file has no value for, is an empty cell. */
  lemma RowCells(f: ReportFile, fields: seq<Field>, k: int)
    requires 0 <= k < |fields|
    ensures var source := fields[k].source;
            source != PhotonFinderSource && source != FitsSource && source != PlateSolvingSource ==> Row(f, fields)[k] == ""
    ensures fields[k].source == FitsSource && (f.fits.None? || f.fits.value.Failure?) ==> Row(f, fields)[k] == ""
    ensures fields[k].source == PlateSolvingSource && (f.wcs.None? || f.wcs.value.Failure?) ==> Row(f, fields)[k] == ""
    ensures (fields[k].source == PhotonFinderSource && StartsWith(fields[k].name, "Image.") && f.image.None?)
              ==> Row(f, fields)[k] == ""
  {
  }

  /** Rows are built field by field: the row for two field lists is the two rows side by side. */
  lemma RowConcat(f: ReportFile, a: seq<Field>, b: seq<Field>)
    ensures Row(f, a + b) == Row(f, a) + Row(f, b)
  {
  }

  /** The whole report: the header row of field names, then one row per file. */
  function Report(files: seq<ReportFile>, fields: seq<Field>): (r: seq<seq<string>>)
    ensures |r| == |files| + 1
    ensures forall i :: 0 <= i < |r| ==> |r[i]| == |fields|
    ensures forall k :: 0 <= k < |fields| ==> r[0][k] == fields[k].name
  {
    [seq(|fields|, k requires 0 <= k < |fields| => fields[k].name)]
    + seq(|files|, i requires 0 <= i < |files| => Row(files[i], fields))
  }

  // ---------------------------------------------------------------------------
  // Which tables the query joins.

  predicate Uses(fields: seq<Field>, source: string) {
    exists k :: 0 <= k < |fields| && fields[k].source == source
  }

  /** `get_tables`: the base tables, then the FITS header table and the plate-solution table when a field needs them. */
  function Tables(base: seq<string>, fields: seq<Field>): (r: seq<string>)
    ensures "FitsHeader" !in base && "FileWCS" !in base ==>
              ("FitsHeader" in r <==> Uses(fields, FitsSource)) && ("FileWCS" in r <==> Uses(fields, PlateSolvingSource))
    ensures |r| >= |base| && r[..|base|] == base
  {
    base + (if Uses(fields, FitsSource) then ["FitsHeader"] else [])
         + (if Uses(fields, PlateSolvingSource) then ["FileWCS"] else [])
  }

  /** What the query loads of a file: a header or a solution is there only when its table is joined. */
  function Loaded(f: ReportFile, fields: seq<Field>): ReportFile {
    f.(fits := if Uses(fields, FitsSource) then f.fits else None,
       wcs := if Uses(fields, PlateSolvingSource) then f.wcs else None)
  }

  /** Joining only the tables some field needs loses nothing: every row is the same as with both joined. */
  lemma JoinsSuffice(f: ReportFile, fields: seq<Field>)
    ensures Row(Loaded(f, fields), fields) == Row(f, fields)
  {
    var g := Loaded(f, fields);
    forall k | 0 <= k < |fields|
      ensures FieldValue(g, fields[k]) == FieldValue(f, fields[k])
    {
      if fields[k].source == FitsSource {
        assert Uses(fields, FitsSource);
      } else if fields[k].source == PlateSolvingSource {
        assert Uses(fields, PlateSolvingSource);
      }
    }
  }

  // ---------------------------------------------------------------------------
  // The list of chosen fields.

  /** An entry of the chosen list: the source and the field name. */
  datatype Chosen = Chosen(source: string, name: string)

  /** `_is_item_already_added`. */
  predicate AlreadyAdded(list: seq<Chosen>, name: string, source: string) {
    exists i :: 0 <= i < |list| && list[i] == Chosen(source, name)
  }

  /** The add buttons: a non-empty name not yet chosen from that source is appended. */
  function AddItem(list: seq<Chosen>, name: string, source: string): (r: seq<Chosen>)
    ensures name != "" && !AlreadyAdded(list, name, source) ==> r == list + [Chosen(source, name)]
    ensures name == "" || AlreadyAdded(list, name, source) ==> r == list
  {
    if name != "" && !AlreadyAdded(list, name, source) then list + [Chosen(source, name)] else list
  }

  /** No (source, field) pair is ever chosen twice. */
  lemma AddKeepsDistinct(list: seq<Chosen>, name: string, source: string)
    requires forall i, j :: 0 <= i < j < |list| ==> list[i] != list[j]
    ensures var r := AddItem(list, name, source);
            forall i, j :: 0 <= i < j < |r| ==> r[i] != r[j]
  {
    var r := AddItem(list, name, source);
    if r != list {
      forall i, j | 0 <= i < j < |r|
        ensures r[i] != r[j]
      {
        if j == |list| {
          assert r[i] == list[i];
        }
      }
    }
  }

  /** `get_selected_fields`: the chosen list as (name, source) fields, in list order. */
  function SelectedFields(list: seq<Chosen>): (r: seq<Field>)
    ensures |r| == |list|
    ensures forall k :: 0 <= k < |list| ==> r[k].name == list[k].name && r[k].source == list[k].source
  {
    seq(|list|, k requires 0 <= k < |list| => Field(list[k].name, list[k].source))
  }

  /** The number of rows from `lo` up to `hi` that are not selected. */
  function Unselected(sel: set<int>, lo: int, hi: int): (r: nat)
    ensures lo <= hi ==> r == hi - lo - |set k | k in sel && lo <= k < hi|
    decreases hi - lo
  {
    if lo >= hi then 0
    else
      var rest := Unselected(sel, lo + 1, hi);
      assert (set k | k in sel && lo <= k < hi)
             == (set k | k in sel && lo + 1 <= k < hi) + (if lo in sel then {lo} else {});
      (if lo in sel then 0 else 1) + rest
  }

  /**
   * `_remove_selected_items`: the selected rows leave the list and the others stay in
   * their order: an unselected row lands after exactly the unselected rows above it, and
   * nothing else remains.
   */
  function RemoveRows<T>(list: seq<T>, sel: set<int>, from: nat): (r: seq<T>)
    requires from <= |list|
    ensures |r| == Unselected(sel, from, |list|)
    ensures forall i :: from <= i < |list| && i !in sel ==>
              Unselected(sel, from, i) < |r| && r[Unselected(sel, from, i)] == list[i]
    ensures forall x :: x in r ==> x in list[from..]
    decreases |list| - from
  {
    if from == |list| then []
    else
      var rest := RemoveRows(list, sel, from + 1);
      assert forall i :: from < i <= |list| ==>
               Unselected(sel, from, i) == (if from in sel then 0 else 1) + Unselected(sel, from + 1, i);
      (if from in sel then [] else [list[from]]) + rest
  }

  // ---------------------------------------------------------------------------
  // Moving the selected entries.

  /** The rows of a selection lie in the list. */
  predicate InRange(sel: set<int>, n: int) {
    forall s :: s in sel ==> 0 <= s < n
  }

  function Swap<T>(s: seq<T>, i: int, j: int): (r: seq<T>)
    requires 0 <= i < |s| && 0 <= j < |s|
    ensures |r| == |s| && multiset(r) == multiset(s)
    ensures r[i] == s[j] && r[j] == s[i]
    ensures forall k :: 0 <= k < |s| && k != i && k != j ==> r[k] == s[k]
  {
    s[i := s[j]][j := s[i]]
  }

  /** A non-empty selection needs a non-empty list. */
  lemma SelectionNeedsRows(sel: set<int>, n: int)
    requires InRange(sel, n)
    ensures sel == {} || n >= 1
  {
    if n < 1 {
      assert forall x :: x !in sel;
    }
  }

  /** Moving up, rows taken in ascending order: each selected row swaps with the one above. */
  function MoveUpFrom<T>(s: seq<T>, sel: set<int>, row: nat): (r: seq<T>)
    requires 1 <= row <= |s|
    ensures |r| == |s| && multiset(r) == multiset(s)
    decreases |s| - row
  {
    if row == |s| then s
    else MoveUpFrom(if row in sel then Swap(s, row - 1, row) else s, sel, row + 1)
  }

  /** `_move_items_up`: nothing happens without a selection or when the top row is selected. */
  function MoveUp<T>(s: seq<T>, sel: set<int>): (r: seq<T>)
    requires InRange(sel, |s|)
    ensures |r| == |s| && multiset(r) == multiset(s)
    ensures sel == {} || 0 in sel ==> r == s
  {
    if sel == {} || 0 in sel then s
    else
      assert |s| >= 1 by {
        SelectionNeedsRows(sel, |s|);
      }
      MoveUpFrom(s, sel, 1)
  }

  /** The unselected row whose entry ends up below a run of selected rows: the nearest unselected row at or above. */
  function Above(sel: set<int>, j: nat): (i: nat)
    requires 0 !in sel
    ensures i <= j && i !in sel
    ensures forall k :: i < k <= j ==> k in sel
  {
    if j !in sel then j else Above(sel, j - 1)
  }

  /** Where each entry lands when moving up: a selected entry one row higher, an unselected one below the run of selected rows beneath it. */
  function UpResult<T>(s: seq<T>, sel: set<int>, j: nat): T
    requires 0 !in sel && j < |s|
  {
    if j + 1 in sel && j + 1 < |s| then s[j + 1] else s[Above(sel, j)]
  }

  lemma {:induction false} MoveUpFromSpec<T>(items: seq<T>, cur: seq<T>, sel: set<int>, row: nat)
    requires 0 !in sel && InRange(sel, |items|)
    requires 1 <= row <= |items| && |cur| == |items|
    requires forall j :: 0 <= j < row - 1 ==> cur[j] == UpResult(items, sel, j)
    requires cur[row - 1] == items[Above(sel, row - 1)]
    requires forall j :: row <= j < |items| ==> cur[j] == items[j]
    ensures forall j :: 0 <= j < |items| ==> MoveUpFrom(cur, sel, row)[j] == UpResult(items, sel, j)
    decreases |items| - row
  {
    if row == |items| {
      assert row !in sel;
    } else if row in sel {
      var next := Swap(cur, row - 1, row);
      assert Above(sel, row) == Above(sel, row - 1);
      MoveUpFromSpec(items, next, sel, row + 1);
    } else {
      MoveUpFromSpec(items, cur, sel, row + 1);
    }
  }

  /**
   * Moving up, exactly: each selected entry goes one row up, and each unselected entry
   * goes down past the run of selected rows right below it.
   */
  lemma MoveUpSpec<T>(s: seq<T>, sel: set<int>)
    requires InRange(sel, |s|) && sel != {} && 0 !in sel
    ensures forall j :: 0 <= j < |s| ==> MoveUp(s, sel)[j] == UpResult(s, sel, j)
  {
    SelectionNeedsRows(sel, |s|);
    MoveUpFromSpec(s, s, sel, 1);
  }

  /** Each selected entry moves up one row. */
  lemma SelectedMoveUp<T>(s: seq<T>, sel: set<int>, row: int)
    requires InRange(sel, |s|) && 0 !in sel && row in sel
    ensures MoveUp(s, sel)[row - 1] == s[row]
  {
    MoveUpSpec(s, sel);
  }

  /** The row an unselected entry lands on when moving up: the last of the selected run below it. */
  function UpLanding(sel: set<int>, i: nat, n: nat): (p: nat)
    requires i < n
    ensures i <= p < n
    ensures forall k :: i < k <= p ==> k in sel
    ensures p + 1 == n || p + 1 !in sel
    decreases n - i
  {
    if i + 1 < n && i + 1 in sel then UpLanding(sel, i + 1, n) else i
  }

  /** Unselected entries land on increasing rows, so they keep their relative order. */
  lemma UnselectedKeepOrder<T>(s: seq<T>, sel: set<int>, i: int, j: int)
    requires InRange(sel, |s|) && sel != {} && 0 !in sel
    requires 0 <= i < j < |s| && i !in sel && j !in sel
    ensures UpLanding(sel, i, |s|) < UpLanding(sel, j, |s|)
    ensures MoveUp(s, sel)[UpLanding(sel, i, |s|)] == s[i]
    ensures MoveUp(s, sel)[UpLanding(sel, j, |s|)] == s[j]
  {
    MoveUpSpec(s, sel);
    LandingAbove(sel, i, |s|);
    LandingAbove(sel, j, |s|);
  }

  /** The nearest unselected row above an unselected entry's landing row is the entry's own row. */
  lemma LandingAbove(sel: set<int>, i: nat, n: nat)
    requires 0 !in sel && i < n && i !in sel
    ensures Above(sel, UpLanding(sel, i, n)) == i
    ensures UpLanding(sel, i, n) + 1 == n || UpLanding(sel, i, n) + 1 !in sel
  {
    var p := UpLanding(sel, i, n);
    AboveRun(sel, i, p);
  }

  lemma {:induction false} AboveRun(sel: set<int>, i: nat, p: nat)
    requires 0 !in sel && i <= p && i !in sel
    requires forall k :: i < k <= p ==> k in sel
    ensures Above(sel, p) == i
    decreases p
  {
    if p > i {
      AboveRun(sel, i, p - 1);
    }
  }

  /** Moving down, rows taken in descending order: each selected row swaps with the one below. */
  function MoveDownFrom<T>(s: seq<T>, sel: set<int>, row: int): (r: seq<T>)
    requires -1 <= row < |s| - 1
    ensures |r| == |s| && multiset(r) == multiset(s)
    decreases row + 1
  {
    if row < 0 then s
    else MoveDownFrom(if row in sel then Swap(s, row, row + 1) else s, sel, row - 1)
  }

  /** `_move_items_down`: nothing happens without a selection or when the bottom row is selected. */
  function MoveDown<T>(s: seq<T>, sel: set<int>): (r: seq<T>)
    requires InRange(sel, |s|)
    ensures |r| == |s| && multiset(r) == multiset(s)
    ensures sel == {} || |s| - 1 in sel ==> r == s
  {
    if sel == {} || |s| - 1 in sel then s
    else
      assert |s| >= 1 by {
        SelectionNeedsRows(sel, |s|);
      }
      MoveDownFrom(s, sel, |s| - 2)
  }

  /** The nearest unselected row at or below `j`. */
  function Below(sel: set<int>, j: nat, n: nat): (i: nat)
    requires j < n && n - 1 !in sel
    ensures j <= i < n && i !in sel
    ensures forall k :: j <= k < i ==> k in sel
    decreases n - j
  {
    if j !in sel then j else Below(sel, j + 1, n)
  }

  /** Where each entry lands when moving down. */
  function DownResult<T>(s: seq<T>, sel: set<int>, j: nat): T
    requires |s| - 1 !in sel && j < |s|
  {
    if j >= 1 && j - 1 in sel then s[j - 1] else s[Below(sel, j, |s|)]
  }

  /**
   * Part way through moving down, rows taken from the bottom: the rows below `row + 1`
   * hold their final entries, row `row + 1` the first unselected entry at or below it,
   * and the rows up to `row` are untouched.
   */
  ghost predicate DownSoFar<T>(items: seq<T>, cur: seq<T>, sel: set<int>, row: int)
    requires |items| - 1 !in sel
  {
    -1 <= row < |items| - 1 && |cur| == |items|
    && (forall j :: row + 1 < j < |items| ==> cur[j] == DownResult(items, sel, j))
    && cur[row + 1] == items[Below(sel, row + 1, |items|)]
    && (forall j :: 0 <= j <= row ==> cur[j] == items[j])
  }

  lemma {:induction false} MoveDownFromSpec<T>(items: seq<T>, cur: seq<T>, sel: set<int>, row: int)
    requires |items| - 1 !in sel && InRange(sel, |items|)
    requires DownSoFar(items, cur, sel, row)
    ensures forall j :: 0 <= j < |items| ==> MoveDownFrom(cur, sel, row)[j] == DownResult(items, sel, j)
    decreases row + 1
  {
    if row < 0 {
      assert 0 !in sel || 0 in sel;
    } else if row in sel {
      DownStepSelected(items, cur, sel, row);
      MoveDownFromSpec(items, Swap(cur, row, row + 1), sel, row - 1);
    } else {
      DownStepUnselected(items, cur, sel, row);
      MoveDownFromSpec(items, cur, sel, row - 1);
    }
  }

  /** A selected row swaps with the one below and the invariant moves up a row. */
  lemma DownStepSelected<T>(items: seq<T>, cur: seq<T>, sel: set<int>, row: int)
    requires |items| - 1 !in sel && DownSoFar(items, cur, sel, row) && 0 <= row && row in sel
    ensures DownSoFar(items, Swap(cur, row, row + 1), sel, row - 1)
  {
    var next := Swap(cur, row, row + 1);
    assert Below(sel, row, |items|) == Below(sel, row + 1, |items|);
    assert next[row + 1] == DownResult(items, sel, row + 1);
  }

  /** An unselected row stays and the invariant moves up a row. */
  lemma DownStepUnselected<T>(items: seq<T>, cur: seq<T>, sel: set<int>, row: int)
    requires |items| - 1 !in sel && DownSoFar(items, cur, sel, row) && 0 <= row && row !in sel
    ensures DownSoFar(items, cur, sel, row - 1)
  {
  }

  /** Moving down, exactly: each selected entry goes one row down, and each unselected one up past the selected run above it. */
  lemma MoveDownSpec<T>(s: seq<T>, sel: set<int>)
    requires InRange(sel, |s|) && sel != {} && |s| - 1 !in sel
    ensures forall j :: 0 <= j < |s| ==> MoveDown(s, sel)[j] == DownResult(s, sel, j)
  {
    SelectionNeedsRows(sel, |s|);
    assert DownSoFar(s, s, sel, |s| - 2);
    MoveDownFromSpec(s, s, sel, |s| - 2);
  }

  /** Each selected entry moves down one row. */
  lemma SelectedMoveDown<T>(s: seq<T>, sel: set<int>, row: int)
    requires InRange(sel, |s|) && |s| - 1 !in sel && row in sel
    ensures MoveDown(s, sel)[row + 1] == s[row]
  {
    MoveDownSpec(s, sel);
  }

  // ---------------------------------------------------------------------------
  // The output format.

  /** `get_export_format`: the first entry of the format combo is CSV, any other TSV. */
  function ExportFormat(index: int): (r: string)
    ensures r == "csv" || r == "tsv"
  {
    if index == 0 then "csv" else "tsv"
  }

  /** The field separator of the writer's dialect: tab for `tsv`, comma otherwise. */
  function Delimiter(format: string): char {
    if format == "tsv" then '\t' else ','
  }

  /** The report is comma-separated exactly when the first format entry is chosen. */
  lemma FormatSeparator(index: int)
    ensures Delimiter(ExportFormat(index)) == ',' <==> index == 0
    ensures Delimiter(ExportFormat(index)) == '\t' <==> index != 0
  {
  }
}

=== FILE: numbers.dfy ===
/**
 * Python's `int(...)`, `float(...)` and `str(...)` on the numbers the application stores.
 * A float read from a FITS card or typed into a search field is a finite decimal, so it is
 * modelled as `Decimal(m, places)` with value m / 10^places.
 */
module Numbers {
  import opened Wrappers
  import Text

  function Pow10(n: nat): (r: nat)
    ensures r >= 1
  {
    if n == 0 then 1 else 10 * Pow10(n - 1)
  }

  predicate IsDigit(c: char) {
    '0' <= c <= '9'
  }

  predicate AllDigits(s: string) {
    forall i :: 0 <= i < |s| ==> IsDigit(s[i])
  }

  function DigitChar(d: nat): (c: char)
    requires d < 10
    ensures IsDigit(c) && c as int - '0' as int == d
  {
    ('0' as int + d) as char
  }

  /** The value of a string of decimal digits, most significant first. */
  function DigitsValue(s: string): nat
    requires AllDigits(s)
  {
    if |s| == 0 then 0
    else 10 * DigitsValue(s[..|s| - 1]) + (s[|s| - 1] as int - '0' as int)
  }

  /** Decimal digits of `n` without leading zeros (`"0"` for zero). */
  function NatToString(n: nat): (s: string)
    ensures |s| >= 1 && AllDigits(s)
    ensures DigitsValue(s) == n
  {
    if n < 10 then [DigitChar(n)]
    else
      var s := NatToString(n / 10) + [DigitChar(n % 10)];
      assert s[..|s| - 1] == NatToString(n / 10);
      s
  }

  /** `str(i)` for a Python int. */
  function IntToString(i: int): (s: string)
    ensures |s| >= 1
    ensures i >= 0 ==> AllDigits(s)
    ensures i < 0 ==> s[0] == '-' && AllDigits(s[1..])
  {
    if i >= 0 then NatToString(i) else "-" + NatToString(-i)
  }

  /** An optional sign followed by at least one digit. */
  function ParseSignedDigits(s: string): (r: Option<int>)
    ensures r.Some? ==> |s| >= 1
  {
    if |s| >= 1 && s[0] == '-' then
      if |s| >= 2 && AllDigits(s[1..]) then Some(0 - DigitsValue(s[1..])) else None
    else if |s| >= 1 && s[0] == '+' then
      if |s| >= 2 && AllDigits(s[1..]) then Some(DigitsValue(s[1..])) else None
    else if |s| >= 1 && AllDigits(s) then Some(DigitsValue(s))
    else None
  }

  /**
   * `int(s)` for a string: surrounding whitespace, an optional sign and decimal digits.
   * `None` stands for the `ValueError` Python raises.
   */
  function ParseInt(s: string): (r: Option<int>)
    ensures r.Some? ==> exists k :: 0 <= k < |s| && IsDigit(s[k])
  {
    var t := Text.Strip(s);
    var r := ParseSignedDigits(t);
    if r.Some? then
      assert t == s[|s| - |Text.LStrip(s)|..][..|t|];
      ParseFoundDigit(t);
      var k :| 0 <= k < |t| && IsDigit(t[k]);
      assert s[|s| - |Text.LStrip(s)| + k] == t[k];
      r
    else r
  }

  lemma ParseFoundDigit(t: string)
    requires ParseSignedDigits(t).Some?
    ensures exists k :: 0 <= k < |t| && IsDigit(t[k])
  {
    if t[0] == '-' || t[0] == '+' {
      assert IsDigit(t[1]);
    } else {
      assert IsDigit(t[0]);
    }
  }

  lemma StripOfNoSpace(s: string)
    requires |s| >= 1 && !Text.IsSpace(s[0]) && !Text.IsSpace(s[|s| - 1])
    ensures Text.Strip(s) == s
  {
  }

  /** `int(str(i)) == i`. */
  lemma ParseIntToString(i: int)
    ensures ParseInt(IntToString(i)) == Some(i)
  {
    var s := IntToString(i);
    StripOfNoSpace(s);
    if i < 0 {
      assert s[1..] == NatToString(-i);
    }
  }

  /** A finite decimal m / 10^places. */
  datatype Decimal = Decimal(m: int, places: nat)

  function Value(d: Decimal): real {
    d.m as real / Pow10(d.places) as real
  }

  function FromInt(i: int): Decimal {
    Decimal(i, 0)
  }

  /** A whole number keeps its value as a decimal with no places. */
  lemma FromIntValue(i: int)
    ensures Value(FromInt(i)) == i as real
  {
  }

  /** `int(x)` for a float: truncation toward zero. */
  function Truncate(d: Decimal): (r: int)
    ensures d.m >= 0 ==> r >= 0 && TruncNatSpec(d.m, Pow10(d.places), r)
    ensures d.m < 0 ==> r <= 0 && TruncNatSpec(-d.m, Pow10(d.places), -r)
  {
    if d.m >= 0 then TruncNat(d.m, Pow10(d.places)) as int else 0 - TruncNat(-d.m, Pow10(d.places))
  }

  /** Truncating a whole number gives it back. */
  lemma TruncateWhole(i: int)
    ensures Truncate(FromInt(i)) == i
  {
    assert Pow10(0) == 1;
  }

  /** `q` is the whole number of times `p` fits in `a`. */
  predicate TruncNatSpec(a: nat, p: nat, q: int) {
    q * p <= a < (q + 1) * p
  }

  function TruncNat(a: nat, p: nat): (q: nat)
    requires p >= 1
    ensures TruncNatSpec(a, p, q)
  {
    DivBounds(a, p);
    a / p
  }

  lemma DivBounds(a: nat, p: nat)
    requires p >= 1
    ensures a / p >= 0
    ensures (a / p) * p <= a < (a / p + 1) * p
  {
    var q := a / p;
    assert a == q * p + a % p;
    assert (q + 1) * p == q * p + p;
  }

  /** Drops trailing fractional zeros: the shortest decimal with the same value. */
  function Normalize(d: Decimal): (r: Decimal)
    ensures Value(r) == Value(d)
    ensures r.places == 0 || r.m % 10 != 0
    decreases d.places
  {
    if d.places > 0 && d.m % 10 == 0 then
      ScaleDown(d.m / 10, d.places - 1);
      assert (d.m / 10) * 10 == d.m;
      Normalize(Decimal(d.m / 10, d.places - 1))
    else d
  }

  lemma ScaleDown(k: int, p: nat)
    ensures Value(Decimal(k * 10, p + 1)) == Value(Decimal(k, p))
  {
    var q := Pow10(p) as real;
    assert Pow10(p + 1) as real == 10.0 * q;
    assert (k * 10) as real == k as real * 10.0;
    assert (k as real * 10.0) / (10.0 * q) == k as real / q;
  }

  /** A string of `n` zero digits. */
  function Zeros(n: nat): (s: string)
    ensures |s| == n && AllDigits(s) && DigitsValue(s) == 0
  {
    if n == 0 then [] else
      var s := Zeros(n - 1) + "0";
      assert s[..|s| - 1] == Zeros(n - 1);
      s
  }

  lemma {:induction false} DigitsValueConcat(x: string, y: string)
    requires AllDigits(x) && AllDigits(y)
    ensures AllDigits(x + y)
    ensures DigitsValue(x + y) == DigitsValue(x) * Pow10(|y|) + DigitsValue(y)
    decreases |y|
  {
    AllDigitsConcat(x, y);
    if |y| > 0 {
      var y' := y[..|y| - 1];
      var c := y[|y| - 1] as int - '0' as int;
      AllDigitsPrefix(y, |y| - 1);
      assert (x + y)[..|x + y| - 1] == x + y';
      assert (x + y)[|x + y| - 1] == y[|y| - 1];
      DigitsValueConcat(x, y');
      assert DigitsValue(x + y) == 10 * DigitsValue(x + y') + c;
      assert DigitsValue(y) == 10 * DigitsValue(y') + c;
      assert Pow10(|y|) == 10 * Pow10(|y'|);
      ShiftDigit(DigitsValue(x), Pow10(|y'|), DigitsValue(y'), c);
    } else {
      assert x + y == x;
    }
  }

  lemma AllDigitsConcat(x: string, y: string)
    requires AllDigits(x) && AllDigits(y)
    ensures AllDigits(x + y)
  {
    forall i | 0 <= i < |x + y|
      ensures IsDigit((x + y)[i])
    {
      if i < |x| {
        assert (x + y)[i] == x[i];
      } else {
        assert (x + y)[i] == y[i - |x|];
      }
    }
  }

  lemma AllDigitsPrefix(s: string, n: nat)
    requires AllDigits(s) && n <= |s|
    ensures AllDigits(s[..n])
  {
  }

  /** Appending one digit multiplies what comes before it by ten. */
  lemma ShiftDigit(a: int, q: int, d: int, c: int)
    ensures 10 * (a * q + d) + c == a * (10 * q) + (10 * d + c)
  {
  }

  /**
   * `str(x)` for a float: the sign, the integer part, a point, and the fractional digits
   * of the shortest form, with at least one digit after the point (`30.0`, `-18.5`).
   */
  function DecimalToString(d: Decimal): (s: string)
    ensures '.' in s
  {
    SignedText(Normalize(d))
  }

  function SignedText(n: Decimal): (s: string)
    ensures '.' in s
  {
    if n.m < 0 then "-" + UnsignedText(-n.m, n.places) else UnsignedText(n.m, n.places)
  }

  /** The positional text of a / 10^places, without sign. */
  function UnsignedText(a: nat, places: nat): (s: string)
    ensures '.' in s
    ensures |s| >= 3 && IsDigit(s[0]) && IsDigit(s[|s| - 1])
  {
    var digits := NatToString(a);
    if places == 0 then
      var s := digits + ".0";
      assert s[|digits|] == '.';
      s
    else
      var padded := Padded(a, places);
      var k := |padded| - places;
      var s := padded[..k] + "." + padded[k..];
      assert s[k] == '.';
      s
  }
  /** The digits of `a` with zeros in front, so that more than `places` digits remain. */
  function Padded(a: nat, places: nat): (s: string)
    ensures AllDigits(s) && |s| > places
    ensures DigitsValue(s) == a
  {
    var digits := NatToString(a);
    if |digits| <= places then
      var z := Zeros(places + 1 - |digits|);
      DigitsValueConcat(z, digits);
      assert DigitsValue(z) * Pow10(|digits|) == 0;
      z + digits
    else digits
  }

  /** Digits, a point and digits, with at least one digit overall. */
  function ParseUnsignedDecimal(s: string): (r: Option<Decimal>)
  {
    match Text.IndexOf(s, '.')
    case None =>
      if |s| >= 1 && AllDigits(s) then Some(Decimal(DigitsValue(s), 0)) else None
    case Some(i) =>
      var ip := s[..i];
      var fp := s[i + 1..];
      if AllDigits(ip) && AllDigits(fp) && |ip| + |fp| >= 1 then Some(PointValue(ip, fp))
      else None
  }

  /** The value of `ip.fp`: all the digits read as one integer, over ten to the number of fractional digits. */
  function PointValue(ip: string, fp: string): Decimal
    requires AllDigits(ip) && AllDigits(fp)
  {
    Decimal(DigitsValue(ip) * Pow10(|fp|) + DigitsValue(fp), |fp|)
  }

  function Negate(d: Decimal): Decimal {
    Decimal(-d.m, d.places)
  }

  /**
   * `float(s)` for a string in plain positional notation with an optional sign and
   * surrounding whitespace. `None` stands for the `ValueError` Python raises.
   */
  function ParseDecimal(s: string): (r: Option<Decimal>)
  {
    var t := Text.Strip(s);
    if |t| >= 1 && t[0] == '-' then
      match ParseUnsignedDecimal(t[1..])
      case Some(d) => Some(Negate(d))
      case None => None
    else if |t| >= 1 && t[0] == '+' then ParseUnsignedDecimal(t[1..])
    else ParseUnsignedDecimal(t)
  }

  /** Text without surrounding space or a sign is read as an unsigned decimal. */
  lemma ParseDecimalUnsigned(s: string)
    requires |s| >= 1 && !Text.IsSpace(s[0]) && !Text.IsSpace(s[|s| - 1])
    requires s[0] != '-' && s[0] != '+'
    ensures ParseDecimal(s) == ParseUnsignedDecimal(s)
  {
    StripOfNoSpace(s);
  }

  /** `float` of a plain run of digits is that whole number. */
  lemma ParseDecimalWhole(s: string)
    requires |s| >= 1 && AllDigits(s)
    ensures ParseDecimal(s) == Some(Decimal(DigitsValue(s), 0))
  {
    StripOfNoSpace(s);
  }

  /** The decimal `float` reads back from the rendering of `n`: `n` itself, with one zero place added to a whole number. */
  function Rendered(n: Decimal): (r: Decimal)
    ensures r.places >= 1
  {
    if n.places == 0 then Decimal(n.m * 10, 1) else n
  }

  lemma RenderedValue(n: Decimal)
    ensures Value(Rendered(n)) == Value(n)
  {
    if n.places == 0 {
      ScaleDown(n.m, 0);
    }
  }

  lemma UnsignedExact(a: nat, places: nat)
    ensures ParseUnsignedDecimal(UnsignedText(a, places)) == Some(Rendered(Decimal(a, places)))
  {
    if places == 0 {
      WholeRoundTrip(a);
    } else {
      FractionRoundTrip(a, places);
    }
  }

  lemma WholeRoundTrip(a: nat)
    ensures ParseUnsignedDecimal(UnsignedText(a, 0)) == Some(Decimal(a * 10, 1))
  {
    var digits := NatToString(a);
    assert UnsignedText(a, 0) == digits + "." + "0";
    assert DigitsValue("0") == 0;
    ParsePointed(digits, "0");
  }

  lemma FractionRoundTrip(a: nat, places: nat)
    requires places > 0
    ensures ParseUnsignedDecimal(UnsignedText(a, places)) == Some(Decimal(a, places))
  {
    var padded := Padded(a, places);
    var k := |padded| - places;
    var ip, fp := padded[..k], padded[k..];
    FractionText(a, places);
    SplitDigits(padded, k);
    ParsePointed(ip, fp);
  }

  lemma FractionText(a: nat, places: nat)
    requires places > 0
    ensures var padded := Padded(a, places);
            UnsignedText(a, places) == padded[..|padded| - places] + "." + padded[|padded| - places..]
  {
  }

  /** Cutting a digit string in two and reading it as `ip.fp` scales its value down by the fractional digits. */
  lemma SplitDigits(s: string, k: nat)
    requires AllDigits(s) && k <= |s|
    ensures AllDigits(s[..k]) && AllDigits(s[k..])
    ensures PointValue(s[..k], s[k..]) == Decimal(DigitsValue(s), |s| - k)
  {
    var ip, fp := s[..k], s[k..];
    AllDigitsPrefix(s, k);
    AllDigitsSuffix(s, k);
    DigitsValueConcat(ip, fp);
    assert ip + fp == s;
  }

  lemma AllDigitsSuffix(s: string, k: nat)
    requires AllDigits(s) && k <= |s|
    ensures AllDigits(s[k..])
  {
    forall i | 0 <= i < |s| - k
      ensures IsDigit(s[k..][i])
    {
      assert s[k..][i] == s[k + i];
    }
  }

  /** Digits, a point and digits read back as the digits' value over the power of ten. */
  lemma ParsePointed(ip: string, fp: string)
    requires AllDigits(ip) && AllDigits(fp) && |ip| >= 1
    ensures ParseUnsignedDecimal(ip + "." + fp) == Some(PointValue(ip, fp))
  {
    var body := ip + "." + fp;
    IndexOfAfter(ip, fp);
    assert body[..|ip|] == ip;
    assert body[|ip| + 1..] == fp;
  }

  lemma IndexOfAfter(ip: string, frac: string)
    requires AllDigits(ip)
    ensures Text.IndexOf(ip + "." + frac, '.') == Some(|ip|)
  {
    assert '.' !in ip by {
      forall k | 0 <= k < |ip|
        ensures ip[k] != '.'
      {
        assert IsDigit(ip[k]);
      }
    }
    Text.IndexOfAfter(ip, '.', frac);
  }

  /** `float(str(x)) == x`: reading back the rendering of a decimal gives the same value. */
  lemma ParseDecimalToString(d: Decimal)
    ensures ParseDecimal(DecimalToString(d)).Some?
    ensures Value(ParseDecimal(DecimalToString(d)).value) == Value(d)
  {
    SignedRoundTrip(Normalize(d));
  }

  lemma SignedRoundTrip(n: Decimal)
    ensures ParseDecimal(SignedText(n)).Some?
    ensures Value(ParseDecimal(SignedText(n)).value) == Value(n)
  {
    SignedExact(n);
    RenderedValue(n);
  }

  lemma SignedExact(n: Decimal)
    ensures ParseDecimal(SignedText(n)) == Some(Rendered(n))
  {
    if n.m < 0 {
      NegativeExact(n);
    } else {
      NonNegativeExact(n);
    }
  }

  lemma NegativeExact(n: Decimal)
    requires n.m < 0
    ensures ParseDecimal(SignedText(n)) == Some(Rendered(n))
  {
    var body := UnsignedText(-n.m, n.places);
    UnsignedExact(-n.m, n.places);
    var e := Rendered(Decimal(-n.m, n.places));
    NegativeParse(body, e);
    assert Negate(e) == Rendered(n);
    assert ParseDecimal("-" + body) == Some(Rendered(n));
    assert SignedText(n) == "-" + body;
  }

  lemma NonNegativeExact(n: Decimal)
    requires n.m >= 0
    ensures ParseDecimal(SignedText(n)) == Some(Rendered(n))
  {
    var body := UnsignedText(n.m, n.places);
    UnsignedExact(n.m, n.places);
    StripOfNoSpace(body);
    assert SignedText(n) == body;
  }

  /** A minus sign in front of an unsigned decimal text negates the value read. */
  lemma NegativeParse(body: string, e: Decimal)
    requires |body| >= 1 && IsDigit(body[|body| - 1])
    requires ParseUnsignedDecimal(body) == Some(e)
    ensures ParseDecimal("-" + body) == Some(Negate(e))
  {
    var s := "-" + body;
    StripOfNoSpace(s);
    assert s[1..] == body;
  }
}

=== FILE: projects.dfy ===
/**
 * Projects: the edit dialog's pending link changes (photonfinder/ui/ProjectEditDialog.py)
 * and the project window's merge, delete and action enabling (photonfinder/ui/ProjectsWindow.py).
 */
module Projects {
  import opened Wrappers
  import opened Text
  import Catalogue

  // ---------------------------------------------------------------------------
  // The edit dialog.

  /** The key a link has in a Python set: `__hash__`, which decides `__eq__` too. */
  function Key(l: Catalogue.ProjectFile): Catalogue.LinkHash {
    Catalogue.LinkHashOf(l)
  }

  /** Two links are equal exactly when their keys are, so a set of links is a map from keys. */
  lemma KeyIsEquality(a: Catalogue.ProjectFile, b: Catalogue.ProjectFile)
    ensures Catalogue.LinkEq(a, b) <==> Key(a) == Key(b)
  {
  }

  /** A Python set of links: each key with the first link added under it. */
  type Pending = map<Catalogue.LinkHash, Catalogue.ProjectFile>

  /** The dialog: the stored name, the edited name, the stored links, and the two pending sets. */
  datatype EditState = EditState(projectName: string, nameText: string, projectFiles: seq<Catalogue.ProjectFile>,
                                 toDelete: Pending, toAdd: Pending)

  /** A stored link has this key. */
  predicate Stored(st: EditState, k: Catalogue.LinkHash) {
    exists i :: 0 <= i < |st.projectFiles| && Key(st.projectFiles[i]) == k
  }

  /** The table shows a link: stored and not marked for deletion, or queued for adding. */
  predicate Shown(st: EditState, k: Catalogue.LinkHash) {
    (Stored(st, k) && k !in st.toDelete) || k in st.toAdd
  }

  /** The stored links that are not marked for deletion, in stored order: the first part of the table. */
  function Kept(files: seq<Catalogue.ProjectFile>, toDelete: Pending): (r: seq<Catalogue.ProjectFile>)
    ensures forall x :: x in r <==> x in files && Key(x) !in toDelete
  {
    if |files| == 0 then []
    else (if Key(files[0]) in toDelete then [] else [files[0]]) + Kept(files[1..], toDelete)
  }

  /** `set.add`: a link equal to one already there is not added again. */
  function Add(m: Pending, l: Catalogue.ProjectFile): (r: Pending)
    ensures r.Keys == m.Keys + {Key(l)}
  {
    if Key(l) in m then m else m[Key(l) := l]
  }

  /** `set.update` with a list of links. */
  function AddAll(m: Pending, ls: seq<Catalogue.ProjectFile>): (r: Pending)
    ensures r.Keys == m.Keys + set x | x in ls :: Key(x)
    decreases |ls|
  {
    if |ls| == 0 then m
    else
      var r := AddAll(Add(m, ls[0]), ls[1..]);
      assert forall x :: x in ls <==> x == ls[0] || x in ls[1..];
      r
  }

  /** `delete_selected`: the selection leaves the add queue and is marked for deletion. */
  function DeleteSelected(st: EditState, sel: seq<Catalogue.ProjectFile>): (r: EditState)
    ensures r.toAdd.Keys == st.toAdd.Keys - set x | x in sel :: Key(x)
    ensures r.toDelete.Keys == st.toDelete.Keys + set x | x in sel :: Key(x)
    ensures r.projectFiles == st.projectFiles && r.nameText == st.nameText && r.projectName == st.projectName
  {
    var keys := set x | x in sel :: Key(x);
    st.(toAdd := st.toAdd - keys, toDelete := AddAll(st.toDelete, sel))
  }

  /** `add_file`: queue the link unless it is stored, and clear its deletion mark. */
  function AddFile(st: EditState, l: Catalogue.ProjectFile): (r: EditState)
    ensures r.toDelete.Keys == st.toDelete.Keys - {Key(l)}
    ensures r.toAdd.Keys == if Stored(st, Key(l)) then st.toAdd.Keys else st.toAdd.Keys + {Key(l)}
    ensures r.projectFiles == st.projectFiles && r.nameText == st.nameText && r.projectName == st.projectName
  {
    st.(toAdd := if Stored(st, Key(l)) then st.toAdd else Add(st.toAdd, l),
        toDelete := st.toDelete - {Key(l)})
  }

  /** Deleting hides every selected link and leaves the rest of the table as it was. */
  lemma DeleteHides(st: EditState, sel: seq<Catalogue.ProjectFile>, k: Catalogue.LinkHash)
    ensures var r := DeleteSelected(st, sel);
            if exists x :: x in sel && Key(x) == k then !Shown(r, k) else Shown(r, k) == Shown(st, k)
  {
    var r := DeleteSelected(st, sel);
    assert Stored(r, k) == Stored(st, k);
  }

  /** Adding a link shows it and leaves the rest of the table as it was. */
  lemma AddShows(st: EditState, l: Catalogue.ProjectFile, k: Catalogue.LinkHash)
    ensures Shown(AddFile(st, l), Key(l))
    ensures k != Key(l) ==> Shown(AddFile(st, l), k) == Shown(st, k)
  {
    assert Stored(AddFile(st, l), k) == Stored(st, k);
    assert Stored(AddFile(st, l), Key(l)) == Stored(st, Key(l));
  }

  /** `dirty`: the name was edited or a change is pending. */
  predicate Dirty(st: EditState) {
    !(st.nameText == st.projectName && |st.toDelete| == 0 && |st.toAdd| == 0)
  }

  /** `reload_data`: the stored name back in the editor and nothing pending. */
  function Reload(st: EditState): (r: EditState)
    ensures !Dirty(r)
    ensures forall k :: Shown(r, k) <==> Stored(st, k)
  {
    var r := st.(nameText := st.projectName, toDelete := map[], toAdd := map[]);
    assert forall k :: Stored(r, k) == Stored(st, k);
    r
  }

  /** Deleting a stored link and adding it back leaves a clean dialog clean. */
  lemma DeleteThenAddRestores(st: EditState, l: Catalogue.ProjectFile)
    requires !Dirty(st) && l in st.projectFiles
    ensures !Dirty(AddFile(DeleteSelected(st, [l]), l))
  {
    var d := DeleteSelected(st, [l]);
    assert Stored(d, Key(l)) by {
      var i :| 0 <= i < |st.projectFiles| && st.projectFiles[i] == l;
    }
    assert (set x | x in [l] :: Key(x)) == {Key(l)};
    var r := AddFile(d, l);
    assert r.toDelete.Keys == {} && r.toAdd.Keys == {};
  }

  /** What a save writes in one transaction: the project's name and change time, the deletions, the additions. */
  datatype Transaction = Transaction(name: string, lastChange: int, deletions: set<Catalogue.ProjectFile>,
                                     additions: set<Catalogue.ProjectFile>)

  /** `save_data_and_close`: a transaction only when something changed; the dialog closes either way. */
  function Save(st: EditState, now: int): (r: Option<Transaction>)
    ensures r.Some? <==> Dirty(st)
    ensures r.Some? ==> r.value.name == st.nameText && r.value.lastChange == now
                        && r.value.additions == st.toAdd.Values && r.value.deletions == st.toDelete.Values
  {
    if !Dirty(st) then None
    else Some(Transaction(st.nameText, now, st.toDelete.Values, st.toAdd.Values))
  }

  /**
   * `add_files`: each chosen path is looked up in the catalogue; a path without a match is
   * reported as a mismatch, a match is added.
   */
  function AddFiles(st: EditState, paths: seq<string>, find: string -> Option<Catalogue.ProjectFile>)
    : (r: (EditState, seq<string>))
    ensures forall p :: p in r.1 <==> p in paths && find(p).None?
    ensures forall p :: p in paths && find(p).Some? ==> Shown(r.0, Key(find(p).value))
    ensures r.0.projectFiles == st.projectFiles
    decreases |paths|
  {
    if |paths| == 0 then (st, [])
    else
      var last := paths[|paths| - 1];
      var (before, mismatches) := AddFiles(st, paths[..|paths| - 1], find);
      assert forall p :: p in paths <==> p in paths[..|paths| - 1] || p == last by {
        assert paths == paths[..|paths| - 1] + [last];
      }
      match find(last)
      case None => (before, mismatches + [last])
      case Some(l) =>
        var after := AddFile(before, l);
        AddShows(before, l, Key(l));
        forall k | Shown(before, k)
          ensures Shown(after, k)
        {
          AddShows(before, l, k);
        }
        (after, mismatches)
  }

  // ---------------------------------------------------------------------------
  // The projects window.

  /** A project row. */
  datatype Project = Project(rowid: int, name: string)

  /** A stored link: its row id, its project and its file. */
  datatype Link = Link(rowid: int, project: int, file: int)

  /** The unique index on (project, file). */
  predicate UniqueLinks(links: seq<Link>) {
    forall i, j :: 0 <= i < j < |links| ==> Pair(links[i]) != Pair(links[j])
  }

  /** The project table in row id order. */
  predicate ByRowid(ps: seq<Project>) {
    forall i, j :: 0 <= i < j < |ps| ==> ps[i].rowid < ps[j].rowid
  }

  /** The selected projects, in table order. */
  function Selected(ps: seq<Project>, ids: set<int>): (r: seq<Project>)
    ensures forall p :: p in r <==> p in ps && p.rowid in ids
  {
    if |ps| == 0 then []
    else
      assert forall p :: p in ps <==> p == ps[0] || p in ps[1..];
      (if ps[0].rowid in ids then [ps[0]] else []) + Selected(ps[1..], ids)
  }

  /** With the table in row id order, the first selected project has the smallest row id of the selection. */
  lemma {:induction false} LeaderIsSmallest(ps: seq<Project>, ids: set<int>)
    requires ByRowid(ps)
    ensures |Selected(ps, ids)| > 0 ==>
              forall p :: p in ps && p.rowid in ids ==> Selected(ps, ids)[0].rowid <= p.rowid
  {
    if |ps| > 0 {
      var rest := Selected(ps[1..], ids);
      assert ByRowid(ps[1..]);
      LeaderIsSmallest(ps[1..], ids);
      forall p | p in ps && p.rowid in ids
        ensures Selected(ps, ids)[0].rowid <= p.rowid
      {
        if p != ps[0] {
          var j :| 0 <= j < |ps| && ps[j] == p;
          assert j > 0 && ps[1..][j - 1] == p;
          assert ps[0].rowid < p.rowid;
        }
      }
    }
  }

  function Names(ps: seq<Project>): seq<string> {
    seq(|ps|, k requires 0 <= k < |ps| => ps[k].name)
  }

  /** Every link of a merged project points at the leader instead. */
  function Repoint(links: seq<Link>, ids: set<int>, leader: int): (r: seq<Link>)
    ensures |r| == |links|
    ensures forall i :: 0 <= i < |links| ==>
              r[i] == if links[i].project in ids then links[i].(project := leader) else links[i]
  {
    seq(|links|, i requires 0 <= i < |links| => if links[i].project in ids then links[i].(project := leader) else links[i])
  }

  /** The project table after a merge: the leader renamed, the other selected projects gone. */
  function MergedProjects(ps: seq<Project>, ids: set<int>, leader: Project, name: string): (r: seq<Project>)
    ensures forall p :: p in r ==> p.rowid !in ids || p == leader.(name := name)
    ensures forall p :: p in ps && p.rowid !in ids ==> p in r
    ensures leader in ps && leader.rowid in ids ==> leader.(name := name) in r
  {
    if |ps| == 0 then []
    else
      var rest := MergedProjects(ps[1..], ids, leader, name);
      assert forall p :: p in ps <==> p == ps[0] || p in ps[1..];
      if ps[0].rowid !in ids then [ps[0]] + rest
      else if ps[0] == leader then [leader.(name := name)] + rest
      else rest
  }

  /** The project name must stay unique: another project already has the merged name. */
  predicate NameTaken(ps: seq<Project>, leader: Project, name: string) {
    exists i :: 0 <= i < |ps| && ps[i].rowid != leader.rowid && ps[i].name == name
  }

  /**
   * `merge_action` as written: the leader is the selected project with the smallest row
   * id, it takes the comma-join of the selected names, every link of the other selected
   * projects is re-pointed to it, and those projects are deleted. The unique indexes make
   * the transaction fail when the name is taken or when a re-pointed link duplicates one.
   */
  function MergeAsWritten(ps: seq<Project>, links: seq<Link>, ids: set<int>)
    : (r: Result<(seq<Project>, seq<Link>), string>)
    ensures r.Success? ==> |r.value.1| == |links|
    ensures r.Success? ==> UniqueLinks(r.value.1)
  {
    var sel := Selected(ps, ids);
    if |sel| == 0 then Failure("IndexError")
    else
      var leader := sel[0];
      var name := Join(Names(sel), ",");
      var moved := Repoint(links, ids, leader.rowid);
      if NameTaken(ps, leader, name) || !UniqueLinks(moved) then Failure("IntegrityError")
      else Success((MergedProjects(ps, ids, leader, name), moved))
  }

  /** As written, merging two projects that share a file fails: the re-pointed links collide. */
  lemma SharedFileBlocksMerge(ps: seq<Project>, links: seq<Link>, ids: set<int>, i: int, j: int)
    requires 0 <= i < |links| && 0 <= j < |links| && i != j
    requires links[i].project in ids && links[j].project in ids && links[i].file == links[j].file
    ensures MergeAsWritten(ps, links, ids).Failure?
  {
    var sel := Selected(ps, ids);
    if |sel| > 0 {
      var moved := Repoint(links, ids, sel[0].rowid);
      if i < j {
        assert Pair(moved[i]) == Pair(moved[j]);
      } else {
        assert Pair(moved[j]) == Pair(moved[i]);
      }
    }
  }

  /** The smallest instance: projects 1 and 2 both hold file 7. */
  lemma SharedFileExample()
    ensures MergeAsWritten([Project(1, "M31"), Project(2, "Andromeda")],
                           [Link(10, 1, 7), Link(11, 2, 7)], {1, 2}).Failure?
  {
    SharedFileBlocksMerge([Project(1, "M31"), Project(2, "Andromeda")], [Link(10, 1, 7), Link(11, 2, 7)], {1, 2}, 0, 1);
  }

  /** The (project, file) pair the unique index is on. */
  function Pair(l: Link): (int, int) {
    (l.project, l.file)
  }

  /** The links whose pair is not in `seen`, the first of each pair kept. */
  function DedupFrom(links: seq<Link>, seen: set<(int, int)>): (r: seq<Link>)
    ensures forall l :: l in r ==> l in links && Pair(l) !in seen
    ensures forall l :: l in links ==> Pair(l) in seen || Holds(r, l.project, l.file)
    ensures UniqueLinks(r)
    decreases |links|
  {
    if |links| == 0 then []
    else
      assert forall l :: l in links <==> l == links[0] || l in links[1..];
      if Pair(links[0]) in seen then DedupFrom(links[1..], seen)
      else
        var rest := DedupFrom(links[1..], seen + {Pair(links[0])});
        ConsUnique(links[0], rest);
        [links[0]] + rest
  }

  lemma ConsUnique(l: Link, rest: seq<Link>)
    requires UniqueLinks(rest)
    requires forall m :: m in rest ==> Pair(m) != Pair(l)
    ensures UniqueLinks([l] + rest)
  {
    var r := [l] + rest;
    forall i, j | 0 <= i < j < |r|
      ensures Pair(r[i]) != Pair(r[j])
    {
      assert r[j] == rest[j - 1];
      if i > 0 {
        assert r[i] == rest[i - 1];
      } else {
        assert rest[j - 1] in rest;
      }
    }
  }

  /** The links with the first of each (project, file) pair kept. */
  function Dedup(links: seq<Link>): (r: seq<Link>)
    ensures UniqueLinks(r)
    ensures forall l :: l in r ==> l in links
    ensures forall l :: l in links ==> Holds(r, l.project, l.file)
  {
    DedupFrom(links, {})
  }

  /**
   * The merge with the duplicate links of the merged projects dropped: the leader keeps one
   * link per file any selected project held, and only a taken name makes it fail.
   */
  function Merge(ps: seq<Project>, links: seq<Link>, ids: set<int>): (r: Result<(seq<Project>, seq<Link>), string>)
    ensures r.Success? ==> UniqueLinks(r.value.1)
    ensures r.Failure? <==> |Selected(ps, ids)| == 0
                            || NameTaken(ps, Selected(ps, ids)[0], Join(Names(Selected(ps, ids)), ","))
  {
    var sel := Selected(ps, ids);
    if |sel| == 0 then Failure("IndexError")
    else
      var leader := sel[0];
      var name := Join(Names(sel), ",");
      if NameTaken(ps, leader, name) then Failure("IntegrityError")
      else Success((MergedProjects(ps, ids, leader, name), Dedup(Repoint(links, ids, leader.rowid))))
  }

  /** A list that already satisfies the unique index loses nothing to deduplication. */
  lemma {:induction false} DedupFromUnique(links: seq<Link>, seen: set<(int, int)>)
    requires UniqueLinks(links)
    requires forall l :: l in links ==> Pair(l) !in seen
    ensures DedupFrom(links, seen) == links
    decreases |links|
  {
    if |links| > 0 {
      var t := links[1..];
      assert UniqueLinks(t) by {
        forall i, j | 0 <= i < j < |t|
          ensures Pair(t[i]) != Pair(t[j])
        {
          assert t[i] == links[i + 1] && t[j] == links[j + 1];
        }
      }
      forall l | l in t
        ensures Pair(l) !in seen + {Pair(links[0])}
      {
        var j :| 0 <= j < |t| && t[j] == l;
        assert links[j + 1] == l;
      }
      DedupFromUnique(t, seen + {Pair(links[0])});
    }
  }

  /** Where the merge as written succeeds, the corrected merge does exactly the same. */
  lemma MergeAgreesWhenNoFileShared(ps: seq<Project>, links: seq<Link>, ids: set<int>)
    requires MergeAsWritten(ps, links, ids).Success?
    ensures Merge(ps, links, ids) == MergeAsWritten(ps, links, ids)
  {
    var sel := Selected(ps, ids);
    DedupFromUnique(Repoint(links, ids, sel[0].rowid), {});
  }

  /** A project holds a file. */
  predicate Holds(links: seq<Link>, project: int, file: int) {
    exists l :: l in links && l.project == project && l.file == file
  }

  /** A file held after re-pointing and dropping duplicates was held by the project itself or by a merged one. */
  lemma RepointedHoldsOnlyOriginals(links: seq<Link>, ids: set<int>, leader: int, q: int, file: int)
    requires Holds(Dedup(Repoint(links, ids, leader)), q, file)
    ensures (q == leader && exists p :: p in ids && Holds(links, p, file)) || (q !in ids && Holds(links, q, file))
  {
    var moved := Repoint(links, ids, leader);
    var m :| m in Dedup(moved) && m.project == q && m.file == file;
    assert m in moved;
    var i :| 0 <= i < |moved| && moved[i] == m;
    assert links[i] in links;
  }

  /** Every original link is still held after re-pointing and dropping duplicates. */
  lemma RepointedKeepsOriginals(links: seq<Link>, ids: set<int>, leader: int, l: Link)
    requires l in links
    ensures Holds(Dedup(Repoint(links, ids, leader)), if l.project in ids then leader else l.project, l.file)
  {
    var moved := Repoint(links, ids, leader);
    var i :| 0 <= i < |links| && links[i] == l;
    assert moved[i] in moved;
  }

  /**
   * After re-pointing and dropping duplicates the leader holds exactly the files some merged
   * project held, an unmerged project holds what it held, and the other merged ones hold nothing.
   */
  lemma RepointedHolds(links: seq<Link>, ids: set<int>, leader: int, q: int, file: int)
    requires leader in ids
    ensures Holds(Dedup(Repoint(links, ids, leader)), q, file)
            <==> (q == leader && exists p :: p in ids && Holds(links, p, file)) || (q !in ids && Holds(links, q, file))
  {
    if Holds(Dedup(Repoint(links, ids, leader)), q, file) {
      RepointedHoldsOnlyOriginals(links, ids, leader, q, file);
    }
    if q == leader && exists p :: p in ids && Holds(links, p, file) {
      var p :| p in ids && Holds(links, p, file);
      var l :| l in links && l.project == p && l.file == file;
      RepointedKeepsOriginals(links, ids, leader, l);
    }
    if q !in ids && Holds(links, q, file) {
      var l :| l in links && l.project == q && l.file == file;
      RepointedKeepsOriginals(links, ids, leader, l);
    }
  }

  /**
   * After the corrected merge the leader holds exactly the files some selected project
   * held, an unselected project holds what it held, and the other selected ones hold nothing.
   */
  lemma MergeUnitesFiles(ps: seq<Project>, links: seq<Link>, ids: set<int>, q: int, file: int)
    requires Merge(ps, links, ids).Success?
    ensures Holds(Merge(ps, links, ids).value.1, q, file)
            <==> (q == Selected(ps, ids)[0].rowid && exists p :: p in ids && Holds(links, p, file))
                 || (q !in ids && Holds(links, q, file))
  {
    var sel := Selected(ps, ids);
    assert sel[0] in sel;
    RepointedHolds(links, ids, sel[0].rowid, q, file);
  }

  /** The enabled state of the project window's actions for a number of selected projects. */
  datatype WindowActions = WindowActions(merge: bool, edit: bool, delete: bool)

  /** `enable_disable_actions`: the later delete setting overrides the row-count one. */
  function ProjectActions(selected: nat): (r: WindowActions)
    ensures r.merge <==> selected >= 2
    ensures r.edit <==> selected == 1
    ensures r.delete <==> selected >= 1
  {
    WindowActions(selected >= 2, selected == 1, selected >= 1)
  }

  /** Merging needs a selection that could also be deleted, and never coincides with editing. */
  lemma ActionsNest(selected: nat)
    ensures var a := ProjectActions(selected); (a.merge ==> a.delete) && !(a.merge && a.edit) && (a.edit ==> a.delete)
  {
  }

  /**
   * `delete_action`: with a Yes answer every selected project goes, and its links with it
   * (the foreign key cascades); otherwise nothing changes. An empty selection raises.
   */
  function DeleteProjects(ps: seq<Project>, links: seq<Link>, ids: seq<int>, confirmed: bool)
    : (r: Result<(seq<Project>, seq<Link>), string>)
    ensures r.Failure? <==> |ids| == 0
    ensures r.Success? && !confirmed ==> r.value == (ps, links)
    ensures r.Success? && confirmed ==>
              (forall p :: p in r.value.0 <==> p in ps && p.rowid !in ids)
              && (forall l :: l in r.value.1 <==> l in links && l.project !in ids)
  {
    if |ids| == 0 then Failure("IndexError")
    else if !confirmed then Success((ps, links))
    else Success((Keep(ps, (p: Project) => p.rowid !in ids), Keep(links, (l: Link) => l.project !in ids)))
  }

  /** The elements that satisfy a condition, in order. */
  function Keep<T(!new)>(s: seq<T>, ok: T -> bool): (r: seq<T>)
    ensures forall x :: x in r <==> x in s && ok(x)
  {
    if |s| == 0 then []
    else
      assert forall x :: x in s <==> x == s[0] || x in s[1..];
      (if ok(s[0]) then [s[0]] else []) + Keep(s[1..], ok)
  }
}

=== FILE: purepath.dfy ===
/**
 * The part of `pathlib.PurePosixPath` the export naming uses: a path string parsed into
 * an anchor and its components (empty and `.` components dropped), `.parent`, `.name`
 * and `str()`.
 */
module PurePaths {
  import opened Wrappers
  import opened Text
  import Catalogue

  /** A parsed path: absolute or relative, and its components in order. */
  datatype PPath = PPath(absolute: bool, parts: seq<string>)

  /** A component `pathlib` keeps: not empty, not `.`, free of `/`. */
  predicate IsPart(p: string) {
    p != "" && p != "." && '/' !in p
  }

  predicate Normal(p: PPath) {
    forall k :: 0 <= k < |p.parts| ==> IsPart(p.parts[k])
  }

  /** The pieces between slashes that `pathlib` keeps. */
  function Keep(pieces: seq<string>): (r: seq<string>)
    ensures forall k :: 0 <= k < |r| ==> r[k] in pieces && r[k] != "" && r[k] != "."
  {
    if |pieces| == 0 then []
    else if pieces[0] == "" || pieces[0] == "." then Keep(pieces[1..])
    else [pieces[0]] + Keep(pieces[1..])
  }

  /** `PurePosixPath(s)`. */
  function Parse(s: string): (r: PPath)
    ensures Normal(r)
  {
    var pieces := Split(s, '/');
    var kept := Keep(pieces);
    assert forall k :: 0 <= k < |kept| ==> '/' !in kept[k] by {
      forall k | 0 <= k < |kept|
        ensures '/' !in kept[k]
      {
        assert kept[k] in pieces;
      }
    }
    PPath(|s| > 0 && s[0] == '/', kept)
  }

  /** `str(path)`: the anchor and the components joined by `/`; the empty relative path is `.`. */
  function Render(p: PPath): string {
    if p.absolute then "/" + Join(p.parts, "/")
    else if |p.parts| == 0 then "."
    else Join(p.parts, "/")
  }

  /** `.parent`: the last component dropped; the anchor and `.` are their own parent. */
  function Parent(p: PPath): (r: PPath)
    ensures r.absolute == p.absolute
    ensures |p.parts| > 0 ==> r.parts + [p.parts[|p.parts| - 1]] == p.parts
    ensures |p.parts| == 0 ==> r == p
  {
    if |p.parts| == 0 then p else p.(parts := p.parts[..|p.parts| - 1])
  }

  /** `.name`: the last component, or empty for an anchor or `.`. */
  function Name(p: PPath): (r: string)
    ensures Normal(p) && |p.parts| > 0 ==> IsPart(r)
    ensures |p.parts| == 0 ==> r == ""
  {
    if |p.parts| == 0 then "" else p.parts[|p.parts| - 1]
  }

  lemma {:induction false} KeepParts(parts: seq<string>)
    requires forall k :: 0 <= k < |parts| ==> IsPart(parts[k])
    ensures Keep(parts) == parts
  {
    if |parts| > 0 {
      KeepParts(parts[1..]);
    }
  }

  lemma {:induction false} KeepAppend(a: seq<string>, b: seq<string>)
    ensures Keep(a + b) == Keep(a) + Keep(b)
  {
    if |a| > 0 {
      assert (a + b)[1..] == a[1..] + b;
      KeepAppend(a[1..], b);
    } else {
      assert a + b == b;
    }
  }

  /** Splitting after a leading slash gives an empty first piece. */
  lemma SplitLeadingSlash(s: string)
    ensures Split("/" + s, '/') == [""] + Split(s, '/')
  {
    var t := "/" + s;
    assert t[0] == '/';
    assert IndexOf(t, '/') == Some(0);
    assert t[..0] == "" && t[1..] == s;
  }

  /** Printing a normal path and parsing it again gives the path back. */
  lemma ParseRender(p: PPath)
    requires Normal(p)
    ensures Parse(Render(p)) == p
  {
    if |p.parts| > 0 {
      SplitJoin(p.parts, '/');
      KeepParts(p.parts);
      var j := Join(p.parts, "/");
      assert j == Join(p.parts, ['/']);
      JoinHead(p.parts);
      if p.absolute {
        SplitLeadingSlash(j);
        KeepAppend([""], Split(j, '/'));
      }
    } else if p.absolute {
      assert Split("/", '/') == ["", ""] by {
        SplitLeadingSlash("");
      }
    } else {
      assert Split(".", '/') == ["."];
    }
  }

  /** A non-empty join starts with its first part, so it does not start with `/`. */
  lemma JoinHead(parts: seq<string>)
    requires |parts| > 0 && IsPart(parts[0])
    ensures |Join(parts, "/")| > 0 && Join(parts, "/")[0] != '/'
  {
    if |parts| > 1 {
      assert Join(parts, "/") == parts[0] + "/" + Join(parts[1..], "/");
    }
    assert parts[0][0] != '/' by {
      assert parts[0][0] in parts[0];
    }
  }

  /** Adding one part at the end of a join. */
  lemma {:induction false} JoinAppend(parts: seq<string>, x: string)
    requires |parts| > 0
    ensures Join(parts + [x], "/") == Join(parts, "/") + "/" + x
  {
    if |parts| > 1 {
      assert (parts + [x])[1..] == parts[1..] + [x];
      JoinAppend(parts[1..], x);
    }
  }

  /** The last character of a rendered path with components is that of its last component. */
  lemma RenderTail(p: PPath)
    requires Normal(p) && |p.parts| > 0
    ensures var s := Render(p); |s| > 0 && s[|s| - 1] != '/'
  {
    var n := |p.parts|;
    var last := p.parts[n - 1];
    var j := Join(p.parts, "/");
    if n > 1 {
      assert p.parts == p.parts[..n - 1] + [last];
      JoinAppend(p.parts[..n - 1], last);
    }
    assert EndsWith(j, last);
    assert last[|last| - 1] in last;
    assert j[|j| - 1] == last[|last| - 1];
  }

  /** The rendering of a path one component deeper. */
  lemma RenderBelow(dir: PPath, name: string)
    requires Normal(dir) && IsPart(name) && |dir.parts| > 0
    ensures Render(PPath(dir.absolute, dir.parts + [name])) == Render(dir) + "/" + name
  {
    JoinAppend(dir.parts, name);
  }

  /** `./name` parses as the relative path holding `name` alone. */
  lemma ParseDotSlash(name: string)
    requires IsPart(name)
    ensures Parse("./" + name) == PPath(false, [name])
  {
    var s := "./" + name;
    assert IndexOf(s, '/') == Some(1) by {
      assert s[1] == '/' && s[0] != '/';
      assert s[..1] == ".";
    }
    assert s[..1] == "." && s[2..] == name;
    assert Split(s, '/') == ["."] + Split(name, '/');
    assert Split(name, '/') == [name];
    assert (["."] + [name])[1..] == [name];
    assert Keep([name]) == [name] + Keep([]);
  }

  /**
   * `os.path.join(str(dir), name)` for a component `name` is the path one level below
   * `dir`: its parent is `dir` and its name is `name`.
   */
  lemma JoinBelow(dir: PPath, name: string)
    requires Normal(dir) && IsPart(name)
    ensures Parse(Catalogue.PathJoin(Render(dir), name)) == PPath(dir.absolute, dir.parts + [name])
  {
    var below := PPath(dir.absolute, dir.parts + [name]);
    assert name[0] != '/' by {
      assert name[0] in name;
    }
    if |dir.parts| > 0 {
      RenderTail(dir);
      RenderBelow(dir, name);
      assert Catalogue.PathJoin(Render(dir), name) == Render(below);
      assert Normal(below);
      ParseRender(below);
    } else if dir.absolute {
      assert Render(dir) == "/";
      assert Render(below) == "/" + name;
      assert Catalogue.PathJoin(Render(dir), name) == Render(below);
      assert Normal(below);
      ParseRender(below);
    } else {
      assert Render(dir) == ".";
      assert Catalogue.PathJoin(Render(dir), name) == "./" + name;
      ParseDotSlash(name);
    }
  }
}

=== FILE: scanner.dfy ===
/**
 * The library scanner (`Importer` in photonfinder/filesystem.py): a depth-first walk
 * over the directory tree of one library root that reconciles what is on disk with the
 * catalogue rows of that root and collects the differences in a change list. The
 * catalogue is a snapshot that the walk only reads; the change list is applied later.
 */
module Scanner {
  import opened Wrappers
  import opened Text
  import opened FileNames
  import opened Catalogue
  import opened Changes
  import LegacyFileNames
  import Seqs

  /**
   * An entry of a directory listing: a file with its size and modification time in
   * milliseconds, or a sub-directory with its own listing.
   */
  datatype Entry = FileEntry(name: string, size: int, mtime: int) | DirEntry(name: string, children: seq<Entry>)

  function EntrySize(e: Entry): nat
    decreases e
  {
    match e
    case FileEntry(_, _, _) => 1
    case DirEntry(_, ch) => 1 + ForestSize(ch)
  }

  function ForestSize(es: seq<Entry>): nat
    decreases es
  {
    if |es| == 0 then 0 else ForestSize(es[..|es| - 1]) + EntrySize(es[|es| - 1])
  }

  /** The bad-name patterns of a scan, each setting split on `|` as `Importer.__init__` does. */
  datatype Config = Config(filePatterns: seq<string>, dirPatterns: seq<string>)

  function MakeConfig(badFilePatterns: string, badDirPatterns: string): (c: Config)
    ensures |c.filePatterns| >= 1 && |c.dirPatterns| >= 1
  {
    Config(Patterns(badFilePatterns), Patterns(badDirPatterns))
  }

  /**
   * Which importer runs the scan: the current one (configurable bad-name patterns,
   * normalised catalogue paths, variant matching) or the legacy astrofilemanager one
   * (fixed `bad` prefix, raw listing paths, exact-name matching).
   */
  datatype Version = Current(cfg: Config) | Legacy

  predicate AcceptsFile(v: Version, name: string) {
    match v
    case Current(cfg) => FileFilter(name, cfg.filePatterns, cfg.dirPatterns)
    case Legacy => LegacyFileNames.FileFilter(name)
  }

  predicate AcceptsDir(v: Version, name: string) {
    match v
    case Current(cfg) => DirFilter(name, cfg.filePatterns, cfg.dirPatterns)
    case Legacy => LegacyFileNames.DirFilter(name)
  }

  /** `fs.path.join(current, name)` for a listed name: `.` is the root and drops out. */
  function FsJoin(current: string, name: string): string {
    if current == "." then name else current + "/" + name
  }

  /** `norm_db_path` of a scanned directory path. */
  function NormDir(p: string): string {
    NormDbPath(Some(p)).value
  }

  /** The catalogue form of a scanned directory path: normalised now, stored raw by the legacy importer. */
  function DbDir(v: Version, p: string): string {
    if v.Current? then NormDir(p) else p
  }

  // ---------------------------------------------------------------------------
  // `_import_file`

  /** A row of the root, in the directory, whose name is one of the name's compressed variants. */
  predicate Candidate(r: FileRecord, rootId: int, dbPath: string, name: string) {
    r.root == rootId && r.path == dbPath && r.name in Variants(name)
  }

  /** A candidate row, with exactly the name when `exact`. */
  predicate Wanted(r: FileRecord, rootId: int, dbPath: string, name: string, exact: bool) {
    Candidate(r, rootId, dbPath, name) && (exact ==> r.name == name)
  }

  /** The first row from `i` on that is a candidate (with exactly the name when `exact`). */
  function FirstCandidate(cat: seq<FileRecord>, rootId: int, dbPath: string, name: string, exact: bool, i: nat): (r: Option<nat>)
    requires i <= |cat|
    ensures r.None? ==> forall j :: i <= j < |cat| ==> !Wanted(cat[j], rootId, dbPath, name, exact)
    ensures r.Some? ==> i <= r.value < |cat| && Wanted(cat[r.value], rootId, dbPath, name, exact)
    ensures r.Some? ==> forall j :: i <= j < r.value ==> !Wanted(cat[j], rootId, dbPath, name, exact)
    decreases |cat| - i
  {
    if i == |cat| then None
    else if Wanted(cat[i], rootId, dbPath, name, exact) then Some(i)
    else
      var r := FirstCandidate(cat, rootId, dbPath, name, exact, i + 1);
      assert forall j :: i <= j < i + 1 ==> !Wanted(cat[j], rootId, dbPath, name, exact);
      r
  }

  /**
   * The row `_import_file` settles on, as an index into the catalogue (taken in row
   * order): the first row with exactly the name, else the first row with a variant of it.
   */
  function FindMatch(cat: seq<FileRecord>, rootId: int, dbPath: string, name: string): (r: Option<nat>)
    ensures r.None? <==> forall j :: 0 <= j < |cat| ==> !Candidate(cat[j], rootId, dbPath, name)
    ensures r.Some? ==> r.value < |cat| && Candidate(cat[r.value], rootId, dbPath, name)
    ensures r.Some? && cat[r.value].name != name ==>
              forall j :: 0 <= j < |cat| ==> !(Candidate(cat[j], rootId, dbPath, name) && cat[j].name == name)
    ensures r.Some? && cat[r.value].name != name ==>
              forall j :: 0 <= j < r.value ==> !Candidate(cat[j], rootId, dbPath, name)
    ensures r.Some? && cat[r.value].name == name ==>
              forall j :: 0 <= j < r.value ==> !(Candidate(cat[j], rootId, dbPath, name) && cat[j].name == name)
  {
    var e := FirstCandidate(cat, rootId, dbPath, name, true, 0);
    if e.Some? then e
    else
      var a := FirstCandidate(cat, rootId, dbPath, name, false, 0);
      if a.Some? && cat[a.value].name == name then
        assert false;
        a
      else a
  }

  /** The catalogue row a new file gets; its row id is assigned on insert. */
  function NewRecord(rootId: int, dbPath: string, name: string, size: int, mtime: int): FileRecord {
    FileRecord(0, rootId, dbPath, name, size, mtime)
  }

  datatype Imported = Imported(name: string, changes: ChangeList)

  /**
   * `_import_file`: a file without a matching row is queued as new and keeps its own
   * name; a matching row whose size or time differs is updated to the file (including
   * its name) and queued as changed; either way a match reports the row's name.
   */
  function ImportFile(cat: seq<FileRecord>, rootId: int, relPath: string, name: string, size: int, mtime: int): (r: Imported)
    ensures var m := FindMatch(cat, rootId, NormDir(relPath), name);
            && (m.None? ==> r == Imported(name, ChangeList([NewRecord(rootId, NormDir(relPath), name, size, mtime)], [], [], [])))
            && (m.Some? ==> r.name == cat[m.value].name && r.changes.newFiles == [] && r.changes.removedFiles == [])
            && (m.Some? && (cat[m.value].size != size || cat[m.value].mtime != mtime) ==>
                  r.changes.changedIds == [cat[m.value].rowid]
                  && r.changes.changedFiles == [cat[m.value].(name := name, size := size, mtime := mtime)])
            && (m.Some? && cat[m.value].size == size && cat[m.value].mtime == mtime ==> r.changes == NoChanges)
    ensures |r.changes.changedIds| == |r.changes.changedFiles|
    ensures forall k :: 0 <= k < |r.changes.changedIds| ==> r.changes.changedIds[k] == r.changes.changedFiles[k].rowid
  {
    var dbPath := NormDir(relPath);
    match FindMatch(cat, rootId, dbPath, name)
    case None => Imported(name, ChangeList([NewRecord(rootId, dbPath, name, size, mtime)], [], [], []))
    case Some(i) =>
      var row := cat[i];
      if row.mtime != mtime || row.size != size then
        Imported(row.name, ChangeList([], [], [row.rowid], [row.(name := name, size := size, mtime := mtime)]))
      else Imported(row.name, NoChanges)
  }

  /** The row a changed file is saved as keeps its row id, root and directory. */
  lemma ImportFileKeepsRow(cat: seq<FileRecord>, rootId: int, relPath: string, name: string, size: int, mtime: int)
    ensures forall c :: c in ImportFile(cat, rootId, relPath, name, size, mtime).changes.changedFiles ==>
              c.root == rootId && c.path == NormDir(relPath) && c.name == name && c.size == size && c.mtime == mtime
              && exists j :: 0 <= j < |cat| && cat[j].rowid == c.rowid && Candidate(cat[j], rootId, NormDir(relPath), name)
  {
    var changed := ImportFile(cat, rootId, relPath, name, size, mtime).changes.changedFiles;
    var m := FindMatch(cat, rootId, NormDir(relPath), name);
    if m.Some? && (cat[m.value].size != size || cat[m.value].mtime != mtime) {
      var j := m.value;
      assert changed == [cat[j].(name := name, size := size, mtime := mtime)];
      assert Candidate(cat[j], rootId, NormDir(relPath), name);
    } else {
      assert changed == [];
    }
  }

  /** The first row of the root with exactly this directory and name, from index `i` on. */
  function FindExact(cat: seq<FileRecord>, rootId: int, path: string, name: string, i: nat): (r: Option<nat>)
    requires i <= |cat|
    ensures r.None? <==> forall j :: i <= j < |cat| ==> Key(cat[j]) != (rootId, path, name)
    ensures r.Some? ==> i <= r.value < |cat| && Key(cat[r.value]) == (rootId, path, name)
    decreases |cat| - i
  {
    if i == |cat| then None
    else if Key(cat[i]) == (rootId, path, name) then Some(i)
    else FindExact(cat, rootId, path, name, i + 1)
  }

  /**
   * The legacy `_import_file`: the row is looked up by exactly the listed name in the raw
   * directory path; a row whose size or time differs is replaced by a fresh record (its
   * old row id queued for deletion); the reported name is always the listed one.
   */
  function LegacyImportFile(cat: seq<FileRecord>, rootId: int, relPath: string, name: string, size: int, mtime: int): (r: Imported)
    ensures r.name == name
    ensures r.changes.removedFiles == []
    ensures var m := FindExact(cat, rootId, relPath, name, 0);
            && (m.None? ==> r.changes == ChangeList([NewRecord(rootId, relPath, name, size, mtime)], [], [], []))
            && (m.Some? && (cat[m.value].size != size || cat[m.value].mtime != mtime) ==>
                  r.changes == ChangeList([], [], [cat[m.value].rowid], [NewRecord(rootId, relPath, name, size, mtime)]))
            && (m.Some? && cat[m.value].size == size && cat[m.value].mtime == mtime ==> r.changes == NoChanges)
  {
    var rec := NewRecord(rootId, relPath, name, size, mtime);
    match FindExact(cat, rootId, relPath, name, 0)
    case None => Imported(name, ChangeList([rec], [], [], []))
    case Some(i) =>
      if cat[i].mtime != mtime || cat[i].size != size then Imported(name, ChangeList([], [], [cat[i].rowid], [rec]))
      else Imported(name, NoChanges)
  }

  /** `_import_file` of the importer in use. */
  function ImportEntry(cat: seq<FileRecord>, v: Version, rootId: int, cur: string, name: string, size: int, mtime: int): (r: Imported)
    ensures r.changes.removedFiles == []
    ensures v.Current? ==> Aligned(r.changes)
  {
    if v.Current? then ImportFile(cat, rootId, cur, name, size, mtime)
    else LegacyImportFile(cat, rootId, cur, name, size, mtime)
  }

  // ---------------------------------------------------------------------------
  // One directory.

  /** Each changed row id is the row id of the changed file at the same position. */
  predicate Aligned(cl: ChangeList) {
    |cl.changedIds| == |cl.changedFiles|
    && forall k :: 0 <= k < |cl.changedIds| ==> cl.changedIds[k] == cl.changedFiles[k].rowid
  }

  lemma MergeAlignedIf(c: bool, a: ChangeList, b: ChangeList)
    requires c ==> Aligned(a) && Aligned(b)
    ensures c ==> Aligned(Merge(a, b))
  {
    if c {
      MergeAligned(a, b);
    }
  }

  lemma MergeAligned(a: ChangeList, b: ChangeList)
    requires Aligned(a) && Aligned(b)
    ensures Aligned(Merge(a, b))
  {
    var m := Merge(a, b);
    forall k | 0 <= k < |m.changedIds| ensures m.changedIds[k] == m.changedFiles[k].rowid {
      if k >= |a.changedIds| {
        assert m.changedIds[k] == b.changedIds[k - |a.changedIds|];
        assert m.changedFiles[k] == b.changedFiles[k - |a.changedIds|];
      }
    }
  }

  /** The rows of the root in the directory whose names no imported file reported, in row order. */
  function Evict(cat: seq<FileRecord>, rootId: int, dbPath: string, names: set<string>): (r: seq<FileRecord>)
    ensures forall f :: f in r <==> f in cat && f.root == rootId && f.path == dbPath && f.name !in names
  {
    if |cat| == 0 then []
    else
      var init := cat[..|cat| - 1];
      var f := cat[|cat| - 1];
      assert cat == init + [f];
      Evict(init, rootId, dbPath, names) + (if f.root == rootId && f.path == dbPath && f.name !in names then [f] else [])
  }

  /** What `_import_file` gives for each entry of the listing; `None` for entries it is not called on. */
  function Outcomes(cat: seq<FileRecord>, v: Version, rootId: int, cur: string, es: seq<Entry>): (r: seq<Option<Imported>>)
    ensures |r| == |es|
    ensures forall i :: 0 <= i < |es| ==> (r[i].Some? <==> ListsFile(v, es, i))
    ensures forall i :: 0 <= i < |es| && ListsFile(v, es, i) ==> r[i].value == ImportAt(cat, v, rootId, cur, es, i)
  {
    seq(|es|, i requires 0 <= i < |es| => if ListsFile(v, es, i) then Some(ImportAt(cat, v, rootId, cur, es, i)) else None)
  }

  /** The change lists of the outcomes merged in listing order. */
  function MergeOutcomes(os: seq<Option<Imported>>): ChangeList {
    if |os| == 0 then NoChanges
    else
      var prev := MergeOutcomes(os[..|os| - 1]);
      match os[|os| - 1]
      case None => prev
      case Some(o) => Merge(prev, o.changes)
  }

  /** The names the outcomes report. */
  function OutcomeNames(os: seq<Option<Imported>>): set<string> {
    if |os| == 0 then {}
    else
      var prev := OutcomeNames(os[..|os| - 1]);
      match os[|os| - 1]
      case None => prev
      case Some(o) => prev + {o.name}
  }

  /** Outcome `i` is an import whose change list holds `x` in list `k`. */
  predicate PickedAt(os: seq<Option<Imported>>, i: int, k: ListKind, x: FileRecord) {
    0 <= i < |os| && os[i].Some? && x in Pick(os[i].value.changes, k)
  }

  lemma {:induction false} MergeOutcomesPick(os: seq<Option<Imported>>, k: ListKind, x: FileRecord)
    ensures x in Pick(MergeOutcomes(os), k) <==> exists i :: PickedAt(os, i, k, x)
    decreases |os|
  {
    if |os| > 0 {
      var init := os[..|os| - 1];
      MergeOutcomesPick(init, k, x);
      if os[|os| - 1].Some? {
        PickMerge(MergeOutcomes(init), os[|os| - 1].value.changes, k, x);
      }
      PickedSplit(os, init, k, x);
    }
  }

  /** An outcome of all but the last one picks `x` exactly when it does so among the shorter list. */
  lemma PickedSplit(os: seq<Option<Imported>>, init: seq<Option<Imported>>, k: ListKind, x: FileRecord)
    requires |os| > 0 && init == os[..|os| - 1]
    ensures (exists i :: PickedAt(os, i, k, x))
            <==> (exists i :: PickedAt(init, i, k, x)) || PickedAt(os, |os| - 1, k, x)
  {
    if exists i :: PickedAt(os, i, k, x) {
      var i :| PickedAt(os, i, k, x);
      if i < |os| - 1 {
        assert init[i] == os[i];
        assert PickedAt(init, i, k, x);
      }
    }
    if exists i :: PickedAt(init, i, k, x) {
      var i :| PickedAt(init, i, k, x);
      assert init[i] == os[i];
      assert PickedAt(os, i, k, x);
    }
  }

  lemma {:induction false} OutcomeNamesIff(os: seq<Option<Imported>>, n: string)
    ensures n in OutcomeNames(os) <==> exists i :: 0 <= i < |os| && os[i].Some? && os[i].value.name == n
    decreases |os|
  {
    if |os| > 0 {
      var init := os[..|os| - 1];
      OutcomeNamesIff(init, n);
      forall i | 0 <= i < |init| ensures init[i] == os[i] {
      }
    }
  }

  lemma {:induction false} MergeOutcomesShape(os: seq<Option<Imported>>, aligned: bool)
    requires forall i :: 0 <= i < |os| && os[i].Some? ==> os[i].value.changes.removedFiles == []
    requires aligned ==> forall i :: 0 <= i < |os| && os[i].Some? ==> Aligned(os[i].value.changes)
    ensures MergeOutcomes(os).removedFiles == []
    ensures aligned ==> Aligned(MergeOutcomes(os))
    decreases |os|
  {
    if |os| > 0 {
      var init := os[..|os| - 1];
      assert forall i :: 0 <= i < |init| ==> init[i] == os[i];
      MergeOutcomesShape(init, aligned);
      if os[|os| - 1].Some? {
        MergeAlignedIf(aligned, MergeOutcomes(init), os[|os| - 1].value.changes);
      }
    }
  }

  /** Every accepted file of the listing imported in order, the changes merged. */
  function ImportAllFiles(cat: seq<FileRecord>, v: Version, rootId: int, cur: string, es: seq<Entry>): (r: ChangeList)
    ensures r.removedFiles == []
    ensures v.Current? ==> Aligned(r)
  {
    var os := Outcomes(cat, v, rootId, cur, es);
    MergeOutcomesShape(os, v.Current?);
    MergeOutcomes(os)
  }

  /** The names `_import_file` reported for the accepted files of the listing. */
  function ClaimedNames(cat: seq<FileRecord>, v: Version, rootId: int, cur: string, es: seq<Entry>): set<string> {
    OutcomeNames(Outcomes(cat, v, rootId, cur, es))
  }

  /** The sub-directories that pass the directory filter, in listing order, with their paths. */
  function Subdirs(v: Version, cur: string, es: seq<Entry>): (r: seq<(string, seq<Entry>)>)
  {
    if |es| == 0 then []
    else
      var prev := Subdirs(v, cur, es[..|es| - 1]);
      match es[|es| - 1]
      case DirEntry(name, ch) => if AcceptsDir(v, name) then prev + [(FsJoin(cur, name), ch)] else prev
      case FileEntry(_, _, _) => prev
  }

  /** What scanning one directory contributes: its imports, then its evictions. */
  function DirResult(cat: seq<FileRecord>, v: Version, rootId: int, d: (string, seq<Entry>)): (r: ChangeList)
    ensures r.removedFiles == Evict(cat, rootId, DbDir(v, d.0), ClaimedNames(cat, v, rootId, d.0, d.1))
    ensures v.Current? ==> Aligned(r)
  {
    var imported := ImportAllFiles(cat, v, rootId, d.0, d.1);
    var gone := Evict(cat, rootId, DbDir(v, d.0), ClaimedNames(cat, v, rootId, d.0, d.1));
    var evicted := ChangeList([], gone, [], []);
    MergeAlignedIf(v.Current?, imported, evicted);
    assert Merge(imported, evicted).removedFiles == [] + gone;
    Merge(imported, evicted)
  }

  // ---------------------------------------------------------------------------
  // The walk.

  type Dir = (string, seq<Entry>)

  /** The total size of the listings still on the stack, plus one per stacked directory. */
  function StackMeasure(stack: seq<Dir>): nat {
    if |stack| == 0 then 0 else StackMeasure(stack[..|stack| - 1]) + ForestSize(stack[|stack| - 1].1) + 1
  }

  lemma {:induction false} StackMeasureAppend(a: seq<Dir>, b: seq<Dir>)
    ensures StackMeasure(a + b) == StackMeasure(a) + StackMeasure(b)
    decreases |b|
  {
    if |b| == 0 {
      assert a + b == a;
    } else {
      StackMeasureAppend(a, b[..|b| - 1]);
      assert (a + b)[..|a + b| - 1] == a + b[..|b| - 1];
    }
  }

  lemma {:induction false} SubdirsMeasure(v: Version, cur: string, es: seq<Entry>)
    ensures StackMeasure(Subdirs(v, cur, es)) <= ForestSize(es)
    decreases |es|
  {
    if |es| > 0 {
      var init := es[..|es| - 1];
      SubdirsMeasure(v, cur, init);
      match es[|es| - 1]
      case DirEntry(name, ch) =>
        if AcceptsDir(v, name) {
          StackMeasureAppend(Subdirs(v, cur, init), [(FsJoin(cur, name), ch)]);
          assert [(FsJoin(cur, name), ch)][..0] == [];
        }
      case FileEntry(_, _, _) =>
    }
  }

  /** The catalogue paths of a set of directories. */
  function DirPaths(v: Version, ds: set<Dir>): set<string> {
    set d | d in ds :: DbDir(v, d.0)
  }

  /** The directories the walk visits from `d`: `d` and, recursively, its accepted sub-directories. */
  function Reach(v: Version, d: Dir): (r: set<Dir>)
    ensures d in r
    decreases ForestSize(d.1) + 1, 0
  {
    SubdirsMeasure(v, d.0, d.1);
    {d} + ReachAll(v, Subdirs(v, d.0, d.1))
  }

  function ReachAll(v: Version, ds: seq<Dir>): set<Dir>
    decreases StackMeasure(ds), 1
  {
    if |ds| == 0 then {}
    else ReachAll(v, ds[..|ds| - 1]) + Reach(v, ds[|ds| - 1])
  }

  lemma {:induction false} ReachAllAppend(v: Version, a: seq<Dir>, b: seq<Dir>)
    ensures ReachAll(v, a + b) == ReachAll(v, a) + ReachAll(v, b)
    decreases |b|
  {
    if |b| == 0 {
      assert a + b == a;
    } else {
      ReachAllAppend(v, a, b[..|b| - 1]);
      assert (a + b)[..|a + b| - 1] == a + b[..|b| - 1];
    }
  }

  /** Popping a directory and pushing its sub-directories leaves exactly that directory to account for. */
  lemma ReachAllPop(v: Version, stack: seq<Dir>)
    requires |stack| > 0
    ensures var top := stack[|stack| - 1];
            ReachAll(v, stack[..|stack| - 1] + Subdirs(v, top.0, top.1)) + {top} == ReachAll(v, stack)
  {
    var top := stack[|stack| - 1];
    ReachAllAppend(v, stack[..|stack| - 1], Subdirs(v, top.0, top.1));
  }

  /**
   * `import_files_from`'s loop: pop the last directory, import its files, queue the
   * evictions, push its accepted sub-directories (recording their catalogue paths).
   */
  function Walk(cat: seq<FileRecord>, v: Version, rootId: int, stack: seq<Dir>, dirs: set<string>, acc: ChangeList): (r: (ChangeList, set<string>))
    decreases StackMeasure(stack)
  {
    if |stack| == 0 then (acc, dirs)
    else
      var top := stack[|stack| - 1];
      var subs := Subdirs(v, top.0, top.1);
      Walk(cat, v, rootId, Popped(v, stack), dirs + DirPaths(v, set d | d in subs), Merge(acc, DirResult(cat, v, rootId, top)))
  }

  datatype ListKind = NewList | RemovedList | ChangedList

  function Pick(cl: ChangeList, k: ListKind): seq<FileRecord> {
    match k
    case NewList => cl.newFiles
    case RemovedList => cl.removedFiles
    case ChangedList => cl.changedFiles
  }

  /** `x` is queued in list `k` by the scan of some directory of `ds`. */
  ghost predicate QueuedBySome(cat: seq<FileRecord>, v: Version, rootId: int, ds: set<Dir>, k: ListKind, x: FileRecord) {
    exists d :: d in ds && Queues(cat, v, rootId, d, k, x)
  }

  /** `x` is queued in list `k` by the scan of directory `d`. */
  predicate Queues(cat: seq<FileRecord>, v: Version, rootId: int, d: Dir, k: ListKind, x: FileRecord) {
    x in Pick(DirResult(cat, v, rootId, d), k)
  }

  lemma PickMerge(a: ChangeList, b: ChangeList, k: ListKind, x: FileRecord)
    ensures x in Pick(Merge(a, b), k) <==> x in Pick(a, k) || x in Pick(b, k)
  {
  }

  /** The stack after popping its last directory and pushing that directory's sub-directories. */
  function Popped(v: Version, stack: seq<Dir>): (r: seq<Dir>)
    requires |stack| > 0
    ensures StackMeasure(r) < StackMeasure(stack)
  {
    var top := stack[|stack| - 1];
    var init := stack[..|stack| - 1];
    var subs := Subdirs(v, top.0, top.1);
    StackMeasureAppend(init, [top]);
    StackMeasureAppend(init, subs);
    SubdirsMeasure(v, top.0, top.1);
    assert stack == init + [top];
    assert [top][..0] == [];
    init + subs
  }

  lemma WalkStep(cat: seq<FileRecord>, v: Version, rootId: int, stack: seq<Dir>, dirs: set<string>, acc: ChangeList)
    requires |stack| > 0
    ensures var top := stack[|stack| - 1];
            Walk(cat, v, rootId, stack, dirs, acc)
            == Walk(cat, v, rootId, Popped(v, stack),
                    dirs + DirPaths(v, set d | d in Subdirs(v, top.0, top.1)),
                    Merge(acc, DirResult(cat, v, rootId, top)))
  {
  }

  lemma PoppedPaths(v: Version, stack: seq<Dir>, dirs: set<string>)
    requires |stack| > 0
    requires forall d :: d in stack ==> DbDir(v, d.0) in dirs
    ensures var top := stack[|stack| - 1];
            var dirs' := dirs + DirPaths(v, set d | d in Subdirs(v, top.0, top.1));
            && (forall d :: d in Popped(v, stack) ==> DbDir(v, d.0) in dirs')
            && dirs' + DirPaths(v, ReachAll(v, Popped(v, stack))) == dirs + DirPaths(v, ReachAll(v, stack))
  {
    var top := stack[|stack| - 1];
    var init := stack[..|stack| - 1];
    var subs := Subdirs(v, top.0, top.1);
    var dirs' := dirs + DirPaths(v, set d | d in subs);
    forall d: Dir | d in init + subs ensures DbDir(v, d.0) in dirs' {
      if d in init {
        assert d in stack;
      } else {
        assert d in (set d | d in subs);
      }
    }
    ReachAllPop(v, stack);
    var rest := ReachAll(v, init + subs);
    assert DirPaths(v, ReachAll(v, stack)) == DirPaths(v, rest) + {DbDir(v, top.0)};
    assert DbDir(v, top.0) in dirs by {
      assert top in stack;
    }
    assert DirPaths(v, set d | d in subs) <= DirPaths(v, rest) by {
      ReachAllAppend(v, init, subs);
      forall d | d in subs ensures d in ReachAll(v, subs) {
        ReachAllHas(v, subs, d);
      }
    }
  }

  /** The walk records the catalogue paths of every directory reachable from the stack. */
  lemma {:induction false} WalkDirs(cat: seq<FileRecord>, v: Version, rootId: int, stack: seq<Dir>, dirs: set<string>, acc: ChangeList)
    requires forall d :: d in stack ==> DbDir(v, d.0) in dirs
    ensures Walk(cat, v, rootId, stack, dirs, acc).1 == dirs + DirPaths(v, ReachAll(v, stack))
    decreases StackMeasure(stack)
  {
    if |stack| > 0 {
      var top := stack[|stack| - 1];
      var dirs' := dirs + DirPaths(v, set d | d in Subdirs(v, top.0, top.1));
      WalkStep(cat, v, rootId, stack, dirs, acc);
      PoppedPaths(v, stack, dirs);
      WalkDirs(cat, v, rootId, Popped(v, stack), dirs', Merge(acc, DirResult(cat, v, rootId, top)));
    }
  }

  lemma QueuedPop(cat: seq<FileRecord>, v: Version, rootId: int, stack: seq<Dir>, k: ListKind, x: FileRecord)
    requires |stack| > 0
    ensures var top := stack[|stack| - 1];
            QueuedBySome(cat, v, rootId, ReachAll(v, stack), k, x)
            <==> x in Pick(DirResult(cat, v, rootId, top), k)
                 || QueuedBySome(cat, v, rootId, ReachAll(v, Popped(v, stack)), k, x)
  {
    var top := stack[|stack| - 1];
    ReachAllPop(v, stack);
    assert ReachAll(v, stack) == ReachAll(v, Popped(v, stack)) + {top};
    QueuedSplit(cat, v, rootId, ReachAll(v, Popped(v, stack)), top, k, x);
  }

  /** Something is queued by one of a set of directories plus `top` when `top` or one of the rest queues it. */
  lemma QueuedSplit(cat: seq<FileRecord>, v: Version, rootId: int, rest: set<Dir>, top: Dir, k: ListKind, x: FileRecord)
    ensures QueuedBySome(cat, v, rootId, rest + {top}, k, x)
            <==> Queues(cat, v, rootId, top, k, x) || QueuedBySome(cat, v, rootId, rest, k, x)
  {
    if QueuedBySome(cat, v, rootId, rest + {top}, k, x) {
      QueuedByAdded(cat, v, rootId, rest, top, k, x);
    }
    if QueuedBySome(cat, v, rootId, rest, k, x) {
      QueuedByMore(cat, v, rootId, rest, top, k, x);
    }
    if Queues(cat, v, rootId, top, k, x) {
      assert top in rest + {top};
    }
  }

  lemma QueuedByAdded(cat: seq<FileRecord>, v: Version, rootId: int, rest: set<Dir>, top: Dir, k: ListKind, x: FileRecord)
    requires QueuedBySome(cat, v, rootId, rest + {top}, k, x)
    ensures Queues(cat, v, rootId, top, k, x) || QueuedBySome(cat, v, rootId, rest, k, x)
  {
    if !Queues(cat, v, rootId, top, k, x) {
      forall d | d in rest + {top} && d != top
        ensures d in rest
      {
      }
    }
  }

  lemma QueuedByMore(cat: seq<FileRecord>, v: Version, rootId: int, rest: set<Dir>, top: Dir, k: ListKind, x: FileRecord)
    requires QueuedBySome(cat, v, rootId, rest, k, x)
    ensures QueuedBySome(cat, v, rootId, rest + {top}, k, x)
  {
    var d :| d in rest && Queues(cat, v, rootId, d, k, x);
    assert d in rest + {top};
  }

  /** The walk queues exactly what the scans of the directories reachable from the stack queue. */
  lemma {:induction false} WalkLists(cat: seq<FileRecord>, v: Version, rootId: int, stack: seq<Dir>, dirs: set<string>, acc: ChangeList, k: ListKind, x: FileRecord)
    ensures x in Pick(Walk(cat, v, rootId, stack, dirs, acc).0, k) <==>
              x in Pick(acc, k) || QueuedBySome(cat, v, rootId, ReachAll(v, stack), k, x)
    decreases StackMeasure(stack)
  {
    if |stack| > 0 {
      var top := stack[|stack| - 1];
      var here := DirResult(cat, v, rootId, top);
      var dirs' := dirs + DirPaths(v, set d | d in Subdirs(v, top.0, top.1));
      WalkStep(cat, v, rootId, stack, dirs, acc);
      WalkLists(cat, v, rootId, Popped(v, stack), dirs', Merge(acc, here), k, x);
      PickMerge(acc, here, k, x);
      QueuedPop(cat, v, rootId, stack, k, x);
    }
  }

  /** Changed row ids stay paired with the changed files throughout the walk. */
  lemma {:induction false} WalkAligned(cat: seq<FileRecord>, v: Version, rootId: int, stack: seq<Dir>, dirs: set<string>, acc: ChangeList)
    requires v.Current? && Aligned(acc)
    ensures Aligned(Walk(cat, v, rootId, stack, dirs, acc).0)
    decreases StackMeasure(stack)
  {
    if |stack| > 0 {
      var top := stack[|stack| - 1];
      var here := DirResult(cat, v, rootId, top);
      var dirs' := dirs + DirPaths(v, set d | d in Subdirs(v, top.0, top.1));
      WalkStep(cat, v, rootId, stack, dirs, acc);
      MergeAligned(acc, here);
      WalkAligned(cat, v, rootId, Popped(v, stack), dirs', Merge(acc, here));
    }
  }

  lemma {:induction false} ReachAllHas(v: Version, ds: seq<Dir>, d: Dir)
    requires d in ds
    ensures d in ReachAll(v, ds)
    decreases |ds|
  {
    if d != ds[|ds| - 1] {
      assert d in ds[..|ds| - 1] by {
        var i :| 0 <= i < |ds| && ds[i] == d;
        assert ds[..|ds| - 1][i] == d;
      }
      ReachAllHas(v, ds[..|ds| - 1], d);
    }
  }

  // ---------------------------------------------------------------------------
  // What one directory claims and evicts.

  /** Entry `i` of the listing is a file the importer accepts. */
  predicate ListsFile(v: Version, es: seq<Entry>, i: int) {
    0 <= i < |es| && es[i].FileEntry? && AcceptsFile(v, es[i].name)
  }

  /** The import of the accepted file at index `i` of the listing. */
  function ImportAt(cat: seq<FileRecord>, v: Version, rootId: int, cur: string, es: seq<Entry>, i: int): Imported
    requires ListsFile(v, es, i)
  {
    ImportEntry(cat, v, rootId, cur, es[i].name, es[i].size, es[i].mtime)
  }

  /** A listed file may report the row name `n`: a compressed variant now, exactly its own name in the legacy importer. */
  predicate Claims(v: Version, listed: string, n: string) {
    if v.Current? then n in Variants(listed) else n == listed
  }

  lemma ImportEntryClaims(cat: seq<FileRecord>, v: Version, rootId: int, cur: string, name: string, size: int, mtime: int)
    ensures Claims(v, name, ImportEntry(cat, v, rootId, cur, name, size, mtime).name)
  {
  }

  /** A file whose exact name already has a row in its directory reports that name. */
  lemma ImportEntryKeepsName(cat: seq<FileRecord>, v: Version, rootId: int, cur: string, name: string, size: int, mtime: int, j: nat)
    requires j < |cat| && Key(cat[j]) == (rootId, DbDir(v, cur), name)
    ensures ImportEntry(cat, v, rootId, cur, name, size, mtime).name == name
  {
    if v.Current? {
      assert Candidate(cat[j], rootId, NormDir(cur), name);
    }
  }

  /** The claimed names are exactly the names the accepted files' imports report. */
  lemma ClaimedNamesIff(cat: seq<FileRecord>, v: Version, rootId: int, cur: string, es: seq<Entry>, n: string)
    ensures n in ClaimedNames(cat, v, rootId, cur, es)
            <==> exists i :: ListsFile(v, es, i) && ImportAt(cat, v, rootId, cur, es, i).name == n
  {
    var os := Outcomes(cat, v, rootId, cur, es);
    OutcomeNamesIff(os, n);
    if exists i :: ListsFile(v, es, i) && ImportAt(cat, v, rootId, cur, es, i).name == n {
      var i :| ListsFile(v, es, i) && ImportAt(cat, v, rootId, cur, es, i).name == n;
      assert os[i].Some? && os[i].value.name == n;
    }
  }

  /** A row whose file is still listed, and accepted, under its exact name is not evicted. */
  lemma ListedRowKept(cat: seq<FileRecord>, v: Version, rootId: int, d: Dir, x: FileRecord, i: int)
    requires x in cat && x.root == rootId && x.path == DbDir(v, d.0)
    requires ListsFile(v, d.1, i) && d.1[i].name == x.name
    ensures x !in DirResult(cat, v, rootId, d).removedFiles
  {
    var j :| 0 <= j < |cat| && cat[j] == x;
    ImportEntryKeepsName(cat, v, rootId, d.0, x.name, d.1[i].size, d.1[i].mtime, j);
    ClaimedNamesIff(cat, v, rootId, d.0, d.1, x.name);
  }

  /**
   * A row of the directory that no accepted file of the listing can claim is evicted;
   * in particular a row whose file is now marked bad, and no other file claims it.
   */
  lemma UnclaimedRowEvicted(cat: seq<FileRecord>, v: Version, rootId: int, d: Dir, x: FileRecord)
    requires x in cat && x.root == rootId && x.path == DbDir(v, d.0)
    requires forall i :: ListsFile(v, d.1, i) ==> !Claims(v, d.1[i].name, x.name)
    ensures x in DirResult(cat, v, rootId, d).removedFiles
  {
    if x.name in ClaimedNames(cat, v, rootId, d.0, d.1) {
      ClaimedNamesIff(cat, v, rootId, d.0, d.1, x.name);
      var i :| ListsFile(v, d.1, i) && ImportAt(cat, v, rootId, d.0, d.1, i).name == x.name;
      ImportEntryClaims(cat, v, rootId, d.0, d.1[i].name, d.1[i].size, d.1[i].mtime);
      assert false;
    }
  }

  /** Legacy eviction: a row of the directory is removed exactly when no accepted file carries its name. */
  lemma LegacyEvictIff(cat: seq<FileRecord>, rootId: int, d: Dir, x: FileRecord)
    requires x in cat && x.root == rootId && x.path == d.0
    ensures x in DirResult(cat, Legacy, rootId, d).removedFiles
            <==> forall i :: ListsFile(Legacy, d.1, i) ==> d.1[i].name != x.name
  {
    if exists i :: ListsFile(Legacy, d.1, i) && d.1[i].name == x.name {
      var i :| ListsFile(Legacy, d.1, i) && d.1[i].name == x.name;
      ListedRowKept(cat, Legacy, rootId, d, x, i);
    } else {
      UnclaimedRowEvicted(cat, Legacy, rootId, d, x);
    }
  }

  /** The accepted file at index `i` queues `x` in list `k`. */
  predicate QueuedAt(cat: seq<FileRecord>, v: Version, rootId: int, cur: string, es: seq<Entry>, i: int, k: ListKind, x: FileRecord) {
    ListsFile(v, es, i) && x in Pick(ImportAt(cat, v, rootId, cur, es, i).changes, k)
  }

  lemma ImportAllFilesPick(cat: seq<FileRecord>, v: Version, rootId: int, cur: string, es: seq<Entry>, k: ListKind, x: FileRecord)
    ensures x in Pick(ImportAllFiles(cat, v, rootId, cur, es), k)
            <==> exists i :: QueuedAt(cat, v, rootId, cur, es, i, k, x)
  {
    var os := Outcomes(cat, v, rootId, cur, es);
    MergeOutcomesPick(os, k, x);
    assert ImportAllFiles(cat, v, rootId, cur, es) == MergeOutcomes(os);
    if x in Pick(MergeOutcomes(os), k) {
      var i :| PickedAt(os, i, k, x);
      assert QueuedAt(cat, v, rootId, cur, es, i, k, x);
    }
    if exists i :: QueuedAt(cat, v, rootId, cur, es, i, k, x) {
      var i :| QueuedAt(cat, v, rootId, cur, es, i, k, x);
      assert PickedAt(os, i, k, x);
    }
  }

  /** A directory's scan queues new and changed files exactly as the imports of its accepted files do. */
  lemma DirResultImports(cat: seq<FileRecord>, v: Version, rootId: int, d: Dir, k: ListKind, x: FileRecord)
    requires k != RemovedList
    ensures x in Pick(DirResult(cat, v, rootId, d), k)
            <==> exists i :: QueuedAt(cat, v, rootId, d.0, d.1, i, k, x)
  {
    var imported := ImportAllFiles(cat, v, rootId, d.0, d.1);
    var gone := Evict(cat, rootId, DbDir(v, d.0), ClaimedNames(cat, v, rootId, d.0, d.1));
    assert DirResult(cat, v, rootId, d) == Merge(imported, ChangeList([], gone, [], []));
    PickMerge(imported, ChangeList([], gone, [], []), k, x);
    ImportAllFilesPick(cat, v, rootId, d.0, d.1, k, x);
  }

  // ---------------------------------------------------------------------------
  // `import_files_from` and `import_all`.

  /** Rows of the root whose directory is not among `dirs`, in row order (`clean up deleted dirs`). */
  function Stale(cat: seq<FileRecord>, rootId: int, dirs: set<string>): (r: seq<FileRecord>)
    ensures forall f :: f in r <==> f in cat && f.root == rootId && f.path !in dirs
  {
    if |cat| == 0 then []
    else
      var init := cat[..|cat| - 1];
      var f := cat[|cat| - 1];
      assert cat == init + [f];
      Stale(init, rootId, dirs) + (if f.root == rootId && f.path !in dirs then [f] else [])
  }

  /**
   * `import_files_from(root_fs, root, start)`: the walk from `start` (given with its
   * listing), then, when the whole library was walked (`start` is `.`), every row of
   * the root in a directory the walk did not record. The legacy importer always starts at `.`.
   */
  function ImportFilesFrom(cat: seq<FileRecord>, v: Version, rootId: int, start: string, es: seq<Entry>): (r: ChangeList)
  {
    var walked := Walk(cat, v, rootId, [(start, es)], {DbDir(v, start)}, NoChanges);
    if start == "." then Merge(walked.0, ChangeList([], Stale(cat, rootId, walked.1), [], []))
    else walked.0
  }

  lemma ReachOne(v: Version, d: Dir)
    ensures ReachAll(v, [d]) == Reach(v, d)
  {
    assert [d][..0] == [];
  }

  lemma ImportFilesFromDirs(cat: seq<FileRecord>, v: Version, rootId: int, start: string, es: seq<Entry>)
    ensures Walk(cat, v, rootId, [(start, es)], {DbDir(v, start)}, NoChanges).1 == DirPaths(v, Reach(v, (start, es)))
  {
    ReachOne(v, (start, es));
    WalkDirs(cat, v, rootId, [(start, es)], {DbDir(v, start)}, NoChanges);
  }

  /** The scan queues exactly what the scans of the reachable directories queue, plus the stale rows of a whole-library scan. */
  lemma ImportFilesFromLists(cat: seq<FileRecord>, v: Version, rootId: int, start: string, es: seq<Entry>, k: ListKind, x: FileRecord)
    ensures var reach := Reach(v, (start, es));
            x in Pick(ImportFilesFrom(cat, v, rootId, start, es), k)
            <==> QueuedBySome(cat, v, rootId, reach, k, x)
                 || (k == RemovedList && start == "." && x in cat && x.root == rootId && x.path !in DirPaths(v, reach))
  {
    var walked := Walk(cat, v, rootId, [(start, es)], {DbDir(v, start)}, NoChanges);
    ReachOne(v, (start, es));
    WalkLists(cat, v, rootId, [(start, es)], {DbDir(v, start)}, NoChanges, k, x);
    ImportFilesFromDirs(cat, v, rootId, start, es);
    if start == "." {
      PickMerge(walked.0, ChangeList([], Stale(cat, rootId, walked.1), [], []), k, x);
    }
  }

  lemma QueuedRemoved(cat: seq<FileRecord>, v: Version, rootId: int, ds: set<Dir>, x: FileRecord)
    ensures QueuedBySome(cat, v, rootId, ds, RemovedList, x)
            <==> x in cat && x.root == rootId
                 && exists d :: d in ds && x.path == DbDir(v, d.0) && x.name !in ClaimedNames(cat, v, rootId, d.0, d.1)
  {
    if QueuedBySome(cat, v, rootId, ds, RemovedList, x) {
      var d :| d in ds && Queues(cat, v, rootId, d, RemovedList, x);
      QueuesRemoved(cat, v, rootId, d, x);
    }
    if x in cat && x.root == rootId && exists d :: d in ds && x.path == DbDir(v, d.0) && x.name !in ClaimedNames(cat, v, rootId, d.0, d.1) {
      var d :| d in ds && x.path == DbDir(v, d.0) && x.name !in ClaimedNames(cat, v, rootId, d.0, d.1);
      QueuesRemoved(cat, v, rootId, d, x);
    }
  }

  /** A directory's scan removes the rows of the root in that directory that no accepted file claimed. */
  lemma QueuesRemoved(cat: seq<FileRecord>, v: Version, rootId: int, d: Dir, x: FileRecord)
    ensures Queues(cat, v, rootId, d, RemovedList, x)
            <==> x in cat && x.root == rootId && x.path == DbDir(v, d.0) && x.name !in ClaimedNames(cat, v, rootId, d.0, d.1)
  {
  }

  /**
   * Removals of a scan: a row of the root is removed exactly when it sits in a visited
   * directory and no accepted file there reported its name, or, for a whole-library
   * scan, when its directory was not visited at all. Rows of other roots are never removed.
   */
  lemma ImportFilesFromRemoves(cat: seq<FileRecord>, v: Version, rootId: int, start: string, es: seq<Entry>, x: FileRecord)
    ensures var reach := Reach(v, (start, es));
            x in ImportFilesFrom(cat, v, rootId, start, es).removedFiles
            <==> x in cat && x.root == rootId
                 && ((exists d :: d in reach && x.path == DbDir(v, d.0) && x.name !in ClaimedNames(cat, v, rootId, d.0, d.1))
                     || (start == "." && x.path !in DirPaths(v, reach)))
  {
    ImportFilesFromLists(cat, v, rootId, start, es, RemovedList, x);
    QueuedRemoved(cat, v, rootId, Reach(v, (start, es)), x);
  }

  /** New and changed files of a scan are those queued by the imports of the accepted files of the reachable directories. */
  lemma ImportFilesFromImports(cat: seq<FileRecord>, v: Version, rootId: int, start: string, es: seq<Entry>, k: ListKind, x: FileRecord)
    requires k != RemovedList
    ensures x in Pick(ImportFilesFrom(cat, v, rootId, start, es), k)
            <==> exists d, i :: d in Reach(v, (start, es)) && QueuedAt(cat, v, rootId, d.0, d.1, i, k, x)
  {
    var reach := Reach(v, (start, es));
    ImportFilesFromLists(cat, v, rootId, start, es, k, x);
    if QueuedBySome(cat, v, rootId, reach, k, x) {
      var d :| d in reach && Queues(cat, v, rootId, d, k, x);
      DirResultImports(cat, v, rootId, d, k, x);
      var i :| QueuedAt(cat, v, rootId, d.0, d.1, i, k, x);
      assert d in reach && QueuedAt(cat, v, rootId, d.0, d.1, i, k, x);
    }
    if exists d, i :: d in reach && QueuedAt(cat, v, rootId, d.0, d.1, i, k, x) {
      var d, i :| d in reach && QueuedAt(cat, v, rootId, d.0, d.1, i, k, x);
      DirResultImports(cat, v, rootId, d, k, x);
      assert x in Pick(DirResult(cat, v, rootId, d), k);
      assert QueuedBySome(cat, v, rootId, reach, k, x);
    }
  }

  /** Changed row ids stay paired with the changed rows in the current importer's change list. */
  lemma ImportFilesFromAligned(cat: seq<FileRecord>, cfg: Config, rootId: int, start: string, es: seq<Entry>)
    ensures Aligned(ImportFilesFrom(cat, Current(cfg), rootId, start, es))
  {
    var v := Current(cfg);
    var walked := Walk(cat, v, rootId, [(start, es)], {DbDir(v, start)}, NoChanges);
    WalkAligned(cat, v, rootId, [(start, es)], {DbDir(v, start)}, NoChanges);
    MergeAligned(walked.0, ChangeList([], Stale(cat, rootId, walked.1), [], []));
  }

  /** With an empty listing the legacy importer removes every row of the root: nothing is claimed and no directory is recorded but `.`. */
  lemma LegacyEmptyRootRemovesAll(cat: seq<FileRecord>, rootId: int, x: FileRecord)
    requires x in cat && x.root == rootId
    ensures x in ImportFilesFrom(cat, Legacy, rootId, ".", []).removedFiles
  {
    var d: Dir := (".", []);
    var reach := Reach(Legacy, d);
    ImportFilesFromRemoves(cat, Legacy, rootId, ".", [], x);
    assert Subdirs(Legacy, ".", []) == [];
    assert reach == {d};
    assert DirPaths(Legacy, reach) == {"."};
    if x.path == "." {
      ClaimedNamesIff(cat, Legacy, rootId, ".", [], x.name);
      assert d in reach && x.path == DbDir(Legacy, d.0) && x.name !in ClaimedNames(cat, Legacy, rootId, d.0, d.1);
    }
  }

  /** The change list of one listed root: from the root's row id and its top directory's entries. */
  type Importer = (int, seq<Entry>) -> ChangeList

  /** The importer `import_all` runs: each root scanned from `.` against one catalogue snapshot. */
  function SnapshotImporter(cat: seq<FileRecord>, v: Version): Importer {
    (rootId: int, es: seq<Entry>) => ImportFilesFrom(cat, v, rootId, ".", es)
  }

  /** A library root with the outcome of opening it and listing its top directory. */
  datatype RootListing = RootListing(root: LibraryRoot, listing: Result<seq<Entry>, string>)

  /**
   * The change lists a run of `import_all` yields, the status lines it reports, and the
   * error that ended the run early, if one did.
   */
  datatype ScanReport = ScanReport(changeLists: seq<ChangeList>, messages: seq<string>, raised: Option<string>)

  /**
   * The root cannot be opened and the importer lets the error through: the legacy one
   * catches only `IOError`, and the filesystem layer's errors are not `IOError`s.
   */
  predicate Aborts(v: Version, rl: RootListing) {
    v.Legacy? && rl.listing.Failure?
  }

  /**
   * One root of `import_all`: the current importer reports and skips a root that cannot
   * be listed or whose top directory is empty; the legacy importer is ended by a root
   * it cannot open; every other root is scanned from `.`.
   */
  function ScanRoot(imp: Importer, v: Version, rl: RootListing): (r: ScanReport)
    ensures |r.changeLists| <= 1
    ensures r.changeLists == [] <==> !Scans(v, rl)
    ensures r.raised.Some? <==> Aborts(v, rl)
    ensures r.raised.Some? ==> r.raised.value == rl.listing.error
  {
    var intro := ["importing library root: " + rl.root.name];
    match rl.listing
    case Failure(err) =>
      if v.Legacy? then ScanReport([], intro, Some(err))
      else ScanReport([], intro + ["Error importing library: " + rl.root.name + " - " + err], None)
    case Success(es) =>
      if v.Current? && |es| == 0 then ScanReport([], intro + ["Skipping empty library: " + rl.root.name], None)
      else ScanReport([imp(rl.root.rowid, es)], intro, None)
  }

  /** The root is scanned: it could be listed and, for the current importer, is not empty. */
  predicate Scans(v: Version, rl: RootListing) {
    rl.listing.Success? && (v.Current? ==> |rl.listing.value| > 0)
  }

  /** The roots in order, up to the first one whose error ends the run. */
  function ScanRoots(imp: Importer, v: Version, roots: seq<RootListing>): (r: ScanReport)
    ensures v.Current? ==> r.raised.None?
    ensures r.raised.Some? ==> |r.messages| >= 1 && StartsWith(r.messages[|r.messages| - 1], "importing library root: ")
  {
    if |roots| == 0 then ScanReport([], [], None)
    else
      var prev := ScanRoots(imp, v, roots[..|roots| - 1]);
      if prev.raised.Some? then prev
      else
        var one := ScanRoot(imp, v, roots[|roots| - 1]);
        ScanReport(prev.changeLists + one.changeLists, prev.messages + one.messages, one.raised)
  }

  /**
   * `import_all` over the roots in catalogue order, each listed root scanned by `imp`
   * (in the program, `SnapshotImporter`): a run that is not ended early reports `done.` last.
   */
  function ImportAll(imp: Importer, v: Version, roots: seq<RootListing>): (r: ScanReport)
    ensures v.Current? ==> r.raised.None?
    ensures r.raised.None? ==> |r.messages| >= 1 && r.messages[|r.messages| - 1] == "done."
    ensures r.raised.Some? ==> |r.messages| >= 1 && r.messages[|r.messages| - 1] != "done."
  {
    var all := ScanRoots(imp, v, roots);
    if all.raised.Some? then all
    else ScanReport(all.changeLists, all.messages + ["done."], None)
  }

  /** The roots the run gets through: all of them, or those before the first root that ends it. */
  function Reached(v: Version, roots: seq<RootListing>): (r: seq<RootListing>)
    ensures |r| <= |roots| && r == roots[..|r|]
    ensures forall i :: 0 <= i < |r| ==> !Aborts(v, r[i])
    ensures |r| < |roots| ==> Aborts(v, roots[|r|])
    ensures v.Current? ==> r == roots
  {
    if |roots| == 0 then []
    else
      var init := roots[..|roots| - 1];
      var prev := Reached(v, init);
      if |prev| < |init| || Aborts(v, roots[|roots| - 1]) then prev
      else
        assert init + [roots[|roots| - 1]] == roots;
        roots
  }

  /** The roots that are scanned, in order. */
  function ScannedRoots(v: Version, roots: seq<RootListing>): (r: seq<RootListing>)
    ensures forall i :: 0 <= i < |r| ==> Scans(v, r[i])
  {
    if |roots| == 0 then []
    else
      var init := roots[..|roots| - 1];
      var last := roots[|roots| - 1];
      ScannedRoots(v, init) + (if Scans(v, last) then [last] else [])
  }

  /** The scanned roots are exactly the roots that are scanned: none is dropped or invented. */
  lemma {:induction false} ScannedRootsMembers(v: Version, roots: seq<RootListing>)
    ensures forall rl :: rl in ScannedRoots(v, roots) <==> rl in roots && Scans(v, rl)
    decreases |roots|
  {
    if |roots| > 0 {
      var init := roots[..|roots| - 1];
      var last := roots[|roots| - 1];
      ScannedRootsMembers(v, init);
      assert roots == init + [last];
    }
  }

  /** The change list of each scanned root, from the root's own listing. */
  function RootChanges(imp: Importer, v: Version, sc: seq<RootListing>): (r: seq<ChangeList>)
    requires forall i :: 0 <= i < |sc| ==> sc[i].listing.Success?
    ensures |r| == |sc|
  {
    if |sc| == 0 then []
    else RootChanges(imp, v, sc[..|sc| - 1]) + [RootChange(imp, v, sc[|sc| - 1])]
  }

  /** The change list of one listed root, imported from its top folder. */
  function RootChange(imp: Importer, v: Version, rl: RootListing): ChangeList
    requires rl.listing.Success?
  {
    imp(rl.root.rowid, rl.listing.value)
  }

  /**
   * `import_all` yields exactly one change list per scanned root, in root order, up to
   * the root that ends the run: for the current importer a root that fails or is skipped
   * does not stop the roots after it; for the legacy one, a root that cannot be opened
   * ends the run with its error.
   */
  lemma ImportAllYields(imp: Importer, v: Version, roots: seq<RootListing>)
    ensures ImportAll(imp, v, roots).changeLists == RootChanges(imp, v, ScannedRoots(v, Reached(v, roots)))
    ensures ImportAll(imp, v, roots).raised.None? <==> Reached(v, roots) == roots
    ensures ImportAll(imp, v, roots).raised.Some? ==>
              ImportAll(imp, v, roots).raised.value == roots[|Reached(v, roots)|].listing.error
  {
    ScanRootsYields(imp, v, roots);
  }

  lemma {:induction false} ScanRootsYields(imp: Importer, v: Version, roots: seq<RootListing>)
    ensures ScanRoots(imp, v, roots).changeLists == RootChanges(imp, v, ScannedRoots(v, Reached(v, roots)))
    ensures ScanRoots(imp, v, roots).raised.None? <==> |Reached(v, roots)| == |roots|
    ensures ScanRoots(imp, v, roots).raised.Some? ==>
              ScanRoots(imp, v, roots).raised.value == roots[|Reached(v, roots)|].listing.error
    decreases |roots|
  {
    if |roots| > 0 {
      var init := roots[..|roots| - 1];
      ScanRootsYields(imp, v, init);
      if ScanRoots(imp, v, init).raised.None? {
        ScanRootsStep(imp, v, roots);
      }
    }
  }

  /** One more root after a run that was not ended early. */
  lemma ScanRootsStep(imp: Importer, v: Version, roots: seq<RootListing>)
    requires |roots| > 0
    requires var init := roots[..|roots| - 1];
             ScanRoots(imp, v, init).raised.None? && Reached(v, init) == init
             && ScanRoots(imp, v, init).changeLists == RootChanges(imp, v, ScannedRoots(v, init))
    ensures ScanRoots(imp, v, roots).changeLists == RootChanges(imp, v, ScannedRoots(v, Reached(v, roots)))
    ensures ScanRoots(imp, v, roots).raised.None? <==> |Reached(v, roots)| == |roots|
    ensures ScanRoots(imp, v, roots).raised.Some? ==>
              ScanRoots(imp, v, roots).raised.value == roots[|Reached(v, roots)|].listing.error
  {
    var init := roots[..|roots| - 1];
    var last := roots[|roots| - 1];
    var prev := ScanRoots(imp, v, init);
    var one := ScanRoot(imp, v, last);
    assert ScanRoots(imp, v, roots) == ScanReport(prev.changeLists + one.changeLists, prev.messages + one.messages, one.raised);
    ReachedStep(v, roots);
    ScanRootChanges(imp, v, last);
    var a := ScannedRoots(v, init);
    if Aborts(v, last) {
      assert one.changeLists == [];
      assert roots[|init|] == last;
    } else {
      assert ScannedRoots(v, roots) == a + (if Scans(v, last) then [last] else []);
      if Scans(v, last) {
        RootChangesSnoc(imp, v, a, last);
      } else {
        assert a + [] == a;
      }
    }
  }

  /** The run gets one root further unless that root ends it. */
  lemma ReachedStep(v: Version, roots: seq<RootListing>)
    requires |roots| > 0 && Reached(v, roots[..|roots| - 1]) == roots[..|roots| - 1]
    ensures Reached(v, roots) == if Aborts(v, roots[|roots| - 1]) then roots[..|roots| - 1] else roots
  {
    assert roots[..|roots| - 1] + [roots[|roots| - 1]] == roots;
  }

  /** The change lists of the scanned roots, one root longer. */
  lemma RootChangesSnoc(imp: Importer, v: Version, sc: seq<RootListing>, last: RootListing)
    requires forall i :: 0 <= i < |sc| ==> sc[i].listing.Success?
    requires last.listing.Success?
    ensures RootChanges(imp, v, sc + [last]) == RootChanges(imp, v, sc) + [RootChange(imp, v, last)]
  {
    assert (sc + [last])[..|sc|] == sc;
  }

  /** A root's change list is the one its listing gives when it is scanned, and none otherwise. */
  lemma ScanRootChanges(imp: Importer, v: Version, rl: RootListing)
    ensures var b := if Scans(v, rl) then [rl] else [];
            ScanRoot(imp, v, rl).changeLists == RootChanges(imp, v, b)
  {
  }

  /** The run is ended early exactly when some root ends it: for the legacy importer, one that cannot be opened. */
  lemma ImportAllRaisesIff(imp: Importer, v: Version, roots: seq<RootListing>)
    ensures ImportAll(imp, v, roots).raised.Some? <==> exists i :: 0 <= i < |roots| && Aborts(v, roots[i])
  {
    ScanRootsYields(imp, v, roots);
    var r := Reached(v, roots);
    if |r| < |roots| {
      assert Aborts(v, roots[|r|]);
    } else {
      forall i | 0 <= i < |roots|
        ensures !Aborts(v, roots[i])
      {
        assert roots[i] == r[i];
      }
    }
  }

  /**
   * A root that cannot be listed is reported with its name and the error by the current
   * importer; the legacy importer reports nothing for it and the run ends with an error.
   */
  lemma {:induction false} ImportAllReportsFailure(imp: Importer, v: Version, roots: seq<RootListing>, i: nat)
    requires i < |roots| && roots[i].listing.Failure?
    ensures v.Current? ==>
              "Error importing library: " + roots[i].root.name + " - " + roots[i].listing.error in ImportAll(imp, v, roots).messages
    ensures v.Legacy? ==> ImportAll(imp, v, roots).raised.Some?
    decreases |roots|
  {
    if v.Legacy? {
      ImportAllRaisesIff(imp, v, roots);
      assert Aborts(v, roots[i]);
    } else {
      CurrentReportsFailure(imp, v, roots, i);
    }
  }

  lemma {:induction false} CurrentReportsFailure(imp: Importer, v: Version, roots: seq<RootListing>, i: nat)
    requires v.Current? && i < |roots| && roots[i].listing.Failure?
    ensures "Error importing library: " + roots[i].root.name + " - " + roots[i].listing.error in ScanRoots(imp, v, roots).messages
    decreases |roots|
  {
    var init := roots[..|roots| - 1];
    var msg := "Error importing library: " + roots[i].root.name + " - " + roots[i].listing.error;
    if i < |roots| - 1 {
      assert init[i] == roots[i];
      CurrentReportsFailure(imp, v, init, i);
    } else {
      assert msg in ScanRoot(imp, v, roots[i]).messages;
    }
    assert ScanRoots(imp, v, roots).messages == ScanRoots(imp, v, init).messages + ScanRoot(imp, v, roots[|roots| - 1]).messages;
  }

  /** A legacy library root that cannot be opened ends the run: later roots are not scanned and `done.` is not reported. */
  lemma LegacyFailedRootEndsRun(imp: Importer, roots: seq<RootListing>, i: nat)
    requires i < |roots| && roots[i].listing.Failure?
    requires forall k :: 0 <= k < i ==> roots[k].listing.Success?
    ensures ImportAll(imp, Legacy, roots).raised == Some(roots[i].listing.error)
    ensures ImportAll(imp, Legacy, roots).changeLists == RootChanges(imp, Legacy, roots[..i])
    ensures "done." !in ImportAll(imp, Legacy, roots).messages[|ImportAll(imp, Legacy, roots).messages| - 1..]
  {
    ImportAllYields(imp, Legacy, roots);
    var r := Reached(Legacy, roots);
    ReachedUpTo(Legacy, roots, i);
    LegacyScannedAll(r);
  }

  /** The run gets through exactly the roots before the first one that ends it. */
  lemma ReachedUpTo(v: Version, roots: seq<RootListing>, i: nat)
    requires i < |roots| && Aborts(v, roots[i])
    requires forall k :: 0 <= k < i ==> !Aborts(v, roots[k])
    ensures Reached(v, roots) == roots[..i]
  {
    var r := Reached(v, roots);
    forall k | 0 <= k < |r|
      ensures !Aborts(v, roots[k])
    {
      assert roots[k] == r[k];
    }
    assert |r| <= i;
  }

  /** For the legacy importer every root that could be opened is scanned. */
  lemma {:induction false} LegacyScannedAll(roots: seq<RootListing>)
    requires forall k :: 0 <= k < |roots| ==> roots[k].listing.Success?
    ensures ScannedRoots(Legacy, roots) == roots
    decreases |roots|
  {
    if |roots| > 0 {
      LegacyScannedAll(roots[..|roots| - 1]);
      assert roots[..|roots| - 1] + [roots[|roots| - 1]] == roots;
    }
  }

  // ---------------------------------------------------------------------------
  // A compressed copy next to its original.

  /**
   * With `x.fits` and `x.fits.xz` side by side and only `x.fits` catalogued, both files
   * report that one row: the original leaves it unchanged, the compressed copy (of another
   * size or time) renames it to itself. No row is queued for the compressed copy.
   */
  lemma CompressedCopyClaimsSameRow(b: string, e: string, id: int, rootId: int, s1: int, t1: int, s2: int, t2: int)
    requires PlainBase(b) && e in CompressedExts
    requires s1 != s2 || t1 != t2
    ensures var cat := [FileRecord(id, rootId, "", b, s1, t1)];
            && ImportFile(cat, rootId, ".", b, s1, t1) == Imported(b, NoChanges)
            && ImportFile(cat, rootId, ".", b + e, s2, t2)
               == Imported(b, ChangeList([], [], [id], [FileRecord(id, rootId, "", b + e, s2, t2)]))
  {
    var cat := [FileRecord(id, rootId, "", b, s1, t1)];
    VariantsShared(b, e);
    assert NormDir(".") == "";
    assert Candidate(cat[0], rootId, "", b);
    assert Candidate(cat[0], rootId, "", b + e);
    assert b != b + e by {
      assert |e| > 0;
    }
  }
}

=== FILE: search.dfy ===
/**
 * `Image.apply_search_criteria` of both applications, as a predicate over the (file, image)
 * rows of the joined tables rather than as SQL (photonfinder/models.py,
 * astrofilemanager/models.py).
 */
module Search {
  import opened Wrappers
  import opened Text
  import opened Numbers
  import opened Headers
  import opened Catalogue
  import Handlers
  import opened Criteria

  /** A row of the file table joined with its image. */
  datatype Row = Row(file: FileRecord, image: Handlers.Image)

  /** The columns a search can be told to leave unconstrained (`exclude_ref`). */
  datatype Column =
    | PathCol | TypeCol | FilterCol | CameraCol | ObjectCol | FileNameCol | ExposureCol
    | TelescopeCol | BinningCol | GainCol | OffsetCol | SetTempCol | DateCol | CoordCol

  /**
   * What the current search reads besides the two rows: the stored header of a file
   * (`decompress_header_value` and `decompress` in SQL; `headerText` is `None` exactly for
   * a file without a header row), the project links as (project, file) rowid pairs, and
   * the HEALPix cone search, `None` standing for its exception.
   */
  datatype Store = Store(
    headerValue: (int, string) -> Option<HValue>,
    headerText: int -> Option<string>,
    links: set<(int, int)>,
    cone: (string, string, Decimal) -> Option<set<int>>)

  /** The two applications: the current one with its extra filters, and the earlier one. */
  datatype Flavour = Current(store: Store) | Legacy

  /** A filter on `col` takes part unless the search excludes that column. */
  predicate Active(ex: Option<Column>, col: Column) {
    ex != Some(col)
  }

  /** SQL `LIKE '%text%'` as SQLite runs it: a substring test ignoring ASCII case; `NULL` never matches. */
  predicate Like(col: Option<string>, text: string) {
    col.Some? && Contains(Lower(col.value), Lower(text))
  }

  /** SQL `LIKE 'prefix%'`: a prefix test ignoring ASCII case. */
  predicate LikePrefix(col: string, prefix: string) {
    Lower(prefix) <= Lower(col)
  }

  // ---------------------------------------------------------------------------
  // Paths.

  /** The "all libraries" entry: neither a root nor a path. */
  predicate AllLibraries(rp: RootAndPath) {
    rp.rootId.None? && rp.path.None?
  }

  /** The directory text an entry is compared with: normalised in the current search, raw in the earlier one. */
  function EntryDir(fl: Flavour, p: string): string {
    if fl.Current? then NormDbPath(Some(p)).value else p
  }

  /** The path conditions of prefix mode: the loop over the entries, cut off by an all-libraries entry. */
  function PrefixEntries(ps: seq<RootAndPath>, acc: seq<RootAndPath>): (r: seq<RootAndPath>)
    decreases |ps|
  {
    if |ps| == 0 then acc
    else if AllLibraries(ps[0]) then []
    else PrefixEntries(ps[1..], acc + [ps[0]])
  }

  /** The path conditions of exact mode: the loop over the entries, skipping all-libraries ones. */
  function ExactEntries(ps: seq<RootAndPath>, acc: seq<RootAndPath>): (r: seq<RootAndPath>)
    decreases |ps|
  {
    if |ps| == 0 then acc
    else if AllLibraries(ps[0]) then ExactEntries(ps[1..], acc)
    else ExactEntries(ps[1..], acc + [ps[0]])
  }

  /** Prefix mode keeps every entry unless one of them is the all-libraries entry, which clears them all. */
  lemma {:induction false} PrefixEntriesSpec(ps: seq<RootAndPath>, acc: seq<RootAndPath>)
    ensures PrefixEntries(ps, acc) == if exists i :: 0 <= i < |ps| && AllLibraries(ps[i]) then [] else acc + ps
    decreases |ps|
  {
    if |ps| > 0 {
      PrefixEntriesSpec(ps[1..], acc + [ps[0]]);
      if AllLibraries(ps[0]) {
        assert AllLibraries(ps[0]);
      } else {
        assert (exists i :: 0 <= i < |ps| && AllLibraries(ps[i])) <==>
               (exists i :: 0 <= i < |ps[1..]| && AllLibraries(ps[1..][i])) by {
          if exists i :: 0 <= i < |ps| && AllLibraries(ps[i]) {
            var i :| 0 <= i < |ps| && AllLibraries(ps[i]);
            assert i > 0 && ps[1..][i - 1] == ps[i];
          }
        }
        assert acc + [ps[0]] + ps[1..] == acc + ps;
      }
    } else {
      assert acc + ps == acc;
    }
  }

  /** Exact mode keeps, in order, exactly the entries that are not the all-libraries entry. */
  lemma {:induction false} ExactEntriesSpec(ps: seq<RootAndPath>, acc: seq<RootAndPath>)
    ensures forall e :: e in ExactEntries(ps, acc) <==> e in acc || (e in ps && !AllLibraries(e))
    decreases |ps|
  {
    if |ps| > 0 {
      ExactEntriesSpec(ps[1..], if AllLibraries(ps[0]) then acc else acc + [ps[0]]);
      assert forall e :: e in ps <==> e == ps[0] || e in ps[1..];
    }
  }

  /** One path condition: the file's root, and a directory under or equal to the entry's. */
  predicate EntryMatches(fl: Flavour, prefix: bool, rp: RootAndPath, f: FileRecord) {
    rp.rootId == Some(f.root)
    && if prefix then rp.path.None? || LikePrefix(f.path, EntryDir(fl, rp.path.value))
       else f.path == (if rp.path.None? then "" else EntryDir(fl, rp.path.value))
  }

  /** The path filter: the entries' conditions OR-ed together; no condition means no constraint. */
  predicate PathOk(fl: Flavour, paths: seq<RootAndPath>, prefix: bool, f: FileRecord) {
    var conds := Conditions(paths, prefix);
    |paths| == 0 || |conds| == 0
    || exists e :: e in conds && EntryMatches(fl, prefix, e, f)
  }

  /** The entries that become path conditions in the chosen mode. */
  function Conditions(paths: seq<RootAndPath>, prefix: bool): seq<RootAndPath> {
    if prefix then PrefixEntries(paths, []) else ExactEntries(paths, [])
  }

  // ---------------------------------------------------------------------------
  // Field filters.

  /** An equality filter on an optional text column: `""` means none; `None` asks for `NULL`. */
  predicate TextEq(want: Option<string>, have: Option<string>) {
    want == Some("") || have == want
  }

  /** A numeric filter typed as text: a value that does not parse is ignored. */
  predicate RealEq(want: string, have: Option<Decimal>) {
    want == "" || match ParseDecimal(want)
                  case None => true
                  case Some(w) => have.Some? && Value(have.value) == Value(w)
  }

  predicate IntEq(want: string, have: Option<int>) {
    want == "" || match ParseInt(want)
                  case None => true
                  case Some(w) => have == Some(w)
  }

  /** The date range, both ends included; an image without a date fails either bound. */
  predicate InRange(start: Option<DateTime>, end: Option<DateTime>, have: Option<DateTime>) {
    (start.None? || (have.Some? && have.value >= start.value))
    && (end.None? || (have.Some? && have.value <= end.value))
  }

  /** The sky filter: the image's HEALPix index in the cone; ignored when the cone cannot be computed or is empty. */
  predicate InCone(c: SearchCriteria, pix: Option<int>, s: Store) {
    c.coordRa == "" || c.coordDec == "" ||
      match s.cone(c.coordRa, c.coordDec, c.coordRadius)
      case None => true
      case Some(cone) => cone == {} || (pix.Some? && pix.value in cone)
  }

  /**
   * The filter on one column, as if that column were not excluded. The filters on the
   * file name, offset and sky position exist only in the current application.
   */
  predicate Filter(fl: Flavour, c: SearchCriteria, r: Row, col: Column) {
    var im := r.image;
    match col
    case PathCol => PathOk(fl, c.paths, c.pathsAsPrefix, r.file)
    case TypeCol => TextEq(c.imageType, im.imageType)
    case FilterCol => TextEq(c.filter, im.filter)
    case CameraCol => TextEq(c.camera, im.camera)
    case ObjectCol => !SomeText(c.objectName) || Like(im.objectName, c.objectName.value)
    case FileNameCol => fl.Legacy? || !SomeText(c.fileName) || Like(Some(r.file.name), c.fileName.value)
    case ExposureCol => RealEq(c.exposure, im.exposure)
    case TelescopeCol => c.telescope == "" || Like(im.telescope, c.telescope)
    case BinningCol => IntEq(c.binning, im.binning)
    case GainCol => IntEq(c.gain, im.gain)
    case OffsetCol => fl.Legacy? || !SomeInt(c.offset) || im.offset == c.offset
    case SetTempCol => RealEq(c.temperature, im.setTemp)
    case DateCol => InRange(c.startDatetime, c.endDatetime, im.dateObs)
    case CoordCol => fl.Legacy? || InCone(c, im.coordPix, fl.store)
  }

  // ---------------------------------------------------------------------------
  // Filters only the current application has and that no column exclusion lifts.

  /** The comparison a header criterion asks for. */
  datatype Cmp = Eq | Lt | Gt

  /** A header criterion: a keyword compared with a number, or a substring of the whole header. */
  datatype HeaderTest = Compare(op: Cmp, key: string, value: Decimal) | Mentions(text: string)

  /**
   * How the header criterion is read: the first of `=`, `<`, `>` it holds splits it into
   * keyword and number; more than one such separator, or a value that is not a number,
   * makes it a substring search for the whole text.
   */
  function ParseHeaderText(t: string): (r: HeaderTest)
    ensures r.Mentions? ==> r.text == t
    ensures '=' !in t && '<' !in t && '>' !in t ==> r == Mentions(t)
  {
    if '=' in t then SplitCompare(t, '=', Eq)
    else if '<' in t then SplitCompare(t, '<', Lt)
    else if '>' in t then SplitCompare(t, '>', Gt)
    else Mentions(t)
  }

  function SplitCompare(t: string, sep: char, op: Cmp): (r: HeaderTest)
    ensures r.Mentions? ==> r.text == t
    ensures r.Compare? ==> r.op == op && |Split(t, sep)| == 2
  {
    var parts := Split(t, sep);
    if |parts| != 2 then Mentions(t)
    else
      match ParseDecimal(parts[1])
      case None => Mentions(t)
      case Some(v) => Compare(op, Strip(parts[0]), v)
  }

  /**
   * A stored header value compared with a number as SQLite compares them: a missing value
   * is `NULL` and never matches, and text sorts after every number.
   */
  predicate HeaderCompare(op: Cmp, have: Option<HValue>, want: Decimal) {
    match have
    case None => false
    case Some(HStr(_)) => op == Gt
    case Some(v) =>
      var x := Value(ToFloat(v).value);
      match op
      case Eq => x == Value(want)
      case Lt => x < Value(want)
      case Gt => x > Value(want)
  }

  predicate HeaderOk(text: string, r: Row, s: Store) {
    text == "" ||
      match ParseHeaderText(text)
      case Compare(op, key, v) => HeaderCompare(op, s.headerValue(r.file.rowid, key), v)
      case Mentions(t) => Like(s.headerText(r.file.rowid), t)
  }

  /** A project criterion: linked to that project, or for "no project", linked to none. */
  predicate ProjectOk(project: Option<int>, r: Row, s: Store) {
    match project
    case None => true
    case Some(p) =>
      if p > 0 then (p, r.file.rowid) in s.links
      else forall l :: l in s.links ==> l.1 != r.file.rowid
  }

  /** `apply_search_criteria`: the row passes every filter whose column is not excluded. */
  predicate Selects(fl: Flavour, c: SearchCriteria, r: Row, ex: Option<Column>) {
    (forall col :: Active(ex, col) ==> Filter(fl, c, r, col))
    && (fl.Current? ==> HeaderOk(c.headerText, r, fl.store) && ProjectOk(c.project, r, fl.store))
  }

  /**
   * The header filter reads a file without a header row: the outer join hands `NULL` to
   * the decompressing SQL function, whose exception aborts the query.
   */
  predicate HeaderRaises(text: string, r: Row, s: Store) {
    text != "" && s.headerText(r.file.rowid).None?
  }

  /** Every filter but the header one passes, so SQLite must evaluate the header filter on the row. */
  predicate OthersPass(fl: Flavour, c: SearchCriteria, r: Row, ex: Option<Column>) {
    (forall col :: Active(ex, col) ==> Filter(fl, c, r, col))
    && (fl.Current? ==> ProjectOk(c.project, r, fl.store))
  }

  /** The rows a search selects, in row order. */
  function Matching(fl: Flavour, c: SearchCriteria, rows: seq<Row>, ex: Option<Column>): (r: seq<Row>)
    ensures |r| <= |rows|
    ensures forall i :: 0 <= i < |r| ==> Selects(fl, c, r[i], ex)
    decreases |rows|
  {
    if |rows| == 0 then []
    else (if Selects(fl, c, rows[0], ex) then [rows[0]] else []) + Matching(fl, c, rows[1..], ex)
  }

  /** The search keeps every selected row and nothing else. */
  lemma {:induction false} MatchingMembers(fl: Flavour, c: SearchCriteria, rows: seq<Row>, ex: Option<Column>)
    ensures forall x :: x in Matching(fl, c, rows, ex) <==> x in rows && Selects(fl, c, x, ex)
    decreases |rows|
  {
    if |rows| > 0 {
      MatchingMembers(fl, c, rows[1..], ex);
      assert rows == [rows[0]] + rows[1..];
    }
  }

  /**
   * Running the query over the joined rows: it fails when a row that passes every other
   * filter has no stored header for the header filter to read, and otherwise yields the
   * selected rows.
   */
  function RunSearch(fl: Flavour, c: SearchCriteria, rows: seq<Row>, ex: Option<Column>): (r: Result<seq<Row>, string>)
    ensures r.Failure? <==> fl.Current? && exists i :: 0 <= i < |rows| && OthersPass(fl, c, rows[i], ex)
                                                        && HeaderRaises(c.headerText, rows[i], fl.store)
    ensures r.Success? ==> r.value == Matching(fl, c, rows, ex)
  {
    if fl.Current? && exists i :: 0 <= i < |rows| && OthersPass(fl, c, rows[i], ex)
                                 && HeaderRaises(c.headerText, rows[i], fl.store)
    then Failure("user-defined function raised exception")
    else Success(Matching(fl, c, rows, ex))
  }

  /**
   * A missing header row and a missing keyword differ: with a header row that lacks the
   * keyword, the comparison reads `NULL` and the row is just not selected.
   */
  lemma MissingKeyIsNoMatch(st: Store, c: SearchCriteria, r: Row, ex: Option<Column>)
    requires st.headerText(r.file.rowid).Some?
    requires c.headerText != "" && ParseHeaderText(c.headerText).Compare?
    requires st.headerValue(r.file.rowid, ParseHeaderText(c.headerText).key).None?
    ensures !Selects(Current(st), c, r, ex)
    ensures RunSearch(Current(st), c, [r], ex) == Success([])
  {
  }

  /** A row without a header row that passes the other filters makes a header search fail. */
  lemma MissingHeaderRowFails(st: Store, c: SearchCriteria, rows: seq<Row>, ex: Option<Column>, i: int)
    requires 0 <= i < |rows| && c.headerText != "" && st.headerText(rows[i].file.rowid).None?
    requires OthersPass(Current(st), c, rows[i], ex)
    ensures RunSearch(Current(st), c, rows, ex).Failure?
  {
  }

  /** Without a header criterion the search never fails. */
  lemma NoHeaderTextNeverFails(fl: Flavour, c: SearchCriteria, rows: seq<Row>, ex: Option<Column>)
    requires c.headerText == ""
    ensures RunSearch(fl, c, rows, ex) == Success(Matching(fl, c, rows, ex))
  {
  }

  // ---------------------------------------------------------------------------
  // Properties.

  /** An empty search selects every row. */
  lemma DefaultSelectsAll(fl: Flavour, r: Row, ex: Option<Column>)
    ensures Selects(fl, Default(), r, ex)
  {
  }

  /** The criteria with the filter on `col` taken back to its default. */
  function Clear(c: SearchCriteria, col: Column): (r: SearchCriteria)
    ensures r.headerText == c.headerText && r.project == c.project
  {
    match col
    case PathCol => c.(paths := [])
    case TypeCol => c.(imageType := Some(""))
    case FilterCol => c.(filter := Some(""))
    case CameraCol => c.(camera := Some(""))
    case ObjectCol => c.(objectName := None)
    case FileNameCol => c.(fileName := None)
    case ExposureCol => c.(exposure := "")
    case TelescopeCol => c.(telescope := "")
    case BinningCol => c.(binning := "")
    case GainCol => c.(gain := "")
    case OffsetCol => c.(offset := None)
    case SetTempCol => c.(temperature := "")
    case DateCol => c.(startDatetime := None, endDatetime := None)
    case CoordCol => c.(coordRa := "")
  }

  /** A cleared filter passes every row. */
  lemma ClearedPasses(fl: Flavour, c: SearchCriteria, r: Row, col: Column)
    ensures Filter(fl, Clear(c, col), r, col)
  {
  }

  /** Clearing one filter leaves every other filter as it was. */
  lemma ClearKeepsOthers(fl: Flavour, c: SearchCriteria, r: Row, col: Column, other: Column)
    requires other != col
    ensures Filter(fl, Clear(c, col), r, other) <==> Filter(fl, c, r, other)
  {
    ClearKeepsFields(c, col, other);
    FilterFollowsFields(fl, c, Clear(c, col), r, other);
  }

  /** The criteria fields the filter on `col` reads agree in `c` and `d`. */
  predicate SameFields(c: SearchCriteria, d: SearchCriteria, col: Column) {
    match col
    case PathCol => d.paths == c.paths && d.pathsAsPrefix == c.pathsAsPrefix
    case TypeCol => d.imageType == c.imageType
    case FilterCol => d.filter == c.filter
    case CameraCol => d.camera == c.camera
    case ObjectCol => d.objectName == c.objectName
    case FileNameCol => d.fileName == c.fileName
    case ExposureCol => d.exposure == c.exposure
    case TelescopeCol => d.telescope == c.telescope
    case BinningCol => d.binning == c.binning
    case GainCol => d.gain == c.gain
    case OffsetCol => d.offset == c.offset
    case SetTempCol => d.temperature == c.temperature
    case DateCol => d.startDatetime == c.startDatetime && d.endDatetime == c.endDatetime
    case CoordCol => d.coordRa == c.coordRa && d.coordDec == c.coordDec && d.coordRadius == c.coordRadius
  }

  /** A filter reads nothing of the criteria but its own fields. */
  lemma FilterFollowsFields(fl: Flavour, c: SearchCriteria, d: SearchCriteria, r: Row, col: Column)
    requires SameFields(c, d, col)
    ensures Filter(fl, d, r, col) <==> Filter(fl, c, r, col)
  {
    if col == CoordCol && fl.Current? {
      assert InCone(d, r.image.coordPix, fl.store) <==> InCone(c, r.image.coordPix, fl.store);
    }
  }

  /** Clearing one filter touches none of the fields another filter reads. */
  lemma ClearKeepsFields(c: SearchCriteria, col: Column, other: Column)
    requires other != col
    ensures SameFields(c, Clear(c, col), other)
  {
  }

  /** Excluding a column is the same as searching with that column's filter cleared. */
  lemma ExcludeIsClear(fl: Flavour, c: SearchCriteria, r: Row, col: Column)
    ensures Selects(fl, c, r, Some(col)) <==> Selects(fl, Clear(c, col), r, None)
  {
    var d := Clear(c, col);
    assert d.headerText == c.headerText && d.project == c.project;
    ClearedPasses(fl, c, r, col);
    forall other | other != col
      ensures Filter(fl, Clear(c, col), r, other) <==> Filter(fl, c, r, other)
    {
      ClearKeepsOthers(fl, c, r, col, other);
    }
  }

  /** Clearing a filter can only let more rows through. */
  lemma ClearWidens(fl: Flavour, c: SearchCriteria, r: Row, ex: Option<Column>, col: Column)
    requires Selects(fl, c, r, ex)
    ensures Selects(fl, Clear(c, col), r, ex)
  {
    ClearedPasses(fl, c, r, col);
    forall other | other != col
      ensures Filter(fl, Clear(c, col), r, other) <==> Filter(fl, c, r, other)
    {
      ClearKeepsOthers(fl, c, r, col, other);
    }
  }

  /** In prefix mode an all-libraries entry lifts the path constraint, whatever the other entries. */
  lemma AllLibrariesLiftsPaths(fl: Flavour, ps: seq<RootAndPath>, f: FileRecord, i: nat)
    requires i < |ps| && AllLibraries(ps[i])
    ensures PathOk(fl, ps, true, f)
  {
    PrefixEntriesSpec(ps, []);
  }

  /** An entry's exact condition implies its prefix condition. */
  lemma ExactEntryWithinPrefix(fl: Flavour, e: RootAndPath, f: FileRecord)
    requires EntryMatches(fl, false, e, f)
    ensures EntryMatches(fl, true, e, f)
  {
    if e.path.Some? {
      assert Lower(f.path) == Lower(EntryDir(fl, e.path.value));
    }
  }

  /** A file in exactly one of the directories is also under it: exact mode selects a subset of prefix mode. */
  lemma ExactWithinPrefix(fl: Flavour, ps: seq<RootAndPath>, f: FileRecord)
    requires PathOk(fl, ps, false, f)
    ensures PathOk(fl, ps, true, f)
  {
    PrefixEntriesSpec(ps, []);
    if |ps| > 0 && !(exists i :: 0 <= i < |ps| && AllLibraries(ps[i])) {
      assert Conditions(ps, true) == ps by {
        assert [] + ps == ps;
      }
      ExactEntriesSpec(ps, []);
      var exact := Conditions(ps, false);
      assert ps[0] in exact;
      var e :| e in exact && EntryMatches(fl, false, e, f);
      ExactEntryWithinPrefix(fl, e, f);
    }
  }

  /** The numeric criterion on `col` is set but is not a number. */
  predicate Unparsable(c: SearchCriteria, col: Column) {
    match col
    case ExposureCol => ParseDecimal(c.exposure).None?
    case BinningCol => ParseInt(c.binning).None?
    case GainCol => ParseInt(c.gain).None?
    case SetTempCol => ParseDecimal(c.temperature).None?
    case _ => false
  }

  /** A numeric criterion that does not parse constrains nothing: the search is as if it were cleared. */
  lemma UnparsableIgnored(fl: Flavour, c: SearchCriteria, r: Row, ex: Option<Column>, col: Column)
    requires Unparsable(c, col)
    ensures Selects(fl, c, r, ex) <==> Selects(fl, Clear(c, col), r, ex)
  {
    assert Filter(fl, c, r, col);
    ClearedPasses(fl, c, r, col);
    forall other | other != col
      ensures Filter(fl, Clear(c, col), r, other) <==> Filter(fl, c, r, other)
    {
      ClearKeepsOthers(fl, c, r, col, other);
    }
  }

  /** The date range includes both ends, and a missing date is outside every range. */
  lemma DateRangeInclusive(start: DateTime, end: DateTime, have: Option<DateTime>)
    ensures InRange(Some(start), Some(end), have) <==> have.Some? && start <= have.value <= end
    ensures InRange(Some(start), None, have) <==> have.Some? && start <= have.value
    ensures InRange(None, Some(end), have) <==> have.Some? && have.value <= end
  {
  }

  /**
   * A type, filter or camera criterion of `None` selects the images without that value,
   * `""` selects all, and any other text selects exactly the images with that value.
   */
  lemma TextCriterionMeaning(want: Option<string>, have: Option<string>)
    ensures want == None ==> (TextEq(want, have) <==> have.None?)
    ensures want == Some("") ==> TextEq(want, have)
    ensures want.Some? && want.value != "" ==> (TextEq(want, have) <==> have == want)
  {
  }

  /**
   * A keyword and a whole number separated by `=` compare the stored value with the
   * number; the keyword is taken without surrounding blanks.
   */
  lemma HeaderTextCompares(key: string, num: string)
    requires '=' !in key && |num| >= 1 && AllDigits(num)
    ensures ParseHeaderText(key + "=" + num) == Compare(Eq, Strip(key), Decimal(DigitsValue(num), 0))
  {
    SplitJoin([key, num], '=');
    assert Join([key, num], "=") == key + "=" + num;
    assert '=' in key + "=" + num by {
      assert (key + "=" + num)[|key|] == '=';
    }
    ParseDecimalWhole(num);
  }

  /** Two separators make the criterion a plain text search. */
  lemma HeaderTextTwoSeparators()
    ensures ParseHeaderText("A=1=2") == Mentions("A=1=2")
  {
    assert |Split("A=1=2", '=')| == 3 by {
      assert IndexOf("A=1=2", '=') == Some(1);
      assert IndexOf("1=2", '=') == Some(1);
      assert Split("2", '=') == ["2"];
    }
  }

  /**
   * For a stored number exactly one of `=`, `<`, `>` holds; a stored text satisfies only
   * `>`; a missing keyword satisfies none.
   */
  lemma HeaderCompareTrichotomy(have: Option<HValue>, want: Decimal)
    ensures have.Some? && !have.value.HStr? ==>
      (HeaderCompare(Eq, have, want) <==> !HeaderCompare(Lt, have, want) && !HeaderCompare(Gt, have, want))
      && !(HeaderCompare(Lt, have, want) && HeaderCompare(Gt, have, want))
    ensures have.Some? && have.value.HStr? ==>
      HeaderCompare(Gt, have, want) && !HeaderCompare(Eq, have, want) && !HeaderCompare(Lt, have, want)
    ensures have.None? ==> !HeaderCompare(Eq, have, want) && !HeaderCompare(Lt, have, want) && !HeaderCompare(Gt, have, want)
  {
  }

  /** A file linked to a project is never among the files of "no project". */
  lemma ProjectFiltersDisjoint(p: int, r: Row, s: Store)
    requires p > 0
    ensures !(ProjectOk(Some(p), r, s) && ProjectOk(Some(NoProject), r, s))
  {
    if ProjectOk(Some(p), r, s) {
      assert (p, r.file.rowid) in s.links;
    }
  }

  /** With every directory entry already in catalogue form, both applications read the paths alike. */
  lemma SamePathsAsLegacy(st: Store, c: SearchCriteria, f: FileRecord)
    requires forall i :: 0 <= i < |c.paths| && c.paths[i].path.Some? ==>
               NormDbPath(c.paths[i].path) == c.paths[i].path
    ensures PathOk(Current(st), c.paths, c.pathsAsPrefix, f) <==> PathOk(Legacy, c.paths, c.pathsAsPrefix, f)
  {
    var conds := Conditions(c.paths, c.pathsAsPrefix);
    PrefixEntriesSpec(c.paths, []);
    ExactEntriesSpec(c.paths, []);
    forall e | e in conds
      ensures EntryMatches(Current(st), c.pathsAsPrefix, e, f) <==> EntryMatches(Legacy, c.pathsAsPrefix, e, f)
    {
      var j :| 0 <= j < |c.paths| && c.paths[j] == e;
      if e.path.Some? {
        assert EntryDir(Current(st), e.path.value) == EntryDir(Legacy, e.path.value);
      }
    }
  }

  /**
   * With the current application's extra filters at their defaults and every directory
   * entry already in catalogue form, the two applications select the same rows.
   */
  lemma SameSelectionAsLegacy(st: Store, c: SearchCriteria, r: Row, ex: Option<Column>)
    requires c.fileName == None && c.offset == None && c.coordRa == "" && c.headerText == "" && c.project == None
    requires forall i :: 0 <= i < |c.paths| && c.paths[i].path.Some? ==>
               NormDbPath(c.paths[i].path) == c.paths[i].path
    ensures Selects(Current(st), c, r, ex) <==> Selects(Legacy, c, r, ex)
  {
    SamePathsAsLegacy(st, c, r.file);
    forall col
      ensures Filter(Current(st), c, r, col) <==> Filter(Legacy, c, r, col)
    {
    }
  }
}

=== FILE: searchpanel.dfy ===
/**
 * The state logic of a search tab (photonfinder/ui/SearchPanel.py): the three-step sort
 * cycle of a header click, the filter combos with their two special labels, the
 * advanced-filter buttons, and the walk that selects a stored path in the library tree.
 */
module SearchPanel {
  import opened Wrappers
  import opened Text
  import Catalogue
  import Criteria
  import Seqs

  // ---------------------------------------------------------------------------
  // Sorting by a header click.

  /** The sort of a tab: the column, or none, and whether it is descending. */
  datatype Sort = Sort(index: Option<int>, desc: bool)

  /**
   * `on_sort_requested`: a negative column resets, a new column sorts ascending, and the
   * same column goes from ascending to descending and then back to unsorted.
   */
  function OnSortRequested(s: Sort, column: int): (r: Sort)
    ensures r.index.None? ==> !r.desc
    ensures r.index.Some? ==> column >= 0 && r.index == Some(column)
    ensures r.index.None? <==> column < 0 || s == Sort(Some(column), true)
    ensures r.desc <==> column >= 0 && s == Sort(Some(column), false)
  {
    if column < 0 then Sort(None, false)
    else if s.index != Some(column) then Sort(Some(column), false)
    else if !s.desc then Sort(Some(column), true)
    else Sort(None, false)
  }

  /** Three clicks on one column from an unsorted tab pass through ascending and descending and end unsorted. */
  lemma ThreeClicks(s: Sort, column: int)
    requires s.index.None? && column >= 0
    ensures OnSortRequested(s, column) == Sort(Some(column), false)
    ensures OnSortRequested(OnSortRequested(s, column), column) == Sort(Some(column), true)
    ensures OnSortRequested(OnSortRequested(OnSortRequested(s, column), column), column) == Sort(None, false)
  {
  }

  /** Every state a click can produce comes back after three more clicks on the same column. */
  lemma SortCycle(s: Sort, column: int, again: int)
    requires column >= 0 && again >= 0
    ensures var t := OnSortRequested(s, column);
            t.index.None? || t.index == Some(again) ==>
              OnSortRequested(OnSortRequested(OnSortRequested(t, again), again), again) == t
  {
  }

  function SortOf(c: Criteria.SearchCriteria): Sort {
    Sort(c.sortingIndex, c.sortingDesc)
  }

  /** A header click on a tab's criteria: only the two sort fields change. */
  function ApplySort(c: Criteria.SearchCriteria, column: int): (r: Criteria.SearchCriteria)
    ensures SortOf(r) == OnSortRequested(SortOf(c), column)
    ensures r.(sortingIndex := c.sortingIndex, sortingDesc := c.sortingDesc) == c
  {
    var s := OnSortRequested(SortOf(c), column);
    c.(sortingIndex := s.index, sortingDesc := s.desc)
  }

  /**
   * A reset stores ascending while a fresh criteria is descending, so once any header
   * click has been handled the criteria is never `is_empty` again, a reset included.
   */
  lemma ClickedIsNeverEmpty(c: Criteria.SearchCriteria, column: int)
    ensures !Criteria.IsEmpty(ApplySort(c, column))
  {
    assert Criteria.Default().sortingDesc;
  }

  // ---------------------------------------------------------------------------
  // The filter combos.

  /** The combo entry that stands for a NULL column value. */
  const EmptyLabel := "<empty>"
  /** The combo entry that stands for "no constraint". */
  const ResetLabel := "<any>"

  /** `_get_combo_value`: `<any>` is no constraint, `<empty>` is NULL, other text is itself. */
  function ComboValue(text: string): (r: Option<string>)
    ensures r.None? <==> text == EmptyLabel
    ensures r == Some("") <==> text == ResetLabel || text == ""
    ensures r.Some? && r.value != "" ==> r.value == text
  {
    if text == ResetLabel then Some("")
    else if text == EmptyLabel then None
    else Some(text)
  }

  /** `_not_empty`: the combo shows a concrete value. */
  predicate NotEmpty(text: string) {
    text != EmptyLabel && text != "" && text != ResetLabel
  }

  /** A combo shows a concrete value exactly when it reads back as a non-empty constraint. */
  lemma NotEmptyIsConstraint(text: string)
    ensures NotEmpty(text) <==> ComboValue(text).Some? && ComboValue(text).value != ""
  {
  }

  /** A combo box: its entries and the index of the current one (-1 when there is none). */
  datatype Combo = Combo(items: seq<string>, current: int)

  /** `currentText()`. */
  function CurrentText(c: Combo): string {
    if 0 <= c.current < |c.items| then c.items[c.current] else ""
  }

  /** `findText`: the first entry with exactly this text. */
  function FindText(items: seq<string>, t: string, from: nat): (r: Option<nat>)
    requires from <= |items|
    ensures r.Some? ==> from <= r.value < |items| && items[r.value] == t
                         && forall k :: from <= k < r.value ==> items[k] != t
    ensures r.None? <==> forall k :: from <= k < |items| ==> items[k] != t
    decreases |items| - from
  {
    if from == |items| then None
    else if items[from] == t then Some(from)
    else FindText(items, t, from + 1)
  }

  /** `setCurrentText` on a read-only combo: select the entry if there is one, else change nothing. */
  function SetCurrentText(c: Combo, t: string): (r: Combo)
    ensures r.items == c.items
    ensures t in c.items ==> CurrentText(r) == t
    ensures t !in c.items ==> r == c
  {
    match FindText(c.items, t, 0)
    case Some(i) => c.(current := i)
    case None => c
  }

  /** `_set_combo_value`: the two special values select their labels; other text is selected, added first if missing. */
  function SetComboValue(c: Combo, v: Option<string>): (r: Combo)
    ensures v.Some? && v.value != "" && v.value !in c.items ==> r.items == c.items + [v.value]
    ensures !(v.Some? && v.value != "" && v.value !in c.items) ==> r.items == c.items
  {
    if v == Some("") then SetCurrentText(c, ResetLabel)
    else if v.None? then SetCurrentText(c, EmptyLabel)
    else match FindText(c.items, v.value, 0)
      case Some(i) => c.(current := i)
      case None => SetCurrentText(c.(items := c.items + [v.value]), v.value)
  }

  /**
   * Setting a value and reading it back gives the value, provided the combo holds the
   * label the value needs and a concrete value is not spelled like a label.
   */
  lemma ComboRoundTrip(c: Combo, v: Option<string>)
    requires v == Some("") ==> ResetLabel in c.items
    requires v.None? ==> EmptyLabel in c.items
    requires v.Some? && v.value != "" ==> v.value != ResetLabel && v.value != EmptyLabel
    ensures ComboValue(CurrentText(SetComboValue(c, v))) == v
  {
    if v.Some? && v.value != "" && v.value !in c.items {
      assert v.value in c.items + [v.value];
    }
  }

  /** Reading the current value and setting it again leaves the combo showing the same text. */
  lemma ComboReadSetBack(c: Combo)
    requires 0 <= c.current < |c.items| && CurrentText(c) != ""
    requires ResetLabel in c.items
    ensures CurrentText(SetComboValue(c, ComboValue(CurrentText(c)))) == CurrentText(c)
  {
    assert CurrentText(c) in c.items;
  }

  /** The entry a data value gets: NULL and the empty string both show as `<empty>`. */
  function Label(d: Option<string>): (r: string)
    ensures r != ""
    ensures d.Some? && d.value != "" ==> r == d.value
  {
    if d.None? || d.value == "" then EmptyLabel else d.value
  }

  /**
   * `on_combo_options_loaded`: `<any>` first, one entry per value, the previous concrete
   * selection appended when the values no longer hold it, and the previous text selected
   * again when it is an entry (the combo otherwise stays on `<any>`).
   */
  function Rebuild(prev: string, data: seq<Option<string>>): (r: Combo)
    ensures |r.items| == 1 + |data| + (if NotEmpty(prev) && Some(prev) !in data then 1 else 0)
    ensures r.items[0] == ResetLabel
    ensures forall k :: 0 <= k < |data| ==> r.items[k + 1] == Label(data[k])
    ensures prev in r.items ==> CurrentText(r) == prev
    ensures prev !in r.items ==> CurrentText(r) == ResetLabel
  {
    var listed := [ResetLabel] + seq(|data|, k requires 0 <= k < |data| => Label(data[k]));
    var items := if NotEmpty(prev) && Some(prev) !in data then listed + [prev] else listed;
    SetCurrentText(Combo(items, 0), prev)
  }

  /**
   * A rebuild keeps the tab's constraint: a concrete value or `<any>` reads back as before;
   * `<empty>` does too while some value is NULL or empty, and falls back to `<any>` otherwise.
   */
  lemma RebuildKeepsConstraint(prev: string, data: seq<Option<string>>)
    ensures var r := ComboValue(CurrentText(Rebuild(prev, data)));
            if NotEmpty(prev) || prev == ResetLabel then r == ComboValue(prev)
            else if prev == EmptyLabel && exists k :: 0 <= k < |data| && Label(data[k]) == EmptyLabel then r.None?
            else r == Some("")
  {
    var c := Rebuild(prev, data);
    if NotEmpty(prev) {
      if Some(prev) in data {
        var k :| 0 <= k < |data| && data[k] == Some(prev);
        assert c.items[k + 1] == prev;
      } else {
        assert c.items[|c.items| - 1] == prev;
      }
    } else if prev == ResetLabel {
      assert c.items[0] == prev;
    } else if prev == EmptyLabel && exists k :: 0 <= k < |data| && Label(data[k]) == EmptyLabel {
      var k :| 0 <= k < |data| && Label(data[k]) == EmptyLabel;
      assert c.items[k + 1] == prev;
    } else if prev == EmptyLabel {
      assert prev !in c.items by {
        forall i | 0 <= i < |c.items|
          ensures c.items[i] != prev
        {
          if 0 < i {
            assert c.items[i] == Label(data[i - 1]);
          }
        }
      }
    }
  }

  // ---------------------------------------------------------------------------
  // The advanced-filter buttons.

  /** `AdvancedFilter`. */
  datatype FilterKind = Exposure | DateTime | Telescope | Binning | Gain | Temperature | Coordinates
                      | HeaderText | Project

  /** A filter button: its kind and an identity. */
  datatype Button = Button(kind: FilterKind, id: int)

  /** `advanced_options` and the buttons shown in the filter row, left to right. */
  datatype Buttons = Buttons(options: map<FilterKind, Button>, layout: seq<Button>)

  /** The row shows exactly the registered buttons, once each, each under its own kind. */
  predicate Consistent(b: Buttons) {
    (forall k :: k in b.options ==> b.options[k].kind == k && b.options[k] in b.layout)
    && (forall i :: 0 <= i < |b.layout| ==> b.layout[i].kind in b.options && b.options[b.layout[i].kind] == b.layout[i])
    && Seqs.NoDuplicates(b.layout)
  }

  /**
   * `add_filter_button_control`: a button of a kind already shown replaces that one, which
   * is returned so its removal can be signalled; the new button goes first in the row.
   */
  function AddFilterButton(b: Buttons, button: Button): (r: (Buttons, Option<Button>))
    ensures r.0.options == b.options[button.kind := button]
    ensures |r.0.layout| > 0 && r.0.layout[0] == button
    ensures r.1.Some? <==> button.kind in b.options
    ensures r.1.Some? ==> r.1.value == b.options[button.kind]
  {
    var removed := if button.kind in b.options then Some(b.options[button.kind]) else None;
    (Buttons(b.options[button.kind := button], [button] + RowWithout(b, button.kind)), removed)
  }

  /** `remove_filter_button_control`: deleting a kind that is not registered raises `KeyError`. */
  function RemoveFilterButton(b: Buttons, button: Button): (r: Result<Buttons, string>)
    ensures r.Failure? <==> button.kind !in b.options
    ensures r.Success? ==> r.value.options == b.options - {button.kind}
                           && (forall x :: x != button ==> (x in r.value.layout <==> x in b.layout))
  {
    if button.kind !in b.options then Failure("KeyError")
    else Success(Buttons(b.options - {button.kind}, Seqs.RemoveFirst(b.layout, button)))
  }

  /** In a consistent row no two buttons share a kind. */
  lemma OneButtonPerKind(b: Buttons, i: int, j: int)
    requires Consistent(b) && 0 <= i < |b.layout| && 0 <= j < |b.layout|
    requires b.layout[i].kind == b.layout[j].kind
    ensures i == j
  {
  }

  /** The row without the button a new one of `kind` replaces. */
  function RowWithout(b: Buttons, kind: FilterKind): seq<Button> {
    if kind in b.options then Seqs.RemoveFirst(b.layout, b.options[kind]) else b.layout
  }

  /** What stays of a consistent row: shown buttons of the other kinds, each once. */
  lemma RowWithoutFacts(b: Buttons, kind: FilterKind)
    requires Consistent(b)
    ensures Seqs.NoDuplicates(RowWithout(b, kind))
    ensures forall y :: y in RowWithout(b, kind) ==> y in b.layout && y.kind != kind
    ensures forall k :: k in b.options && k != kind ==> b.options[k] in RowWithout(b, kind)
  {
    var rest := RowWithout(b, kind);
    if kind in b.options {
      Seqs.RemoveFirstNoDuplicates(b.layout, b.options[kind]);
    }
    forall y | y in rest
      ensures y in b.layout && y.kind != kind
    {
      assert y in b.layout;
    }
  }

  /** Adding a button keeps the row consistent, and a replaced button leaves the row. */
  lemma AddKeepsConsistent(b: Buttons, button: Button)
    requires Consistent(b)
    ensures Consistent(AddFilterButton(b, button).0)
    ensures var (r, removed) := AddFilterButton(b, button);
            removed.Some? && removed.value != button ==> removed.value !in r.layout
  {
    var r := AddFilterButton(b, button).0;
    var rest := RowWithout(b, button.kind);
    assert r.layout == [button] + rest;
    RowWithoutFacts(b, button.kind);
    Seqs.ConsNoDuplicates(button, rest);
    forall k | k in r.options
      ensures r.options[k].kind == k && r.options[k] in r.layout
    {
      if k != button.kind {
        assert b.options[k] in rest;
      }
    }
    forall i | 0 <= i < |r.layout|
      ensures r.layout[i].kind in r.options && r.options[r.layout[i].kind] == r.layout[i]
    {
      if i > 0 {
        assert r.layout[i] in rest;
      }
    }
  }

  /** Removing a shown button keeps the row consistent. */
  lemma RemoveKeepsConsistent(b: Buttons, button: Button)
    requires Consistent(b) && button in b.layout
    ensures RemoveFilterButton(b, button).Success?
    ensures Consistent(RemoveFilterButton(b, button).value)
  {
    var i :| 0 <= i < |b.layout| && b.layout[i] == button;
    var r := RemoveFilterButton(b, button).value;
    Seqs.RemoveFirstNoDuplicates(b.layout, button);
    forall k | k in r.options
      ensures r.options[k].kind == k && r.options[k] in r.layout
    {
      assert b.options[k] != button;
    }
    forall m | 0 <= m < |r.layout|
      ensures r.layout[m].kind in r.options && r.options[r.layout[m].kind] == r.layout[m]
    {
      var y := r.layout[m];
      assert y in r.layout;
      assert y in b.layout;
      var n :| 0 <= n < |b.layout| && b.layout[n] == y;
      assert y != button;
    }
  }

  // ---------------------------------------------------------------------------
  // Selecting a stored path in the library tree.

  /** A tree node: a path node carries its segment; the other kinds carry none. */
  datatype Node = Node(segment: Option<string>, children: seq<Node>)

  /** The first child that is a path node with this segment. */
  function FindChild(children: seq<Node>, name: string, from: nat): (r: Option<nat>)
    requires from <= |children|
    ensures r.Some? ==> from <= r.value < |children| && children[r.value].segment == Some(name)
                         && forall k :: from <= k < r.value ==> children[k].segment != Some(name)
    ensures r.None? <==> forall k :: from <= k < |children| ==> children[k].segment != Some(name)
    decreases |children| - from
  {
    if from == |children| then None
    else if children[from].segment == Some(name) then Some(from)
    else FindChild(children, name, from + 1)
  }

  /** The walk of `_find_and_select_node`: descend into the first matching child; stop at a miss. */
  function Walk(n: Node, segs: seq<string>): (p: seq<nat>)
  {
    if |segs| == 0 then []
    else if segs[0] == "" then Walk(n, segs[1..])
    else match FindChild(n.children, segs[0], 0)
      case None => []
      case Some(j) => [j] + Walk(n.children[j], segs[1..])
  }

  /** A sequence of child indices that steps through nodes named `names[0]`, `names[1]`, ... */
  predicate Follows(n: Node, p: seq<nat>, names: seq<string>)
    decreases |p|
  {
    |p| <= |names|
    && (|p| > 0 ==> p[0] < |n.children| && n.children[p[0]].segment == Some(names[0])
                    && Follows(n.children[p[0]], p[1..], names[1..]))
  }

  /** The node reached along a path that follows names. */
  function NodeAt(n: Node, p: seq<nat>, names: seq<string>): Node
    requires Follows(n, p, names)
    decreases |p|
  {
    if |p| == 0 then n else NodeAt(n.children[p[0]], p[1..], names[1..])
  }

  /**
   * The walk selects the deepest node the path leads to: its result follows the
   * non-empty segments, and no child extends it by the next one.
   */
  lemma {:induction false} WalkDeepest(n: Node, segs: seq<string>)
    ensures Follows(n, Walk(n, segs), NonEmptySegments(segs))
    ensures forall j :: !Follows(n, Walk(n, segs) + [j], NonEmptySegments(segs))
  {
    var p := Walk(n, segs);
    var names := NonEmptySegments(segs);
    if |segs| == 0 {
    } else if segs[0] == "" {
      WalkDeepest(n, segs[1..]);
    } else {
      match FindChild(n.children, segs[0], 0)
      case None =>
        forall j
          ensures !Follows(n, p + [j], names)
        {
          assert p + [j] == [j];
        }
      case Some(c) =>
        WalkDeepest(n.children[c], segs[1..]);
        var q := Walk(n.children[c], segs[1..]);
        assert p == [c] + q;
        assert p[1..] == q;
        assert names[1..] == NonEmptySegments(segs[1..]);
        forall j
          ensures !Follows(n, p + [j], names)
        {
          assert (p + [j])[1..] == q + [j];
          assert (p + [j])[0] == c;
        }
    }
  }

  /** A library-root node of the tree: the root's rowid and the tree of its paths. */
  datatype LibraryNode = LibraryNode(rowid: int, tree: Node)

  /** What gets selected: the "All libraries" node, or a node below a library root. */
  datatype Target = AllLibraries | InLibrary(library: nat, path: seq<nat>)

  /** The outcome of `_find_and_select_node`: a selection, or a selection deferred until the root's paths are loaded. */
  datatype Found = Selected(target: Target) | Deferred

  /** The first library node with this rowid. */
  function FindLibrary(libs: seq<LibraryNode>, rowid: int, from: nat): (r: Option<nat>)
    requires from <= |libs|
    ensures r.Some? ==> from <= r.value < |libs| && libs[r.value].rowid == rowid
    ensures r.None? <==> forall k :: from <= k < |libs| ==> libs[k].rowid != rowid
    decreases |libs| - from
  {
    if from == |libs| then None
    else if libs[from].rowid == rowid then Some(from)
    else FindLibrary(libs, rowid, from + 1)
  }

  /** Python truthiness of the stored path. */
  predicate HasPath(rp: Catalogue.RootAndPath) {
    rp.path.Some? && rp.path.value != ""
  }

  /** `_find_and_select_node`. */
  function FindAndSelect(libs: seq<LibraryNode>, loaded: set<int>, rp: Catalogue.RootAndPath): (r: Found)
    ensures r.Deferred? <==> rp.rootId.Some? && FindLibrary(libs, rp.rootId.value, 0).Some? && HasPath(rp)
                             && rp.rootId.value !in loaded
    ensures r == Selected(AllLibraries) <==> rp.rootId.None? || FindLibrary(libs, rp.rootId.value, 0).None?
    ensures r.Selected? && r.target.InLibrary? ==>
              rp.rootId.Some? && r.target.library < |libs| && libs[r.target.library].rowid == rp.rootId.value
              && (HasPath(rp) || r.target.path == [])
    ensures r.Selected? && r.target.InLibrary? && HasPath(rp) ==>
              r.target.path == Walk(libs[r.target.library].tree, Split(rp.path.value, '/'))
  {
    if rp.rootId.None? then Selected(AllLibraries)
    else match FindLibrary(libs, rp.rootId.value, 0)
      case None => Selected(AllLibraries)
      case Some(i) =>
        if !HasPath(rp) then Selected(InLibrary(i, []))
        else if rp.rootId.value !in loaded then Deferred
        else Selected(InLibrary(i, Walk(libs[i].tree, Split(rp.path.value, '/'))))
  }

  /**
   * For a loaded root with a path, the node selected is the deepest one the path's
   * non-empty segments lead to.
   */
  lemma SelectsDeepest(libs: seq<LibraryNode>, loaded: set<int>, rp: Catalogue.RootAndPath)
    requires FindAndSelect(libs, loaded, rp).Selected? && FindAndSelect(libs, loaded, rp).target.InLibrary?
    requires HasPath(rp)
    ensures var t := FindAndSelect(libs, loaded, rp).target;
            var names := NonEmptySegments(Split(rp.path.value, '/'));
            t.library < |libs|
            && Follows(libs[t.library].tree, t.path, names)
            && forall j :: !Follows(libs[t.library].tree, t.path + [j], names)
  {
    var t := FindAndSelect(libs, loaded, rp).target;
    WalkDeepest(libs[t.library].tree, Split(rp.path.value, '/'));
  }

  /** The selection's root has its paths loaded (a selection without a root never waits). */
  predicate RootLoaded(rp: Catalogue.RootAndPath, loaded: set<int>) {
    rp.rootId.Some? && rp.rootId.value in loaded
  }

  /** The selection made for a stored path whose root is loaded. */
  function Apply(libs: seq<LibraryNode>, loaded: set<int>, rp: Catalogue.RootAndPath): (t: Target)
    requires RootLoaded(rp, loaded)
    ensures FindAndSelect(libs, loaded, rp) == Selected(t)
  {
    match FindAndSelect(libs, loaded, rp)
    case Selected(t) => t
  }

  /**
   * `on_paths_loaded`: while some pending selection's root is still missing nothing
   * happens; otherwise the tree selection is replaced by the pending selections, in order,
   * and the pending list is emptied.
   */
  function OnPathsLoaded(pending: seq<Catalogue.RootAndPath>, libs: seq<LibraryNode>, loaded: set<int>)
    : (r: (Option<seq<Target>>, seq<Catalogue.RootAndPath>))
    ensures r.0.Some? <==> |pending| > 0 && forall k :: 0 <= k < |pending| ==> RootLoaded(pending[k], loaded)
    ensures r.0.None? ==> r.1 == pending
    ensures r.0.Some? ==> r.1 == [] && |r.0.value| == |pending|
                          && forall k :: 0 <= k < |pending| ==> FindAndSelect(libs, loaded, pending[k]) == Selected(r.0.value[k])
  {
    if |pending| == 0 then (None, pending)
    else if exists k :: 0 <= k < |pending| && !RootLoaded(pending[k], loaded) then (None, pending)
    else (Some(seq(|pending|, k requires 0 <= k < |pending| => Apply(libs, loaded, pending[k]))), [])
  }

  /**
   * A deferred selection is made once its root's paths arrive: the pending list it was
   * put on is applied and selects the node the walk reaches.
   */
  lemma DeferredThenApplied(libs: seq<LibraryNode>, loaded: set<int>, rp: Catalogue.RootAndPath)
    requires FindAndSelect(libs, loaded, rp).Deferred?
    ensures var now := loaded + {rp.rootId.value};
            var i := FindLibrary(libs, rp.rootId.value, 0).value;
            OnPathsLoaded([rp], libs, now) == (Some([InLibrary(i, Walk(libs[i].tree, Split(rp.path.value, '/')))]), [])
  {
    var now := loaded + {rp.rootId.value};
    var i := FindLibrary(libs, rp.rootId.value, 0).value;
    var t := InLibrary(i, Walk(libs[i].tree, Split(rp.path.value, '/')));
    assert FindAndSelect(libs, now, rp) == Selected(t);
    assert RootLoaded([rp][0], now);
    var r := OnPathsLoaded([rp], libs, now);
    assert r.0.Some? && |r.0.value| == 1;
    assert FindAndSelect(libs, now, [rp][0]) == Selected(r.0.value[0]);
    assert r.0.value == [t];
  }
}

=== FILE: seqs.dfy ===
/** The Python `list` operations the dialogs use, on sequences. */
module Seqs {
  predicate NoDuplicates<T(==)>(s: seq<T>) {
    forall i, j :: 0 <= i < j < |s| ==> s[i] != s[j]
  }

  /** `s[:n]`. */
  function Take<T>(s: seq<T>, n: nat): (r: seq<T>)
    ensures |r| == if n < |s| then n else |s|
    ensures r <= s
  {
    if n < |s| then s[..n] else s
  }

  /** `s.remove(x)` when `x in s`: the first occurrence goes, the rest keep their order. */
  function RemoveFirst<T(==,!new)>(s: seq<T>, x: T): (r: seq<T>)
    ensures x !in s ==> r == s
    ensures x in s ==> |r| == |s| - 1
    ensures forall y :: y in r ==> y in s
    ensures forall y :: y != x ==> (y in r <==> y in s)
  {
    if |s| == 0 then s
    else if s[0] == x then s[1..]
    else
      assert forall y :: y in s <==> y == s[0] || y in s[1..];
      [s[0]] + RemoveFirst(s[1..], x)
  }

  /** Removing from a duplicate-free sequence removes every occurrence and keeps it duplicate-free. */
  lemma {:induction false} RemoveFirstNoDuplicates<T(!new)>(s: seq<T>, x: T)
    requires NoDuplicates(s)
    ensures x !in RemoveFirst(s, x)
    ensures NoDuplicates(RemoveFirst(s, x))
  {
    if |s| > 0 {
      assert NoDuplicates(s[1..]) by {
        forall i, j | 0 <= i < j < |s| - 1
          ensures s[1..][i] != s[1..][j]
        {
          assert s[1..][i] == s[i + 1] && s[1..][j] == s[j + 1];
        }
      }
      if s[0] == x {
        assert x !in s[1..] by {
          forall k | 0 <= k < |s| - 1
            ensures s[1..][k] != x
          {
            assert s[1..][k] == s[k + 1];
          }
        }
      } else {
        RemoveFirstNoDuplicates(s[1..], x);
        var rest := RemoveFirst(s[1..], x);
        assert s[0] !in rest by {
          forall k | 0 <= k < |s| - 1
            ensures s[1..][k] != s[0]
          {
            assert s[1..][k] == s[k + 1];
          }
        }
        var r := [s[0]] + rest;
        forall i, j | 0 <= i < j < |r|
          ensures r[i] != r[j]
        {
          if i == 0 {
            assert r[j] == rest[j - 1];
            assert rest[j - 1] in rest;
          } else {
            assert r[i] == rest[i - 1] && r[j] == rest[j - 1];
          }
        }
      }
    }
  }

  /** Putting an element that is not there in front keeps a sequence free of repeats. */
  /** Concatenation is associative; stated once so that proofs need not rediscover it. */
  lemma ConcatAssoc<T>(a: seq<T>, b: seq<T>, c: seq<T>)
    ensures a + (b + c) == (a + b) + c
  {
  }

  lemma ConsNoDuplicates<T>(x: T, s: seq<T>)
    requires NoDuplicates(s) && x !in s
    ensures NoDuplicates([x] + s)
  {
    var r := [x] + s;
    forall i, j | 0 <= i < j < |r|
      ensures r[i] != r[j]
    {
      assert r[j] == s[j - 1];
      if i > 0 {
        assert r[i] == s[i - 1];
      }
    }
  }

  /** Dropping the first element keeps the last one last. */
  lemma LastOfTail<T>(s: seq<T>)
    requires |s| >= 2
    ensures |s[1..]| > 0 && s[1..][|s[1..]| - 1] == s[|s| - 1]
  {
  }
}

=== FILE: session.dfy ===
/**
 * Saved search tabs (photonfinder/ui/session.py): a session is a title, the hidden columns
 * and the tab's criteria; the list is written as JSON and inflated back, the criteria
 * through `SearchCriteria._inflate_dict` (photonfinder/models.py).
 *
 * JSON is modelled as its value tree: the text `json.dumps` writes and `json.loads` reads
 * back is the same tree, so the model starts and ends at the tree.
 */
module Sessions {
  import opened Wrappers
  import opened Numbers
  import Headers
  import Catalogue
  import Criteria

  /** A JSON value. Integers and floats are told apart, as `json.loads` does. */
  datatype Json = JNull | JBool(b: bool) | JInt(i: int) | JNum(d: Decimal) | JStr(s: string)
                | JArr(items: seq<Json>) | JObj(fields: map<string, Json>)

  /** Python truthiness of a decoded JSON value. */
  predicate Truthy(j: Json) {
    match j
    case JNull => false
    case JBool(b) => b
    case JInt(i) => i != 0
    case JNum(d) => d.m != 0
    case JStr(s) => s != ""
    case JArr(items) => |items| > 0
    case JObj(fields) => |fields| > 0
  }

  /** A session's criteria: inflated, or the falsy value the file held, which is kept as it is. */
  datatype SessionCriteria = Inflated(c: Criteria.SearchCriteria) | Raw(j: Json)

  datatype Session = Session(criteria: SessionCriteria, title: string, hiddenColumns: string)

  /** What `_inflate` builds: a session for an object, a list for a list. */
  datatype Inflated = ISession(s: Session) | IList(items: seq<Inflated>)

  /** `datetime.isoformat` and `datetime.fromisoformat`. */
  datatype IsoCodec = IsoCodec(format: Headers.DateTime -> string, parse: string -> Option<Headers.DateTime>)

  /** The library lookups `_inflate_dict` makes: a file by row id, whether a project row exists. */
  datatype Catalog = Catalog(file: int -> Option<Criteria.Reference>, projectExists: int -> bool)

  // ---------------------------------------------------------------------------
  // Writing.

  /** The keyword names of `SearchCriteria`. */
  const CriteriaKeys: set<string> := {
    "paths", "paths_as_prefix", "filter", "type", "camera", "file_name", "object_name", "exposure",
    "telescope", "binning", "offset", "gain", "temperature", "coord_ra", "coord_dec", "coord_radius",
    "start_datetime", "end_datetime", "reference_file", "header_text", "project", "sorting_index",
    "sorting_desc"}

  /** The keyword names of `RootAndPath` and of `Session`. */
  const RootAndPathKeys: set<string> := {"root_id", "root_label", "path"}
  const SessionKeys: set<string> := {"criteria", "title", "hidden_columns"}

  function OptText(v: Option<string>): Json {
    if v.Some? then JStr(v.value) else JNull
  }

  function OptInt(v: Option<int>): Json {
    if v.Some? then JInt(v.value) else JNull
  }

  function OptTime(v: Option<Headers.DateTime>, iso: IsoCodec): Json {
    if v.Some? then JStr(iso.format(v.value)) else JNull
  }

  /** A `RootAndPath` written as its `__dict__`. */
  function RootAndPathJson(rp: Catalogue.RootAndPath): (r: Json)
    ensures r.JObj? && r.fields.Keys == RootAndPathKeys
  {
    JObj(map["root_id" := OptInt(rp.rootId), "root_label" := JStr(rp.rootLabel), "path" := OptText(rp.path)])
  }

  function PathsJson(ps: seq<Catalogue.RootAndPath>): (r: seq<Json>)
    ensures |r| == |ps|
    ensures forall i :: 0 <= i < |ps| ==> r[i] == RootAndPathJson(ps[i])
  {
    seq(|ps|, i requires 0 <= i < |ps| => RootAndPathJson(ps[i]))
  }

  /**
   * One entry of the criteria written as its `__dict__`: datetimes as ISO text, the
   * reference file and the project as their row ids.
   */
  function CriteriaValue(c: Criteria.SearchCriteria, iso: IsoCodec, k: string): Json {
    if k == "paths" then JArr(PathsJson(c.paths))
    else if k == "paths_as_prefix" then JBool(c.pathsAsPrefix)
    else if k == "filter" then OptText(c.filter)
    else if k == "type" then OptText(c.imageType)
    else if k == "camera" then OptText(c.camera)
    else if k == "file_name" then OptText(c.fileName)
    else if k == "object_name" then OptText(c.objectName)
    else if k == "exposure" then JStr(c.exposure)
    else if k == "telescope" then JStr(c.telescope)
    else if k == "binning" then JStr(c.binning)
    else if k == "offset" then OptInt(c.offset)
    else if k == "gain" then JStr(c.gain)
    else if k == "temperature" then JStr(c.temperature)
    else if k == "coord_ra" then JStr(c.coordRa)
    else if k == "coord_dec" then JStr(c.coordDec)
    else if k == "coord_radius" then JNum(c.coordRadius)
    else if k == "start_datetime" then OptTime(c.startDatetime, iso)
    else if k == "end_datetime" then OptTime(c.endDatetime, iso)
    else if k == "reference_file" then if c.referenceFile.Some? then JInt(c.referenceFile.value.file.rowid) else JNull
    else if k == "header_text" then JStr(c.headerText)
    else if k == "project" then OptInt(c.project)
    else if k == "sorting_index" then OptInt(c.sortingIndex)
    else if k == "sorting_desc" then JBool(c.sortingDesc)
    else JNull
  }

  /** The criteria written as its `__dict__`. */
  function CriteriaJson(c: Criteria.SearchCriteria, iso: IsoCodec): (r: Json)
    ensures r.JObj? && r.fields.Keys == CriteriaKeys
  {
    JObj(map k | k in CriteriaKeys :: CriteriaValue(c, iso, k))
  }

  function SessionJson(s: Session, iso: IsoCodec): (r: Json)
    ensures r.JObj? && r.fields.Keys == SessionKeys
  {
    JObj(map["criteria" := (match s.criteria case Inflated(c) => CriteriaJson(c, iso) case Raw(j) => j),
             "title" := JStr(s.title), "hidden_columns" := JStr(s.hiddenColumns)])
  }

  /** `sessions_to_json`: a list with one object per session. */
  function SessionsToJson(ss: seq<Session>, iso: IsoCodec): (r: Json)
    ensures r.JArr? && |r.items| == |ss|
    ensures forall i :: 0 <= i < |ss| ==> r.items[i] == SessionJson(ss[i], iso)
  {
    JArr(seq(|ss|, i requires 0 <= i < |ss| => SessionJson(ss[i], iso)))
  }

  // ---------------------------------------------------------------------------
  // Reading.

  /** The message of a value whose Python type the typed fields cannot hold. */
  const Untyped := "TypeError: value of the wrong type"

  /** A keyword argument read as text: the default when absent. */
  function TextArg(m: map<string, Json>, k: string, d: string): (r: Result<string, string>)
    ensures k !in m ==> r == Success(d)
    ensures k in m ==> (r.Success? <==> m[k].JStr?)
  {
    if k !in m then Success(d)
    else match m[k]
      case JStr(s) => Success(s)
      case _ => Failure(Untyped)
  }

  function OptTextArg(m: map<string, Json>, k: string, d: Option<string>): (r: Result<Option<string>, string>)
    ensures k !in m ==> r == Success(d)
    ensures k in m ==> (r.Success? <==> m[k].JStr? || m[k].JNull?)
  {
    if k !in m then Success(d)
    else match m[k]
      case JStr(s) => Success(Some(s))
      case JNull => Success(None)
      case _ => Failure(Untyped)
  }

  function BoolArg(m: map<string, Json>, k: string, d: bool): (r: Result<bool, string>)
    ensures k !in m ==> r == Success(d)
    ensures k in m ==> (r.Success? <==> m[k].JBool?)
  {
    if k !in m then Success(d)
    else match m[k]
      case JBool(b) => Success(b)
      case _ => Failure(Untyped)
  }

  function OptIntArg(m: map<string, Json>, k: string): (r: Result<Option<int>, string>)
    ensures k !in m ==> r == Success(None)
    ensures k in m ==> (r.Success? <==> m[k].JInt? || m[k].JNull?)
  {
    if k !in m then Success(None)
    else match m[k]
      case JInt(i) => Success(Some(i))
      case JNull => Success(None)
      case _ => Failure(Untyped)
  }

  /** A float keyword: a JSON float, or an integer, which compares equal to the float. */
  function NumberArg(m: map<string, Json>, k: string, d: Decimal): (r: Result<Decimal, string>)
    ensures k !in m ==> r == Success(d)
    ensures k in m ==> (r.Success? <==> m[k].JNum? || m[k].JInt?)
  {
    if k !in m then Success(d)
    else match m[k]
      case JNum(x) => Success(x)
      case JInt(i) => Success(Decimal(i, 0))
      case _ => Failure(Untyped)
  }

  /** A datetime keyword: non-empty text goes through `fromisoformat`, null stays None. */
  function TimeArg(m: map<string, Json>, k: string, iso: IsoCodec): (r: Result<Option<Headers.DateTime>, string>)
    ensures k !in m ==> r == Success(None)
    ensures k in m && m[k].JStr? && m[k].s != "" ==>
              r == (if iso.parse(m[k].s).Some? then Success(iso.parse(m[k].s)) else Failure("ValueError: Invalid isoformat string"))
  {
    if k !in m then Success(None)
    else match m[k]
      case JNull => Success(None)
      case JStr(s) =>
        if s == "" then Failure(Untyped)
        else if iso.parse(s).Some? then Success(iso.parse(s))
        else Failure("ValueError: Invalid isoformat string")
      case _ => Failure(Untyped)
  }

  /** `reference_file`: a non-zero row id is fetched with `File.get`, which raises when the row is gone. */
  function ReferenceArg(m: map<string, Json>, cat: Catalog): (r: Result<Option<Criteria.Reference>, string>)
    ensures "reference_file" in m && m["reference_file"].JInt? && m["reference_file"].i != 0 ==>
              (r.Success? <==> cat.file(m["reference_file"].i).Some?)
  {
    if "reference_file" !in m then Success(None)
    else match m["reference_file"]
      case JNull => Success(None)
      case JInt(i) =>
        if i == 0 then Failure(Untyped)
        else if cat.file(i).Some? then Success(cat.file(i))
        else Failure("DoesNotExist")
      case _ => Failure(Untyped)
  }

  /**
   * `project`: a positive row id is fetched with `Project.get`; any other non-zero id
   * becomes "no project"; zero is falsy and stays zero.
   */
  function ProjectArg(m: map<string, Json>, cat: Catalog): (r: Result<Option<int>, string>)
    ensures "project" in m && m["project"].JInt? ==>
              var i := m["project"].i;
              r == if i > 0 then (if cat.projectExists(i) then Success(Some(i)) else Failure("DoesNotExist"))
                   else if i < 0 then Success(Some(Criteria.NoProject)) else Success(Some(0))
  {
    if "project" !in m then Success(None)
    else match m["project"]
      case JNull => Success(None)
      case JInt(i) =>
        if i > 0 then (if cat.projectExists(i) then Success(Some(i)) else Failure("DoesNotExist"))
        else if i < 0 then Success(Some(Criteria.NoProject))
        else Success(Some(0))
      case _ => Failure(Untyped)
  }

  /** `RootAndPath(**x)`: exactly its three keywords, none defaulted. */
  function InflateRootAndPath(j: Json): (r: Result<Catalogue.RootAndPath, string>)
    ensures r.Success? ==> j.JObj? && j.fields.Keys == RootAndPathKeys
  {
    if !j.JObj? || j.fields.Keys != RootAndPathKeys then Failure("TypeError: RootAndPath arguments")
    else
      var id :- OptIntArg(j.fields, "root_id");
      var rootLabel :- TextArg(j.fields, "root_label", "");
      var path :- OptTextArg(j.fields, "path", None);
      Success(Catalogue.RootAndPath(id, rootLabel, path))
  }

  function InflatePaths(items: seq<Json>): (r: Result<seq<Catalogue.RootAndPath>, string>)
    ensures r.Success? ==> |r.value| == |items|
                           && forall i :: 0 <= i < |items| ==> InflateRootAndPath(items[i]) == Success(r.value[i])
    ensures r.Failure? ==> exists i :: 0 <= i < |items| && InflateRootAndPath(items[i]).Failure?
  {
    if |items| == 0 then Success([])
    else
      var first :- InflateRootAndPath(items[0]);
      var rest := InflatePaths(items[1..]);
      if rest.Failure? then
        var i :| 0 <= i < |items[1..]| && InflateRootAndPath(items[1..][i]).Failure?;
        assert InflateRootAndPath(items[i + 1]).Failure?;
        Failure(rest.error)
      else Success([first] + rest.value)
  }

  function PathsArg(m: map<string, Json>): (r: Result<seq<Catalogue.RootAndPath>, string>)
    ensures "paths" !in m ==> r == Success([])
  {
    if "paths" !in m then Success([])
    else match m["paths"]
      case JArr(items) => InflatePaths(items)
      case _ => Failure(Untyped)
  }

  /**
   * `SearchCriteria._inflate_dict`: every keyword must be a field, an absent one takes its
   * default, and the paths, datetimes, reference file and project are rebuilt.
   */
  function InflateCriteria(m: map<string, Json>, iso: IsoCodec, cat: Catalog): (r: Result<Criteria.SearchCriteria, string>)
    ensures !(m.Keys <= CriteriaKeys) ==> r.Failure?
    ensures m == map[] ==> r == Success(Criteria.Default())
  {
    if !(m.Keys <= CriteriaKeys) then Failure("TypeError: unexpected keyword argument")
    else
      var d := Criteria.Default();
      var paths :- PathsArg(m);
      var asPrefix :- BoolArg(m, "paths_as_prefix", d.pathsAsPrefix);
      var filter :- OptTextArg(m, "filter", d.filter);
      var imageType :- OptTextArg(m, "type", d.imageType);
      var camera :- OptTextArg(m, "camera", d.camera);
      var fileName :- OptTextArg(m, "file_name", d.fileName);
      var objectName :- OptTextArg(m, "object_name", d.objectName);
      var exposure :- TextArg(m, "exposure", d.exposure);
      var telescope :- TextArg(m, "telescope", d.telescope);
      var binning :- TextArg(m, "binning", d.binning);
      var offset :- OptIntArg(m, "offset");
      var gain :- TextArg(m, "gain", d.gain);
      var temperature :- TextArg(m, "temperature", d.temperature);
      var ra :- TextArg(m, "coord_ra", d.coordRa);
      var dec :- TextArg(m, "coord_dec", d.coordDec);
      var radius :- NumberArg(m, "coord_radius", d.coordRadius);
      var start :- TimeArg(m, "start_datetime", iso);
      var end :- TimeArg(m, "end_datetime", iso);
      var reference :- ReferenceArg(m, cat);
      var headerText :- TextArg(m, "header_text", d.headerText);
      var project :- ProjectArg(m, cat);
      var sortingIndex :- OptIntArg(m, "sorting_index");
      var sortingDesc :- BoolArg(m, "sorting_desc", d.sortingDesc);
      Success(Criteria.SearchCriteria(paths, asPrefix, filter, imageType, camera, fileName, objectName, exposure,
                                      telescope, binning, offset, gain, temperature, ra, dec, radius, start, end,
                                      reference, headerText, project, sortingIndex, sortingDesc))
  }

  /** `Session._inflate_dict`: truthy criteria are inflated, and the keywords must be exactly the session's. */
  function InflateSession(m: map<string, Json>, iso: IsoCodec, cat: Catalog): (r: Result<Session, string>)
    ensures r.Success? ==> m.Keys == SessionKeys
    ensures r.Success? ==> (r.value.criteria.Raw? <==> !Truthy(m["criteria"]))
  {
    if m.Keys != SessionKeys then Failure("TypeError: Session arguments")
    else
      var criteria :- if !Truthy(m["criteria"]) then Success(Raw(m["criteria"]))
                      else if m["criteria"].JObj? then
                        var c :- InflateCriteria(m["criteria"].fields, iso, cat);
                        Success(Inflated(c))
                      else Failure("AttributeError: object has no attribute 'get'");
      var title :- TextArg(m, "title", "");
      var hidden :- TextArg(m, "hidden_columns", "");
      Success(Session(criteria, title, hidden))
  }

  /** `Session._inflate`: lists element by element, objects as sessions; anything else raises. */
  function Inflate(j: Json, iso: IsoCodec, cat: Catalog): (r: Result<Inflated, string>)
    ensures r.Success? ==> (j.JArr? <==> r.value.IList?)
    ensures r.Success? && j.JArr? ==> |r.value.items| == |j.items|
                                      && forall i :: 0 <= i < |j.items| ==> Inflate(j.items[i], iso, cat) == Success(r.value.items[i])
    ensures j.JNull? || j.JBool? || j.JInt? || j.JNum? || j.JStr? ==> r.Failure?
  {
    match j
    case JArr(items) =>
      var xs :- InflateAll(items, iso, cat);
      Success(IList(xs))
    case JObj(m) => InflateObj(m, iso, cat)
    case _ => Failure("TypeError: exceptions must derive from BaseException")
  }

  /** An object is inflated as one session. */
  function InflateObj(m: map<string, Json>, iso: IsoCodec, cat: Catalog): (r: Result<Inflated, string>)
    ensures r.Success? ==> r.value.ISession?
  {
    var s :- InflateSession(m, iso, cat);
    Success(ISession(s))
  }

  function InflateAll(items: seq<Json>, iso: IsoCodec, cat: Catalog): (r: Result<seq<Inflated>, string>)
    ensures r.Success? ==> |r.value| == |items|
                           && forall i :: 0 <= i < |items| ==> Inflate(items[i], iso, cat) == Success(r.value[i])
    ensures r.Failure? ==> exists i :: 0 <= i < |items| && Inflate(items[i], iso, cat).Failure?
    decreases items
  {
    if |items| == 0 then Success([])
    else
      var first :- Inflate(items[0], iso, cat);
      var rest := InflateAll(items[1..], iso, cat);
      if rest.Failure? then
        var i :| 0 <= i < |items[1..]| && Inflate(items[1..][i], iso, cat).Failure?;
        assert items[1..][i] == items[i + 1];
        Failure(rest.error)
      else
        var r := [first] + rest.value;
        assert forall i :: 1 <= i < |items| ==> items[i] == items[1..][i - 1] && r[i] == rest.value[i - 1];
        Success(r)
  }

  /** `json_to_sessions`: the decoded value must be a list. */
  function JsonToSessions(j: Json, iso: IsoCodec, cat: Catalog): (r: Result<seq<Inflated>, string>)
    ensures !j.JArr? ==> r == Failure("AssertionError")
    ensures r.Success? ==> |r.value| == |j.items|
  {
    if !j.JArr? then Failure("AssertionError")
    else InflateAll(j.items, iso, cat)
  }

  /**
   * `SessionManager.load_sessions`: with no file configured, or none at the path, no
   * sessions; otherwise the file's decoded contents.
   */
  function LoadSessions(file: string, isFile: string -> bool, read: string -> Result<Json, string>,
                        iso: IsoCodec, cat: Catalog): (r: Result<seq<Inflated>, string>)
    ensures file == "" || !isFile(file) ==> r == Success([])
    ensures file != "" && isFile(file) && read(file).Success? ==> r == JsonToSessions(read(file).value, iso, cat)
  {
    if file != "" && isFile(file) then
      var j :- read(file);
      JsonToSessions(j, iso, cat)
    else Success([])
  }

  // ---------------------------------------------------------------------------
  // The round trip.

  /** What a saved criteria needs to come back unchanged. */
  predicate Restorable(c: Criteria.SearchCriteria, iso: IsoCodec, cat: Catalog) {
    (c.startDatetime.Some? ==> iso.format(c.startDatetime.value) != "" && iso.parse(iso.format(c.startDatetime.value)) == c.startDatetime)
    && (c.endDatetime.Some? ==> iso.format(c.endDatetime.value) != "" && iso.parse(iso.format(c.endDatetime.value)) == c.endDatetime)
    && (c.referenceFile.Some? ==> c.referenceFile.value.file.rowid != 0 && cat.file(c.referenceFile.value.file.rowid) == c.referenceFile)
    && (c.project.Some? ==> c.project.value >= Criteria.NoProject && (c.project.value > 0 ==> cat.projectExists(c.project.value)))
  }

  lemma RootAndPathRoundTrip(rp: Catalogue.RootAndPath)
    ensures InflateRootAndPath(RootAndPathJson(rp)) == Success(rp)
  {
  }

  lemma {:induction false} PathsRoundTrip(ps: seq<Catalogue.RootAndPath>)
    ensures InflatePaths(PathsJson(ps)) == Success(ps)
  {
    if |ps| > 0 {
      RootAndPathRoundTrip(ps[0]);
      assert PathsJson(ps)[1..] == PathsJson(ps[1..]);
      PathsRoundTrip(ps[1..]);
      assert [ps[0]] + ps[1..] == ps;
    }
  }

  /** Every argument `_inflate_dict` reads from the written criteria is the field it was written from. */
  predicate ArgsRestore(m: map<string, Json>, c: Criteria.SearchCriteria, iso: IsoCodec, cat: Catalog) {
    var d := Criteria.Default();
    PathsArg(m) == Success(c.paths)
    && BoolArg(m, "paths_as_prefix", d.pathsAsPrefix) == Success(c.pathsAsPrefix)
    && OptTextArg(m, "filter", d.filter) == Success(c.filter)
    && OptTextArg(m, "type", d.imageType) == Success(c.imageType)
    && OptTextArg(m, "camera", d.camera) == Success(c.camera)
    && OptTextArg(m, "file_name", d.fileName) == Success(c.fileName)
    && OptTextArg(m, "object_name", d.objectName) == Success(c.objectName)
    && TextArg(m, "exposure", d.exposure) == Success(c.exposure)
    && TextArg(m, "telescope", d.telescope) == Success(c.telescope)
    && TextArg(m, "binning", d.binning) == Success(c.binning)
    && OptIntArg(m, "offset") == Success(c.offset)
    && TextArg(m, "gain", d.gain) == Success(c.gain)
    && TextArg(m, "temperature", d.temperature) == Success(c.temperature)
    && TextArg(m, "coord_ra", d.coordRa) == Success(c.coordRa)
    && TextArg(m, "coord_dec", d.coordDec) == Success(c.coordDec)
    && NumberArg(m, "coord_radius", d.coordRadius) == Success(c.coordRadius)
    && TimeArg(m, "start_datetime", iso) == Success(c.startDatetime)
    && TimeArg(m, "end_datetime", iso) == Success(c.endDatetime)
    && ReferenceArg(m, cat) == Success(c.referenceFile)
    && TextArg(m, "header_text", d.headerText) == Success(c.headerText)
    && ProjectArg(m, cat) == Success(c.project)
    && OptIntArg(m, "sorting_index") == Success(c.sortingIndex)
    && BoolArg(m, "sorting_desc", d.sortingDesc) == Success(c.sortingDesc)
  }

  /** Arguments that each restore their field inflate to the whole criteria. */
  lemma InflateFromArgs(m: map<string, Json>, c: Criteria.SearchCriteria, iso: IsoCodec, cat: Catalog)
    requires m.Keys <= CriteriaKeys && ArgsRestore(m, c, iso, cat)
    ensures InflateCriteria(m, iso, cat) == Success(c)
  {
  }

  lemma TextArgsRestore(c: Criteria.SearchCriteria, iso: IsoCodec)
    ensures var m := CriteriaJson(c, iso).fields;
            var d := Criteria.Default();
            OptTextArg(m, "filter", d.filter) == Success(c.filter)
            && OptTextArg(m, "type", d.imageType) == Success(c.imageType)
            && OptTextArg(m, "camera", d.camera) == Success(c.camera)
            && OptTextArg(m, "file_name", d.fileName) == Success(c.fileName)
            && OptTextArg(m, "object_name", d.objectName) == Success(c.objectName)
            && TextArg(m, "exposure", d.exposure) == Success(c.exposure)
            && TextArg(m, "telescope", d.telescope) == Success(c.telescope)
            && TextArg(m, "binning", d.binning) == Success(c.binning)
            && TextArg(m, "gain", d.gain) == Success(c.gain)
            && TextArg(m, "temperature", d.temperature) == Success(c.temperature)
            && TextArg(m, "coord_ra", d.coordRa) == Success(c.coordRa)
            && TextArg(m, "coord_dec", d.coordDec) == Success(c.coordDec)
            && TextArg(m, "header_text", d.headerText) == Success(c.headerText)
  {
  }

  lemma PlainArgsRestore(c: Criteria.SearchCriteria, iso: IsoCodec)
    ensures var m := CriteriaJson(c, iso).fields;
            var d := Criteria.Default();
            PathsArg(m) == Success(c.paths)
            && BoolArg(m, "paths_as_prefix", d.pathsAsPrefix) == Success(c.pathsAsPrefix)
            && OptIntArg(m, "offset") == Success(c.offset)
            && NumberArg(m, "coord_radius", d.coordRadius) == Success(c.coordRadius)
            && OptIntArg(m, "sorting_index") == Success(c.sortingIndex)
            && BoolArg(m, "sorting_desc", d.sortingDesc) == Success(c.sortingDesc)
  {
    PathArgsRestore(c, iso);
    NumberArgsRestore(c, iso);
    SortingArgsRestore(c, iso);
  }

  lemma PathArgsRestore(c: Criteria.SearchCriteria, iso: IsoCodec)
    ensures var m := CriteriaJson(c, iso).fields;
            PathsArg(m) == Success(c.paths)
            && BoolArg(m, "paths_as_prefix", Criteria.Default().pathsAsPrefix) == Success(c.pathsAsPrefix)
  {
    PathsRoundTrip(c.paths);
  }

  lemma NumberArgsRestore(c: Criteria.SearchCriteria, iso: IsoCodec)
    ensures var m := CriteriaJson(c, iso).fields;
            OptIntArg(m, "offset") == Success(c.offset)
            && NumberArg(m, "coord_radius", Criteria.Default().coordRadius) == Success(c.coordRadius)
  {
  }

  lemma SortingArgsRestore(c: Criteria.SearchCriteria, iso: IsoCodec)
    ensures var m := CriteriaJson(c, iso).fields;
            OptIntArg(m, "sorting_index") == Success(c.sortingIndex)
            && BoolArg(m, "sorting_desc", Criteria.Default().sortingDesc) == Success(c.sortingDesc)
  {
  }

  lemma RebuiltArgsRestore(c: Criteria.SearchCriteria, iso: IsoCodec, cat: Catalog)
    requires Restorable(c, iso, cat)
    ensures var m := CriteriaJson(c, iso).fields;
            TimeArg(m, "start_datetime", iso) == Success(c.startDatetime)
            && TimeArg(m, "end_datetime", iso) == Success(c.endDatetime)
            && ReferenceArg(m, cat) == Success(c.referenceFile)
            && ProjectArg(m, cat) == Success(c.project)
  {
  }

  /** Inflating the written criteria gives the criteria back. */
  lemma CriteriaRoundTrip(c: Criteria.SearchCriteria, iso: IsoCodec, cat: Catalog)
    requires Restorable(c, iso, cat)
    ensures InflateCriteria(CriteriaJson(c, iso).fields, iso, cat) == Success(c)
  {
    TextArgsRestore(c, iso);
    PlainArgsRestore(c, iso);
    RebuiltArgsRestore(c, iso, cat);
    InflateFromArgs(CriteriaJson(c, iso).fields, c, iso, cat);
  }

  /** A session comes back unchanged, provided its criteria do, or were a falsy value to begin with. */
  predicate SessionRestorable(s: Session, iso: IsoCodec, cat: Catalog) {
    match s.criteria
    case Inflated(c) => Restorable(c, iso, cat)
    case Raw(j) => !Truthy(j)
  }

  lemma SessionRoundTrip(s: Session, iso: IsoCodec, cat: Catalog)
    requires SessionRestorable(s, iso, cat)
    ensures Inflate(SessionJson(s, iso), iso, cat) == Success(ISession(s))
  {
    var j := SessionJson(s, iso);
    SessionFieldsRestore(s, iso, cat, j.fields);
    assert InflateObj(j.fields, iso, cat) == Success(ISession(s));
  }

  /** A written criteria object is never empty, so it is inflated again rather than kept raw. */
  lemma CriteriaTruthy(c: Criteria.SearchCriteria, iso: IsoCodec)
    ensures Truthy(CriteriaJson(c, iso))
  {
    var m := CriteriaJson(c, iso).fields;
    assert "paths" in m;
  }

  lemma SessionFieldsRestore(s: Session, iso: IsoCodec, cat: Catalog, m: map<string, Json>)
    requires SessionRestorable(s, iso, cat) && m == SessionJson(s, iso).fields
    ensures InflateSession(m, iso, cat) == Success(s)
  {
    assert m["title"] == JStr(s.title);
    assert m["hidden_columns"] == JStr(s.hiddenColumns);
    if s.criteria.Inflated? {
      CriteriaRoundTrip(s.criteria.c, iso, cat);
      CriteriaTruthy(s.criteria.c, iso);
      assert m["criteria"] == CriteriaJson(s.criteria.c, iso);
    } else {
      assert m["criteria"] == s.criteria.j;
    }
  }

  lemma {:induction false} AllRoundTrip(ss: seq<Session>, iso: IsoCodec, cat: Catalog)
    requires forall i :: 0 <= i < |ss| ==> SessionRestorable(ss[i], iso, cat)
    ensures var r := InflateAll(SessionsToJson(ss, iso).items, iso, cat);
            r.Success? && |r.value| == |ss| && forall i :: 0 <= i < |ss| ==> r.value[i] == ISession(ss[i])
  {
    if |ss| > 0 {
      SessionRoundTrip(ss[0], iso, cat);
      assert SessionsToJson(ss, iso).items[1..] == SessionsToJson(ss[1..], iso).items;
      AllRoundTrip(ss[1..], iso, cat);
      var r := InflateAll(SessionsToJson(ss, iso).items, iso, cat);
      var rest := InflateAll(SessionsToJson(ss[1..], iso).items, iso, cat);
      assert r.value == [ISession(ss[0])] + rest.value;
      forall i | 0 <= i < |ss|
        ensures r.value[i] == ISession(ss[i])
      {
        if i > 0 {
          assert r.value[i] == rest.value[i - 1];
          assert ss[1..][i - 1] == ss[i];
        }
      }
    }
  }

  /** `json_to_sessions(sessions_to_json(s))` gives every session back, in order. */
  lemma SessionsRoundTrip(ss: seq<Session>, iso: IsoCodec, cat: Catalog)
    requires forall i :: 0 <= i < |ss| ==> SessionRestorable(ss[i], iso, cat)
    ensures var r := JsonToSessions(SessionsToJson(ss, iso), iso, cat);
            r.Success? && |r.value| == |ss| && forall i :: 0 <= i < |ss| ==> r.value[i] == ISession(ss[i])
  {
    AllRoundTrip(ss, iso, cat);
  }
}

=== FILE: settings.dfy ===
/**
 * The persistent settings of photonfinder/core.py: the `QSettings` store with the default
 * each getter supplies, the defaults written on start-up, and the set of FITS keywords seen
 * so far, kept in the store as one `|`-separated string.
 */
module Settings {
  import opened Text
  import PurePaths

  /** A stored setting; the store's conversion between these types is not modelled. */
  datatype SValue = SStr(s: string) | SBool(b: bool) | SReal(r: real) | SList(items: seq<string>)

  /** The `QSettings` store. */
  type Store = map<string, SValue>

  const KnownKeywordsKey := "known_fits_keywords"
  const AstapPathKey := "astap_path"
  const ApiKeyKey := "astrometry_net_api_key"

  /** Every key a getter reads, with the default it returns when the key is absent. */
  const Defaults: map<string, SValue> := map[
    "last_export_path" := SStr(""),
    "last_export_decompress" := SBool(true),
    "last_export_patterns" := SList([]),
    "last_light_path" := SStr(""),
    "last_database_path" := SStr(""),
    "astap_path" := SStr(""),
    "astap_fov" := SReal(2.0),
    "astrometry_net_api_key" := SStr(""),
    "astrometry_net_force_image_upload" := SBool(false),
    "last_export_xisf_as_fits" := SBool(false),
    "last_export_override_platesolve" := SBool(false),
    "last_export_custom_headers" := SStr(""),
    "bad_file_patterns" := SStr("bad*"),
    "bad_dir_patterns" := SStr("bad*"),
    "known_fits_keywords" := SStr("")]

  /** A getter: the stored value, or the getter's default. */
  function Read(store: Store, key: string): (r: SValue)
    requires key in Defaults
    ensures key !in store ==> r == Defaults[key]
    ensures key in store ==> r == store[key]
  {
    if key in store then store[key] else Defaults[key]
  }

  /** A setter. */
  function Write(store: Store, key: string, v: SValue): (r: Store)
    ensures r.Keys == store.Keys + {key}
  {
    store[key := v]
  }

  /** What a setter stores a getter returns, and no other setting changes. */
  lemma ReadAfterWrite(store: Store, key: string, other: string, v: SValue)
    requires key in Defaults && other in Defaults
    ensures Read(Write(store, key, v), key) == v
    ensures other != key ==> Read(Write(store, key, v), other) == Read(store, other)
  {
  }

  /** A store that has never been written reports the defaults: `bad*` patterns, a 2 degree fallback field. */
  lemma FreshDefaults()
    ensures Read(map[], "bad_file_patterns") == SStr("bad*")
    ensures Read(map[], "bad_dir_patterns") == SStr("bad*")
    ensures Read(map[], "astap_fov") == SReal(2.0)
    ensures Read(map[], "last_export_decompress") == SBool(true)
  {
  }

  /** `_initialize_defaults`: the ASTAP path and the API key are written only when absent. */
  function InitializeDefaults(store: Store, defaultAstap: string): (r: Store)
    ensures r.Keys == store.Keys + {AstapPathKey, ApiKeyKey}
    ensures forall k :: k in store ==> r[k] == store[k]
    ensures AstapPathKey !in store ==> r[AstapPathKey] == SStr(defaultAstap)
    ensures ApiKeyKey !in store ==> r[ApiKeyKey] == SStr("")
  {
    var s1 := if AstapPathKey in store then store else store[AstapPathKey := SStr(defaultAstap)];
    if ApiKeyKey in s1 then s1 else s1[ApiKeyKey := SStr("")]
  }

  /** Starting twice writes nothing new the second time. */
  lemma InitializeIdempotent(store: Store, defaultAstap: string, otherDefault: string)
    ensures InitializeDefaults(InitializeDefaults(store, defaultAstap), otherDefault) == InitializeDefaults(store, defaultAstap)
  {
  }

  /** The settings object: the store and the keywords known in this session. */
  datatype Settings = Settings(store: Store, known: set<string>)

  /** `add_known_fits_keywords`. */
  function AddKnown(known: set<string>, keywords: seq<string>): (r: set<string>)
    ensures known <= r
    ensures forall k :: k in r <==> k in known || k in keywords
  {
    known + set k | k in keywords
  }

  /** Adding is idempotent and order-insensitive. */
  lemma AddKnownIdempotent(known: set<string>, a: seq<string>, b: seq<string>)
    ensures AddKnown(AddKnown(known, a), a) == AddKnown(known, a)
    ensures AddKnown(AddKnown(known, a), b) == AddKnown(AddKnown(known, b), a)
  {
  }

  /** The keyword list as stored: split on `|`, the empty string meaning none. */
  function StoredKeywords(store: Store): (r: seq<string>)
    ensures forall k :: k in r ==> '|' !in k
  {
    var text := if KnownKeywordsKey in store && store[KnownKeywordsKey].SStr? then store[KnownKeywordsKey].s else "";
    if text == "" then [] else Split(text, '|')
  }

  /** `Settings.__init__`: defaults written, keywords read back. */
  function Open(store: Store, defaultAstap: string): (r: Settings)
    ensures r.store.Keys == store.Keys + {AstapPathKey, ApiKeyKey}
    ensures forall k :: k in r.known ==> '|' !in k
  {
    Settings(InitializeDefaults(store, defaultAstap), AddKnown({}, StoredKeywords(store)))
  }

  /** `order` lists the set, each element once: the iteration order of a Python set. */
  predicate Enumerates(order: seq<string>, s: set<string>) {
    (forall k :: k in order ==> k in s) && (forall k :: k in s ==> k in order)
    && forall i, j :: 0 <= i < j < |order| ==> order[i] != order[j]
  }

  /** `sync`: the keywords joined with `|` in the set's iteration order. */
  function Sync(st: Settings, order: seq<string>): (r: Settings)
    requires Enumerates(order, st.known)
    ensures r.known == st.known
    ensures KnownKeywordsKey in r.store
    ensures forall k :: k in st.store && k != KnownKeywordsKey ==> k in r.store && r.store[k] == st.store[k]
  {
    st.(store := st.store[KnownKeywordsKey := SStr(Join(order, "|"))])
  }

  /** Keywords that survive the `|`-joined form: non-empty and free of `|`. */
  predicate Storable(known: set<string>) {
    forall k :: k in known ==> k != "" && '|' !in k
  }

  /** Saving and reopening gives back the same keyword set. */
  lemma SyncOpenRoundTrip(st: Settings, order: seq<string>, defaultAstap: string)
    requires Enumerates(order, st.known) && Storable(st.known)
    ensures Open(Sync(st, order).store, defaultAstap).known == st.known
  {
    var text := Join(order, "|");
    if |order| > 0 {
      assert text != "" by {
        assert order[0] in st.known;
        JoinLength(order);
      }
      SplitJoin(order, '|');
      assert StoredKeywords(Sync(st, order).store) == order;
    }
  }

  /** The join of non-empty pieces is at least as long as the first piece. */
  lemma JoinLength(parts: seq<string>)
    requires |parts| >= 1 && parts[0] != ""
    ensures |Join(parts, "|")| >= |parts[0]| > 0
  {
  }

  /** Without a separator in it, an empty keyword would be lost on the round trip. */
  lemma EmptyKeywordLost(st: Settings, defaultAstap: string)
    requires st.known == {""}
    ensures Open(Sync(st, [""]).store, defaultAstap).known == {}
  {
  }

  /** `m` is the smallest element of `s`. */
  predicate IsMin(m: string, s: set<string>) {
    m in s && forall y :: y in s && y != m ==> LessStr(m, y)
  }

  /** The smallest element of a non-empty set of strings. */
  function MinOf(s: set<string>): (m: string)
    requires s != {}
    ensures IsMin(m, s)
  {
    MinExists(s);
    MinUnique(s);
    var m :| IsMin(m, s);
    m
  }

  lemma MinExists(s: set<string>)
    requires s != {}
    ensures exists m :: IsMin(m, s)
    decreases |s|
  {
    var x :| x in s;
    if s - {x} != {} {
      MinExists(s - {x});
      var m :| IsMin(m, s - {x});
      if LessStr(m, x) {
        assert IsMin(m, s);
      } else {
        LessStrTotal(m, x);
        forall y | y in s && y != x
          ensures LessStr(x, y)
        {
          if y != m {
            LessStrTransitive(x, m, y);
          }
        }
        assert IsMin(x, s);
      }
    } else {
      assert s == {x};
      assert IsMin(x, s);
    }
  }

  lemma MinUnique(s: set<string>)
    ensures forall m1, m2 :: IsMin(m1, s) && IsMin(m2, s) ==> m1 == m2
  {
    forall m1, m2 | IsMin(m1, s) && IsMin(m2, s)
      ensures m1 == m2
    {
      if m1 != m2 {
        assert LessStr(m1, m2) && LessStr(m2, m1);
        LessStrTransitive(m1, m2, m1);
        LessStrIrreflexive(m1);
      }
    }
  }

  /** `get_known_fits_keywords`: the set in ascending order. */
  function SortedKeywords(s: set<string>): (r: seq<string>)
    ensures forall k :: k in r <==> k in s
    ensures forall i, j :: 0 <= i < j < |r| ==> LessStr(r[i], r[j])
    decreases |s|
  {
    if s == {} then []
    else
      var m := MinOf(s);
      var rest := SortedKeywords(s - {m});
      [m] + rest
  }

  /** The sorted list holds every keyword once. */
  lemma SortedKeywordsDistinct(s: set<string>)
    ensures forall i, j :: 0 <= i < j < |SortedKeywords(s)| ==> SortedKeywords(s)[i] != SortedKeywords(s)[j]
    ensures |SortedKeywords(s)| == |s|
  {
    var r := SortedKeywords(s);
    forall i, j | 0 <= i < j < |r|
      ensures r[i] != r[j]
    {
      if r[i] == r[j] {
        LessStrIrreflexive(r[i]);
      }
    }
    DistinctCard(r, s);
  }

  lemma {:induction false} DistinctCard(r: seq<string>, s: set<string>)
    requires forall k :: k in r <==> k in s
    requires forall i, j :: 0 <= i < j < |r| ==> r[i] != r[j]
    ensures |r| == |s|
    decreases |r|
  {
    if |r| > 0 {
      var x := r[|r| - 1];
      var init := r[..|r| - 1];
      forall k
        ensures k in init <==> k in s - {x}
      {
        if k in init {
          var i :| 0 <= i < |init| && init[i] == k;
          assert r[i] == k;
        }
        if k in s - {x} {
          assert k in r;
          var i :| 0 <= i < |r| && r[i] == k;
          assert i < |r| - 1;
          assert init[i] == k;
        }
      }
      DistinctCard(init, s - {x});
    }
  }

  /** The database file `create_in_app_data` puts in the application data directory. */
  const DatabaseName := "astroFileManager.db"

  /** `str(Path(appData) / DatabaseName)`. */
  function InAppData(appData: string): (r: string)
    ensures var dir := PurePaths.Parse(appData);
            PurePaths.Parse(r) == PurePaths.PPath(dir.absolute, dir.parts + [DatabaseName])
  {
    var dir := PurePaths.Parse(appData);
    var below := PurePaths.PPath(dir.absolute, dir.parts + [DatabaseName]);
    assert PurePaths.IsPart(DatabaseName);
    assert PurePaths.Normal(below);
    PurePaths.ParseRender(below);
    PurePaths.Render(below)
  }

  /**
   * `ApplicationContext.create_in_app_data`: the last database used when one is
   * recorded, else `astroFileManager.db` in the application data directory.
   */
  function DatabasePath(store: Store, appData: string): (r: string)
    ensures Read(store, "last_database_path") == SStr("") ==>
      var dir := PurePaths.Parse(appData);
      PurePaths.Parse(r) == PurePaths.PPath(dir.absolute, dir.parts + [DatabaseName])
    ensures Read(store, "last_database_path").SStr? && Read(store, "last_database_path").s != "" ==>
      r == Read(store, "last_database_path").s
  {
    match Read(store, "last_database_path")
    case SStr(p) => if p != "" then p else InAppData(appData)
    case _ => InAppData(appData)
  }

  /** An empty application data directory is `.`, so the database is a bare relative file name. */
  lemma EmptyAppDataIsRelative()
    ensures InAppData("") == DatabaseName
  {
    assert Split("", '/') == [""];
    assert PurePaths.Parse("") == PurePaths.PPath(false, []);
    assert Join([DatabaseName], "/") == DatabaseName;
  }
}

=== FILE: telescopius.dfy ===
/**
 * Comparing a Telescopius observing list with the catalogue
 * (photonfinder/ui/TelescopiusCompareDialog.py): the list's JSON turned into targets, the
 * page URL turned into the API URL, the catalogue locations that match a target, and the
 * rows the comparison is saved as.
 */
module Telescopius {
  import opened Wrappers
  import opened Text
  import opened Numbers
  import Seqs
  import Sessions

  /** A target of the list. The name is whatever JSON value the entry held. */
  datatype Target = Target(name: Sessions.Json, raHours: Decimal, decDegrees: Decimal)

  /** `float(x)` of a decoded JSON value; text in plain positional notation only. */
  function FloatOf(j: Sessions.Json): (r: Result<Decimal, string>)
    ensures j.JNum? ==> r == Success(j.d)
    ensures j.JStr? ==> (r.Success? <==> ParseDecimal(j.s).Some?)
    ensures j.JNull? || j.JArr? || j.JObj? ==> r.Failure?
  {
    match j
    case JNum(d) => Success(d)
    case JInt(i) => Success(Decimal(i, 0))
    case JBool(b) => Success(Decimal(if b then 1 else 0, 0))
    case JStr(s) =>
      if ParseDecimal(s).Some? then Success(ParseDecimal(s).value)
      else Failure("ValueError: could not convert string to float")
    case _ => Failure("TypeError: float() argument must be a string or a real number")
  }

  /** `dict.get(key, '')`. */
  function GetOrEmpty(m: map<string, Sessions.Json>, key: string): Sessions.Json {
    if key in m then m[key] else Sessions.JStr("")
  }

  /** One entry of `targets`: an object with a name and the two coordinates, each defaulting to `''`. */
  function TargetOf(j: Sessions.Json): (r: Result<Target, string>)
    ensures r.Success? ==> j.JObj? && "ra_hr" in j.fields && "dec" in j.fields
    ensures r.Success? ==> r.value.name == GetOrEmpty(j.fields, "name")
                           && FloatOf(j.fields["ra_hr"]) == Success(r.value.raHours)
                           && FloatOf(j.fields["dec"]) == Success(r.value.decDegrees)
  {
    if !j.JObj? then Failure("AttributeError: object has no attribute 'get'")
    else
      var ra :- FloatOf(GetOrEmpty(j.fields, "ra_hr"));
      var dec :- FloatOf(GetOrEmpty(j.fields, "dec"));
      Success(Target(GetOrEmpty(j.fields, "name"), ra, dec))
  }

  function TargetsOf(items: seq<Sessions.Json>): (r: Result<seq<Target>, string>)
    ensures r.Success? ==> |r.value| == |items|
                           && forall i :: 0 <= i < |items| ==> TargetOf(items[i]) == Success(r.value[i])
    ensures r.Failure? ==> exists i :: 0 <= i < |items| && TargetOf(items[i]).Failure?
  {
    if |items| == 0 then Success([])
    else
      var first :- TargetOf(items[0]);
      var rest := TargetsOf(items[1..]);
      if rest.Failure? then
        var i :| 0 <= i < |items[1..]| && TargetOf(items[1..][i]).Failure?;
        assert items[1..][i] == items[i + 1];
        Failure(rest.error)
      else
        var r := [first] + rest.value;
        assert forall i :: 1 <= i < |items| ==> items[i] == items[1..][i - 1] && r[i] == rest.value[i - 1];
        Success(r)
  }

  /** `'targets' in value` for the value under `data`. */
  function HasTargets(data: Sessions.Json): (r: Result<bool, string>)
    ensures data.JObj? ==> r == Success("targets" in data.fields)
  {
    match data
    case JObj(m) => Success("targets" in m)
    case JArr(items) => Success(Sessions.JStr("targets") in items)
    case JStr(s) => Success(Contains(s, "targets"))
    case _ => Failure("TypeError: argument of type is not iterable")
  }

  /** Iterating the value under `targets`: a list's entries; a non-empty object or text yields keys or characters. */
  function Entries(v: Sessions.Json): (r: Result<seq<Sessions.Json>, string>)
    ensures v.JArr? ==> r == Success(v.items)
  {
    match v
    case JArr(items) => Success(items)
    case JObj(m) => if |m| == 0 then Success([]) else Failure("AttributeError: 'str' object has no attribute 'get'")
    case JStr(s) => if s == "" then Success([]) else Failure("AttributeError: 'str' object has no attribute 'get'")
    case _ => Failure("TypeError: object is not iterable")
  }

  /**
   * `parse_telescopius_json`: one target per entry of `data.targets`, in order; no targets
   * at all when either key is missing.
   */
  function ParseTargets(doc: map<string, Sessions.Json>): (r: Result<seq<Target>, string>)
    ensures "data" !in doc ==> r == Success([])
    ensures "data" in doc && doc["data"].JObj? && "targets" !in doc["data"].fields ==> r == Success([])
    ensures "data" in doc && doc["data"].JObj? && "targets" in doc["data"].fields && doc["data"].fields["targets"].JArr? ==>
              r == TargetsOf(doc["data"].fields["targets"].items)
  {
    if "data" !in doc then Success([])
    else
      var has :- HasTargets(doc["data"]);
      if !has then Success([])
      else if !doc["data"].JObj? then Failure("TypeError: indices must be integers")
      else
        var entries :- Entries(doc["data"].fields["targets"]);
        TargetsOf(entries)
  }

  /** A listed target without `ra_hr` or without `dec` makes the whole list fail to parse. */
  lemma MissingCoordinateRaises(doc: map<string, Sessions.Json>, k: nat)
    requires "data" in doc && doc["data"].JObj? && "targets" in doc["data"].fields
    requires doc["data"].fields["targets"].JArr?
    requires var items := doc["data"].fields["targets"].items;
             k < |items| && items[k].JObj? && ("ra_hr" !in items[k].fields || "dec" !in items[k].fields)
    ensures ParseTargets(doc).Failure?
  {
  }

  /** The list page address the API is reached through. */
  const Host := "//telescopius.com"
  const PagePart := Host + "/observing-lists/"

  /** `get_telescopius_json`'s address: `/api` put before every `/observing-lists/` of a list page address. */
  function ApiUrl(url: string): (r: string)
    ensures !Occurs(PagePart, url) ==> r == url
    ensures Occurs(PagePart, url) ==> r == Replace(url, "/observing-lists/", "/api/observing-lists/")
  {
    if Contains(url, PagePart) then Replace(url, "/observing-lists/", "/api/observing-lists/") else url
  }

  /** Replacing in `a + b` where no occurrence starts inside `a` replaces in `b` alone. */
  lemma {:induction false} ReplaceAfter(a: string, b: string, pat: string, rep: string)
    requires |pat| > 0
    requires forall i :: 0 <= i < |a| ==> !(pat <= a[i..] + b)
    ensures Replace(a + b, pat, rep) == a + Replace(b, pat, rep)
    decreases |a|
  {
    if |a| > 0 {
      assert a[0..] == a;
      NoMatchAfterFirst(a, b, pat);
      ReplaceAfter(a[1..], b, pat, rep);
      ReplaceAfterStep(a, b, pat, rep);
    } else {
      assert a + b == b;
    }
  }

  lemma NoMatchAfterFirst(a: string, b: string, pat: string)
    requires |a| > 0
    requires forall i :: 0 <= i < |a| ==> !(pat <= a[i..] + b)
    ensures forall i :: 0 <= i < |a[1..]| ==> !(pat <= a[1..][i..] + b)
  {
    forall i | 0 <= i < |a[1..]|
      ensures !(pat <= a[1..][i..] + b)
    {
      assert a[1..][i..] == a[i + 1..];
    }
  }

  lemma ReplaceAfterStep(a: string, b: string, pat: string, rep: string)
    requires |pat| > 0 && |a| > 0 && !(pat <= a + b)
    requires Replace(a[1..] + b, pat, rep) == a[1..] + Replace(b, pat, rep)
    ensures Replace(a + b, pat, rep) == a + Replace(b, pat, rep)
  {
    var t, r := a[1..], Replace(b, pat, rep);
    FirstAndRest(a, b);
    ReplaceStep(a + b, pat, rep);
    Seqs.ConcatAssoc([a[0]], t, r);
  }

  lemma FirstAndRest(a: string, b: string)
    requires |a| > 0
    ensures (a + b)[0] == a[0] && (a + b)[1..] == a[1..] + b
    ensures [a[0]] + a[1..] == a
  {
  }

  /** An occurrence at the front is replaced and the search goes on after it. */
  lemma ReplaceFront(pat: string, b: string, rep: string)
    requires |pat| > 0
    ensures Replace(pat + b, pat, rep) == rep + Replace(b, pat, rep)
  {
    assert (pat + b)[|pat|..] == b;
  }

  /** Text without `/` holds no occurrence of a pattern containing `/`. */
  lemma NoSlashNoOccurrence(s: string, pat: string)
    requires '/' !in s && '/' in pat
    ensures !Occurs(pat, s)
  {
    var k :| 0 <= k < |pat| && pat[k] == '/';
    forall i | 0 <= i <= |s| - |pat|
      ensures !OccursAt(pat, s, i)
    {
      assert s[i..i + |pat|][k] == s[i + k];
      assert s[i + k] in s;
    }
  }

  /** The site a list page address starts with. */
  const Site := "https:" + Host

  /** A list page address becomes the API address of the same list. */
  lemma PageToApi(id: string)
    requires '/' !in id
    ensures ApiUrl(Site + ("/observing-lists/" + id)) == Site + ("/api/observing-lists/" + id)
  {
    var pat := "/observing-lists/";
    var rep := "/api/observing-lists/";
    PageAddressIsPage(id);
    ApiOfPage(Site + (pat + id));
    HostHasNoOccurrence(id);
    ReplaceAfter(Site, pat + id, pat, rep);
    ReplaceFront(pat, id, rep);
    NoSlashNoOccurrence(id, pat);
  }

  lemma ApiOfPage(url: string)
    requires Occurs(PagePart, url)
    ensures ApiUrl(url) == Replace(url, "/observing-lists/", "/api/observing-lists/")
  {
  }

  lemma PageAddressIsPage(id: string)
    ensures Occurs(PagePart, Site + ("/observing-lists/" + id))
  {
    var pat := "/observing-lists/";
    Seqs.ConcatAssoc("https:", Host, pat + id);
    Seqs.ConcatAssoc(Host, pat, id);
    OccursPlaced("https:", PagePart, id);
  }

  /** No occurrence of `/observing-lists/` starts inside the host part of a list address. */
  lemma HostHasNoOccurrence(rest: string)
    ensures forall i :: 0 <= i < |Site| ==> !("/observing-lists/" <= Site[i..] + ("/observing-lists/" + rest))
  {
    var a := Site;
    var pat := "/observing-lists/";
    forall i | 0 <= i < |a|
      ensures !(pat <= a[i..] + (pat + rest))
    {
      var t := a[i..] + (pat + rest);
      assert t[0] == a[i];
      if i + 1 < |a| {
        assert t[1] == a[i + 1];
      }
    }
  }


  // ---------------------------------------------------------------------------
  // Matching the catalogue.

  /** A file the criteria search returned: its root's name, its path, and whether it lies within the tolerance. */
  datatype Candidate = Candidate(rootName: string, path: string, within: bool)

  function Location(c: Candidate): string {
    c.rootName + ":" + c.path
  }

  /** The `root:path` locations of the candidates within the tolerance, each once, first seen first. */
  function Locations(cs: seq<Candidate>): (r: seq<string>)
    ensures Seqs.NoDuplicates(r)
    ensures forall x :: x in r <==> exists c :: c in cs && c.within && Location(c) == x
  {
    var r := LocationsFrom(cs, []);
    assert [] + r == r;
    r
  }

  function LocationsFrom(cs: seq<Candidate>, seen: seq<string>): (r: seq<string>)
    requires Seqs.NoDuplicates(seen)
    ensures Seqs.NoDuplicates(seen + r)
    ensures forall x :: x in seen + r <==> x in seen || exists c :: c in cs && c.within && Location(c) == x
    decreases |cs|
  {
    if |cs| == 0 then []
    else
      assert forall c :: c in cs <==> c == cs[0] || c in cs[1..];
      var x := Location(cs[0]);
      if cs[0].within && x !in seen then
        AppendFresh(seen, x);
        var rest := LocationsFrom(cs[1..], seen + [x]);
        assert seen + [x] + rest == seen + ([x] + rest);
        [x] + rest
      else LocationsFrom(cs[1..], seen)
  }

  lemma AppendFresh(s: seq<string>, x: string)
    requires Seqs.NoDuplicates(s) && x !in s
    ensures Seqs.NoDuplicates(s + [x])
  {
    var t := s + [x];
    forall i, j | 0 <= i < j < |t|
      ensures t[i] != t[j]
    {
      if j == |s| {
        assert t[i] == s[i];
      }
    }
  }

  /** A row of the comparison: name, the two formatted coordinates, the matching locations. */
  datatype Row = Row(name: Sessions.Json, ra: string, dec: string, locations: seq<string>)

  /** The angle formatting `astropy` does, and the catalogue search for one target. */
  datatype Lookup = Lookup(raText: Decimal -> string, decText: Decimal -> string,
                           search: Target -> Result<seq<Candidate>, string>)

  /** `enrich_telescopius_data`: a row per target whose search succeeds; a failing target is logged and skipped. */
  function Enrich(ts: seq<Target>, look: Lookup): (r: seq<Row>)
    ensures |r| <= |ts|
    ensures (forall i :: 0 <= i < |ts| ==> look.search(ts[i]).Success?) ==>
              |r| == |ts| && forall i :: 0 <= i < |ts| ==>
                r[i] == Row(ts[i].name, look.raText(ts[i].raHours), look.decText(ts[i].decDegrees),
                            Locations(look.search(ts[i]).value))
    ensures forall row :: row in r ==> exists t :: t in ts && row.name == t.name
  {
    if |ts| == 0 then []
    else
      var rest := Enrich(ts[1..], look);
      assert forall t :: t in ts[1..] ==> t in ts;
      var t := ts[0];
      match look.search(t)
      case Failure(_) => rest
      case Success(cs) =>
        var r := [Row(t.name, look.raText(t.raHours), look.decText(t.decDegrees), Locations(cs))] + rest;
        assert forall i :: 1 <= i < |ts| ==> ts[i] == ts[1..][i - 1];
        r
  }

  // ---------------------------------------------------------------------------
  // Saving the table.

  const Headers: seq<string> := ["Name", "RA", "Dec", "Paths with matches"]

  /** The text of a table cell; a row's locations are shown one per line. */
  function CellText(row: Row, col: nat, nameText: Sessions.Json -> string): string {
    if col == 0 then nameText(row.name)
    else if col == 1 then row.ra
    else if col == 2 then row.dec
    else if col == 3 then Join(row.locations, "\n")
    else ""
  }

  /** `_export_table_data`'s records: the header, then every cell with its line breaks turned into `|`. */
  function ExportRecords(cells: seq<seq<Option<string>>>): (r: seq<seq<string>>)
    ensures |r| == |cells| + 1 && r[0] == Headers
    ensures forall i :: 0 <= i < |cells| ==> |r[i + 1]| == |cells[i]|
    ensures forall i, j :: 0 <= i < |cells| && 0 <= j < |cells[i]| ==>
              r[i + 1][j] == ReplaceChar(if cells[i][j].Some? then cells[i][j].value else "", '\n', '|')
  {
    [Headers] + seq(|cells|, i requires 0 <= i < |cells| =>
                      seq(|cells[i]|, j requires 0 <= j < |cells[i]| =>
                            ReplaceChar(if cells[i][j].Some? then cells[i][j].value else "", '\n', '|')))
  }

  /** No written cell holds a line break, and a cell without one is written as it is. */
  lemma RecordsAreOneLine(cells: seq<seq<Option<string>>>, i: nat, j: nat)
    requires i < |cells| && j < |cells[i]|
    ensures '\n' !in ExportRecords(cells)[i + 1][j]
    ensures cells[i][j].Some? && '\n' !in cells[i][j].value ==> ExportRecords(cells)[i + 1][j] == cells[i][j].value
  {
    var text := if cells[i][j].Some? then cells[i][j].value else "";
    ReplaceIsReplaceChar(text, '\n', '|');
    ReplaceCharRemoves(text, '\n', '|');
  }

  /** The locations of a row come back from its saved cell by splitting on `|`, when no location holds `|` or a line break. */
  lemma LocationsRecoverable(row: Row, nameText: Sessions.Json -> string)
    requires forall k :: 0 <= k < |row.locations| ==> '|' !in row.locations[k] && '\n' !in row.locations[k]
    ensures Split(ReplaceChar(CellText(row, 3, nameText), '\n', '|'), '|') == row.locations || row.locations == []
  {
    if row.locations != [] {
      JoinReplaced(row.locations);
      SplitJoin(row.locations, '|');
    }
  }

  /** Joining with line breaks and then turning them into `|` is joining with `|`. */
  lemma {:induction false} JoinReplaced(parts: seq<string>)
    requires forall k :: 0 <= k < |parts| ==> '\n' !in parts[k]
    ensures ReplaceChar(Join(parts, "\n"), '\n', '|') == Join(parts, "|")
  {
    if |parts| > 1 {
      JoinReplaced(parts[1..]);
      assert Join(parts, "\n") == parts[0] + "\n" + Join(parts[1..], "\n");
      assert Join(parts, "|") == parts[0] + "|" + Join(parts[1..], "|");
      ReplaceCharConcat(parts[0], "\n" + Join(parts[1..], "\n"));
      ReplaceCharConcat("\n", Join(parts[1..], "\n"));
      assert ReplaceChar(parts[0], '\n', '|') == parts[0];
    } else if |parts| == 1 {
      assert Join(parts, "\n") == parts[0] && Join(parts, "|") == parts[0];
      assert ReplaceChar(parts[0], '\n', '|') == parts[0];
    } else {
      assert Join(parts, "\n") == "" && Join(parts, "|") == "";
    }
  }

  lemma ReplaceCharConcat(a: string, b: string)
    ensures ReplaceChar(a + b, '\n', '|') == ReplaceChar(a, '\n', '|') + ReplaceChar(b, '\n', '|')
  {
  }

  /** `save_data`: the file format, tab separated when the filter or the file name says so. */
  function ExportFormat(selectedFilter: string, filePath: string): (r: string)
    ensures r == "tsv" <==> Contains(selectedFilter, "Tab Separated") || EndsWith(Lower(filePath), ".tsv")
    ensures r == "tsv" || r == "csv"
  {
    if Contains(selectedFilter, "Tab Separated") || EndsWith(Lower(filePath), ".tsv") then "tsv" else "csv"
  }

  /** `on_start`: the tolerance field holds arcminutes; the search takes degrees. */
  function ToleranceDegrees(text: string): (r: Option<real>)
    ensures r.Some? <==> ParseDecimal(text).Some?
    ensures r.Some? ==> r.value * 60.0 == Value(ParseDecimal(text).value)
  {
    match ParseDecimal(text)
    case Some(d) => Some(Value(d) / 60.0)
    case None => None
  }
}

=== FILE: template.dfy ===
/**
 * `string.Template.safe_substitute` as the export dialogs use it: `$$` is a literal
 * dollar, `$name` and `${name}` are placeholders whose name is an ASCII identifier, a
 * placeholder whose name the mapping defines is replaced by the mapping's text, and every
 * other `$` sequence is left as written.
 */
module Template {
  import opened Wrappers

  /** The mapping: the text of each placeholder name it defines. */
  type Mapping = string -> Option<string>

  /** A character that may start an identifier: `[_a-zA-Z]`. */
  predicate IdStart(c: char) {
    c == '_' || 'a' <= c <= 'z' || 'A' <= c <= 'Z'
  }

  /** A character that may continue an identifier: `[_a-zA-Z0-9]`. */
  predicate IdChar(c: char) {
    IdStart(c) || '0' <= c <= '9'
  }

  /** A whole placeholder name. */
  predicate IsIdentifier(s: string) {
    |s| > 0 && IdStart(s[0]) && forall k :: 0 < k < |s| ==> IdChar(s[k])
  }

  /** The end of the longest run of identifier characters starting at `i`. */
  function IdentEnd(t: string, i: nat): (r: nat)
    requires i <= |t|
    ensures i <= r <= |t|
    ensures forall k :: i <= k < r ==> IdChar(t[k])
    ensures r == |t| || !IdChar(t[r])
    decreases |t| - i
  {
    if i < |t| && IdChar(t[i]) then IdentEnd(t, i + 1) else i
  }

  /** `Template(t).safe_substitute(m)`, one token at a time from the left. */
  function SafeSubstitute(t: string, m: Mapping): string
    decreases |t|
  {
    if |t| == 0 then ""
    else if t[0] != '$' then [t[0]] + SafeSubstitute(t[1..], m)
    else if |t| > 1 && t[1] == '$' then "$" + SafeSubstitute(t[2..], m)
    else if |t| > 1 && IdStart(t[1]) then
      var n := IdentEnd(t, 1);
      var name := t[1..n];
      (if m(name).Some? then m(name).value else t[..n]) + SafeSubstitute(t[n..], m)
    else if |t| > 2 && t[1] == '{' && IdStart(t[2]) && IdentEnd(t, 2) < |t| && t[IdentEnd(t, 2)] == '}' then
      var n := IdentEnd(t, 2);
      var name := t[2..n];
      (if m(name).Some? then m(name).value else t[..n + 1]) + SafeSubstitute(t[n + 1..], m)
    else "$" + SafeSubstitute(t[1..], m)
  }

  /** Text without a `$` passes through unchanged, and the rest is rendered after it. */
  lemma {:induction false} LiteralPrefix(a: string, b: string, m: Mapping)
    requires '$' !in a
    ensures SafeSubstitute(a + b, m) == a + SafeSubstitute(b, m)
    decreases |a|
  {
    if |a| > 0 {
      var t := a + b;
      assert t[0] == a[0] && a[0] != '$';
      assert t[1..] == a[1..] + b;
      assert '$' !in a[1..] by {
        forall k | 0 <= k < |a| - 1
          ensures a[1..][k] != '$'
        {
          assert a[1..][k] == a[k + 1];
        }
      }
      LiteralPrefix(a[1..], b, m);
      assert SafeSubstitute(t, m) == [a[0]] + SafeSubstitute(a[1..] + b, m);
      assert a == [a[0]] + a[1..];
      assert [a[0]] + (a[1..] + SafeSubstitute(b, m)) == a + SafeSubstitute(b, m);
    } else {
      assert a + b == b;
    }
  }

  /** A template without `$` renders as itself, whatever the mapping. */
  lemma NoPlaceholders(t: string, m: Mapping)
    requires '$' !in t
    ensures SafeSubstitute(t, m) == t
  {
    LiteralPrefix(t, "", m);
    assert t + "" == t;
  }

  /** The end of a whole identifier followed by something that cannot continue it. */
  lemma IdentEndOf(name: string, rest: string, i: nat)
    requires IsIdentifier(name)
    requires |rest| == 0 || !IdChar(rest[0])
    requires 1 <= i <= |name| + 1
    ensures IdentEnd("$" + name + rest, i) == |name| + 1
    decreases |name| + 1 - i
  {
    var t := "$" + name + rest;
    if i < |name| + 1 {
      assert t[i] == name[i - 1];
      IdentEndOf(name, rest, i + 1);
    } else if |rest| > 0 {
      assert t[i] == rest[0];
    }
  }

  /** The end of a braced identifier. */
  lemma BracedEndOf(name: string, rest: string, i: nat)
    requires IsIdentifier(name)
    requires 2 <= i <= |name| + 2
    ensures IdentEnd("${" + name + "}" + rest, i) == |name| + 2
    decreases |name| + 2 - i
  {
    var t := "${" + name + "}" + rest;
    if i < |name| + 2 {
      assert t[i] == name[i - 2];
      BracedEndOf(name, rest, i + 1);
    } else {
      assert t[i] == '}';
    }
  }

  /**
   * `$name`: a known name is replaced by its text, an unknown one is kept verbatim; the
   * name is the longest identifier, so the text after it must not continue it.
   */
  lemma NamedPlaceholder(name: string, rest: string, m: Mapping)
    requires IsIdentifier(name)
    requires |rest| == 0 || !IdChar(rest[0])
    ensures SafeSubstitute("$" + name + rest, m)
            == (if m(name).Some? then m(name).value else "$" + name) + SafeSubstitute(rest, m)
  {
    var t := "$" + name + rest;
    assert t[1] == name[0];
    IdentEndOf(name, rest, 1);
    var n := |name| + 1;
    assert t[1..n] == name;
    assert t[..n] == "$" + name;
    assert t[n..] == rest;
  }

  /** `${name}`: a known name is replaced by its text, an unknown one is kept verbatim. */
  lemma BracedPlaceholder(name: string, rest: string, m: Mapping)
    requires IsIdentifier(name)
    ensures SafeSubstitute("${" + name + "}" + rest, m)
            == (if m(name).Some? then m(name).value else "${" + name + "}") + SafeSubstitute(rest, m)
  {
    var t := "${" + name + "}" + rest;
    assert t[1] == '{' && t[2] == name[0];
    assert !IdStart('{');
    BracedEndOf(name, rest, 2);
    var n := |name| + 2;
    assert t[n] == '}';
    assert t[2..n] == name;
    assert t[..n + 1] == "${" + name + "}";
    assert t[n + 1..] == rest;
  }

  /** `$$` renders as one `$`. */
  lemma EscapedDollar(rest: string, m: Mapping)
    ensures SafeSubstitute("$$" + rest, m) == "$" + SafeSubstitute(rest, m)
  {
    var t := "$$" + rest;
    assert t[2..] == rest;
  }

  /** A `$` that starts no placeholder is kept, for example a trailing one. */
  lemma TrailingDollar(m: Mapping)
    ensures SafeSubstitute("$", m) == "$"
  {
  }
}

=== FILE: text.dfy ===
/** String helpers with the semantics of the Python `str` methods the application calls. */
module Text {
  import opened Wrappers

  predicate StartsWith(s: string, prefix: string) {
    prefix <= s
  }

  predicate EndsWith(s: string, suffix: string) {
    |suffix| <= |s| && s[|s| - |suffix|..] == suffix
  }

  /** `sub` occurs in `s` starting at index `i`. */
  predicate OccursAt(sub: string, s: string, i: int) {
    0 <= i <= |s| - |sub| && s[i..i + |sub|] == sub
  }

  /** `sub in s` for strings: some window of `s` equals `sub`. */
  ghost predicate Occurs(sub: string, s: string) {
    exists i :: OccursAt(sub, s, i)
  }

  /** Executable substring search, equivalent to `Occurs`. */
  function Contains(s: string, sub: string): (r: bool)
    ensures r <==> Occurs(sub, s)
    decreases |s|
  {
    if sub <= s then
      assert OccursAt(sub, s, 0);
      true
    else if |s| == 0 then false
    else
      var rest := Contains(s[1..], sub);
      OccursStep(s, sub);
      rest
  }

  /** A string occurs where it is placed. */
  lemma OccursPlaced(a: string, sub: string, b: string)
    ensures OccursAt(sub, a + (sub + b), |a|)
  {
    assert (a + (sub + b))[|a|..|a| + |sub|] == sub;
  }

  lemma OccursStep(s: string, sub: string)
    requires |s| > 0 && !(sub <= s)
    ensures Occurs(sub, s) <==> Occurs(sub, s[1..])
  {
    if Occurs(sub, s) {
      var i :| OccursAt(sub, s, i);
      if i != 0 {
        assert s[1..][i - 1..i - 1 + |sub|] == sub;
        assert OccursAt(sub, s[1..], i - 1);
      }
    }
    if Occurs(sub, s[1..]) {
      var i :| OccursAt(sub, s[1..], i);
      assert s[i + 1..i + 1 + |sub|] == sub;
      assert OccursAt(sub, s, i + 1);
    }
  }

  function LowerChar(c: char): (r: char)
    ensures 'A' <= c <= 'Z' ==> r as int == c as int + 32
    ensures !('A' <= c <= 'Z') ==> r == c
  {
    if 'A' <= c <= 'Z' then (c as int + 32) as char else c
  }

  function UpperChar(c: char): (r: char)
    ensures 'a' <= c <= 'z' ==> r as int == c as int - 32
    ensures !('a' <= c <= 'z') ==> r == c
    ensures !('a' <= r <= 'z') && (IsSpace(r) <==> IsSpace(c))
  {
    if 'a' <= c <= 'z' then (c as int - 32) as char else c
  }

  /** `str.lower()` restricted to the ASCII letters. */
  function Lower(s: string): (r: string)
    ensures |r| == |s|
    ensures forall i :: 0 <= i < |s| ==> r[i] == LowerChar(s[i])
  {
    seq(|s|, i requires 0 <= i < |s| => LowerChar(s[i]))
  }

  /** `str.upper()` restricted to the ASCII letters. */
  function Upper(s: string): (r: string)
    ensures |r| == |s|
    ensures forall i :: 0 <= i < |s| ==> r[i] == UpperChar(s[i])
  {
    seq(|s|, i requires 0 <= i < |s| => UpperChar(s[i]))
  }

  /** Upper-casing keeps a text free of whitespace at both ends. */
  lemma UpperKeepsEnds(s: string)
    requires |s| > 0 ==> !IsSpace(s[0]) && !IsSpace(s[|s| - 1])
    ensures |Upper(s)| > 0 ==> !IsSpace(Upper(s)[0]) && !IsSpace(Upper(s)[|s| - 1])
  {
    if |s| > 0 {
      assert Upper(s)[0] == UpperChar(s[0]);
      assert Upper(s)[|s| - 1] == UpperChar(s[|s| - 1]);
    }
  }

  lemma LowerIdempotent(s: string)
    ensures Lower(Lower(s)) == Lower(s)
  {
  }

  lemma UpperIdempotent(s: string)
    ensures Upper(Upper(s)) == Upper(s)
  {
  }

  /** Upper-casing changes no whitespace, so it commutes with stripping. */
  lemma StripUpper(s: string)
    ensures Strip(Upper(s)) == Upper(Strip(s))
  {
    LStripUpper(s);
    RStripUpper(LStrip(s));
  }

  lemma {:induction false} LStripUpper(s: string)
    ensures LStrip(Upper(s)) == Upper(LStrip(s))
    decreases |s|
  {
    if |s| > 0 && IsSpace(s[0]) {
      assert Upper(s)[1..] == Upper(s[1..]);
      LStripUpper(s[1..]);
    }
  }

  lemma {:induction false} RStripUpper(s: string)
    ensures RStrip(Upper(s)) == Upper(RStrip(s))
    decreases |s|
  {
    if |s| > 0 && IsSpace(s[|s| - 1]) {
      assert Upper(s)[..|s| - 1] == Upper(s[..|s| - 1]);
      RStripUpper(s[..|s| - 1]);
    }
  }

  lemma LowerConcat(a: string, b: string)
    ensures Lower(a + b) == Lower(a) + Lower(b)
  {
  }

  /** The characters `str.isspace()` accepts, which `str.strip()` removes. */
  predicate IsSpace(c: char) {
    || c == ' ' || c == '\t' || c == '\n' || c == '\r' || c == '\U{0B}' || c == '\U{0C}'
    || '\U{1C}' <= c <= '\U{1F}' || c == '\U{85}' || c == '\U{A0}' || c == '\U{1680}'
    || '\U{2000}' <= c <= '\U{200A}' || c == '\U{2028}' || c == '\U{2029}' || c == '\U{202F}'
    || c == '\U{205F}' || c == '\U{3000}'
  }

  function LStrip(s: string): (r: string)
    ensures |r| <= |s| && r == s[|s| - |r|..]
    ensures |r| > 0 ==> !IsSpace(r[0])
    ensures forall i :: 0 <= i < |s| - |r| ==> IsSpace(s[i])
  {
    if |s| > 0 && IsSpace(s[0]) then
      var r := LStrip(s[1..]);
      assert r == s[|s| - |r|..] by {
        assert s[1..][|s| - 1 - |r|..] == s[|s| - |r|..];
      }
      assert forall i :: 1 <= i < |s| - |r| ==> s[i] == s[1..][i - 1];
      r
    else s
  }

  function RStrip(s: string): (r: string)
    ensures |r| <= |s| && r == s[..|r|]
    ensures |r| > 0 ==> !IsSpace(r[|r| - 1])
    ensures forall i :: |r| <= i < |s| ==> IsSpace(s[i])
  {
    if |s| > 0 && IsSpace(s[|s| - 1]) then
      var r := RStrip(s[..|s| - 1]);
      assert r == s[..|r|] by {
        assert s[..|s| - 1][..|r|] == s[..|r|];
      }
      assert forall i :: |r| <= i < |s| - 1 ==> s[i] == s[..|s| - 1][i];
      r
    else s
  }

  /** `str.strip()`: no leading or trailing whitespace remains. */
  function Strip(s: string): (r: string)
    ensures |r| > 0 ==> !IsSpace(r[0]) && !IsSpace(r[|r| - 1])
    ensures r == [] <==> forall i :: 0 <= i < |s| ==> IsSpace(s[i])
  {
    RStrip(LStrip(s))
  }

  /** Index of the first occurrence of `c` in `s`, if any. */
  function IndexOf(s: string, c: char): (r: Option<nat>)
    ensures r.None? <==> c !in s
    ensures r.Some? ==> r.value < |s| && s[r.value] == c && c !in s[..r.value]
  {
    var r := IndexFrom(s, c, 0);
    if r.Some? then
      assert forall k :: 0 <= k < r.value ==> s[..r.value][k] == s[k];
      r
    else r
  }

  /** Index of the first occurrence of `c` at or after `i`, if any. */
  function IndexFrom(s: string, c: char, i: nat): (r: Option<nat>)
    requires i <= |s|
    ensures r.None? <==> forall k :: i <= k < |s| ==> s[k] != c
    ensures r.Some? ==> i <= r.value < |s| && s[r.value] == c
    ensures r.Some? ==> forall k :: i <= k < r.value ==> s[k] != c
    decreases |s| - i
  {
    if i == |s| then None
    else if s[i] == c then Some(i)
    else IndexFrom(s, c, i + 1)
  }

  /** `sep.join(parts)`. */
  function Join(parts: seq<string>, sep: string): (r: string)
    ensures |parts| == 1 ==> r == parts[0]
    ensures |parts| == 0 ==> r == []
  {
    if |parts| == 0 then []
    else if |parts| == 1 then parts[0]
    else parts[0] + sep + Join(parts[1..], sep)
  }

  /** `s.split(c)` for a one-character separator: never empty, pieces free of `c`. */
  function Split(s: string, c: char): (r: seq<string>)
    ensures |r| >= 1
    ensures forall k :: 0 <= k < |r| ==> c !in r[k]
    ensures c !in s ==> r == [s]
    decreases |s|
  {
    match IndexOf(s, c)
    case None => [s]
    case Some(i) => [s[..i]] + Split(s[i + 1..], c)
  }

  /** The non-empty pieces of a split, in order. */
  function NonEmptySegments(segs: seq<string>): (r: seq<string>)
    ensures forall k :: 0 <= k < |r| ==> r[k] != "" && r[k] in segs
  {
    if |segs| == 0 then []
    else if segs[0] == "" then NonEmptySegments(segs[1..])
    else [segs[0]] + NonEmptySegments(segs[1..])
  }

  lemma {:induction false} JoinSplit(s: string, c: char)
    ensures Join(Split(s, c), [c]) == s
    decreases |s|
  {
    match IndexOf(s, c)
    case None =>
    case Some(i) =>
      var a, b := s[..i], s[i + 1..];
      var rest := Split(b, c);
      assert Split(s, c) == [a] + rest;
      JoinSplit(b, c);
      JoinCons(a, rest, [c]);
      Around(s, i);
  }

  /** Splitting at the first separator: the piece before it, then the split of the rest. */
  lemma SplitFirst(s: string, c: char, i: nat)
    requires IndexOf(s, c) == Some(i)
    ensures Split(s, c) == [s[..i]] + Split(s[i + 1..], c)
    ensures Split(s, c)[|Split(s, c)| - 1] == Split(s[i + 1..], c)[|Split(s[i + 1..], c)| - 1]
  {
    var rest := Split(s[i + 1..], c);
    var whole := Split(s, c);
    assert whole == [s[..i]] + rest;
    assert |whole| - 1 == |rest|;
    LastOfCons(s[..i], rest);
    assert whole[|whole| - 1] == ([s[..i]] + rest)[|rest|];
  }

  lemma LastOfCons<T>(a: T, xs: seq<T>)
    requires |xs| >= 1
    ensures ([a] + xs)[|xs|] == xs[|xs| - 1]
  {
  }

  /** A string is the part before a position, the character there, and the part after. */
  lemma Around(s: string, i: nat)
    requires i < |s|
    ensures s == s[..i] + [s[i]] + s[i + 1..]
  {
  }

  lemma JoinCons(a: string, rest: seq<string>, sep: string)
    requires |rest| >= 1
    ensures Join([a] + rest, sep) == a + sep + Join(rest, sep)
  {
    assert ([a] + rest)[1..] == rest;
  }

  lemma {:induction false} IndexOfAfter(a: string, c: char, b: string)
    requires c !in a
    ensures IndexOf(a + [c] + b, c) == Some(|a|)
  {
    if |a| > 0 {
      IndexOfAfter(a[1..], c, b);
      assert (a + [c] + b)[1..] == a[1..] + [c] + b;
    }
  }

  lemma {:induction false} SplitJoin(parts: seq<string>, c: char)
    requires |parts| >= 1
    requires forall k :: 0 <= k < |parts| ==> c !in parts[k]
    ensures Split(Join(parts, [c]), c) == parts
  {
    if |parts| > 1 {
      var rest := Join(parts[1..], [c]);
      var s := parts[0] + [c] + rest;
      assert Join(parts, [c]) == s;
      IndexOfAfter(parts[0], c, rest);
      assert s[..|parts[0]|] == parts[0];
      assert s[|parts[0]| + 1..] == rest;
      assert Split(s, c) == [parts[0]] + Split(rest, c);
      SplitJoin(parts[1..], c);
      assert parts == [parts[0]] + parts[1..];
    }
  }

  /** `s.replace(pat, rep)`: non-overlapping occurrences replaced left to right. */
  function Replace(s: string, pat: string, rep: string): (r: string)
    requires |pat| > 0
    ensures !Occurs(pat, s) ==> r == s
    decreases |s|
  {
    if pat <= s then
      assert OccursAt(pat, s, 0);
      rep + Replace(s[|pat|..], pat, rep)
    else if |s| == 0 then []
    else
      OccursStep(s, pat);
      [s[0]] + Replace(s[1..], pat, rep)
  }

  /** Where no occurrence starts at the front, the first character is kept and the search moves on. */
  lemma ReplaceStep(s: string, pat: string, rep: string)
    requires |pat| > 0 && |s| > 0 && !(pat <= s)
    ensures Replace(s, pat, rep) == [s[0]] + Replace(s[1..], pat, rep)
  {
  }

  /** Replacing a character by another leaves no occurrence of the first behind. */
  lemma {:induction false} ReplaceCharRemoves(s: string, a: char, b: char)
    requires a != b
    ensures a !in Replace(s, [a], [b])
    ensures |Replace(s, [a], [b])| == |s|
    decreases |s|
  {
    if |s| > 0 {
      ReplaceCharRemoves(s[1..], a, b);
    }
  }

  /** Every `a` in `s` replaced by `b`, character by character. */
  function ReplaceChar(s: string, a: char, b: char): (r: string)
    ensures |r| == |s|
    ensures forall i :: 0 <= i < |s| ==> r[i] == (if s[i] == a then b else s[i])
  {
    seq(|s|, i requires 0 <= i < |s| => if s[i] == a then b else s[i])
  }

  /** `s.replace(a, b)` for one-character strings is the character-wise replacement. */
  lemma {:induction false} ReplaceIsReplaceChar(s: string, a: char, b: char)
    ensures Replace(s, [a], [b]) == ReplaceChar(s, a, b)
    decreases |s|
  {
    if |s| > 0 {
      ReplaceIsReplaceChar(s[1..], a, b);
      if [a] <= s {
        assert s[1..] == s[|[a]|..];
      } else {
        assert s[0] != a;
      }
    }
  }

  /** `a < b` on `str`: code point by code point, a proper prefix first. */
  predicate LessStr(a: string, b: string)
    decreases |a|
  {
    |b| > 0 && (|a| == 0 || a[0] < b[0] || (a[0] == b[0] && LessStr(a[1..], b[1..])))
  }

  lemma {:induction false} LessStrIrreflexive(a: string)
    ensures !LessStr(a, a)
    decreases |a|
  {
    if |a| > 0 {
      LessStrIrreflexive(a[1..]);
    }
  }

  lemma {:induction false} LessStrTransitive(a: string, b: string, c: string)
    requires LessStr(a, b) && LessStr(b, c)
    ensures LessStr(a, c)
    decreases |a|
  {
    if |a| > 0 && a[0] == b[0] && b[0] == c[0] {
      LessStrTransitive(a[1..], b[1..], c[1..]);
    }
  }

  lemma {:induction false} LessStrTotal(a: string, b: string)
    requires a != b
    ensures LessStr(a, b) || LessStr(b, a)
    decreases |a|
  {
    if |a| > 0 && |b| > 0 && a[0] == b[0] {
      assert a == [a[0]] + a[1..] && b == [b[0]] + b[1..];
      LessStrTotal(a[1..], b[1..]);
    }
  }
}

=== FILE: wcs.dfy ===
/**
 * The plate-solving helpers of photonfinder/platesolver.py: whether a header already
 * carries a usable world coordinate system (section 8 of the FITS Standard 4.0), the
 * filtering of a solver's header down to its WCS cards, the hint handed to ASTAP, and the
 * reduction of a colour image to one channel.
 */
module Wcs {
  import opened Wrappers
  import opened Numbers
  import opened Headers
  import Handlers
  import Seqs

  /** One header card; a header is the ordered list of its cards. */
  datatype Card = Card(keyword: string, value: HValue)

  type Cards = seq<Card>

  /** `k in header`. */
  predicate Has(h: Cards, k: string) {
    exists c :: c in h && c.keyword == k
  }

  /** `header[k]` / `header.get(k)`: the value of the first card with that keyword. */
  function Lookup(h: Cards, k: string): (r: Option<HValue>)
    ensures r.None? <==> !Has(h, k)
    ensures r.Some? ==> Card(k, r.value) in h
  {
    if |h| == 0 then None
    else if h[0].keyword == k then Some(h[0].value)
    else
      assert forall c :: c in h <==> c == h[0] || c in h[1..];
      Lookup(h[1..], k)
  }

  /** The card found is the first one with that keyword. */
  lemma {:induction false} LookupFirst(h: Cards, k: string, i: nat)
    requires i < |h| && h[i].keyword == k
    requires forall j :: 0 <= j < i ==> h[j].keyword != k
    ensures Lookup(h, k) == Some(h[i].value)
  {
    if i > 0 {
      LookupFirst(h[1..], k, i - 1);
    }
  }

  /** `header[k] = v`: the first card with that keyword takes the value, or a card is appended. */
  function SetCard(h: Cards, k: string, v: HValue): (r: Cards)
    ensures Lookup(r, k) == Some(v)
    ensures forall other :: other != k ==> Lookup(r, other) == Lookup(h, other)
    ensures |r| == |h| + (if Has(h, k) then 0 else 1)
  {
    if |h| == 0 then [Card(k, v)]
    else if h[0].keyword == k then
      forall other | other != k
        ensures Lookup([Card(k, v)] + h[1..], other) == Lookup(h, other)
      {
        LookupCons(Card(k, v), h[1..], other);
      }
      [Card(k, v)] + h[1..]
    else
      var rest := SetCard(h[1..], k, v);
      LookupCons(h[0], h[1..], k);
      forall other | other != k
        ensures Lookup([h[0]] + rest, other) == Lookup(h, other)
      {
        LookupCons(h[0], rest, other);
        LookupCons(h[0], h[1..], other);
        assert h == [h[0]] + h[1..];
      }
      LookupCons(h[0], rest, k);
      assert Has(h, k) <==> Has(h[1..], k) by {
        assert h == [h[0]] + h[1..];
      }
      [h[0]] + rest
  }

  /** `header.remove(k)`: the first card with that keyword goes, if there is one. */
  function RemoveCard(h: Cards, k: string): (r: Cards)
    ensures forall other :: other != k ==> Lookup(r, other) == Lookup(h, other)
    ensures |r| == |h| - (if Has(h, k) then 1 else 0)
  {
    if |h| == 0 then h
    else if h[0].keyword == k then
      forall other | other != k
        ensures Lookup(h[1..], other) == Lookup(h, other)
      {
        LookupCons(h[0], h[1..], other);
        assert h == [h[0]] + h[1..];
      }
      h[1..]
    else
      var rest := RemoveCard(h[1..], k);
      forall other | other != k
        ensures Lookup([h[0]] + rest, other) == Lookup(h, other)
      {
        LookupCons(h[0], rest, other);
        LookupCons(h[0], h[1..], other);
        assert h == [h[0]] + h[1..];
      }
      assert Has(h, k) <==> Has(h[1..], k) by {
        assert h == [h[0]] + h[1..];
      }
      [h[0]] + rest
  }

  /** `header.remove(k, remove_all=True)`: no card with that keyword remains. */
  function RemoveAll(h: Cards, k: string): (r: Cards)
    ensures !Has(r, k)
    ensures forall other :: other != k ==> Lookup(r, other) == Lookup(h, other)
  {
    if |h| == 0 then h
    else
      var rest := RemoveAll(h[1..], k);
      forall other | other != k
        ensures Lookup(if h[0].keyword == k then rest else [h[0]] + rest, other) == Lookup(h, other)
      {
        LookupCons(h[0], rest, other);
        LookupCons(h[0], h[1..], other);
        assert h == [h[0]] + h[1..];
      }
      if h[0].keyword == k then rest else [h[0]] + rest
  }

  lemma LookupCons(c: Card, h: Cards, k: string)
    ensures Lookup([c] + h, k) == if c.keyword == k then Some(c.value) else Lookup(h, k)
  {
    assert ([c] + h)[1..] == h;
  }

  // ---------------------------------------------------------------------------
  // WCS checks.

  /** Python's `value != 0`: text is never equal to zero, `False` is. */
  predicate NonZero(v: HValue) {
    match v
    case HStr(_) => true
    case HInt(i) => i != 0
    case HReal(d) => Value(d) != 0.0
    case HBool(b) => b
  }

  /** Both keywords present with non-zero values. */
  predicate PairNonZero(h: Cards, k1: string, k2: string)
    requires Has(h, k1) && Has(h, k2)
  {
    NonZero(Lookup(h, k1).value) && NonZero(Lookup(h, k2).value)
  }

  const MinimalKeywords: seq<string> := ["CTYPE1", "CTYPE2", "CRVAL1", "CRVAL2", "CRPIX1", "CRPIX2"]

  /** `has_minimal_wcs`: the projection type, reference value and reference pixel of both axes are present. */
  predicate HasMinimalWcs(h: Cards) {
    forall i :: 0 <= i < |MinimalKeywords| ==> Has(h, MinimalKeywords[i])
  }

  /** `has_valid_scale`: the CD matrix diagonal decides when present, otherwise CDELT; neither means no scale. */
  predicate HasValidScale(h: Cards) {
    if Has(h, "CD1_1") && Has(h, "CD2_2") then PairNonZero(h, "CD1_1", "CD2_2")
    else if Has(h, "CDELT1") && Has(h, "CDELT2") then PairNonZero(h, "CDELT1", "CDELT2")
    else false
  }

  /** `has_rotation`: the CD matrix diagonal decides when present, otherwise CROTA. */
  predicate HasRotation(h: Cards) {
    if Has(h, "CD1_1") && Has(h, "CD2_2") then PairNonZero(h, "CD1_1", "CD2_2")
    else if Has(h, "CROTA1") && Has(h, "CROTA2") then PairNonZero(h, "CROTA1", "CROTA2")
    else false
  }

  predicate HasBeenPlateSolved(h: Cards) {
    HasMinimalWcs(h) && HasValidScale(h) && HasRotation(h)
  }

  /** `SolverBase.keep_headers`: the cards a solution is reduced to. */
  const KeepHeaders: set<string> := {
    "CRPIX1", "CRPIX2", "CRVAL1", "CRVAL2", "CDELT1", "CDELT2", "CROTA1", "CROTA2", "CD1_1", "CD1_2",
    "CD2_1", "CD2_2", "CUNIT1", "CUNIT2", "NAXIS1", "NAXIS2", "CTYPE1", "CTYPE2"}

  /** The cards whose keyword is in `KeepHeaders`, in their original order. */
  function KeepOnly(h: Cards): (r: Cards)
    ensures forall c :: c in r <==> c in h && c.keyword in KeepHeaders
    ensures IsSubsequence(r, h)
  {
    if |h| == 0 then []
    else
      var rest := KeepOnly(h[1..]);
      assert forall c :: c in h <==> c == h[0] || c in h[1..];
      if h[0].keyword in KeepHeaders then [h[0]] + rest else rest
  }

  /** `a` is `b` with some cards left out and the rest in order. */
  predicate IsSubsequence(a: Cards, b: Cards)
    decreases |b|
  {
    |a| == 0 || (|b| > 0 && ((a[0] == b[0] && IsSubsequence(a[1..], b[1..])) || IsSubsequence(a, b[1..])))
  }

  /** A kept keyword is looked up in the reduced header exactly as in the full one. */
  lemma {:induction false} KeepOnlyLookup(h: Cards, k: string)
    requires k in KeepHeaders
    ensures Lookup(KeepOnly(h), k) == Lookup(h, k)
  {
    if |h| > 0 {
      KeepOnlyLookup(h[1..], k);
      LookupCons(h[0], h[1..], k);
      assert h == [h[0]] + h[1..];
      if h[0].keyword in KeepHeaders {
        LookupCons(h[0], KeepOnly(h[1..]), k);
      }
    }
  }

  /** `extract_wcs_cards`: only the kept cards, in order, with `NAXIS = 2` added at the end. */
  function ExtractWcsCards(h: Cards): (r: Cards)
    ensures |r| >= 1 && r[|r| - 1] == Card("NAXIS", HInt(2))
    ensures forall c :: c in r[..|r| - 1] <==> c in h && c.keyword in KeepHeaders
    ensures IsSubsequence(r[..|r| - 1], h)
    ensures Lookup(r, "NAXIS") == Some(HInt(2))
  {
    var kept := KeepOnly(h);
    assert !Has(kept, "NAXIS");
    var r := SetCard(kept, "NAXIS", HInt(2));
    SetAppends(kept, "NAXIS", HInt(2));
    assert r[..|r| - 1] == kept;
    r
  }

  lemma {:induction false} SetAppends(h: Cards, k: string, v: HValue)
    requires !Has(h, k)
    ensures SetCard(h, k, v) == h + [Card(k, v)]
  {
    if |h| > 0 {
      assert h[0].keyword != k by { assert h[0] in h; }
      NotHasTail(h, k);
      SetAppends(h[1..], k, v);
      assert SetCard(h, k, v) == [h[0]] + SetCard(h[1..], k, v);
      Seqs.ConcatAssoc([h[0]], h[1..], [Card(k, v)]);
      assert [h[0]] + h[1..] == h;
    }
  }

  lemma NotHasTail(h: Cards, k: string)
    requires |h| > 0 && !Has(h, k)
    ensures !Has(h[1..], k)
  {
    forall c | c in h[1..]
      ensures c.keyword != k
    {
      assert c in h;
    }
  }

  /** Every kept keyword keeps its value in the extracted header. */
  lemma ExtractKeepsValues(h: Cards, k: string)
    requires k in KeepHeaders
    ensures Lookup(ExtractWcsCards(h), k) == Lookup(h, k)
  {
    KeepOnlyLookup(h, k);
    NaxisNotKept();
    var kept := KeepOnly(h);
    SetAppends(kept, "NAXIS", HInt(2));
    assert Lookup(SetCard(kept, "NAXIS", HInt(2)), k) == Lookup(kept, k);
  }

  lemma NaxisNotKept()
    ensures "NAXIS" !in KeepHeaders
  {
  }

  /** The extracted header has exactly the kept keywords of the original, with the same values. */
  lemma ExtractKeepsPair(h: Cards, k1: string, k2: string)
    requires k1 in KeepHeaders && k2 in KeepHeaders
    ensures Has(ExtractWcsCards(h), k1) <==> Has(h, k1)
    ensures Has(ExtractWcsCards(h), k2) <==> Has(h, k2)
    ensures Lookup(ExtractWcsCards(h), k1) == Lookup(h, k1)
    ensures Lookup(ExtractWcsCards(h), k2) == Lookup(h, k2)
  {
    ExtractKeepsValues(h, k1);
    ExtractKeepsValues(h, k2);
  }

  /** A solved header stays solved once reduced to its WCS cards, and an unsolved one stays unsolved. */
  lemma ExtractKeepsSolved(h: Cards)
    ensures HasBeenPlateSolved(ExtractWcsCards(h)) <==> HasBeenPlateSolved(h)
  {
    var r := ExtractWcsCards(h);
    ExtractKeepsPair(h, "CD1_1", "CD2_2");
    ExtractKeepsPair(h, "CDELT1", "CDELT2");
    ExtractKeepsPair(h, "CROTA1", "CROTA2");
    ExtractKeepsMinimal(h);
  }

  lemma ExtractKeepsMinimal(h: Cards)
    ensures HasMinimalWcs(ExtractWcsCards(h)) <==> HasMinimalWcs(h)
  {
    forall i | 0 <= i < |MinimalKeywords|
      ensures Has(ExtractWcsCards(h), MinimalKeywords[i]) <==> Has(h, MinimalKeywords[i])
    {
      ExtractKeepsValues(h, MinimalKeywords[i]);
    }
  }

  /** The same holds for the check that lets ASTAP skip solving. */
  lemma ExtractKeepsPreSolved(h: Cards)
    ensures IsPreSolved(ExtractWcsCards(h)) <==> IsPreSolved(h)
  {
    ExtractKeepsPair(h, "CD1_1", "CD2_2");
    ExtractKeepsPair(h, "CDELT1", "CDELT2");
    forall k | k in KeepHeaders
      ensures Has(ExtractWcsCards(h), k) <==> Has(h, k)
    {
      ExtractKeepsValues(h, k);
    }
  }

  /** `ASTAPSolver.is_pre_solved`: every kept keyword present, with a valid scale. */
  predicate IsPreSolved(h: Cards) {
    (forall k :: k in KeepHeaders ==> Has(h, k)) && HasValidScale(h)
  }

  /** A header ASTAP treats as already solved passes all three WCS checks. */
  lemma PreSolvedIsPlateSolved(h: Cards)
    requires IsPreSolved(h)
    ensures HasBeenPlateSolved(h)
  {
    assert Has(h, "CD1_1") && Has(h, "CD2_2");
    forall i | 0 <= i < |MinimalKeywords|
      ensures Has(h, MinimalKeywords[i])
    {
      assert MinimalKeywords[i] in KeepHeaders;
    }
  }

  /** When the CD diagonal is present, the scale and rotation checks agree. */
  lemma CdDecidesBoth(h: Cards)
    requires Has(h, "CD1_1") && Has(h, "CD2_2")
    ensures HasValidScale(h) <==> HasRotation(h)
  {
  }

  // ---------------------------------------------------------------------------
  // Solver plumbing.

  /** `ASTAPSolver._solve` after ASTAP has run: a header without `PLTSOLVD` set is a failure. */
  function AstapResult(solved: Cards): (r: Result<Cards, string>)
    ensures r.Success? <==> Has(solved, "PLTSOLVD") && Truthy(Lookup(solved, "PLTSOLVD").value)
    ensures r.Success? ==> forall k :: k in KeepHeaders ==> Lookup(r.value, k) == Lookup(solved, k)
  {
    match Lookup(solved, "PLTSOLVD")
    case Some(v) =>
      if Truthy(v) then
        forall k | k in KeepHeaders
          ensures Lookup(ExtractWcsCards(solved), k) == Lookup(solved, k)
        {
          ExtractKeepsValues(solved, k);
        }
        Success(ExtractWcsCards(solved))
      else Failure("SolverError")
    case None => Failure("SolverError")
  }

  /**
   * `AstrometryNetSolver.solve` after the service has answered: the WCS cards of its
   * answer with the image size copied from the submitted file, which must carry it.
   */
  function AstrometryResult(answer: Cards, original: Cards): (r: Result<Cards, string>)
    ensures r.Failure? <==> !Has(original, "NAXIS1") || !Has(original, "NAXIS2")
    ensures r.Success? ==> Lookup(r.value, "NAXIS1") == Lookup(original, "NAXIS1")
    ensures r.Success? ==> Lookup(r.value, "NAXIS2") == Lookup(original, "NAXIS2")
    ensures r.Success? ==> Lookup(r.value, "NAXIS") == Some(HInt(2))
    ensures r.Success? ==> forall k :: k in KeepHeaders && k != "NAXIS1" && k != "NAXIS2" ==> Lookup(r.value, k) == Lookup(answer, k)
  {
    match (Lookup(original, "NAXIS1"), Lookup(original, "NAXIS2"))
    case (Some(w), Some(hgt)) =>
      var base := ExtractWcsCards(answer);
      forall k | k in KeepHeaders
        ensures Lookup(base, k) == Lookup(answer, k)
      {
        ExtractKeepsValues(answer, k);
      }
      Success(SetCard(SetCard(base, "NAXIS1", w), "NAXIS2", hgt))
    case _ => Failure("KeyError")
  }

  /**
   * The header of the temporary two-dimensional copy handed to a solver: `NAXIS = 2` and
   * no `NAXIS3`; one taken from an XISF file also loses its `COMMENT` and `HISTORY` cards.
   */
  function TempHeader(h: Cards, fromXisf: bool): (r: Cards)
    ensures Lookup(r, "NAXIS") == Some(HInt(2))
    ensures fromXisf ==> !Has(r, "COMMENT") && !Has(r, "HISTORY")
    ensures forall k :: k !in {"NAXIS", "NAXIS3", "COMMENT", "HISTORY"} ==> Lookup(r, k) == Lookup(h, k)
  {
    var base := if fromXisf then RemoveAll(RemoveAll(h, "COMMENT"), "HISTORY") else h;
    assert fromXisf ==> Lookup(base, "COMMENT") == Lookup(RemoveAll(h, "COMMENT"), "COMMENT") == None;
    assert fromXisf ==> Lookup(base, "HISTORY") == None;
    var withAxes := SetCard(base, "NAXIS", HInt(2));
    assert Lookup(withAxes, "COMMENT") == Lookup(base, "COMMENT");
    assert Lookup(withAxes, "HISTORY") == Lookup(base, "HISTORY");
    var r := RemoveCard(withAxes, "NAXIS3");
    assert Lookup(r, "COMMENT") == Lookup(withAxes, "COMMENT");
    assert Lookup(r, "HISTORY") == Lookup(withAxes, "HISTORY");
    r
  }

  // ---------------------------------------------------------------------------
  // The ASTAP hint.

  /** Python's `or` on two optional values: the first when it is truthy, else the second. */
  function Or(a: Option<HValue>, b: Option<HValue>): (r: Option<HValue>)
    ensures r == a || r == b
    ensures a.Some? && Truthy(a.value) ==> r == a
  {
    if a.Some? && Truthy(a.value) then a else b
  }

  predicate TruthyOpt(v: Option<HValue>) {
    v.Some? && Truthy(v.value)
  }

  /** The hint's values as numbers; their rendering with `str` is not modelled. */
  type Hint = map<string, real>

  /**
   * `ASTAPSolver.create_hint`: position (RA in hours, south-pole distance) only when both
   * coordinates are truthy, field of view only when it is truthy; a coordinate that is not
   * a number raises.
   */
  function CreateHint(ra: Option<HValue>, dec: Option<HValue>, fov: Option<real>): (r: Result<Hint, string>)
    ensures r.Failure? <==> TruthyOpt(ra) && TruthyOpt(dec) && (ToFloat(ra.value).None? || ToFloat(dec.value).None?)
    ensures r.Success? ==> r.value.Keys <= {"-ra", "-spd", "-fov"}
    ensures r.Success? ==> ("-ra" in r.value <==> TruthyOpt(ra) && TruthyOpt(dec))
    ensures r.Success? ==> ("-spd" in r.value <==> TruthyOpt(ra) && TruthyOpt(dec))
    ensures r.Success? ==> ("-fov" in r.value <==> fov.Some? && fov.value != 0.0)
    ensures r.Success? && "-ra" in r.value ==> r.value["-ra"] * 15.0 == Value(ToFloat(ra.value).value)
    ensures r.Success? && "-spd" in r.value ==> r.value["-spd"] == 90.0 + Value(ToFloat(dec.value).value)
    ensures r.Success? && "-fov" in r.value ==> r.value["-fov"] == fov.value
  {
    var position: Result<Hint, string> :=
      if TruthyOpt(ra) && TruthyOpt(dec) then
        match (ToFloat(ra.value), ToFloat(dec.value))
        case (Some(a), Some(d)) => Success(map["-ra" := Value(a) / 15.0, "-spd" := 90.0 + Value(d)])
        case _ => Failure("ValueError")
      else Success(map[]);
    match position
    case Failure(e) => Failure(e)
    case Success(hint) =>
      if fov.Some? && fov.value != 0.0 then Success(hint["-fov" := fov.value]) else Success(hint)
  }

  /** The plate scale as read: a header value, or one computed from focal length and pixel size. */
  datatype Scale = Given(v: HValue) | Computed(arcsecPerPixel: real)

  /** `SCALE` or `PIXSCALE`, else `206.265 * YPIXSZ / FOCALLEN` when both are truthy. */
  function ScaleOf(h: Cards): (r: Result<Option<Scale>, string>)
    ensures TruthyOpt(Lookup(h, "SCALE")) ==> r == Success(Some(Given(Lookup(h, "SCALE").value)))
    ensures r.Success? && r.value.Some? && r.value.value.Computed? ==>
      !TruthyOpt(Lookup(h, "SCALE")) && !Has(h, "PIXSCALE")
  {
    var given := Or(Lookup(h, "SCALE"), Lookup(h, "PIXSCALE"));
    if given.Some? then Success(Some(Given(given.value)))
    else
      var focal := Lookup(h, "FOCALLEN");
      var pixel := Lookup(h, "YPIXSZ");
      if TruthyOpt(focal) && TruthyOpt(pixel) then
        match (ToFloat(pixel.value), ToFloat(focal.value))
        case (Some(p), Some(f)) =>
          if Value(f) == 0.0 then Failure("ZeroDivisionError")
          else Success(Some(Computed(206.265 * Value(p) / Value(f))))
        case _ => Failure("ValueError")
      else Success(None)
  }

  /** Image height in pixels times arcseconds per pixel, in degrees. */
  function FieldDegrees(rows: int, arcsecPerPixel: real): real {
    rows as real * arcsecPerPixel / 3600.0
  }

  /**
   * The field of view in degrees: image height times scale when both are known, else
   * the configured fallback when it is non-zero, else none.
   */
  function FovOf(h: Cards, fallback: real): (r: Result<Option<real>, string>)
    ensures !Has(h, "NAXIS2") && fallback != 0.0 && ScaleOf(h).Success? ==> r == Success(Some(fallback))
  {
    var scale :- ScaleOf(h);
    var height := Lookup(h, "NAXIS2");
    if scale.Some? && height.Some? then
      match ToInt(height.value)
      case None => Failure("ValueError")
      case Some(rows) =>
        match scale.value
        case Computed(x) => Success(Some(FieldDegrees(rows, x)))
        case Given(HStr(_)) => Failure("TypeError")
        case Given(v) => Success(Some(FieldDegrees(rows, Value(ToFloat(v).value))))
    else if fallback != 0.0 then Success(Some(fallback))
    else Success(None)
  }

  /** The coordinates of a catalogued image are used when it has a non-zero RA. */
  predicate UsesImageCoords(image: Option<Handlers.Image>) {
    image.Some? && image.value.coordRa.Some? && image.value.coordRa.value.m != 0
  }

  /**
   * `ASTAPSolver.extract_hint`: the position from the catalogued image when it has one,
   * else from `RA`/`DEC` or the reference values; then the field of view.
   */
  function ExtractHint(h: Cards, image: Option<Handlers.Image>, fallback: real): (r: Result<Hint, string>)
    ensures FovOf(h, fallback).Failure? ==> r.Failure?
  {
    var ra := if UsesImageCoords(image) then Some(HReal(image.value.coordRa.value)) else Or(Lookup(h, "RA"), Lookup(h, "CRVAL1"));
    var dec :=
      if UsesImageCoords(image) then (if image.value.coordDec.Some? then Some(HReal(image.value.coordDec.value)) else None)
      else Or(Lookup(h, "DEC"), Lookup(h, "CRVAL2"));
    var fov :- FovOf(h, fallback);
    CreateHint(ra, dec, fov)
  }

  /** A catalogued position wins: the header's own coordinates do not matter then. */
  lemma ImageCoordsWin(h1: Cards, h2: Cards, image: Option<Handlers.Image>, fallback: real)
    requires UsesImageCoords(image)
    requires FovOf(h1, fallback) == FovOf(h2, fallback)
    ensures ExtractHint(h1, image, fallback) == ExtractHint(h2, image, fallback)
  {
  }

  /** With `SCALE` given as a number and the image height known, the field of view is height times scale. */
  lemma FovFromScale(h: Cards, fallback: real, scale: Decimal, rows: int)
    requires Lookup(h, "SCALE") == Some(HReal(scale)) && scale.m != 0
    requires Lookup(h, "NAXIS2") == Some(HInt(rows))
    ensures FovOf(h, fallback).Success?
    ensures FovOf(h, fallback).value == Some(FieldDegrees(rows, Value(scale)))
  {
    assert TruthyOpt(Lookup(h, "SCALE"));
  }

  // ---------------------------------------------------------------------------
  // Colour images.

  /** An n-dimensional array: its shape and its element at each index. */
  datatype Array<V> = Array(shape: seq<nat>, at: seq<nat> -> V)

  /** `select_first_channel`: 2-D data as is; 3-D data without its channel axis, the shorter of the outer two; any other rank raises. */
  function SelectFirstChannel<V>(data: Array<V>): (r: Result<Array<V>, string>)
    ensures r.Success? <==> |data.shape| == 2 || |data.shape| == 3
    ensures r.Success? ==> |r.value.shape| == 2
    ensures |data.shape| == 2 ==> r == Success(data)
    ensures |data.shape| == 3 && data.shape[0] <= data.shape[2] ==>
      r.value.shape == data.shape[1..] && forall i :: |i| == 2 ==> r.value.at(i) == data.at([0] + i)
    ensures |data.shape| == 3 && data.shape[0] > data.shape[2] ==>
      r.value.shape == data.shape[..2] && forall i :: |i| == 2 ==> r.value.at(i) == data.at(i + [0])
  {
    if |data.shape| == 2 then Success(data)
    else if |data.shape| == 3 then
      if data.shape[0] <= data.shape[2] then Success(Array(data.shape[1..], i => data.at([0] + i)))
      else Success(Array(data.shape[..2], i => data.at(i + [0])))
    else Failure("ValueError")
  }

  /** Reducing an already reduced image changes nothing. */
  lemma SelectFirstChannelIdempotent<V>(data: Array<V>)
    requires SelectFirstChannel(data).Success?
    ensures SelectFirstChannel(SelectFirstChannel(data).value) == SelectFirstChannel(data)
  {
  }
}

=== FILE: wrappers.dfy ===
/** Failure-carrying wrappers shared by every module of the model. */
module Wrappers {

  /** A value that may be absent; Python's `None` is `None`. */
  datatype Option<+T> = None | Some(value: T) {

    /** The wrapped value, or `default` when absent. */
    function GetOr(default: T): (r: T)
      ensures Some? ==> r == value
      ensures None? ==> r == default
    {
      match this
      case Some(v) => v
      case None => default
    }
  }

  /** The outcome of an operation that may raise: `Failure` carries the exception. */
  datatype Result<+R, +E> = Success(value: R) | Failure(error: E) {

    predicate IsFailure() {
      Failure?
    }

    /** The same failure, retyped for the caller that passes it on. */
    function PropagateFailure<U>(): (r: Result<U, E>)
      requires Failure?
      ensures r.Failure? && r.error == error
    {
      Failure(error)
    }

    function Extract(): (r: R)
      requires Success?
      ensures r == value
    {
      value
    }
  }
}
